=== FILE: README.md ===
# IPL polls scoring, in Dafny

This project models the scoring core of the `ipl_polls` scripts. These
scripts turn Discord poll exports about IPL cricket matches into
leaderboards:

- **Per-match scoring.** A winner poll awards a match's points to each vote
  whose team short name equals the declared winner. A margin poll reads a
  margin such as `14 runs`, `3 wickets` or `Super Over`, and awards the
  points to votes for the first answer whose run or wicket range covers it.
  A playoff poll awards `|distinct picks ∩ qualified teams| × points per pick`.
- **Ranking.** One scan over a list already sorted by descending score gives
  a standard rank (1, 2, 2, 4) and a dense rank (1, 2, 2, 3). The older
  copies name these Competitive and Sequential. The newer scripts add a
  movement (`↑k`, `↓k`, `—`, `N`) against the previous period's rank
  snapshot, and write the new snapshot.
- **Weekly leaderboard.** The match files of a week are folded into one row
  per user. Each row holds `Match_n` short-name and points cells: `'---'`
  and 0.0 for users already seen who skipped match `n`, and nothing for
  matches before a user's first vote. Each row also holds a running total.
- **Season leaderboards.** Weekly totals become `Week<n>` columns, with an
  optional `Playoffs` column. The combined leaderboard interleaves the
  `Winner_Week<n>` and `Margin_Week<n>` columns. Missing values count 0.0,
  and the total is the sum of the columns.
- **Detailed leaderboard.** The weekly match cells are renumbered globally
  with a running match offset across the weeks.
- **Awards** (scripts/7). These are:
  - washed-out matches;
  - the longest winning and losing streaks;
  - the top-N overall winners and the margin winner;
  - the most CSK votes.

Everything is modelled over immutable values:
- Files become sequences of records, directory listings become sequences of
  names, and dictionaries become maps together with their insertion order.
- Points are `real`.
- Python's `float()` is a parameter `Text.Parser` (a string to an optional
  real). `int()` is modelled for ASCII input: an optional sign and decimal
  digits, with surrounding whitespace (`Text.ParseInt`).
- Where copies of a script differ, one function takes the difference as a
  parameter instead of duplicating the code. The differences are:
  - the sort tie-break;
  - `int()` against `float()` parsing;
  - the short-name fallback;
  - the `playoffteams` against `qualifiedteams` key;
  - the rank column names;
  - the header check.

Modules, one per file:

| module | file | models |
|---|---|---|
| `Wrappers` | wrappers.dfy | `Option`, `Result` |
| `Seqs` | seqs.dfy | small sequence helpers |
| `Text` | text.dfy | Python string operations on ASCII: `strip`, `lower`, `capitalize`, `replace`, `split`, `join`, `int()`, `str()`, string order |
| `Sorting` | sorting.dfy | Python's stable `sort`/`sorted` by key, `[:n]`, dictionary insertion order |
| `Ranking` | ranking.dfy | `calculate_ranks` with and without movement, the rank snapshot |
| `WeekSelection` | week_selection.dfy | `get_numeric_week`, file-name filters, the week cut-offs |
| `Votes` | votes.dfy | poll answers and votes |
| `WinnerPoll` | winner_poll.dfy | scripts/1 and script/1 |
| `MarginPoll` | margin_poll.dfy | scripts/1b |
| `PlayoffPoll` | playoff_poll.dfy | scripts/6, script/5 and its x5 copy |
| `Weekly` | weekly.dfy | scripts/2, script/2 and the backup weekly combiners |
| `Board` | board.dfy | the shared "last write wins" user/column board, totals and ranking of the season scripts |
| `Season` | season.dfy | scripts/3a, script/3, the backup season leaderboard and its x3 copy |
| `Overall` | overall.dfy | scripts/4 |
| `Detailed` | detailed.dfy | scripts/5a and both `4-combine_all_weeks.py` |
| `Streaks` | streaks.dfy | scripts/7 streaks |
| `Awards` | awards.dfy | scripts/7 top winners, margin winner, CSK voters |

Some copies are identical to another copy:
- scripts/script_backup/x3-generate_leaderboard.py to scripts/script_backup/3-generate_leaderboard.py;
- scripts/script_backup/x5-playoff_prediction.py to script/5-playoff_prediction.py;
- script/script_backup/combine_csv.py to scripts/script_backup/combine_csv.py.

The rows below cite one copy of each, and the same member models the others.

## Model

| member | source | states |
|---|---|---|
| Text.StrLtIrreflexive | scripts/1-generate_match_results.py:68 | No string sorts before itself under Python's string order. |
| Text.StrLtTransitive | scripts/1-generate_match_results.py:68 | Python's string order is transitive. |
| Text.StrLtAsymmetric | scripts/1-generate_match_results.py:68 | If one string sorts before another, the second never sorts before the first. |
| Text.StrLtTotal | scripts/1-generate_match_results.py:68 | Two different strings are always ordered one way or the other, so sorting by username is a total order. |
| Text.LeadingDigits | scripts/1b-generate_margin_results.py:23 | The digit group of `(\d+)` is the longest run of digits at the start, and the character after it, if any, is not a digit. |
| Text.NatToString | scripts/1b-generate_margin_results.py:71 | `str(n)` is a non-empty run of digits without a leading zero. |
| Text.NatToStringRoundTrip | scripts/1b-generate_margin_results.py:71 | Reading back the digits of `str(n)` gives `n`. |
| Text.ParseIntRoundTrip | scripts/4-generate_overall_leaderboard.py:22 | `int(str(i)) == i` for every integer. |
| Text.ParseIntRejectsDecimal | scripts/script_backup/combine_csv.py:36-39 | `int()` rejects `"2.5"` and reads `" 7 "` as 7. |
| Text.IntPointsRejectsFractions | scripts/script_backup/combine_csv.py:34-39 | The integer-points reader gives no value for `"2.5"`, so it counts 0, and gives 7 for `" 7 "`. |
| Text.Strip | scripts/4-generate_overall_leaderboard.py:135-136 | `strip()` returns the slice of the input between its leading and trailing whitespace. Everything cut off is whitespace, and the result neither starts nor ends with whitespace. |
| Text.StripNoSpaceEnds | scripts/4-generate_overall_leaderboard.py:135 | A string that starts and ends with a non-space is left unchanged by `strip()`. |
| Text.Lower | scripts/1b-generate_margin_results.py:20 | `lower()` keeps the length and lower-cases each character independently. |
| Text.LowerIdentity | scripts/1b-generate_margin_results.py:47 | A string without upper-case letters is its own lower case. |
| Text.Capitalize | scripts/3a-generate_overall_winner_leaderboard.py:129 | `capitalize()` upper-cases the first character and lower-cases the rest. |
| Text.Replace | scripts/4-generate_overall_leaderboard.py:22 | `replace` leaves a string that does not contain the pattern unchanged. |
| Text.ReplaceHead | scripts/4-generate_overall_leaderboard.py:22 | An occurrence of the pattern at the front is replaced, and the rest is processed on. |
| Text.ReplaceNoHead | scripts/4-generate_overall_leaderboard.py:22 | A prefix with no character equal to the pattern's first one passes through `replace` unchanged. |
| Text.Split | scripts/script_backup/3-generate_leaderboard.py:84 | `split(c)` always gives at least one piece, and no piece contains `c`. |
| Text.SplitJoin | scripts/script_backup/3-generate_leaderboard.py:84 | Joining the pieces of `split(c)` with `c` gives the string back. |
| Text.SplitAtFirst | scripts/script_backup/3-generate_leaderboard.py:84 | Splitting cuts at the first separator: the piece before it, then the pieces of the rest. |
| Text.BaseName | scripts/3a-generate_overall_winner_leaderboard.py:118 | `s.split('.')[0]` contains no dot. |
| Text.Join | scripts/6-generate_playoff_results.py:112-113 | Joining no parts gives `""`, and joining one part gives that part. |
| Text.ParseNatToString | scripts/4-generate_overall_leaderboard.py:22 | `int()` reads back the decimal form of every natural number. |
| Sorting.SortBy | scripts/1-generate_match_results.py:68 | A sort by key returns a permutation of its input. |
| Sorting.SortBySorted | scripts/2-generate_weekly_leaderboard.py:108 | For any strict weak order on the keys, the sorted list is ordered by the key. |
| Sorting.SortByStable | script/2-combine_csv.py:93-95 | The sort is stable: the elements tied with any key keep their input order. |
| Sorting.Take | scripts/7-generate_winners_list.py:34 | `s[:n]` is the prefix of length `min(n, len(s))`. |
| Sorting.FirstSeen | scripts/2-generate_weekly_leaderboard.py:107 | A dictionary's key order holds each inserted key once, and only inserted keys. |
| Sorting.FirstSeenDistinct | scripts/2-generate_weekly_leaderboard.py:107 | Keys inserted once each keep their insertion order. |
| Sorting.PermutationNoDuplicates | scripts/2-generate_weekly_leaderboard.py:108 | Reordering keeps a list free of duplicates. |
| Sorting.ScoreDescNameAscIsStrictWeakOrder | scripts/2-generate_weekly_leaderboard.py:108 | The key `(-total, username)` is a strict weak order. |
| Sorting.LengthDescStartAscIsStrictWeakOrder | scripts/7-generate_winners_list.py:164 | The key `(-length, start_num)` is a strict weak order. |
| Ranking.RanksStep | scripts/2-generate_weekly_leaderboard.py:20-36 | The first entry gets (1, 1). An entry scoring strictly less than its predecessor gets standard rank `i + 1` and the next dense rank. Any other entry keeps its predecessor's ranks. |
| Ranking.RanksPrefix | scripts/2-generate_weekly_leaderboard.py:28-36 | An entry's ranks depend only on the entries before it. |
| Ranking.RanksBounds | scripts/2-generate_weekly_leaderboard.py:28-36 | For every entry, 1 ≤ dense ≤ standard ≤ position + 1, and both ranks never decrease along the list. |
| Ranking.CalculateRanks | scripts/2-generate_weekly_leaderboard.py:20-38 | The loop, carrying the current rank, the dense rank and the previous points, computes exactly the rank recurrence. An empty list gives no ranks. |
| Ranking.RanksMeaning | scripts/2-generate_weekly_leaderboard.py:11-12 | On a descending list, the standard rank is 1 plus the number of entries scoring strictly more. The dense rank is 1 plus the number of distinct higher scores. |
| Ranking.StandardMeaning | scripts/2-generate_weekly_leaderboard.py:11 | On a descending list, the standard rank is 1 plus the number of entries with a strictly higher score. |
| Ranking.DenseMeaning | scripts/2-generate_weekly_leaderboard.py:12 | On a descending list, the dense rank is 1 plus the number of distinct strictly higher scores. |
| Ranking.RanksExample | scripts/4-generate_overall_leaderboard.py:29-30 | Scores 3, 2, 2, 1 get standard ranks 1, 2, 2, 4 and dense ranks 1, 2, 2, 3. |
| Ranking.RankRows | scripts/6-generate_playoff_results.py:31-49 | Ranking keeps the rows and their order, and the first row is ranked (1, 1). |
| Ranking.Unranked | scripts/2-generate_weekly_leaderboard.py:28-36 | Ranking only adds fields to each entry: dropping the ranks gives back each row, in order. |
| Ranking.Untracked | scripts/4-generate_overall_leaderboard.py:49-78 | Movement tracking only adds fields to each entry: dropping them gives back each row, in order. |
| Ranking.MovementOf | scripts/4-generate_overall_leaderboard.py:62-74 | A movement is up or down by a positive number of places, or level, and never `N`. |
| Ranking.MovementOfDelta | scripts/4-generate_overall_leaderboard.py:62-63 | The movement records exactly previous rank minus current rank. |
| Ranking.Render | scripts/4-generate_overall_leaderboard.py:65-77 | Every movement renders as non-empty text. |
| Ranking.RenderRoundTrip | scripts/4-generate_overall_leaderboard.py:65-77 | `↑k`, `↓k`, `—` and `N` are distinct: every movement can be read back from its text. |
| Ranking.MovementsOf | scripts/4-generate_overall_leaderboard.py:57-77 | Both movements are `N` exactly when the snapshot is empty or lacks the user. Otherwise they are the previous dense and standard ranks minus the current ones, with a missing rank key counting 0. |
| Ranking.RankRowsWithMovement | scripts/4-generate_overall_leaderboard.py:41-81 | Each row keeps its position, gets the ranks of its position, and gets the movements of its user against the snapshot. |
| Ranking.NoSnapshotAllNew | scripts/4-generate_overall_leaderboard.py:114-120 | With no usable snapshot (missing, unreadable or empty), everybody's movements are `N`. |
| Ranking.SnapshotOf | scripts/4-generate_overall_leaderboard.py:206-211 | The snapshot's keys are exactly the ranked usernames. |
| Ranking.SnapshotHoldsRanks | scripts/4-generate_overall_leaderboard.py:206-211 | A user's snapshot entry holds the dense and standard rank of their last row. |
| Ranking.OwnSnapshotIsLevel | scripts/3a-generate_overall_winner_leaderboard.py:187-194 | Ranking a table again against its own snapshot shows every user as level (`—`). |
| Ranking.ReorderedRows | scripts/2-generate_weekly_leaderboard.py:107-108 | Reordering rows, one per user and each determined by its user, keeps one such row per user for the same users. |
| Votes.AnswerName | scripts/1-generate_match_results.py:44 | The id-to-name map gives no name exactly when no answer has the id. Otherwise it gives the name of the last answer with that id. |
| WinnerPoll.VoteRows | scripts/1-generate_match_results.py:51-65 | There is one row per vote, in vote order. |
| WinnerPoll.ScoreSpec | scripts/1-generate_match_results.py:32-68 | Scoring fails exactly when the input is not an object or lacks `winner`, `answers` or `votes`. Otherwise there is one row per vote, sorted by username. A row earns the match points exactly when its short name is the winner, and its short name is the table entry for its team or the team's full name. |
| WinnerPoll.ScoreStable | scripts/1-generate_match_results.py:68 | Rows of the same username keep their vote order. |
| WinnerPoll.DirectRows | script/1-generate_csv.py:50-66 | The older script succeeds exactly when every vote can be read, and then gives each vote's row in order. |
| WinnerPoll.DirectAgrees | script/1-generate_csv.py:51-57 | A vote fails in the older script exactly when it lacks a user name, a global name or an answer id, or names an unknown answer. Otherwise it is scored as the newer script scores it. |
| WinnerPoll.DirectScoreSpec | script/1-generate_csv.py:31-69 | The older script succeeds exactly when `answers` and `votes` exist and every vote reads. It then agrees with the newer script, with the winner defaulting to `""`. |
| MarginPoll.ParseSuperOver | scripts/1b-generate_margin_results.py:18-22 | `"Super Over"` reads as a super-over margin. |
| MarginPoll.ParseRunsDigits | scripts/1b-generate_margin_results.py:20-28 | `"<digits> runs"` reads as that many runs. |
| MarginPoll.ParseWicketsDigits | scripts/1b-generate_margin_results.py:20-28 | `"<digits> wickets"` reads as that many wickets. |
| MarginPoll.ParseMarginRoundTrip | scripts/1b-generate_margin_results.py:9-28 | Every margin reads back from its written form. |
| MarginPoll.SearchRangeSpec | scripts/1b-generate_margin_results.py:55-57 | `re.search` finds nothing exactly when no position matches. Otherwise it finds the match at the leftmost matching position. |
| MarginPoll.MatchClosed | scripts/1b-generate_margin_results.py:55-61 | `"a-b runs"` (or wickets) is read as the closed range a to b. |
| MarginPoll.MatchPlus | scripts/1b-generate_margin_results.py:55-61 | `"a+ runs"` is read as a range open above from a, in plus form. |
| MarginPoll.MatchSingle | scripts/1b-generate_margin_results.py:55-61 | `"a runs"` is read as a range open above from a, without the plus. |
| MarginPoll.MatchRangeText | scripts/1b-generate_margin_results.py:55-65 | The pattern reads every written range back. |
| MarginPoll.RangeTextPlain | scripts/1b-generate_margin_results.py:47-52 | A written range is its own lower case and never mentions a super over. |
| MarginPoll.RangeTextShortName | scripts/1b-generate_margin_results.py:67-115 | A written range gets the short name `a-bR`, `a+R` or `aR` (or `W`). It covers a margin of its own unit exactly when `min ≤ n ≤ max`, or `n ≥ min` when open. |
| MarginPoll.FindWinning | scripts/1b-generate_margin_results.py:97-117 | The winning answer is the first one in list order that covers the margin, and there is none exactly when no answer covers it. |
| MarginPoll.VoteRows | scripts/1b-generate_margin_results.py:161-176 | There is one row per vote, in vote order. |
| MarginPoll.VotePoints | scripts/1b-generate_margin_results.py:145-168 | A vote earns the points exactly when its answer id is the first covering answer's id, or when no answer covers the margin and the vote has no answer id. |
| MarginPoll.ScoreSpec | scripts/1b-generate_margin_results.py:129-179 | Scoring fails exactly when the input lacks `margin`, `answers` or `votes`, or the margin does not read. Otherwise there is one row per vote, sorted by username. |
| MarginPoll.ScoreStable | scripts/1b-generate_margin_results.py:179 | Rows of the same username keep their vote order. |
| PlayoffPoll.PicksOf | scripts/6-generate_playoff_results.py:86-101 | There is one pick per vote, in vote order. |
| PlayoffPoll.DirectPicks | script/5-playoff_prediction.py:87-101 | The older script reads every vote, or fails on the first incomplete one. |
| PlayoffPoll.DirectPickAgrees | script/5-playoff_prediction.py:87-100 | A vote is read by the older script exactly when it has a user id, a username and an answer id. It then agrees with the newer script, except that an unmapped team becomes `Unknown`. |
| PlayoffPoll.Group | scripts/6-generate_playoff_results.py:85-101 | The grouping's order and its ballots name the same user ids. |
| PlayoffPoll.FirstPick | scripts/6-generate_playoff_results.py:93-98 | A user id's first pick exists exactly when the id voted, and it is one of that id's picks. |
| PlayoffPoll.GroupOrder | scripts/6-generate_playoff_results.py:93-98 | Each user id is listed once, in order of its first vote. |
| PlayoffPoll.GroupBallots | scripts/6-generate_playoff_results.py:85-101 | An id has a ballot exactly when it voted. The ballot holds its first vote's username and display name and all its teams in vote order. |
| PlayoffPoll.Within | scripts/6-generate_playoff_results.py:106 | The intersection holds exactly the values in both lists, without duplicates when the first list has none. |
| PlayoffPoll.WorthBound | scripts/6-generate_playoff_results.py:107 | With at most four picks and non-negative points per pick, the points lie between 0 and 4 × points per pick. |
| PlayoffPoll.RemoveOne | scripts/6-generate_playoff_results.py:106 | Removing one occurrence shortens the list by one and keeps every other value. |
| PlayoffPoll.DistinctWithin | scripts/6-generate_playoff_results.py:106 | Distinct values all taken from a list are no more than the list holds. |
| PlayoffPoll.CorrectPicksSpec | scripts/6-generate_playoff_results.py:105-113 | The correct picks are exactly the distinct predicted teams that qualified, in increasing order. |
| PlayoffPoll.CorrectPicksBound | scripts/6-generate_playoff_results.py:106 | There are no more correct picks than qualified teams. |
| PlayoffPoll.LineSpec | scripts/6-generate_playoff_results.py:104-115 | A row's predicted teams are its ballot's teams, sorted. Its correct picks are the distinct qualified teams among them, sorted. With four qualified teams there are at most four. |
| PlayoffPoll.PointsBound | scripts/6-generate_playoff_results.py:80-107 | With four qualified teams and non-negative points per pick, a row's points lie between 0 and 4 × points per pick. |
| PlayoffPoll.LinesOf | scripts/6-generate_playoff_results.py:104-116 | There is one row per grouped user id. |
| PlayoffPoll.LinesAreExpected | scripts/6-generate_playoff_results.py:85-116 | The rows built from the grouping equal the rows defined from the picks directly. |
| PlayoffPoll.TabulateSpec | scripts/6-generate_playoff_results.py:103-118 | The table is a permutation of the reference rows, sorted by (-points, username), with the ranks of the ranking scan. |
| PlayoffPoll.ScoreSpec | scripts/6-generate_playoff_results.py:71-118 | The script fails exactly when the input lacks `votes` or `answers`, or does not have exactly four qualified teams. Otherwise it tabulates one pick per vote. |
| PlayoffPoll.DirectScoreSpec | script/5-playoff_prediction.py:72-122 | The older script fails exactly when `answers` is missing, there are not exactly four `playoffteams`, or a vote is incomplete. Otherwise it tabulates the picks, sorted by (-points, username). |
| WeekSelection.NumericWeekRoundTrip | scripts/4-generate_overall_leaderboard.py:21-24 | `get_numeric_week("week<n>")` and `get_numeric_week("Week<n>")` give `n`. |
| WeekSelection.LowerWeek | scripts/4-generate_overall_leaderboard.py:22 | Lower-casing `week<digits>` or `Week<digits>` gives `week<digits>`. |
| WeekSelection.CombinedWeekRoundTrip | scripts/script_backup/4-combine_all_weeks.py:60 | `combined_week<n>.csv` is read as week `n`. |
| WeekSelection.WeeklyFileNaming | scripts/3a-generate_overall_winner_leaderboard.py:118-129 | `week<n>.csv` has week `n` and fills column `Week<n>`. |
| WeekSelection.CombinedFileNaming | scripts/script_backup/3-generate_leaderboard.py:84-96 | `combined_week<n>.csv` has week `n` and fills column `Week<n>`. |
| WeekSelection.CapitalizeWeek | scripts/3a-generate_overall_winner_leaderboard.py:129 | `("week" + digits).capitalize()` is `"Week" + digits`. |
| WeekSelection.Matching | scripts/3a-generate_overall_winner_leaderboard.py:116 | The listing entries kept are exactly those with the prefix and suffix. |
| WeekSelection.SortedMatching | scripts/3a-generate_overall_winner_leaderboard.py:116 | The sorted selection holds exactly the listing entries with the prefix and suffix. |
| WeekSelection.SortedMatchingOrdered | scripts/3a-generate_overall_winner_leaderboard.py:116 | The sorted selection is in string order. |
| WeekSelection.SelectUpTo | scripts/3a-generate_overall_winner_leaderboard.py:118 | The filter fails exactly when some name's week does not parse. Otherwise it keeps exactly the files of a week at most the cut-off. |
| WeekSelection.SelectUpToOrdered | scripts/3a-generate_overall_winner_leaderboard.py:118 | The filter keeps files that are in string order in string order. |
| WeekSelection.SelectCandidates | scripts/3a-generate_overall_winner_leaderboard.py:116-118 | Filtering the sorted listed files by week raises exactly when some listed file's week does not parse, and otherwise keeps exactly the listed files of a week at most the cut-off. |
| WeekSelection.SelectUntilLater | scripts/script_backup/4-combine_all_weeks.py:58-64 | The scan keeps a prefix of the files whose weeks are all at most the cut-off, and stops only at a file whose week is past it. |
| WeekSelection.UntilLaterMatchesUpToWhenMonotone | scripts/script_backup/4-combine_all_weeks.py:58-64 | When the weeks never decrease along the files, stopping at the first later week keeps exactly what the filter keeps. |
| WeekSelection.NoneUpTo | scripts/3a-generate_overall_winner_leaderboard.py:118-122 | When every file is past the cut-off, the filter keeps nothing. |
| WeekSelection.StopAtFirstLaterDropsWeeks | scripts/script_backup/4-combine_all_weeks.py:50-64 | With single-digit weeks a < c and a target from c up to 10a − 1, string order is week a, week 10a, week c. The scan keeps only week a, and the filter keeps weeks a and c. |
| WeekSelection.SelectWeeklyFiles | scripts/3a-generate_overall_winner_leaderboard.py:116-122 | The selection fails exactly when the target week does not parse, some listed `week*.csv` file's week does not parse, or no such file has a week at most the target. Otherwise it holds exactly the listed `week*.csv` files of a week at most the target. |
| WeekSelection.SelectCombinedFiles | scripts/script_backup/3-generate_leaderboard.py:78-85 | The older selection fails exactly when the target week or some listed `combined_week*.csv` file's week does not parse. Otherwise it holds exactly the listed `combined_week*.csv` files of a week at most the target, possibly none. |
| WeekSelection.SelectDetailedFiles | scripts/5a-generate_detailed_winner_leaderboard.py:48-68 | The detailed selection fails exactly when the target or some listed `week*.csv` file's week does not parse, or no such file is of a week at most the target. Otherwise it holds exactly those files, and is non-empty. |
| WeekSelection.SelectUntilLaterFiles | scripts/script_backup/4-combine_all_weeks.py:46-69 | The cross-week combiners, as written, select a non-empty prefix of the sorted `combined_week*.csv` files. |
| WeekSelection.SelectCombinedUpTo | scripts/script_backup/4-combine_all_weeks.py:46-69 | The corrected cross-week selection fails exactly when the target or some listed `combined_week*.csv` file's week does not parse, or no such file is of a week at most the target. Otherwise it holds exactly those files, and is non-empty. |
| Weekly.LastRowOf | scripts/2-generate_weekly_leaderboard.py:78-89 | A user's last row in a match is one of the match's rows, and it is that user's. |
| Weekly.AddRowsOrder | scripts/2-generate_weekly_leaderboard.py:78-91 | A match's rows keep the table well formed, and its new voters join the order once each, in first-seen order. |
| Weekly.AddRowsKeys | scripts/2-generate_weekly_leaderboard.py:78-91 | After a match's rows, the users are those before plus the match's voters. |
| Weekly.AddRowsOther | scripts/2-generate_weekly_leaderboard.py:78-91 | A user who does not vote in a match is untouched by its rows. |
| Weekly.AddRowsVoter | scripts/2-generate_weekly_leaderboard.py:78-91 | A voter ends with the display name and cell of their last row, and with the points of all their rows in the match added to the total. |
| Weekly.FillSpec | scripts/2-generate_weekly_leaderboard.py:93-97 | The fill gives `'---'`/0.0 to every known user lacking the match's cell, and changes nothing else. |
| Weekly.ProcessUser | scripts/2-generate_weekly_leaderboard.py:77-97 | One match, as one user sees it: they vote, or already known they get the absent cell, or nothing changes. |
| Weekly.SeenByMonotone | scripts/2-generate_weekly_leaderboard.py:93 | Once a user has voted they stay known. |
| Weekly.FoldKeys | scripts/2-generate_weekly_leaderboard.py:63-99 | The fold's users are exactly those who voted in some match. |
| Weekly.FoldTotal | scripts/2-generate_weekly_leaderboard.py:82-90 | A user's total is the sum of the points of all their rows, with an unparseable value counting 0.0. |
| Weekly.FoldDisplay | scripts/2-generate_weekly_leaderboard.py:80-87 | A user's display name is the one on their latest row. |
| Weekly.FoldCells | scripts/2-generate_weekly_leaderboard.py:88-97 | A user has a cell for exactly the matches from their first vote on. Each cell is their last row of that match, or `'---'`/0.0. |
| Weekly.FoldOrder | scripts/2-generate_weekly_leaderboard.py:107 | Every user is listed once, in the order of their first vote. |
| Weekly.EntriesMeaning | scripts/2-generate_weekly_leaderboard.py:63-107 | The folded rows hold one row per user who voted. Each row is the reference row of its user. |
| Weekly.CsvFiles | scripts/2-generate_weekly_leaderboard.py:58 | The match files are exactly the `.csv` entries of the listing. |
| Weekly.MatchOrder | scripts/2-generate_weekly_leaderboard.py:58 | The match order is a permutation of the `.csv` files. |
| Weekly.MatchOrderSorted | scripts/2-generate_weekly_leaderboard.py:58 | The match order is the order of file names. |
| Weekly.Matches | scripts/2-generate_weekly_leaderboard.py:68-99 | Numbered matches are never more than the files, and without the header check every file is numbered. |
| Weekly.SkippedFileTakesNoNumber | scripts/2-generate_weekly_leaderboard.py:73-75 | A file lacking the required headers leaves the fold exactly as if it were not there: it takes no match number. |
| Weekly.EveryFileNumbered | scripts/script_backup/2-combine_csv.py:75-112 | Without the header check, file `k` is match `k + 1`. |
| Weekly.RankedLeaderboard | scripts/2-generate_weekly_leaderboard.py:107-109 | There is one ranked row per folded user. |
| Weekly.WeeklyLeaderboard | scripts/2-generate_weekly_leaderboard.py:58-105 | The weekly leaderboard fails exactly when no `.csv` file has the required headers. |
| Weekly.RankedLeaderboardSpec | scripts/2-generate_weekly_leaderboard.py:107-109 | The ranked leaderboard holds one row per user who voted, each the reference row, ordered by (-total, username), with the ranks of the ranking scan. |
| Weekly.BackupWeeklyLeaderboard | scripts/script_backup/2-combine_csv.py:66-124 | The backup combiner numbers every `.csv` file without a header check, and gives one ranked row per user who voted. |
| Weekly.PlainWeeklyTable | script/2-combine_csv.py:93-95 | The unranked table is a permutation of the folded rows. |
| Weekly.PlainWeeklyTableStable | script/2-combine_csv.py:93-95 | Users with equal totals keep first-seen order. |
| Weekly.PlainWeeklyTableSpec | script/2-combine_csv.py:42-95 | The unranked table holds one row per user who voted, each the reference row, with totals descending. |
| Weekly.IntegerTable | scripts/script_backup/combine_csv.py:17-67 | The integer-points table is a permutation of the rows folded with `int()` points. |
| Weekly.IntegerTableSpec | scripts/script_backup/combine_csv.py:5-67 | The integer-points table lists its users in strictly increasing username order, each with the reference row under `int()` parsing. |
| Weekly.ReorderedEntries | scripts/2-generate_weekly_leaderboard.py:107-108 | Any reordering of the folded rows keeps one reference row per user who voted. |
| Weekly.TotalIsCellSum | scripts/2-generate_weekly_leaderboard.py:88-90 | When a user never votes twice in a match, their total is the sum of their match points cells. |
| Weekly.MatchColumns | scripts/2-generate_weekly_leaderboard.py:112 | Match `k`'s `Team_Short` and `Points` columns sit at positions `2k − 2` and `2k − 1`. |
| Weekly.TeamColumns | scripts/script_backup/combine_csv.py:63 | Match `k`'s `Team` column sits at position `k − 1`. |
| Weekly.Header | scripts/2-generate_weekly_leaderboard.py:111-113 | The header has the rank, user, match-pair and full-team columns, and `Total_Points` last. |
| Weekly.HeaderUsers | scripts/2-generate_weekly_leaderboard.py:111 | `Username` and `Display Name` sit right after the rank columns. |
| Weekly.HeaderCells | scripts/2-generate_weekly_leaderboard.py:112 | Match `k`'s `Team_Short` and `Points` columns follow the user columns, pair by pair in match order. |
| Weekly.HeaderTeams | scripts/script_backup/combine_csv.py:63 | With full team names, match `k`'s `Team` column follows all the pairs, in match order. |
| Weekly.HeaderLayout | scripts/script_backup/combine_csv.py:61-63 | `Username` and `Display Name` follow the rank columns. Match `k`'s pair sits at `base + 2k − 2`, and its full-team column follows all the pairs. |
| Board.Writers | scripts/3a-generate_overall_winner_leaderboard.py:140 | The writers are the written usernames, in write order. |
| Board.ApplyUser | scripts/3a-generate_overall_winner_leaderboard.py:124-168 | A user is present exactly when written. Their display name is the last one written, and each column holds the last value written to it. |
| Board.ApplyOrder | scripts/3a-generate_overall_winner_leaderboard.py:176 | Users appear once each, in order of their first write. |
| Board.RowOf | scripts/3a-generate_overall_winner_leaderboard.py:177 | A user's row carries their username. |
| Board.Rows | scripts/3a-generate_overall_winner_leaderboard.py:174-184 | There is one row per user, in dictionary order. |
| Board.RowsMeaning | scripts/3a-generate_overall_winner_leaderboard.py:174-184 | The rows hold one row per written user. Each row has the last value per column (0.0 if none) and the total of these values. |
| Board.ReorderedRowsMeaning | scripts/3a-generate_overall_winner_leaderboard.py:186 | Any reordering of the rows keeps that meaning. |
| Board.ByTotalThenName | scripts/3a-generate_overall_winner_leaderboard.py:186 | The sort by (-total, username) is a permutation. |
| Board.RankByTotal | scripts/script_backup/3-generate_leaderboard.py:147-151 | There is one ranked row per input row. |
| Board.ByTotalStable | script/3-generate_leaderboard.py:89-91 | The sort by total alone is a permutation. |
| Board.ByTotalStableSpec | script/3-generate_leaderboard.py:89-91 | The sort by total alone orders by total, highest first, and keeps equal totals in input order. |
| Board.RankByTotalSpec | scripts/script_backup/3-generate_leaderboard.py:147-151 | The older copies order by (-total, username) and rank by the scan. |
| Board.RankWithMovement | scripts/3a-generate_overall_winner_leaderboard.py:186-194 | There is one tracked row per input row. |
| Board.RankWithMovementSpec | scripts/3a-generate_overall_winner_leaderboard.py:186-194 | With distinct users, the rows come out ordered by (-total, username) and ranked by the scan. The snapshot holds exactly the ranked users, each with the ranks of their row. |
| Board.RankWithMovementOrder | scripts/3a-generate_overall_winner_leaderboard.py:186-187 | The tracked rows are the rows sorted by (-total, username), with the scan's ranks. |
| Board.RankWithMovementSnapshot | scripts/3a-generate_overall_winner_leaderboard.py:189-194 | The snapshot holds every user's new ranks, and no one else. |
| Board.RankWithMovementRows | scripts/3a-generate_overall_winner_leaderboard.py:174-187 | Each tracked row is the reference row of its user. |
| Season.RowWrite | scripts/3a-generate_overall_winner_leaderboard.py:139-147 | A row writes its stripped username and its file's column. A points value that does not parse counts 0.0. |
| Season.FileWrites | scripts/3a-generate_overall_winner_leaderboard.py:133-147 | A file gives one write per row, or none when the copy skips the file. |
| Season.Columns | scripts/3a-generate_overall_winner_leaderboard.py:127-175 | There is one column per selected file, in file order, read or not, then `Playoffs` when enabled. |
| Season.FileWritersAre | scripts/3a-generate_overall_winner_leaderboard.py:133-147 | A file's writers are exactly the users it holds a row for. |
| Season.WeekWritersAre | scripts/3a-generate_overall_winner_leaderboard.py:127-149 | A user is on the board exactly when some read week file holds a row for them. |
| Season.SeasonWritersAre | scripts/3a-generate_overall_winner_leaderboard.py:151-168 | A user is on the season board exactly when a read week file or the playoff file holds a row for them, so a playoff-only user is listed. |
| Season.OverallWinner | scripts/3a-generate_overall_winner_leaderboard.py:116-122 | The overall winner leaderboard fails exactly when no weekly file is selected. |
| Season.OlderSeason | scripts/script_backup/3-generate_leaderboard.py:78-85 | The older season leaderboard fails exactly when the selection fails. |
| Season.OldestSeason | script/3-generate_leaderboard.py:41-48 | The oldest season table fails exactly when the selection fails. |
| Season.OverallWinnerSpec | scripts/3a-generate_overall_winner_leaderboard.py:116-196 | The columns are one per selected week file, then `Playoffs` when enabled. There is one row per user of a read week file or of the playoff file. Each row has the user's last points per column (0.0 if none) and their sum. Rows are ordered by (-total, username) and ranked, and the snapshot holds every ranked user. |
| Season.OlderSeasonSpec | scripts/script_backup/3-generate_leaderboard.py:78-151 | There is one row per user of a selected file or of the playoff file, each the reference row, ordered by (-total, username) and ranked. The identical x3 copy is modelled too. |
| Season.OldestSeasonSpec | script/3-generate_leaderboard.py:41-91 | Every user gets every week column (0.0 where missing) and their sum. Totals are descending, and equal totals keep first-seen order. |
| Season.FileWritesColumn | scripts/3a-generate_overall_winner_leaderboard.py:136-147 | Every write of a file sets that file's column, and only when the file is read. |
| Season.UnwrittenColumnIsZero | scripts/3a-generate_overall_winner_leaderboard.py:179-182 | A listed column that nothing writes is 0.0 in every ranked row. |
| Season.SkippedWeekIsZero | scripts/3a-generate_overall_winner_leaderboard.py:127-138 | A selected week file lacking `Total_Points` still gets its `Week<n>` column. The column is 0.0 in every row when no other file shares it. |
| Overall.ColumnName | scripts/4-generate_overall_leaderboard.py:192 | Only the playoff column is named `Playoffs`. |
| Overall.WeekWrites | scripts/4-generate_overall_leaderboard.py:138-146 | Every week cell of a row is written for that row's user and display name. |
| Overall.RowWrites | scripts/4-generate_overall_leaderboard.py:134-152 | A row first sets its user's display name, and every write of the row is that user's. |
| Overall.WeekColumns | scripts/4-generate_overall_leaderboard.py:192 | Every listed column is a week column of weeks 1 to the target week. |
| Overall.WeekColumnsSpec | scripts/4-generate_overall_leaderboard.py:192 | The week columns are exactly the seen week columns of weeks 1 to the target, in strictly increasing (week, Winner before Margin) order. |
| Overall.OverallLeaderboard | scripts/4-generate_overall_leaderboard.py:104-109 | The only failure is "no input", and it happens at least when neither file exists. |
| Overall.RowWritersAre | scripts/4-generate_overall_leaderboard.py:134-137 | A row's writes are its own stripped user's, and nobody else's. |
| Overall.Users | scripts/4-generate_overall_leaderboard.py:135 | The rows' users are their stripped usernames, in order. |
| Overall.RowsWritersAre | scripts/4-generate_overall_leaderboard.py:134-137 | The rows' writers are exactly the rows' users. |
| Overall.MergeWritersAre | scripts/4-generate_overall_leaderboard.py:125-185 | A user is on the board exactly when a read file holds a row for them. |
| Overall.OverallLeaderboardFails | scripts/4-generate_overall_leaderboard.py:104-189 | The merge fails exactly when neither file exists or no read file has a row. |
| Overall.OverallColumns | scripts/4-generate_overall_leaderboard.py:192 | The columns are the seen week columns of weeks 1 to the target week, in (week, poll) order, followed by `Playoffs` exactly when enabled. |
| Overall.OverallRows | scripts/4-generate_overall_leaderboard.py:191-211 | There is one row per user of a read file. Each row has the last display name, the last value per column (0.0 if none) and their sum. Rows are ordered by (-total, username) and ranked, and the snapshot holds each user's ranks. |
| Overall.MergedRows | scripts/4-generate_overall_leaderboard.py:191-201 | Any reordering of the merged rows keeps one reference row per user of either file. |
| Overall.CarriedWeekIsWritten | scripts/4-generate_overall_leaderboard.py:138-146 | A row carrying week `w`'s header, with 1 ≤ w ≤ the target, makes that poll's week column appear. |
| Overall.WeekIndex | scripts/4-generate_overall_leaderboard.py:138-146 | A row carrying week `w` writes that week's column with the row's parsed points. |
| Detailed.MatchCount | scripts/5a-generate_detailed_winner_leaderboard.py:81 | A week's match count, taken over the distinct keys of the first row's dict, is at most its header width, and it is 0 exactly when no key is a `Match_…Team_Short` key. |
| Detailed.MatchCountIsDistinctKeys | scripts/5a-generate_detailed_winner_leaderboard.py:81 | A week's match count is the number of distinct `Match_…Team_Short` keys among its columns, as the first row's dict holds them once each. |
| Detailed.MatchCountRepeat | scripts/script_backup/4-combine_all_weeks.py:86 | A column name the header repeats adds no match, because the row dict holds each key once. |
| Detailed.CellEvents | scripts/5a-generate_detailed_winner_leaderboard.py:92-105 | The cells a row stores are its own, each numbered between offset + 1 and offset + the match count. |
| Detailed.RowEvents | scripts/5a-generate_detailed_winner_leaderboard.py:85-110 | A row first offers its display name and adds its total, and then stores cells numbered within its week. |
| Detailed.FirstDisplay | scripts/5a-generate_detailed_winner_leaderboard.py:89-90 | A user's display name is `""` exactly when no row offers one. Otherwise it is the one their first offering row gives. |
| Detailed.ApplyUser | scripts/5a-generate_detailed_winner_leaderboard.py:70-110 | After the fold, a user is present exactly when they have a row. They have the first non-empty display name, the sum of their weekly totals, and for each global match the last cell stored. |
| Detailed.ApplyOrder | scripts/5a-generate_detailed_winner_leaderboard.py:121-125 | Users appear once each, in the order of their first row. |
| Detailed.LastCellAppend | scripts/5a-generate_detailed_winner_leaderboard.py:102-105 | A later store overrides an earlier one for the same user and match. |
| Detailed.FirstDisplayAppend | scripts/5a-generate_detailed_winner_leaderboard.py:89-90 | A later display name never replaces an earlier non-empty one. |
| Detailed.CellEventsCell | scripts/5a-generate_detailed_winner_leaderboard.py:92-105 | A row stores a cell for exactly the matches it voted in (a short name that is non-empty and not `'---'`). |
| Detailed.RowEventsMeaning | scripts/5a-generate_detailed_winner_leaderboard.py:85-110 | A row stores its voted cells, adds its lenient total and offers its display name, all only for its own user. |
| Detailed.RowsEventsMeaning | scripts/5a-generate_detailed_winner_leaderboard.py:85-110 | A week's rows store each user's last vote per match, add their totals, offer their first display name, and name exactly the users with a row. |
| Detailed.Owner | scripts/5a-generate_detailed_winner_leaderboard.py:92-112 | A global match number belongs to exactly one usable week and local match: g = offset before that week + local number. There is none beyond the total match count. |
| Detailed.CellAtOwner | scripts/5a-generate_detailed_winner_leaderboard.py:92-112 | The cell for global match g is the user's last vote in the week and local match that g numbers. |
| Detailed.WeekCell | scripts/5a-generate_detailed_winner_leaderboard.py:92-105 | A week stores each user's last vote for each of its matches, and nothing outside them. |
| Detailed.EventsCell | scripts/5a-generate_detailed_winner_leaderboard.py:71-112 | Across the weeks, the stored cell for each user and global match is the reference cell. |
| Detailed.CellAtBeyond | scripts/5a-generate_detailed_winner_leaderboard.py:112 | No cell lies past the weeks' total match count. |
| Detailed.EventsRest | scripts/5a-generate_detailed_winner_leaderboard.py:73-112 | Across the weeks, a user's total is the sum of their weekly totals and their display name the first non-empty one. They are present exactly when a usable week has their row. |
| Detailed.CombinedMeaning | scripts/5a-generate_detailed_winner_leaderboard.py:70-114 | A combined entry is present exactly when a usable week has the user's row. It holds the first non-empty display name, the sum of weekly totals, and, per global match, the user's last vote in the match that number names. |
| Detailed.MaxCell | scripts/5a-generate_detailed_winner_leaderboard.py:120 | The width bounds every stored match number and, unless 0, is one of them. |
| Detailed.WidthMeaning | scripts/5a-generate_detailed_winner_leaderboard.py:120 | The width is the largest match number any user has a cell for, and 0 when there is none. |
| Detailed.WidthSpec | scripts/5a-generate_detailed_winner_leaderboard.py:120 | The width is at most the weeks' total match count. It bounds every user's cells and, unless 0, is some user's cell. |
| Detailed.CellsOf | scripts/5a-generate_detailed_winner_leaderboard.py:148-151 | A row has exactly `width` cells. |
| Detailed.Table | scripts/5a-generate_detailed_winner_leaderboard.py:121-125 | There is one row per combined user. |
| Detailed.TableUsers | scripts/5a-generate_detailed_winner_leaderboard.py:121-125 | The table holds one row per user with a row in a usable week, once each. |
| Detailed.TableRows | scripts/5a-generate_detailed_winner_leaderboard.py:121-151 | Each row is the reference row: the first display name, the reference cell or `'---'`/0.0 for each match up to the width, and the summed total. |
| Detailed.TableMeaning | scripts/5a-generate_detailed_winner_leaderboard.py:116-151 | The table holds one reference row per user with a row in a usable week. |
| Detailed.ByTotalThenName | scripts/5a-generate_detailed_winner_leaderboard.py:127 | The sort by (-total, username) is a permutation. |
| Detailed.SortedTableMeaning | scripts/5a-generate_detailed_winner_leaderboard.py:121-127 | The sorted table keeps the rows' meaning and is ordered by (-total, username). |
| Detailed.MatchProblem | scripts/script_backup/4-combine_all_weeks.py:106-110 | The older copies fail on a row's matches exactly when a voted match's points do not parse. |
| Detailed.RowProblem | scripts/script_backup/4-combine_all_weeks.py:91-113 | A row fails exactly when it is not readable: a voted match's points or its total do not parse, or the total is missing. |
| Detailed.RowsProblem | scripts/script_backup/4-combine_all_weeks.py:91-113 | A week's rows fail exactly when some row is not readable. |
| Detailed.WeekProblem | scripts/script_backup/4-combine_all_weeks.py:81-116 | A week fails exactly when it is not readable: it has no row, has no `Username` column (the `KeyError` at line 92), or a row does not read. |
| Detailed.FilesProblem | scripts/script_backup/4-combine_all_weeks.py:80-116 | The selected weeks fail exactly when some week is not readable, a missing `Username` column included. |
| Detailed.ReadableIsExact | scripts/script_backup/4-combine_all_weeks.py:106-113 | A readable week is usable, and there the lenient reading of the newer script agrees with the strict one. |
| Detailed.ReadableWeeksHaveUsers | scripts/script_backup/4-combine_all_weeks.py:85 | With every week readable, a non-empty selection gives at least one user. |
| Detailed.ReadAll | scripts/script_backup/4-combine_all_weeks.py:80-81 | Each selected name is read, in order. |
| Detailed.DetailedLeaderboard | scripts/5a-generate_detailed_winner_leaderboard.py:63-118 | Success implies a non-empty selection and a non-empty table. |
| Detailed.CombineWeeks | scripts/script_backup/4-combine_all_weeks.py:80-116 | The older combiners succeed exactly when every selected week reads through, and then hold the weeks as read. |
| Detailed.RankedHeader | scripts/script_backup/4-combine_all_weeks.py:148-154 | The ranked header has `2w + 5` columns and is the ranked weekly header without full-team columns, so `Weekly.HeaderLayout` places every column: ranks, user columns, the pair of each match in order, the total last. |
| Detailed.UnrankedHeader | script/4-combine_all_weeks.py:99-105 | The unranked header has `2w + 3` columns and is the unranked weekly header without full-team columns, so `Weekly.HeaderLayout` places every column. |
| Detailed.RankTableSpec | scripts/5a-generate_detailed_winner_leaderboard.py:120-128 | The ranked table has the right width. It holds exactly one reference row per user, ordered by (-total, username), with the scan's ranks. |
| Detailed.TableEmpty | scripts/5a-generate_detailed_winner_leaderboard.py:116-118 | The table is empty exactly when no usable week has a row. A usable week has a row and `Username` and `Total_Points` columns; without `Username` the first row raises inside the handler at line 113, so the week is skipped whole. |
| Detailed.DetailedLeaderboardSpec | scripts/5a-generate_detailed_winner_leaderboard.py:63-152 | The detailed leaderboard fails exactly when no week file is selected or no selected week gives a row. Otherwise it describes the selected weeks. |
| Detailed.CombineAllWeeksSpec | scripts/script_backup/4-combine_all_weeks.py:46-139 | The corrected ranked combiner fails exactly when no file is selected or a selected week does not read through. Otherwise it describes every week up to the target and is not empty. |
| Detailed.CombineAllWeeksAsWrittenSpec | scripts/script_backup/4-combine_all_weeks.py:50-139 | The ranked combiner as written is the same, over the files before the first one past the target. |
| Detailed.UnrankedIsRankedWithoutRanks | script/4-combine_all_weeks.py:26-129 | With the week selection corrected, the unranked combiner succeeds exactly when the corrected ranked one does, with the same width and the same rows, without ranks. |
| Detailed.UnrankedAsWrittenIsRankedWithoutRanks | script/4-combine_all_weeks.py:26-129 | As written, with the selection that stops at the first file past the target, the unranked combiner succeeds exactly when the as-written ranked one does, with the same width and the same rows, without ranks. |
| Streaks.MatchDigits | scripts/7-generate_winners_list.py:100 | `re.match(r'(\d+)-')` gives a non-empty digit run that the name starts with, followed by `-`. |
| Streaks.Numbered | scripts/7-generate_winners_list.py:100 | Numbering fails exactly when some file name has no leading number. Otherwise each file gets its number. |
| Streaks.CsvOnly | scripts/7-generate_winners_list.py:102 | The files kept are exactly the `.csv` ones. |
| Streaks.CollectSortedSpec | scripts/7-generate_winners_list.py:94-103 | Collection fails exactly when a file of a week directory has no match number. Every file kept is a `.csv` file of some `week*` directory. |
| Streaks.CollectSortedKeepsCsv | scripts/7-generate_winners_list.py:94-103 | When collection succeeds, every `.csv` file of every `week*` directory with a `poll_winner` directory is in the result, with its match number and rows. |
| Streaks.DirectoryOrder | scripts/7-generate_winners_list.py:100 | Within a directory, the files follow their match numbers, and files with the same number keep listing order. |
| Streaks.ReadVotes | scripts/7-generate_winners_list.py:114-117 | Reading fails exactly when some points value does not parse, and otherwise reads each row. |
| Streaks.ReadPolls | scripts/7-generate_winners_list.py:106-120 | A value `float()` rejects stops the whole scan. Otherwise each file's rows are read. |
| Streaks.AddVotesOrder | scripts/7-generate_winners_list.py:114-120 | Voters join the history once each, in order of first vote. |
| Streaks.MarkAbsentKeys | scripts/7-generate_winners_list.py:122-125 | Marking absences changes no user's presence, order or display name. |
| Streaks.MarkAbsentEntry | scripts/7-generate_winners_list.py:122-125 | A known user who did not vote gets an absent entry for the match. |
| Streaks.AddVotesEntries | scripts/7-generate_winners_list.py:114-120 | A match's rows append each voter's entries to their history. |
| Streaks.AddVotesDisplay | scripts/7-generate_winners_list.py:118 | A voter's display name becomes the one on their last row. |
| Streaks.BuildOrder | scripts/7-generate_winners_list.py:106-125 | The history's users are the voters of the non-washed-out matches, in order of first vote. |
| Streaks.BuildEntries | scripts/7-generate_winners_list.py:106-125 | Each user's entries are the reference history: washed-out matches add nothing, a vote adds its points, and after the first vote an absence adds an absent entry. |
| Streaks.BuildDisplay | scripts/7-generate_winners_list.py:118 | Each user's display name is the one on their last counted row. |
| Streaks.WashedOutIgnored | scripts/7-generate_winners_list.py:106-110 | A washed-out match anywhere in the play order leaves the whole history unchanged: every user's order, entries and display name are as if it were absent. |
| Streaks.WashedOutKeepsStreak | scripts/7-generate_winners_list.py:106-125 | A washed-out match between two wins of a user is skipped, not counted as a break: the user's history is the two wins and their winning streak has length 2. |
| Streaks.ScanVotes | scripts/7-generate_winners_list.py:138-150 | The scan's current run ends at the last entry, and its best span lies within the entries. |
| Streaks.ScanInvariant | scripts/7-generate_winners_list.py:138-150 | After every entry, the current run is the qualifying suffix. The best run is the earliest longest qualifying run seen so far, with its start and end. |
| Streaks.ScanSpec | scripts/7-generate_winners_list.py:138-150 | The best run is 0 exactly when no entry qualifies. Otherwise it is a run of qualifying entries of that length, no run is longer, and no equally long run starts earlier. |
| Streaks.StreakOf | scripts/7-generate_winners_list.py:152-161 | A reported streak carries the user, their display name and a positive length. |
| Streaks.StreakOfPresent | scripts/7-generate_winners_list.py:152 | A user has a streak exactly when some entry of theirs qualifies. |
| Streaks.StreakOfSpec | scripts/7-generate_winners_list.py:142-161 | The streak is the earliest of the longest runs. Its files and start number are those of its first and last entries, and its length is end − start + 1. |
| Streaks.StreaksOfSpec | scripts/7-generate_winners_list.py:129-161 | The list holds exactly the reported streaks of the users who are not excluded. |
| Streaks.StreaksOfSound | scripts/7-generate_winners_list.py:129-161 | Every listed streak is a reported streak of a non-excluded user. |
| Streaks.StreaksOfComplete | scripts/7-generate_winners_list.py:129-161 | Every non-excluded user with a qualifying entry has their streak listed. |
| Streaks.Top | scripts/7-generate_winners_list.py:164-165 | The top holds `min(n, len)` streaks. |
| Streaks.TopSpec | scripts/7-generate_winners_list.py:164-165 | The top is the prefix of the stable sort by (-length, start number). |
| Streaks.Best | scripts/7-generate_winners_list.py:176 | The overall streak exists exactly when the list is non-empty. |
| Streaks.BestSpec | scripts/7-generate_winners_list.py:167-176 | The overall streak is a listed one. No other is longer, and no equally long one starts at an earlier match number. |
| Streaks.StreakListSpec | scripts/7-generate_winners_list.py:77-165 | Each listed streak belongs to a non-excluded voter and is the one the scan finds in their reference history. Every such voter with a qualifying entry is listed. |
| Awards.ReadWinners | scripts/7-generate_winners_list.py:26-30 | Reading fails exactly when some total does not parse, and otherwise reads each row. |
| Awards.TopWinners | scripts/7-generate_winners_list.py:20-22 | A missing file gives no winners. |
| Awards.TopWinnersSpec | scripts/7-generate_winners_list.py:24-34 | The top `n` are the prefix of the sort by total. No dropped row has a higher total than a kept one, and the kept totals descend. |
| Awards.TopOfSorted | scripts/7-generate_winners_list.py:33-34 | A prefix of a list sorted by descending total holds the highest totals. |
| Awards.TopWinnersStable | scripts/7-generate_winners_list.py:33 | Rows with equal totals keep their file order. |
| Awards.Leader | scripts/7-generate_winners_list.py:51-61 | The margin winner is a row with a total above −1. |
| Awards.LeaderExists | scripts/7-generate_winners_list.py:52-59 | There is no margin winner exactly when every total is at most −1. |
| Awards.LeaderIsMaximal | scripts/7-generate_winners_list.py:56-59 | No row has a higher total than the margin winner. |
| Awards.LeaderIsFirst | scripts/7-generate_winners_list.py:56-59 | The margin winner is a row, and every row before it has a strictly lower total. |
| Awards.LeaderSpec | scripts/7-generate_winners_list.py:51-61 | The margin winner exists exactly when some total exceeds −1. It has the highest total and is the first row with that total. |
| Awards.MarginWinner | scripts/7-generate_winners_list.py:45-47 | A missing file gives no margin winner. |
| Awards.CountOk | scripts/7-generate_winners_list.py:305-307 | The CSK count fails exactly when a CSK vote is in a file without a match number. |
| Awards.CountOrder | scripts/7-generate_winners_list.py:286-313 | The voters are exactly the users with a CSK vote, in order of their first one. |
| Awards.CountVotes | scripts/7-generate_winners_list.py:305-307 | A voter's match list is exactly their CSK votes' match numbers. |
| Awards.CountDisplay | scripts/7-generate_winners_list.py:308 | Each user's display name is the one on their last row, CSK vote or not. |
| Awards.VotersOf | scripts/7-generate_winners_list.py:311-314 | Each voter's count is the length of their match list. |
| Awards.ByCountSpec | scripts/7-generate_winners_list.py:315-317 | The top voters are the prefix of the stable sort by count. No dropped voter has more CSK votes than a kept one. |
| Awards.TallyVoters | scripts/7-generate_winners_list.py:286-314 | Every listed voter has at least one CSK vote, and their count and match list are those of their CSK votes. |

## Left out

- Files, directories, CSV and JSON reading and writing, `os.makedirs`, `print` diagnostics and the `main` drivers. Inputs are sequences of records and directory listings, and outputs are sequences of rows.
- Python's `float()`. It is a parameter `Text.Parser`, and rounding in running sums is not modelled because points are exact `real`s. NaN and infinity are left out with it.
- Unicode in `strip()`, `lower()` and `capitalize()`. These are modelled on ASCII: whitespace is space, tab, newline, vertical tab, form feed, carriage return and the separators `\x1c` to `\x1f`, as `str.isspace()` has them.
- Text.ParseInt: Python's `int()` also accepts underscores between digits (`"1_000"`), non-ASCII digits and Unicode whitespace. The model rejects those strings, so a points value written that way is read as unparseable.
- `re.search` in `parse_answer_range` is modelled only for the patterns `(\d+)(?:-(\d+)|[+])?\s*runs?` and `…wicket(?:s)?` as the script uses them. General regular expressions are out of scope.
- The report text and ordinal suffixes of scripts/7-generate_winners_list.py:319-437.
- The JSON values of a poll are typed records. A key of the wrong JSON type (a string where a list is expected) is not modelled, and `message_id` is not modelled because it is only printed.
- JSON `null` is modelled as an absent key. For `"globalName": null`, `user.get('globalName', username)` (scripts/1-generate_match_results.py:54, scripts/1b-generate_margin_results.py:164, scripts/6-generate_playoff_results.py:90) gives `None`, and the scripts write an empty display name where the model writes the username. script/1-generate_csv.py:52 accepts the null where `WinnerPoll.DirectRows` reports a missing `globalName`.
- `Exception` handlers that print and carry on after a failure in the middle of a file: scripts/2-generate_weekly_leaderboard.py:100-101, scripts/5a-generate_detailed_winner_leaderboard.py:113-114, scripts/3a-generate_overall_winner_leaderboard.py:148-149 and scripts/4-generate_overall_leaderboard.py:153-154 and 184-185. A short CSV row (`float(None)`, `None.strip()`) or a header without a match's `Points` column (5a:99) raises there, and the rest of that file is dropped after its earlier rows were folded. A file is modelled as either readable up front or skipped whole, and a missing points cell reads as empty (`Detailed.PointsText`). The partial fold is not modelled.
- A missing `Username` or `Display Name` column in the older copies: script/2-combine_csv.py:49-50, scripts/script_backup/2-combine_csv.py:82-83, scripts/script_backup/combine_csv.py:30-31, scripts/script_backup/3-generate_leaderboard.py:103 and script/3-generate_leaderboard.py:66 index them with no handler, so the script stops with a `KeyError`. The model's rows always carry a username, so this crash is not modelled. The cross-week combiners do model a missing `Username` column (`Detailed.WeekProblem`, scripts/script_backup/4-combine_all_weeks.py:92 and script/4-combine_all_weeks.py:60).
- Detailed.FilesProblem: a missing `Display Name` column in the cross-week combiners is not modelled. scripts/script_backup/4-combine_all_weeks.py:96 and script/4-combine_all_weeks.py:64 read `row['Display Name']` whenever the user's stored name is still empty, so whether the `KeyError` happens depends on the names stored from earlier weeks and rows. The model reads the name as empty and carries on.
- A first row longer than the header. `csv.DictReader` then adds a `None` key, and `key.startswith` raises while counting matches (scripts/script_backup/4-combine_all_weeks.py:86, script/4-combine_all_weeks.py:54, and scripts/5a-generate_detailed_winner_leaderboard.py:81 inside its handler). The model's rows hold only header keys.
- The older cross-week combiners stop at the first `KeyError`, `ValueError` or `StopIteration`. This is modelled as the first unreadable week, row or value in reading order (`Detailed.FilesProblem`), without telling the exception types apart. The modelled `KeyError`s are a missing `Username`, `Total_Points` or match `Points` column. The `Display Name` and over-long-row cases above are not modelled.
- A numeric order of the week directories. Streaks follow `sorted(os.listdir(base_dir))` (scripts/7-generate_winners_list.py:94 and 194), which puts `week10` between `week1` and `week2`. The model keeps that string order (`Streaks.Collect` sorts the directories by name), so in a season of ten or more weeks the streaks run in that order.
- The module constants `WEEK`, `INCLUDE_PLAYOFFS` and `SHORT_NAMES` are parameters.
- Directory listing order is a parameter, and file-system existence checks are `Option` values.
- script/script_backup/combine_csv_without_points.py and scripts/script_backup/x-combine_csv_without_points.py number their matches in unsorted `os.listdir` order, so no stable behaviour can be stated. They are not modelled.
- scripts/script_backup/x-polls_to_csv_without_points.py, x_backup/script/archive/polls_to_csv_without_points.py and both `xtra_polls_to_csv_single.py` copies are field projections with nothing beyond `WinnerPoll.DirectRows`. They are not modelled.
- Season.OverallWinnerSpec: stated for a successful run. The failure case is `Season.OverallWinner`'s own contract (no weekly file selected).
- Season.OlderSeasonSpec: stated for a successful run. The failure case is `Season.OlderSeason`'s contract.
- Season.OldestSeasonSpec: stated for a successful run. The failure case is `Season.OldestSeason`'s contract.
- Overall.OverallRows: stated for a successful merge. `Overall.OverallLeaderboardFails` states when the merge fails.
- Overall.OverallColumns: stated for a successful merge, like `Overall.OverallRows`.
- Board.RankWithMovementSpec: requires distinct usernames, which every board the scripts build has (`Board.RowsMeaning`). With duplicates, the last row's ranks win in the snapshot (`Ranking.SnapshotHoldsRanks`).
- Weekly.TotalIsCellSum: requires one vote per user per match. A second row in the same match overwrites the cell but is still added to the total, so the promise "total = sum of cells" does not hold in general.
- Weekly.BackupWeeklyLeaderboard: states the row count only. Its contents are those of `Weekly.RankedLeaderboardSpec` applied to the unchecked match list.
- Weekly.Header states the width and the last column. `Weekly.HeaderLayout` and its parts state where each column sits.
- Detailed.DetailedLeaderboard states only what success implies. `Detailed.DetailedLeaderboardSpec` gives both directions and the contents.

Where the documentation and the code disagree, the model follows the code:
- The docstrings at scripts/7-generate_winners_list.py:80 and 181 say washed-out matches reset a streak. The code at 108-110 and 208-210 skips them, so a streak runs across them (`Streaks.WashedOutKeepsStreak`).
- The docstrings at scripts/script_backup/2-combine_csv.py:10-11 and script/5-playoff_prediction.py:22-23 promise Competitive ranks 1, 2, 2, 3. The code gives 1, 2, 2, 4 (`Ranking.RanksExample`).
- The margin script compares a vote's answer id with the winning id even when there is no winning answer. Then both are `None`, so votes without an answer id score (`MarginPoll.VotePoints`). This is modelled as written.

## Findings

| source | as written | input that shows it | evidently intended | confidence | as-written member | corrected member |
|---|---|---|---|---|---|---|
| scripts/script_backup/4-combine_all_weeks.py:58-64 | The files are sorted as strings, and the scan stops at the first file whose week is past the target. | `combined_week1.csv`, `combined_week10.csv`, `combined_week2.csv` with target week 3: the scan keeps week 1 only and drops week 2. script/4-combine_all_weeks.py:26-32 does the same. | Keep every week up to the target, as scripts/5a-generate_detailed_winner_leaderboard.py:64 does with a filter. | medium, not executed | WeekSelection.StopAtFirstLaterDropsWeeks, Detailed.CombineAllWeeksAsWrittenSpec, Detailed.UnrankedAsWrittenIsRankedWithoutRanks | WeekSelection.SelectCombinedUpTo, Detailed.CombineAllWeeksSpec, Detailed.UnrankedIsRankedWithoutRanks |

=== FILE: awards.dfy ===
/** The other awards of the winners list: the top of the overall winner
    leaderboard, the leader of the overall margin leaderboard, and the
    users who voted most often for CSK in the winner polls. */
module Awards {
  import opened Wrappers
  import Text
  import Sorting
  import Streaks

  // ---------------------------------------------------------------------------
  // Leaderboard awards.
  // ---------------------------------------------------------------------------

  /** A leaderboard row as read: the Total cell is still text. */
  datatype BoardRow = BoardRow(username: string, displayName: string, total: string)

  /** A leaderboard row with its total read by float(). */
  datatype Winner = Winner(username: string, displayName: string, total: real)

  /** Every row's total read; the first value float() rejects is the error. */
  function ReadWinners(rows: seq<BoardRow>, parse: Text.Parser): (r: Result<seq<Winner>>)
    ensures r.Success? <==> forall i :: 0 <= i < |rows| ==> parse(rows[i].total).Some?
    ensures r.Success? ==> |r.value| == |rows|
    ensures r.Success? ==> forall i :: 0 <= i < |rows| ==>
      r.value[i] == Winner(rows[i].username, rows[i].displayName, parse(rows[i].total).value)
    decreases |rows|
  {
    if |rows| == 0 then Success([])
    else
      var n := |rows| - 1;
      var prior :- ReadWinners(rows[..n], parse);
      assert forall i :: 0 <= i < n ==> rows[..n][i] == rows[i];
      match parse(rows[n].total)
      case None => Failure(BadValue(rows[n].total))
      case Some(x) => Success(prior + [Winner(rows[n].username, rows[n].displayName, x)])
  }

  function WinnerTotal(w: Winner): real {
    w.total
  }

  /** The winners by total, highest first; equal totals keep file order. */
  function ByTotal(winners: seq<Winner>): seq<Winner> {
    Sorting.SortBy(winners, WinnerTotal, Sorting.ScoreDesc)
  }

  /** `get_overall_winner_top_n`: a missing file gives no winners; otherwise
      the first `n` rows by total. */
  function TopWinners(file: Option<seq<BoardRow>>, parse: Text.Parser, n: nat): (r: Result<seq<Winner>>)
    ensures file.None? ==> r == Success([])
  {
    match file
    case None => Success([])
    case Some(rows) =>
      var winners :- ReadWinners(rows, parse);
      Success(Sorting.Take(ByTotal(winners), n))
  }

  /** The top `n` are the `n` highest totals: the sorted rows' prefix, no
      dropped row above a kept one, rows with equal totals in file order. */
  lemma TopWinnersSpec(rows: seq<BoardRow>, parse: Text.Parser, n: nat)
    ensures TopWinners(Some(rows), parse, n).Success? <==> ReadWinners(rows, parse).Success?
    ensures ReadWinners(rows, parse).Success? ==>
      var winners := ReadWinners(rows, parse).value;
      var sorted := ByTotal(winners);
      var top := TopWinners(Some(rows), parse, n).value;
      && multiset(sorted) == multiset(winners)
      && |top| == (if n < |winners| then n else |winners|)
      && top == sorted[..|top|]
      && (forall i, j :: 0 <= i < |top| <= j < |sorted| ==> sorted[j].total <= top[i].total)
      && (forall i, j :: 0 <= i < j < |top| ==> top[j].total <= top[i].total)
  {
    if ReadWinners(rows, parse).Success? {
      var winners := ReadWinners(rows, parse).value;
      var sorted := ByTotal(winners);
      Sorting.ScoreDescIsStrictWeakOrder();
      Sorting.SortBySorted(winners, WinnerTotal, Sorting.ScoreDesc);
      assert TopWinners(Some(rows), parse, n) == Success(Sorting.Take(sorted, n));
      TopOfSorted(sorted, n);
    }
  }

  /** A prefix of rows sorted by total, highest first, holds the highest totals. */
  lemma TopOfSorted(sorted: seq<Winner>, n: nat)
    requires Sorting.SortedBy(sorted, WinnerTotal, Sorting.ScoreDesc)
    ensures var top := Sorting.Take(sorted, n);
      && (forall i, j :: 0 <= i < |top| <= j < |sorted| ==> sorted[j].total <= top[i].total)
      && (forall i, j :: 0 <= i < j < |top| ==> top[j].total <= top[i].total)
  {
    var top := Sorting.Take(sorted, n);
    forall i, j | 0 <= i < |top| && i < j < |sorted| ensures sorted[j].total <= top[i].total {
      assert top[i] == sorted[i];
      assert !Sorting.ScoreDesc(WinnerTotal(sorted[j]), WinnerTotal(sorted[i]));
    }
  }

  /** Rows with equal totals keep their order in the file. */
  lemma TopWinnersStable(winners: seq<Winner>, total: real)
    ensures Sorting.Peers(ByTotal(winners), WinnerTotal, Sorting.ScoreDesc, total)
         == Sorting.Peers(winners, WinnerTotal, Sorting.ScoreDesc, total)
  {
    Sorting.ScoreDescIsStrictWeakOrder();
    Sorting.SortByStable(winners, WinnerTotal, Sorting.ScoreDesc, total);
  }

  /** The margin scan: a row replaces the leader only with a total strictly
      above the leader's, starting from -1. */
  function Leader(winners: seq<Winner>): (r: Option<Winner>)
    ensures r.Some? ==> r.value in winners && r.value.total > -1.0
    decreases |winners|
  {
    if |winners| == 0 then None
    else
      var n := |winners| - 1;
      var prior := Leader(winners[..n]);
      var best := if prior.Some? then prior.value.total else -1.0;
      if winners[n].total > best then Some(winners[n]) else prior
  }

  /** The leader exists iff some total exceeds -1. */
  lemma {:induction false} LeaderExists(winners: seq<Winner>)
    ensures Leader(winners).None? <==> forall i :: 0 <= i < |winners| ==> winners[i].total <= -1.0
    decreases |winners|
  {
    if |winners| > 0 {
      var n := |winners| - 1;
      LeaderExists(winners[..n]);
      assert forall j :: 0 <= j < n ==> winners[..n][j] == winners[j];
    }
  }

  /** No row has a higher total than the leader. */
  lemma {:induction false} LeaderIsMaximal(winners: seq<Winner>)
    ensures Leader(winners).Some? ==> forall j :: 0 <= j < |winners| ==> winners[j].total <= Leader(winners).value.total
    decreases |winners|
  {
    if |winners| > 0 {
      var n := |winners| - 1;
      LeaderIsMaximal(winners[..n]);
      LeaderExists(winners[..n]);
      assert forall j :: 0 <= j < n ==> winners[..n][j] == winners[j];
    }
  }

  /** The leader is a row before which every total is strictly lower. */
  lemma {:induction false} LeaderIsFirst(winners: seq<Winner>)
    ensures Leader(winners).Some? ==>
      exists i :: 0 <= i < |winners| && winners[i] == Leader(winners).value
        && forall j :: 0 <= j < i ==> winners[j].total < winners[i].total
    decreases |winners|
  {
    if |winners| > 0 {
      var n := |winners| - 1;
      var init := winners[..n];
      LeaderIsFirst(init);
      var prior := Leader(init);
      if prior.Some? && winners[n].total <= prior.value.total {
        var i :| 0 <= i < n && init[i] == prior.value && forall j :: 0 <= j < i ==> init[j].total < init[i].total;
        assert forall j :: 0 <= j < i ==> init[j] == winners[j];
        assert winners[i] == Leader(winners).value;
      } else if Leader(winners).Some? {
        assert winners[n] == Leader(winners).value;
        LeaderIsMaximal(init);
        LeaderExists(init);
        assert forall j :: 0 <= j < n ==> init[j] == winners[j];
      }
    }
  }

  /** The margin leader exists iff some total exceeds -1, has the highest
      total, and is the first row with that total. */
  lemma LeaderSpec(winners: seq<Winner>)
    ensures Leader(winners).None? <==> forall i :: 0 <= i < |winners| ==> winners[i].total <= -1.0
    ensures Leader(winners).Some? ==>
      && (forall j :: 0 <= j < |winners| ==> winners[j].total <= Leader(winners).value.total)
      && exists i :: 0 <= i < |winners| && winners[i] == Leader(winners).value
           && forall j :: 0 <= j < i ==> winners[j].total < winners[i].total
  {
    LeaderExists(winners);
    LeaderIsMaximal(winners);
    LeaderIsFirst(winners);
  }

  /** `get_overall_margin_winner`: a missing file gives no winner. */
  function MarginWinner(file: Option<seq<BoardRow>>, parse: Text.Parser): (r: Result<Option<Winner>>)
    ensures file.None? ==> r == Success(None)
  {
    match file
    case None => Success(None)
    case Some(rows) =>
      var winners :- ReadWinners(rows, parse);
      Success(Leader(winners))
  }

  // ---------------------------------------------------------------------------
  // The CSK voters.
  // ---------------------------------------------------------------------------

  /** One row of a `.csv` winner poll, with the file it came from. */
  datatype Cast = Cast(file: string, row: Streaks.MatchRow)

  /** The rows of one directory's `.csv` files, in listing order. */
  function DirCasts(files: seq<Streaks.MatchFile>): seq<Cast>
    decreases |files|
  {
    if |files| == 0 then []
    else
      var f := files[|files| - 1];
      DirCasts(files[..|files| - 1])
        + (if Text.EndsWith(f.name, ".csv") then seq(|f.rows|, i requires 0 <= i < |f.rows| => Cast(f.name, f.rows[i])) else [])
  }

  /** The rows of every week directory, directories in name order. */
  function Casts(dirs: seq<Streaks.WeekDir>): seq<Cast>
    decreases |dirs|
  {
    if |dirs| == 0 then []
    else
      var d := dirs[|dirs| - 1];
      Casts(dirs[..|dirs| - 1]) + (if Streaks.IsWeekDir(d) then DirCasts(d.pollWinner.value) else [])
  }

  /** A vote for CSK in the Team Voted Short column. */
  predicate ForCsk(c: Cast) {
    c.row.team == "CSK"
  }

  /** The tally: users in order of first CSK vote, each one's CSK match
      numbers (as the text of the digits), and every row's display name. */
  datatype Tally = Tally(order: seq<string>, votes: map<string, seq<string>>, display: map<string, string>)

  /** Every row sets its user's display name; a CSK vote adds the file's match
      number, and a CSK vote in a file without one raises. */
  function Count(casts: seq<Cast>): Result<Tally>
    decreases |casts|
  {
    if |casts| == 0 then Success(Tally([], map[], map[]))
    else
      var t :- Count(casts[..|casts| - 1]);
      var c := casts[|casts| - 1];
      var u := c.row.username;
      if !ForCsk(c) then Success(t.(display := t.display[u := c.row.displayName]))
      else match Streaks.MatchDigits(c.file)
        case None => Failure(BadValue(c.file))
        case Some(num) =>
          var prior := if u in t.votes then t.votes[u] else [];
          Success(Tally(if u in t.votes then t.order else t.order + [u],
                        t.votes[u := prior + [num]],
                        t.display[u := c.row.displayName]))
  }

  // Reference definitions, one user at a time.

  /** The users of the CSK votes, in order. */
  function CskUsers(casts: seq<Cast>): seq<string>
    decreases |casts|
  {
    if |casts| == 0 then []
    else
      var c := casts[|casts| - 1];
      CskUsers(casts[..|casts| - 1]) + (if ForCsk(c) then [c.row.username] else [])
  }

  /** The match numbers of `u`'s CSK votes, in order. */
  function CskMatches(casts: seq<Cast>, u: string): seq<string>
    decreases |casts|
  {
    if |casts| == 0 then []
    else
      var c := casts[|casts| - 1];
      CskMatches(casts[..|casts| - 1], u)
        + (if ForCsk(c) && c.row.username == u then [Streaks.MatchDigits(c.file).GetOr("")] else [])
  }

  /** The display name on `u`'s last row. */
  function LastDisplay(casts: seq<Cast>, u: string): Option<string>
    decreases |casts|
  {
    if |casts| == 0 then None
    else if casts[|casts| - 1].row.username == u then Some(casts[|casts| - 1].row.displayName)
    else LastDisplay(casts[..|casts| - 1], u)
  }

  /** The count fails iff some CSK vote is in a file without a match number. */
  lemma {:induction false} CountOk(casts: seq<Cast>)
    ensures Count(casts).Success? <==>
      forall i :: 0 <= i < |casts| && ForCsk(casts[i]) ==> Streaks.MatchDigits(casts[i].file).Some?
    decreases |casts|
  {
    if |casts| > 0 {
      var n := |casts| - 1;
      CountOk(casts[..n]);
      assert forall i :: 0 <= i < n ==> casts[..n][i] == casts[i];
    }
  }

  /** The voters are the users with a CSK vote, in order of their first one. */
  lemma {:induction false} CountOrder(casts: seq<Cast>)
    ensures Count(casts).Success? ==>
      && Count(casts).value.order == Sorting.FirstSeen(CskUsers(casts))
      && forall u :: u in Count(casts).value.votes <==> u in CskUsers(casts)
    decreases |casts|
  {
    if |casts| > 0 {
      var n := |casts| - 1;
      CountOrder(casts[..n]);
      var c := casts[n];
      if ForCsk(c) {
        Sorting.FirstSeenSnoc(CskUsers(casts[..n]), c.row.username);
      } else {
        assert CskUsers(casts) == CskUsers(casts[..n]);
      }
    }
  }

  /** Each voter's match list is exactly their CSK votes' match numbers. */
  lemma {:induction false} CountVotes(casts: seq<Cast>, u: string)
    ensures Count(casts).Success? && u in Count(casts).value.votes ==>
      Count(casts).value.votes[u] == CskMatches(casts, u)
    decreases |casts|
  {
    if |casts| > 0 {
      var n := |casts| - 1;
      CountVotes(casts[..n], u);
      CountOrder(casts[..n]);
      if Count(casts).Success? && u !in Count(casts[..n]).value.votes {
        CskMatchesNone(casts[..n], u);
      }
    }
  }

  /** A user with no CSK vote yet has no match numbers. */
  lemma {:induction false} CskMatchesNone(casts: seq<Cast>, u: string)
    requires u !in CskUsers(casts)
    ensures CskMatches(casts, u) == []
    decreases |casts|
  {
    if |casts| > 0 {
      CskMatchesNone(casts[..|casts| - 1], u);
    }
  }

  /** Each user's display name is the one on their last row, CSK vote or not. */
  lemma {:induction false} CountDisplay(casts: seq<Cast>, u: string)
    ensures Count(casts).Success? ==>
      && (u in Count(casts).value.display <==> LastDisplay(casts, u).Some?)
      && (u in Count(casts).value.display ==> LastDisplay(casts, u) == Some(Count(casts).value.display[u]))
    decreases |casts|
  {
    if |casts| > 0 {
      CountDisplay(casts[..|casts| - 1], u);
    }
  }

  /** A CSK voter: display name, number of CSK votes, and their match numbers. */
  datatype Voter = Voter(username: string, displayName: string, count: nat, matches: seq<string>)

  function VoterCount(v: Voter): nat {
    v.count
  }

  /** The voters in tally order. */
  function VotersOf(t: Tally, users: seq<string>): (r: seq<Voter>)
    ensures |r| == |users|
    ensures forall i :: 0 <= i < |users| ==> r[i].username == users[i]
    ensures forall i :: 0 <= i < |users| && users[i] in t.votes ==>
      r[i].matches == t.votes[users[i]] && r[i].count == |r[i].matches|
  {
    seq(|users|, i requires 0 <= i < |users| =>
      var u := users[i];
      var matches := if u in t.votes then t.votes[u] else [];
      Voter(u, if u in t.display then t.display[u] else "", |matches|, matches))
  }

  /** The voters by count, highest first; equal counts keep tally order. */
  function ByCount(voters: seq<Voter>): seq<Voter> {
    Sorting.SortBy(voters, VoterCount, Sorting.CountDesc)
  }

  /** `get_top_csk_voters`. */
  function TopCskVoters(dirs: seq<Streaks.WeekDir>, n: nat): Result<seq<Voter>> {
    var t :- Count(Casts(Sorting.SortBy(dirs, Streaks.DirName, Sorting.NameAsc)));
    Success(Sorting.Take(ByCount(VotersOf(t, t.order)), n))
  }

  /** The top voters are the sorted voters' prefix, no dropped voter has more
      CSK votes than a kept one, and equal counts keep tally order. */
  lemma ByCountSpec(voters: seq<Voter>, n: nat)
    ensures var sorted := ByCount(voters);
      var top := Sorting.Take(sorted, n);
      && multiset(sorted) == multiset(voters)
      && (forall i, j :: 0 <= i < |top| <= j < |sorted| ==> sorted[j].count <= top[i].count)
      && (forall i, j :: 0 <= i < j < |sorted| ==> sorted[j].count <= sorted[i].count)
      && forall k: nat :: Sorting.Peers(sorted, VoterCount, Sorting.CountDesc, k)
                       == Sorting.Peers(voters, VoterCount, Sorting.CountDesc, k)
  {
    Sorting.CountDescIsStrictWeakOrder();
    Sorting.SortBySorted(voters, VoterCount, Sorting.CountDesc);
    forall k: nat ensures Sorting.Peers(ByCount(voters), VoterCount, Sorting.CountDesc, k)
                       == Sorting.Peers(voters, VoterCount, Sorting.CountDesc, k) {
      Sorting.SortByStable(voters, VoterCount, Sorting.CountDesc, k);
    }
  }

  /** Every listed voter has at least one CSK vote, and their count and match
      list are those of their CSK votes. */
  lemma TallyVoters(casts: seq<Cast>)
    ensures Count(casts).Success? ==>
      var t := Count(casts).value;
      forall v :: v in VotersOf(t, t.order) ==>
        && v.username in CskUsers(casts)
        && v.matches == CskMatches(casts, v.username)
        && v.count == |CskMatches(casts, v.username)| > 0
  {
    if Count(casts).Success? {
      var t := Count(casts).value;
      CountOrder(casts);
      forall v | v in VotersOf(t, t.order)
        ensures v.username in CskUsers(casts) && v.matches == CskMatches(casts, v.username)
          && v.count == |CskMatches(casts, v.username)| > 0
      {
        var i :| 0 <= i < |t.order| && VotersOf(t, t.order)[i] == v;
        CountVotes(casts, v.username);
        CskMatchesSome(casts, v.username);
      }
    }
  }

  /** A user with a CSK vote has a match number for it. */
  lemma {:induction false} CskMatchesSome(casts: seq<Cast>, u: string)
    ensures u in CskUsers(casts) ==> |CskMatches(casts, u)| > 0
    decreases |casts|
  {
    if |casts| > 0 {
      CskMatchesSome(casts[..|casts| - 1], u);
    }
  }
}

=== FILE: board.dfy ===
/** The shape every season-level script shares: a `defaultdict` keyed by
    username whose value holds a display name and one number per column,
    written row by row; then one output row per user with every listed column
    (0.0 where the user has none) and their sum, sorted and ranked. */
module Board {
  import opened Wrappers
  import Sorting
  import Ranking

  // ---------------------------------------------------------------------------
  // The fold.
  // ---------------------------------------------------------------------------

  /** One write: the user's display name is set and, optionally, one column value. */
  datatype Write<K(==)> = Write(user: string, display: string, cell: Option<(K, real)>)

  /** A user's display name and column values. */
  datatype Acc<K(==)> = Acc(displayName: string, values: map<K, real>)

  /** Users in insertion order and their data. */
  datatype Board<K(==)> = Board(order: seq<string>, users: map<string, Acc<K>>)

  /** A user not yet written has an empty display name and no values. */
  function AccOf<K(==)>(b: Board<K>, u: string): Acc<K> {
    if u in b.users then b.users[u] else Acc("", map[])
  }

  /** `m.get(c)`. */
  function Lookup<K(==)>(m: map<K, real>, c: K): Option<real> {
    if c in m then Some(m[c]) else None
  }

  function Step<K(==)>(b: Board<K>, w: Write<K>): Board<K> {
    var acc := AccOf(b, w.user);
    var values := match w.cell case Some(c) => acc.values[c.0 := c.1] case None => acc.values;
    Board(if w.user in b.users then b.order else b.order + [w.user],
          b.users[w.user := Acc(w.display, values)])
  }

  /** All writes, in order, from an empty dictionary. */
  function Apply<K(==)>(ws: seq<Write<K>>): Board<K>
    decreases |ws|
  {
    if |ws| == 0 then Board([], map[]) else Step(Apply(ws[..|ws| - 1]), ws[|ws| - 1])
  }

  // ---------------------------------------------------------------------------
  // Reference definitions.
  // ---------------------------------------------------------------------------

  /** The users written, in write order. */
  function Writers<K(==)>(ws: seq<Write<K>>): (r: seq<string>)
    ensures |r| == |ws|
    ensures forall i :: 0 <= i < |ws| ==> r[i] == ws[i].user
    decreases |ws|
  {
    if |ws| == 0 then [] else Writers(ws[..|ws| - 1]) + [ws[|ws| - 1].user]
  }

  /** The display name of `u`'s last write, or "" if there is none. */
  function LastDisplay<K(==)>(ws: seq<Write<K>>, u: string): string
    decreases |ws|
  {
    if |ws| == 0 then ""
    else if ws[|ws| - 1].user == u then ws[|ws| - 1].display
    else LastDisplay(ws[..|ws| - 1], u)
  }

  /** The value of `u`'s last write to column `c`, if any. */
  function LastValue<K(==)>(ws: seq<Write<K>>, u: string, c: K): Option<real>
    decreases |ws|
  {
    if |ws| == 0 then None
    else
      var w := ws[|ws| - 1];
      if w.user == u && w.cell.Some? && w.cell.value.0 == c then Some(w.cell.value.1)
      else LastValue(ws[..|ws| - 1], u, c)
  }

  /** A user's data after the writes: present iff written, the last display
      name written, and for every column the last value written. */
  lemma {:induction false} ApplyUser<K>(ws: seq<Write<K>>, u: string)
    ensures u in Apply(ws).users <==> u in Writers(ws)
    ensures AccOf(Apply(ws), u).displayName == LastDisplay(ws, u)
    ensures forall c :: Lookup(AccOf(Apply(ws), u).values, c) == LastValue(ws, u, c)
    decreases |ws|
  {
    if |ws| > 0 {
      var n := |ws| - 1;
      ApplyUser(ws[..n], u);
      assert Writers(ws) == Writers(ws[..n]) + [ws[n].user];
    }
  }

  /** Users appear in order of their first write, once each. */
  lemma {:induction false} ApplyOrder<K>(ws: seq<Write<K>>)
    ensures Apply(ws).order == Sorting.FirstSeen(Writers(ws))
    ensures forall u :: u in Apply(ws).users <==> u in Apply(ws).order
    decreases |ws|
  {
    if |ws| > 0 {
      var n := |ws| - 1;
      var prev := Apply(ws[..n]);
      var u := ws[n].user;
      assert Apply(ws) == Step(prev, ws[n]);
      ApplyOrder(ws[..n]);
      assert u in prev.users <==> u in Sorting.FirstSeen(Writers(ws[..n]));
      Sorting.FirstSeenSnoc(Writers(ws[..n]), u);
      assert Writers(ws) == Writers(ws[..n]) + [u];
    }
  }

  // ---------------------------------------------------------------------------
  // Output rows.
  // ---------------------------------------------------------------------------

  /** One output row: the listed columns' values, then their sum. */
  datatype Row = Row(username: string, displayName: string, values: seq<real>, total: real)

  function Sum(xs: seq<real>): real
    decreases |xs|
  {
    if |xs| == 0 then 0.0 else Sum(xs[..|xs| - 1]) + xs[|xs| - 1]
  }

  /** `data.get(col, 0.0)` for every listed column. */
  function ValuesOf<K(==)>(acc: Acc<K>, columns: seq<K>): (r: seq<real>)
    ensures |r| == |columns|
  {
    seq(|columns|, i requires 0 <= i < |columns| => Lookup(acc.values, columns[i]).GetOr(0.0))
  }

  function RowOf<K(==)>(b: Board<K>, u: string, columns: seq<K>): (r: Row)
    ensures r.username == u
  {
    var values := ValuesOf(AccOf(b, u), columns);
    Row(u, AccOf(b, u).displayName, values, Sum(values))
  }

  /** The rows in dictionary order. */
  function Rows<K(==)>(b: Board<K>, columns: seq<K>): (r: seq<Row>)
    ensures |r| == |b.order|
    ensures forall i :: 0 <= i < |r| ==> r[i] == RowOf(b, b.order[i], columns)
  {
    seq(|b.order|, i requires 0 <= i < |b.order| => RowOf(b, b.order[i], columns))
  }

  /** The row the writes give `u`: each column's last value (0.0 if never
      written), their sum, and the last display name. */
  function ExpectedRow<K(==)>(ws: seq<Write<K>>, u: string, columns: seq<K>): Row {
    var values := seq(|columns|, i requires 0 <= i < |columns| => LastValue(ws, u, columns[i]).GetOr(0.0));
    Row(u, LastDisplay(ws, u), values, Sum(values))
  }

  function Username(r: Row): string {
    r.username
  }

  function Total(r: Row): real {
    r.total
  }

  function TotalAndName(r: Row): Sorting.ScoreName {
    Sorting.ScoreName(r.total, r.username)
  }

  /** Every row is the reference row of its user; one row per written user. */
  lemma RowsMeaning<K>(ws: seq<Write<K>>, columns: seq<K>)
    ensures var rows := Rows(Apply(ws), columns);
      && Sorting.NoDuplicates(Ranking.UsersOf(rows, Username))
      && (forall u :: u in Ranking.UsersOf(rows, Username) <==> u in Writers(ws))
      && (forall i :: 0 <= i < |rows| ==> rows[i] == ExpectedRow(ws, rows[i].username, columns))
  {
    var b := Apply(ws);
    var rows := Rows(b, columns);
    ApplyOrder(ws);
    assert Ranking.UsersOf(rows, Username) == b.order;
    forall u ensures u in b.order <==> u in Writers(ws) {
      ApplyUser(ws, u);
    }
    forall i | 0 <= i < |rows| ensures rows[i] == ExpectedRow(ws, rows[i].username, columns) {
      ApplyUser(ws, b.order[i]);
      assert rows[i].values == ExpectedRow(ws, b.order[i], columns).values;
    }
  }

  /** Any reordering of the rows keeps that meaning. */
  lemma ReorderedRowsMeaning<K>(ws: seq<Write<K>>, columns: seq<K>, r: seq<Row>)
    requires multiset(r) == multiset(Rows(Apply(ws), columns))
    ensures Sorting.NoDuplicates(Ranking.UsersOf(r, Username))
    ensures forall u :: u in Ranking.UsersOf(r, Username) <==> u in Writers(ws)
    ensures forall i :: 0 <= i < |r| ==> r[i] == ExpectedRow(ws, r[i].username, columns)
  {
    RowsMeaning(ws, columns);
    Ranking.ReorderedRows(Rows(Apply(ws), columns), r, Username, u => ExpectedRow(ws, u, columns));
  }

  // ---------------------------------------------------------------------------
  // The three ways the rows leave the scripts.
  // ---------------------------------------------------------------------------

  /** Sort by (-Total, Username). */
  function ByTotalThenName(rows: seq<Row>): (r: seq<Row>)
    ensures multiset(r) == multiset(rows)
  {
    Sorting.SortBy(rows, TotalAndName, Sorting.ScoreDescNameAsc)
  }

  /** The older ranked copies: sort by (-Total, Username), then add the ranks. */
  function RankByTotal(rows: seq<Row>): (r: seq<Ranking.Ranked<Row>>)
    ensures |r| == |rows|
  {
    Ranking.RankRows(ByTotalThenName(rows), Total)
  }

  /** The unranked copies: `sorted(..., key=Total, reverse=True)`, ties in
      dictionary order. */
  function ByTotalStable(rows: seq<Row>): (r: seq<Row>)
    ensures multiset(r) == multiset(rows)
  {
    Sorting.SortBy(rows, Total, Sorting.ScoreDesc)
  }

  /** The stable sort orders by total and keeps equal totals in input order. */
  lemma ByTotalStableSpec(rows: seq<Row>, total: real)
    ensures Sorting.SortedBy(ByTotalStable(rows), Total, Sorting.ScoreDesc)
    ensures Sorting.Peers(ByTotalStable(rows), Total, Sorting.ScoreDesc, total)
         == Sorting.Peers(rows, Total, Sorting.ScoreDesc, total)
  {
    Sorting.ScoreDescIsStrictWeakOrder();
    Sorting.SortBySorted(rows, Total, Sorting.ScoreDesc);
    Sorting.SortByStable(rows, Total, Sorting.ScoreDesc, total);
  }

  /** The older ranked copies order by (-Total, Username) and rank by the scan. */
  lemma RankByTotalSpec(rows: seq<Row>)
    ensures var r := RankByTotal(rows); var out := Ranking.Unranked(r);
      && multiset(out) == multiset(rows)
      && Sorting.SortedBy(out, TotalAndName, Sorting.ScoreDescNameAsc)
      && Ranking.RanksOf(r) == Ranking.Ranks(Ranking.ScoresOf(out, Total))
  {
    assert Ranking.Unranked(RankByTotal(rows)) == ByTotalThenName(rows);
    Sorting.ScoreDescNameAscIsStrictWeakOrder();
    Sorting.SortBySorted(rows, TotalAndName, Sorting.ScoreDescNameAsc);
  }

  /** The newer scripts' result: ranked rows with movement, and the snapshot
      for the next period. */
  datatype Tracked = Tracked(rows: seq<Ranking.Tracked<Row>>, snapshot: Ranking.Snapshot)

  /** Sort by (-Total, Username), rank with movement against `prev`, and
      record every ranked user's dense and standard rank. */
  function RankWithMovement(rows: seq<Row>, prev: Ranking.Snapshot): (r: Tracked)
    ensures |r.rows| == |rows|
  {
    var sorted := ByTotalThenName(rows);
    Tracked(Ranking.RankRowsWithMovement(sorted, Total, Username, prev),
            Ranking.SnapshotOf(Ranking.UsersOf(sorted, Username), Ranking.RanksOf(Ranking.RankRows(sorted, Total))))
  }

  /** With distinct users: the rows come out ordered by (-Total, Username),
      ranked by the ranking scan, and the snapshot holds exactly the ranked
      users, each with the ranks of their row. */
  lemma RankWithMovementSpec(rows: seq<Row>, prev: Ranking.Snapshot)
    requires Sorting.NoDuplicates(Ranking.UsersOf(rows, Username))
    ensures var r := RankWithMovement(rows, prev); var out := Ranking.Untracked(r.rows);
      && multiset(out) == multiset(rows)
      && Sorting.SortedBy(out, TotalAndName, Sorting.ScoreDescNameAsc)
      && (forall i :: 0 <= i < |out| ==>
            r.rows[i].rank == Ranking.Ranks(Ranking.ScoresOf(out, Total))[i])
      && (forall u :: u in r.snapshot <==> u in Ranking.UsersOf(rows, Username))
      && (forall i :: 0 <= i < |out| ==>
            r.snapshot[out[i].username]
            == Ranking.PreviousRanks(Some(r.rows[i].rank.dense), Some(r.rows[i].rank.standard)))
  {
    RankWithMovementOrder(rows, prev);
    RankWithMovementSnapshot(rows, prev);
  }

  /** The ranked rows are the rows, sorted, with their ranks. */
  lemma RankWithMovementOrder(rows: seq<Row>, prev: Ranking.Snapshot)
    ensures var r := RankWithMovement(rows, prev); var out := Ranking.Untracked(r.rows);
      && out == ByTotalThenName(rows)
      && multiset(out) == multiset(rows)
      && Sorting.SortedBy(out, TotalAndName, Sorting.ScoreDescNameAsc)
      && (forall i :: 0 <= i < |out| ==>
            r.rows[i].rank == Ranking.Ranks(Ranking.ScoresOf(out, Total))[i])
  {
    var sorted := ByTotalThenName(rows);
    var r := RankWithMovement(rows, prev);
    assert Ranking.Untracked(r.rows) == sorted;
    Sorting.ScoreDescNameAscIsStrictWeakOrder();
    Sorting.SortBySorted(rows, TotalAndName, Sorting.ScoreDescNameAsc);
  }

  /** The snapshot holds every user's new ranks, and no one else. */
  lemma RankWithMovementSnapshot(rows: seq<Row>, prev: Ranking.Snapshot)
    requires Sorting.NoDuplicates(Ranking.UsersOf(rows, Username))
    ensures var r := RankWithMovement(rows, prev); var out := ByTotalThenName(rows);
      && (forall u :: u in r.snapshot <==> u in Ranking.UsersOf(rows, Username))
      && (forall i :: 0 <= i < |out| ==>
            r.snapshot[out[i].username]
            == Ranking.PreviousRanks(Some(r.rows[i].rank.dense), Some(r.rows[i].rank.standard)))
  {
    var sorted := ByTotalThenName(rows);
    var r := RankWithMovement(rows, prev);
    var users := Ranking.UsersOf(sorted, Username);
    var ranks := Ranking.RanksOf(Ranking.RankRows(sorted, Total));
    Ranking.ReorderedUsers(rows, sorted, Username);
    Ranking.ReorderedDistinct(rows, sorted, Username);
    forall u ensures u in r.snapshot <==> u in Ranking.UsersOf(rows, Username) {
      assert u in r.snapshot <==> u in users;
    }
    forall i | 0 <= i < |sorted|
      ensures r.snapshot[sorted[i].username]
           == Ranking.PreviousRanks(Some(r.rows[i].rank.dense), Some(r.rows[i].rank.standard))
    {
      assert users[i] == sorted[i].username;
      Ranking.SnapshotHoldsRanks(users, ranks, i);
    }
  }


  /** Ranking with movement keeps the board's rows: each output row is the
      reference row of its user. */
  lemma RankWithMovementRows<K>(ws: seq<Write<K>>, columns: seq<K>, prev: Ranking.Snapshot)
    ensures var out := Ranking.Untracked(RankWithMovement(Rows(Apply(ws), columns), prev).rows);
      forall i :: 0 <= i < |out| ==> out[i] == ExpectedRow(ws, out[i].username, columns)
  {
    var rows := Rows(Apply(ws), columns);
    assert Ranking.Untracked(RankWithMovement(rows, prev).rows) == ByTotalThenName(rows);
    ReorderedRowsMeaning(ws, columns, ByTotalThenName(rows));
  }
}

=== FILE: detailed.dfy ===
/** The cross-week detailed leaderboards: the weekly leaderboard files of the
    selected weeks are read in order, each week's `Match_<m>` cells are
    renumbered to global match numbers by a running offset (the number of
    matches of the weeks before), the weekly totals are summed, and the result
    has one `Match_<g>` cell pair per global match up to the largest stored,
    `---`/0.0 where a user has none. */
module Detailed {
  import opened Wrappers
  import Text
  import Seqs
  import Sorting
  import Ranking
  import Weekly
  import WeekSelection

  // ---------------------------------------------------------------------------
  // Input.
  // ---------------------------------------------------------------------------

  /** One row of a weekly leaderboard file: the username, the display name and
      the total text ("" when the cell is absent or empty), and every other
      field by header. */
  datatype WeekRow = WeekRow(username: string, displayName: string, total: string, fields: map<string, string>)

  /** A weekly leaderboard file: its header and its rows. */
  datatype WeekFile = WeekFile(header: seq<string>, rows: seq<WeekRow>)

  /** A header that names a match's team cell: starts with `Match_` and
      contains `Team_Short`. */
  predicate IsShortKey(key: string) {
    Text.StartsWith(key, "Match_") && Text.Contains(key, "Team_Short")
  }

  /** The number of matches of a week: the team-cell keys of its first
      row's dict, so a column name the header repeats counts once. */
  function MatchCount(header: seq<string>): (n: nat)
    ensures n <= |header|
    ensures n == 0 <==> forall i :: 0 <= i < |header| ==> !IsShortKey(header[i])
    decreases |header|
  {
    if |header| == 0 then 0
    else
      var init := header[..|header| - 1];
      var key := header[|header| - 1];
      var n := MatchCount(init) + (if IsShortKey(key) && key !in init then 1 else 0);
      assert forall i :: 0 <= i < |init| ==> init[i] == header[i];
      n
  }

  /** The distinct team-cell keys of a header. */
  function ShortKeys(header: seq<string>): set<string> {
    set k | k in header && IsShortKey(k)
  }

  /** The match count is the number of distinct team-cell keys, as the first
      row's dict holds them. */
  lemma {:induction false} MatchCountIsDistinctKeys(header: seq<string>)
    ensures MatchCount(header) == |ShortKeys(header)|
    decreases |header|
  {
    if |header| > 0 {
      var init := header[..|header| - 1];
      var key := header[|header| - 1];
      MatchCountIsDistinctKeys(init);
      assert header == init + [key];
      if IsShortKey(key) && key !in init {
        assert ShortKeys(header) == ShortKeys(init) + {key};
      } else {
        assert ShortKeys(header) == ShortKeys(init);
      }
    } else {
      assert ShortKeys(header) == {};
    }
  }

  /** A repeated column name adds no match. */
  lemma MatchCountRepeat(header: seq<string>, i: nat)
    requires i < |header|
    ensures MatchCount(header + [header[i]]) == MatchCount(header)
  {
    var h := header + [header[i]];
    assert h[..|h| - 1] == header;
    assert h[|h| - 1] in header;
  }

  /** The detailed leaderboard reads a week only when it has a first row, a
      `Username` column and a `Total_Points` column. Without `Username` the
      first row's lookup raises inside the per-file handler before anything
      is stored or the offset moves, so that week is skipped as well. */
  predicate Usable(f: WeekFile) {
    |f.rows| > 0 && "Username" in f.header && "Total_Points" in f.header
  }

  function ShortKey(m: nat): string {
    Weekly.MatchColumn(m, "Team_Short")
  }

  function PointsKey(m: nat): string {
    Weekly.MatchColumn(m, "Points")
  }

  /** A row voted in local match `m`: the team cell exists, is non-empty and
      is not `---`. */
  predicate Voted(row: WeekRow, m: nat) {
    ShortKey(m) in row.fields && row.fields[ShortKey(m)] != "" && row.fields[ShortKey(m)] != "---"
  }

  /** `row[points_key] or '0'`. A file whose header lacks the points column
      makes the script raise and drop the rest of that file; the model reads
      the missing cell as empty instead. */
  function PointsText(row: WeekRow, m: nat): string {
    var t := if PointsKey(m) in row.fields then row.fields[PointsKey(m)] else "";
    if t == "" then "0" else t
  }

  /** `row['Total_Points'] or '0'`. */
  function TotalText(row: WeekRow): string {
    if row.total == "" then "0" else row.total
  }

  /** A value that does not parse counts 0.0. */
  function Lenient(parse: Text.Parser, text: string): real {
    parse(text).GetOr(0.0)
  }

  // ---------------------------------------------------------------------------
  // Rows as events.
  // ---------------------------------------------------------------------------

  /** A stored match cell. */
  datatype MatchCell = MatchCell(short: string, points: real)

  const NoVote := MatchCell("---", 0.0)

  /** One update of a user's entry: a display-name candidate ("" for none), an
      amount added to the total, and optionally a match cell stored under a
      global match number. */
  datatype Event = Event(user: string, display: string, add: real, cell: Option<(nat, MatchCell)>)

  /** The cells a row stores for local matches 1..`upTo`, numbered from `offset`. */
  function CellEvents(row: WeekRow, offset: nat, upTo: nat, parse: Text.Parser): (es: seq<Event>)
    ensures forall i :: 0 <= i < |es| ==>
      es[i].user == row.username && es[i].display == "" && es[i].add == 0.0 && es[i].cell.Some?
      && offset < es[i].cell.value.0 <= offset + upTo
    decreases upTo
  {
    if upTo == 0 then []
    else
      CellEvents(row, offset, upTo - 1, parse)
      + (if Voted(row, upTo)
         then [Event(row.username, "", 0.0,
                     Some((offset + upTo, MatchCell(row.fields[ShortKey(upTo)], Lenient(parse, PointsText(row, upTo))))))]
         else [])
  }

  /** A row offers its display name and adds its total, then stores its cells. */
  function RowEvents(row: WeekRow, offset: nat, count: nat, parse: Text.Parser): (es: seq<Event>)
    ensures |es| > 0 && es[0] == Event(row.username, row.displayName, Lenient(parse, TotalText(row)), None)
    ensures forall i :: 0 <= i < |es| ==> es[i].user == row.username
    ensures forall i :: 0 <= i < |es| && es[i].cell.Some? ==> offset < es[i].cell.value.0 <= offset + count
  {
    [Event(row.username, row.displayName, Lenient(parse, TotalText(row)), None)]
    + CellEvents(row, offset, count, parse)
  }

  function RowsEvents(rows: seq<WeekRow>, offset: nat, count: nat, parse: Text.Parser): (es: seq<Event>)
    ensures forall i :: 0 <= i < |es| && es[i].cell.Some? ==> offset < es[i].cell.value.0 <= offset + count
    decreases |rows|
  {
    if |rows| == 0 then []
    else RowsEvents(rows[..|rows| - 1], offset, count, parse) + RowEvents(rows[|rows| - 1], offset, count, parse)
  }

  /** The running offset after the weeks: the match counts of the usable ones. */
  function Offset(files: seq<WeekFile>): nat
    decreases |files|
  {
    if |files| == 0 then 0
    else
      var last := files[|files| - 1];
      Offset(files[..|files| - 1]) + (if Usable(last) then MatchCount(last.header) else 0)
  }

  /** The events of one week, numbered from `offset`; none when it is not usable. */
  function WeekEvents(f: WeekFile, offset: nat, parse: Text.Parser): seq<Event> {
    if Usable(f) then RowsEvents(f.rows, offset, MatchCount(f.header), parse) else []
  }

  /** Every week's events in order, each numbered from the offset the weeks
      before it leave. */
  function Events(files: seq<WeekFile>, parse: Text.Parser): (es: seq<Event>)
    decreases |files|
  {
    if |files| == 0 then []
    else
      var n := |files| - 1;
      Events(files[..n], parse) + WeekEvents(files[n], Offset(files[..n]), parse)
  }

  // ---------------------------------------------------------------------------
  // The combined entries.
  // ---------------------------------------------------------------------------

  datatype Entry = Entry(displayName: string, matches: map<nat, MatchCell>, total: real)

  datatype Combined = Combined(order: seq<string>, users: map<string, Entry>)

  /** A user not yet seen: no display name, no cells, total 0.0. */
  function EntryOf(c: Combined, u: string): Entry {
    if u in c.users then c.users[u] else Entry("", map[], 0.0)
  }

  /** The display name is set by the first non-empty candidate; cells are
      overwritten; totals add up. */
  function Step(c: Combined, e: Event): Combined {
    var acc := EntryOf(c, e.user);
    var display := if acc.displayName == "" then e.display else acc.displayName;
    var matches := match e.cell case Some(g) => acc.matches[g.0 := g.1] case None => acc.matches;
    Combined(if e.user in c.users then c.order else c.order + [e.user],
             c.users[e.user := Entry(display, matches, acc.total + e.add)])
  }

  function Apply(es: seq<Event>): Combined
    decreases |es|
  {
    if |es| == 0 then Combined([], map[]) else Step(Apply(es[..|es| - 1]), es[|es| - 1])
  }

  // ---------------------------------------------------------------------------
  // Reference definitions over events.
  // ---------------------------------------------------------------------------

  function Users(es: seq<Event>): (r: seq<string>)
    ensures |r| == |es|
    ensures forall i :: 0 <= i < |es| ==> r[i] == es[i].user
    decreases |es|
  {
    if |es| == 0 then [] else Users(es[..|es| - 1]) + [es[|es| - 1].user]
  }

  /** Whether `u` has an event with a non-empty display name. */
  predicate HasDisplay(es: seq<Event>, u: string) {
    exists i :: 0 <= i < |es| && es[i].user == u && es[i].display != ""
  }

  /** Event `i` is `u`'s first with a non-empty display name. */
  predicate FirstOffer(es: seq<Event>, u: string, i: int) {
    0 <= i < |es| && es[i].user == u && es[i].display != ""
    && forall j :: 0 <= j < i && es[j].user == u ==> es[j].display == ""
  }

  /** The display name of `u`'s first event that has one, else "". */
  function FirstDisplay(es: seq<Event>, u: string): (d: string)
    ensures d == "" <==> !HasDisplay(es, u)
    ensures d != "" ==> exists i :: FirstOffer(es, u, i) && es[i].display == d
    decreases |es|
  {
    if |es| == 0 then ""
    else
      var i := |es| - 1;
      var init := es[..i];
      var prior := FirstDisplay(init, u);
      assert forall j :: 0 <= j < i ==> init[j] == es[j];
      if prior != "" then prior
      else if es[i].user == u then es[i].display
      else ""
  }

  /** The sum of the amounts `u`'s events add. */
  function TotalOf(es: seq<Event>, u: string): real
    decreases |es|
  {
    if |es| == 0 then 0.0
    else TotalOf(es[..|es| - 1], u) + (if es[|es| - 1].user == u then es[|es| - 1].add else 0.0)
  }

  /** The cell of `u`'s last event storing match `g`, if any. */
  function LastCell(es: seq<Event>, u: string, g: nat): Option<MatchCell>
    decreases |es|
  {
    if |es| == 0 then None
    else
      var e := es[|es| - 1];
      if e.user == u && e.cell.Some? && e.cell.value.0 == g then Some(e.cell.value.1)
      else LastCell(es[..|es| - 1], u, g)
  }

  /** `d.get(g)`. */
  function Lookup(m: map<nat, MatchCell>, g: nat): Option<MatchCell> {
    if g in m then Some(m[g]) else None
  }

  /** A user has an entry after the events iff they have an event. */
  lemma {:induction false} ApplyUserPresent(es: seq<Event>, u: string)
    ensures u in Apply(es).users <==> u in Users(es)
    decreases |es|
  {
    if |es| > 0 {
      var n := |es| - 1;
      ApplyUserPresent(es[..n], u);
      assert Users(es) == Users(es[..n]) + [es[n].user];
    }
  }

  /** A user's display name after the events: the first one offered. */
  lemma {:induction false} ApplyUserDisplay(es: seq<Event>, u: string)
    ensures EntryOf(Apply(es), u).displayName == FirstDisplay(es, u)
    decreases |es|
  {
    if |es| > 0 {
      var n := |es| - 1;
      ApplyUserDisplay(es[..n], u);
      assert Apply(es) == Step(Apply(es[..n]), es[n]);
    }
  }

  /** A user's total after the events: the sum of their amounts. */
  lemma {:induction false} ApplyUserTotal(es: seq<Event>, u: string)
    ensures EntryOf(Apply(es), u).total == TotalOf(es, u)
    decreases |es|
  {
    if |es| > 0 {
      var n := |es| - 1;
      ApplyUserTotal(es[..n], u);
      assert Apply(es) == Step(Apply(es[..n]), es[n]);
    }
  }

  /** A user's cell for match `g` after the events: the last one stored. */
  lemma {:induction false} ApplyUserCell(es: seq<Event>, u: string, g: nat)
    ensures Lookup(EntryOf(Apply(es), u).matches, g) == LastCell(es, u, g)
    decreases |es|
  {
    if |es| > 0 {
      var n := |es| - 1;
      ApplyUserCell(es[..n], u, g);
      assert Apply(es) == Step(Apply(es[..n]), es[n]);
    }
  }

  lemma ApplyUser(es: seq<Event>, u: string)
    ensures u in Apply(es).users <==> u in Users(es)
    ensures EntryOf(Apply(es), u).displayName == FirstDisplay(es, u)
    ensures EntryOf(Apply(es), u).total == TotalOf(es, u)
    ensures forall g: nat :: Lookup(EntryOf(Apply(es), u).matches, g) == LastCell(es, u, g)
  {
    ApplyUserPresent(es, u);
    ApplyUserDisplay(es, u);
    ApplyUserTotal(es, u);
    forall g: nat ensures Lookup(EntryOf(Apply(es), u).matches, g) == LastCell(es, u, g) {
      ApplyUserCell(es, u, g);
    }
  }

  /** Users appear in order of their first event, once each. */
  lemma {:induction false} ApplyOrder(es: seq<Event>)
    ensures Apply(es).order == Sorting.FirstSeen(Users(es))
    ensures forall u :: u in Apply(es).users <==> u in Apply(es).order
    decreases |es|
  {
    if |es| > 0 {
      var n := |es| - 1;
      var prev := Apply(es[..n]);
      var u := es[n].user;
      assert Apply(es) == Step(prev, es[n]);
      ApplyOrder(es[..n]);
      assert u in prev.users <==> u in Sorting.FirstSeen(Users(es[..n]));
      Sorting.FirstSeenSnoc(Users(es[..n]), u);
      assert Users(es) == Users(es[..n]) + [u];
    }
  }

  // ---------------------------------------------------------------------------
  // Concatenated events.
  // ---------------------------------------------------------------------------

  lemma UsersAppend(a: seq<Event>, b: seq<Event>)
    ensures Users(a + b) == Users(a) + Users(b)
  {
  }

  /** The last cell of `a + b` is `b`'s when `b` has one. */
  lemma {:induction false} LastCellAppend(a: seq<Event>, b: seq<Event>, u: string, g: nat)
    ensures LastCell(a + b, u, g) == if LastCell(b, u, g).Some? then LastCell(b, u, g) else LastCell(a, u, g)
    decreases |b|
  {
    if |b| > 0 {
      var n := |b| - 1;
      Seqs.AppendInit(a, b);
      LastCellAppend(a, b[..n], u, g);
    } else {
      Seqs.AppendEmpty(a);
    }
  }

  lemma {:induction false} TotalOfAppend(a: seq<Event>, b: seq<Event>, u: string)
    ensures TotalOf(a + b, u) == TotalOf(a, u) + TotalOf(b, u)
    decreases |b|
  {
    if |b| > 0 {
      var n := |b| - 1;
      Seqs.AppendInit(a, b);
      TotalOfAppend(a, b[..n], u);
    } else {
      Seqs.AppendEmpty(a);
    }
  }

  /** The first display name is the one of the first offer. */
  lemma FirstOfferIs(es: seq<Event>, u: string, i: int)
    requires FirstOffer(es, u, i)
    ensures FirstDisplay(es, u) == es[i].display
  {
    assert HasDisplay(es, u);
    var j :| FirstOffer(es, u, j) && es[j].display == FirstDisplay(es, u);
    assert FirstOffer(es, u, j);
  }

  /** The first display name of `a + b` is `a`'s when `a` offers one. */
  lemma FirstDisplayAppend(a: seq<Event>, b: seq<Event>, u: string)
    ensures FirstDisplay(a + b, u) == if FirstDisplay(a, u) != "" then FirstDisplay(a, u) else FirstDisplay(b, u)
  {
    var ab := a + b;
    var d := FirstDisplay(ab, u);
    if FirstDisplay(a, u) != "" {
      var i :| FirstOffer(a, u, i) && a[i].display == FirstDisplay(a, u);
      assert FirstOffer(ab, u, i) by {
        assert forall j :: 0 <= j <= i ==> ab[j] == a[j];
      }
      FirstOfferIs(ab, u, i);
    } else if FirstDisplay(b, u) != "" {
      var i :| FirstOffer(b, u, i) && b[i].display == FirstDisplay(b, u);
      assert FirstOffer(ab, u, |a| + i) by {
        assert forall j :: 0 <= j < |a| ==> ab[j] == a[j];
        assert forall j :: 0 <= j <= i ==> ab[|a| + j] == b[j];
        assert !HasDisplay(a, u);
      }
      FirstOfferIs(ab, u, |a| + i);
    } else {
      forall i | 0 <= i < |ab| && ab[i].user == u
        ensures ab[i].display == ""
      {
        if i < |a| {
          assert a[i] == ab[i];
        } else {
          assert b[i - |a|] == ab[i];
        }
      }
    }
  }

  // ---------------------------------------------------------------------------
  // One row.
  // ---------------------------------------------------------------------------

  /** The cell a row stores for local match `m`, if it voted. */
  function VoteCell(row: WeekRow, m: nat, parse: Text.Parser): MatchCell
    requires Voted(row, m)
  {
    MatchCell(row.fields[ShortKey(m)], Lenient(parse, PointsText(row, m)))
  }

  /** The cell a row contributes to global match `g` when its matches are
      numbered from `offset` + 1 to `offset` + `upTo`. */
  function RowCell(row: WeekRow, offset: nat, upTo: nat, g: nat, parse: Text.Parser): Option<MatchCell> {
    if offset < g <= offset + upTo && Voted(row, g - offset) then Some(VoteCell(row, g - offset, parse)) else None
  }

  /** A row's cell events store exactly the matches it voted in. */
  lemma {:induction false} CellEventsCell(row: WeekRow, offset: nat, upTo: nat, parse: Text.Parser, u: string, g: nat)
    ensures LastCell(CellEvents(row, offset, upTo, parse), u, g)
         == if row.username == u then RowCell(row, offset, upTo, g, parse) else None
    decreases upTo
  {
    if upTo == 0 {
      assert CellEvents(row, offset, 0, parse) == [];
      assert RowCell(row, offset, 0, g, parse) == None;
    } else {
      CellEventsCell(row, offset, upTo - 1, parse, u, g);
      CellEventsCellStep(row, offset, upTo, parse, u, g);
    }
  }

  /** The step of `CellEventsCell`: match `upTo` adds at most the cell for `offset + upTo`. */
  lemma CellEventsCellStep(row: WeekRow, offset: nat, upTo: nat, parse: Text.Parser, u: string, g: nat)
    requires upTo > 0
    requires LastCell(CellEvents(row, offset, upTo - 1, parse), u, g)
          == if row.username == u then RowCell(row, offset, upTo - 1, g, parse) else None
    ensures LastCell(CellEvents(row, offset, upTo, parse), u, g)
         == if row.username == u then RowCell(row, offset, upTo, g, parse) else None
  {
    var prior := CellEvents(row, offset, upTo - 1, parse);
    if Voted(row, upTo) {
      var e := Event(row.username, "", 0.0, Some((offset + upTo, VoteCell(row, upTo, parse))));
      assert CellEvents(row, offset, upTo, parse) == prior + [e];
      LastCellSnoc(prior, e, u, g);
    } else {
      assert CellEvents(row, offset, upTo, parse) == prior + [];
      Seqs.AppendEmpty(prior);
    }
    assert g != offset + upTo ==> RowCell(row, offset, upTo, g, parse) == RowCell(row, offset, upTo - 1, g, parse);
  }

  /** The last cell of `es + [e]` is `e`'s when `e` stores one for `u` and `g`. */
  lemma LastCellSnoc(es: seq<Event>, e: Event, u: string, g: nat)
    ensures LastCell(es + [e], u, g)
         == if e.user == u && e.cell.Some? && e.cell.value.0 == g then Some(e.cell.value.1) else LastCell(es, u, g)
  {
    Seqs.AppendInit(es, [e]);
    assert [e][..0] == [];
    Seqs.AppendEmpty(es);
  }

  lemma {:induction false} CellEventsTotal(row: WeekRow, offset: nat, upTo: nat, parse: Text.Parser, u: string)
    ensures TotalOf(CellEvents(row, offset, upTo, parse), u) == 0.0
    decreases upTo
  {
    if upTo > 0 {
      var prior := CellEvents(row, offset, upTo - 1, parse);
      var last := CellEvents(row, offset, upTo, parse)[|prior|..];
      assert CellEvents(row, offset, upTo, parse) == prior + last;
      CellEventsTotal(row, offset, upTo - 1, parse, u);
      TotalOfAppend(prior, last, u);
      if |last| > 0 {
        assert last[..0] == [];
      }
    }
  }

  /** A row's events: the cells it voted, its total, and its display name. */
  lemma RowEventsMeaning(row: WeekRow, offset: nat, count: nat, parse: Text.Parser, u: string)
    ensures forall g: nat ::
      LastCell(RowEvents(row, offset, count, parse), u, g) == if row.username == u then RowCell(row, offset, count, g, parse) else None
    ensures TotalOf(RowEvents(row, offset, count, parse), u)
         == if row.username == u then Lenient(parse, TotalText(row)) else 0.0
    ensures FirstDisplay(RowEvents(row, offset, count, parse), u)
         == if row.username == u then row.displayName else ""
  {
    var head := [Event(row.username, row.displayName, Lenient(parse, TotalText(row)), None)];
    var cells := CellEvents(row, offset, count, parse);
    assert RowEvents(row, offset, count, parse) == head + cells;
    assert head[..0] == [];
    forall g: nat ensures LastCell(head + cells, u, g)
         == if row.username == u then RowCell(row, offset, count, g, parse) else None
    {
      LastCellAppend(head, cells, u, g);
      CellEventsCell(row, offset, count, parse, u, g);
    }
    TotalOfAppend(head, cells, u);
    CellEventsTotal(row, offset, count, parse, u);
    FirstDisplayAppend(head, cells, u);
  }

  // ---------------------------------------------------------------------------
  // Reference definitions over the rows of one week.
  // ---------------------------------------------------------------------------

  /** `u`'s cell for local match `m`: the last of `u`'s rows that voted in it. */
  function LastVote(rows: seq<WeekRow>, u: string, m: nat, parse: Text.Parser): Option<MatchCell>
    decreases |rows|
  {
    if |rows| == 0 then None
    else
      var row := rows[|rows| - 1];
      if row.username == u && Voted(row, m) then Some(VoteCell(row, m, parse))
      else LastVote(rows[..|rows| - 1], u, m, parse)
  }

  /** The sum of the totals of `u`'s rows. */
  function RowsTotal(rows: seq<WeekRow>, u: string, parse: Text.Parser): real
    decreases |rows|
  {
    if |rows| == 0 then 0.0
    else
      var row := rows[|rows| - 1];
      RowsTotal(rows[..|rows| - 1], u, parse) + (if row.username == u then Lenient(parse, TotalText(row)) else 0.0)
  }

  /** The display name of `u`'s first row that has a non-empty one, else "". */
  function RowsDisplay(rows: seq<WeekRow>, u: string): string
    decreases |rows|
  {
    if |rows| == 0 then ""
    else
      var prior := RowsDisplay(rows[..|rows| - 1], u);
      var row := rows[|rows| - 1];
      if prior != "" then prior else if row.username == u then row.displayName else ""
  }

  function RowUsers(rows: seq<WeekRow>): (r: seq<string>)
    ensures |r| == |rows|
    ensures forall j :: 0 <= j < |rows| ==> r[j] == rows[j].username
    decreases |rows|
  {
    if |rows| == 0 then [] else RowUsers(rows[..|rows| - 1]) + [rows[|rows| - 1].username]
  }

  /** A week's events store, for each match, each user's last vote; add up
      the users' totals; offer their first display names; and name exactly
      the users with a row. */
  lemma {:induction false} RowsEventsMeaning(rows: seq<WeekRow>, offset: nat, count: nat, parse: Text.Parser, u: string)
    ensures forall g: nat ::
      LastCell(RowsEvents(rows, offset, count, parse), u, g) == if offset < g <= offset + count then LastVote(rows, u, g - offset, parse) else None
    ensures TotalOf(RowsEvents(rows, offset, count, parse), u) == RowsTotal(rows, u, parse)
    ensures FirstDisplay(RowsEvents(rows, offset, count, parse), u) == RowsDisplay(rows, u)
    ensures u in Users(RowsEvents(rows, offset, count, parse)) <==> u in RowUsers(rows)
    decreases |rows|
  {
    if |rows| > 0 {
      var n := |rows| - 1;
      var row := rows[n];
      var prior := RowsEvents(rows[..n], offset, count, parse);
      var last := RowEvents(row, offset, count, parse);
      assert RowsEvents(rows, offset, count, parse) == prior + last;
      RowsEventsMeaning(rows[..n], offset, count, parse, u);
      RowEventsMeaning(row, offset, count, parse, u);
      forall g: nat
        ensures LastCell(prior + last, u, g) == if offset < g <= offset + count then LastVote(rows, u, g - offset, parse) else None
      {
        LastCellAppend(prior, last, u, g);
      }
      TotalOfAppend(prior, last, u);
      FirstDisplayAppend(prior, last, u);
      UsersAppend(prior, last);
      assert u in Users(last) <==> u == row.username by {
        assert Users(last)[0] == row.username;
      }
      assert RowUsers(rows) == RowUsers(rows[..n]) + [row.username];
    }
  }

  // ---------------------------------------------------------------------------
  // Reference definitions over the weeks.
  // ---------------------------------------------------------------------------

  /** The week `k` and its local match `m` that global match `g` numbers:
      the usable weeks' matches are numbered consecutively from 1. */
  function Owner(files: seq<WeekFile>, g: nat): (r: Option<(nat, nat)>)
    ensures r.None? <==> !(0 < g <= Offset(files))
    ensures r.Some? ==> r.value.0 < |files| && Usable(files[r.value.0])
    ensures r.Some? ==> 1 <= r.value.1 <= MatchCount(files[r.value.0].header)
    ensures r.Some? ==> g == Offset(files[..r.value.0]) + r.value.1
    decreases |files|
  {
    if |files| == 0 then None
    else
      var n := |files| - 1;
      var init := files[..n];
      if Usable(files[n]) && Offset(init) < g <= Offset(files) then Some((n, g - Offset(init)))
      else
        var r := Owner(init, g);
        assert r.Some? ==> files[r.value.0] == init[r.value.0] && files[..r.value.0] == init[..r.value.0];
        r
  }

  lemma OwnerLast(files: seq<WeekFile>, g: nat)
    requires |files| > 0
    ensures var n := |files| - 1;
      Owner(files, g) == if Usable(files[n]) && Offset(files[..n]) < g <= Offset(files) then Some((n, g - Offset(files[..n]))) else Owner(files[..n], g)
  {
  }

  /** Global match `g` is one of the week's, when its matches are numbered
      on from `offset`. */
  predicate InWeek(f: WeekFile, offset: nat, g: nat) {
    Usable(f) && offset < g <= offset + MatchCount(f.header)
  }

  /** `u`'s last vote in the week's match that global match `g` numbers. */
  function WeekVote(f: WeekFile, offset: nat, u: string, g: nat, parse: Text.Parser): Option<MatchCell> {
    if offset < g then LastVote(f.rows, u, g - offset, parse) else None
  }

  /** `u`'s cell for global match `g`: their last vote in the latest usable
      week whose matches, numbered on from the weeks before it, include `g`. */
  function CellAt(files: seq<WeekFile>, u: string, g: nat, parse: Text.Parser): Option<MatchCell>
    decreases |files|
  {
    if |files| == 0 then None
    else
      var n := |files| - 1;
      var off := Offset(files[..n]);
      if InWeek(files[n], off, g) then WeekVote(files[n], off, u, g, parse)
      else CellAt(files[..n], u, g, parse)
  }

  /** `Owner` peels the last week off exactly as `CellAt` does. */
  lemma OwnerStep(files: seq<WeekFile>, g: nat)
    requires |files| > 0
    ensures var n := |files| - 1;
      Owner(files, g) == if InWeek(files[n], Offset(files[..n]), g) then Some((n, g - Offset(files[..n]))) else Owner(files[..n], g)
  {
    var n := |files| - 1;
    OwnerLast(files, g);
    assert Offset(files) == Offset(files[..n]) + (if Usable(files[n]) then MatchCount(files[n].header) else 0);
  }

  /** The cell for global match `g` is the last vote in the week and local
      match that `Owner` assigns to `g`, and there is none when no week does. */
  lemma {:induction false} CellAtOwner(files: seq<WeekFile>, u: string, g: nat, parse: Text.Parser)
    ensures CellAt(files, u, g, parse)
         == match Owner(files, g)
            case None => None
            case Some(o) => LastVote(files[o.0].rows, u, o.1, parse)
    decreases |files|
  {
    if |files| > 0 {
      var n := |files| - 1;
      var init := files[..n];
      OwnerStep(files, g);
      CellAtStep(files, u, g, parse);
      if !InWeek(files[n], Offset(init), g) {
        CellAtOwner(init, u, g, parse);
        var o := Owner(init, g);
        if o.Some? {
          assert files[o.value.0] == init[o.value.0];
        }
      }
    }
  }

  /** The sum of `u`'s totals over the usable weeks. */
  function FilesTotal(files: seq<WeekFile>, u: string, parse: Text.Parser): real
    decreases |files|
  {
    if |files| == 0 then 0.0
    else
      var last := files[|files| - 1];
      FilesTotal(files[..|files| - 1], u, parse) + (if Usable(last) then RowsTotal(last.rows, u, parse) else 0.0)
  }

  /** `u`'s first non-empty display name over the usable weeks, else "". */
  function FilesDisplay(files: seq<WeekFile>, u: string): string
    decreases |files|
  {
    if |files| == 0 then ""
    else
      var prior := FilesDisplay(files[..|files| - 1], u);
      var last := files[|files| - 1];
      if prior != "" then prior else if Usable(last) then RowsDisplay(last.rows, u) else ""
  }

  /** The usernames of the usable weeks' rows. */
  function FilesUsers(files: seq<WeekFile>): seq<string>
    decreases |files|
  {
    if |files| == 0 then []
    else
      var last := files[|files| - 1];
      FilesUsers(files[..|files| - 1]) + (if Usable(last) then RowUsers(last.rows) else [])
  }

  /** A week's events hold, for each of its matches, each user's last vote. */
  lemma WeekCell(f: WeekFile, offset: nat, parse: Text.Parser, u: string, g: nat)
    ensures LastCell(WeekEvents(f, offset, parse), u, g) == if InWeek(f, offset, g) then WeekVote(f, offset, u, g, parse) else None
  {
    if Usable(f) {
      RowsEventsMeaning(f.rows, offset, MatchCount(f.header), parse, u);
    }
  }

  /** The last week's events come after, and override, the earlier weeks'. */
  lemma EventsSplitCell(files: seq<WeekFile>, parse: Text.Parser, u: string, g: nat)
    requires |files| > 0
    ensures var n := |files| - 1;
      var w := LastCell(WeekEvents(files[n], Offset(files[..n]), parse), u, g);
      LastCell(Events(files, parse), u, g) == if w.Some? then w else LastCell(Events(files[..n], parse), u, g)
  {
    var n := |files| - 1;
    var w := WeekEvents(files[n], Offset(files[..n]), parse);
    assert Events(files, parse) == Events(files[..n], parse) + w;
    LastCellAppend(Events(files[..n], parse), w, u, g);
  }

  /** Each user's cell for a global match, as the events store it, is the
      reference cell. */
  lemma {:induction false} EventsCell(files: seq<WeekFile>, parse: Text.Parser, u: string, g: nat)
    ensures LastCell(Events(files, parse), u, g) == CellAt(files, u, g, parse)
    decreases |files|
  {
    if |files| > 0 {
      EventsCell(files[..|files| - 1], parse, u, g);
      EventsCellStep(files, parse, u, g);
    } else {
      assert Owner(files, g) == None;
    }
  }

  /** The inductive step: adding the last week keeps the events' cells equal
      to the reference cells. */
  lemma EventsCellStep(files: seq<WeekFile>, parse: Text.Parser, u: string, g: nat)
    requires |files| > 0
    requires LastCell(Events(files[..|files| - 1], parse), u, g) == CellAt(files[..|files| - 1], u, g, parse)
    ensures LastCell(Events(files, parse), u, g) == CellAt(files, u, g, parse)
  {
    var n := |files| - 1;
    var init, last := files[..n], files[n];
    var off := Offset(init);
    var inLast := InWeek(last, off, g);
    var w := LastCell(WeekEvents(last, off, parse), u, g);
    var vote := WeekVote(last, off, u, g, parse);
    EventsSplitCell(files, parse, u, g);
    WeekCell(last, off, parse, u, g);
    CellAtStep(files, u, g, parse);
    if inLast {
      CellAtBeyond(init, u, g, parse);
    }
    PickCell(LastCell(Events(files, parse), u, g), LastCell(Events(init, parse), u, g),
             CellAt(files, u, g, parse), CellAt(init, u, g, parse), w, vote, inLast);
  }

  lemma CellAtStep(files: seq<WeekFile>, u: string, g: nat, parse: Text.Parser)
    requires |files| > 0
    ensures var n := |files| - 1; var off := Offset(files[..n]);
      CellAt(files, u, g, parse)
        == if InWeek(files[n], off, g) then WeekVote(files[n], off, u, g, parse) else CellAt(files[..n], u, g, parse)
  {
  }

  /** No cell lies past the weeks' matches. */
  lemma CellAtBeyond(files: seq<WeekFile>, u: string, g: nat, parse: Text.Parser)
    requires g > Offset(files)
    ensures CellAt(files, u, g, parse) == None
  {
    CellAtOwner(files, u, g, parse);
    assert Owner(files, g) == None;
  }

  /** The case analysis of the inductive step, on the values alone. */
  lemma PickCell(a: Option<MatchCell>, b: Option<MatchCell>, c: Option<MatchCell>, d: Option<MatchCell>,
                 w: Option<MatchCell>, vote: Option<MatchCell>, inLast: bool)
    requires a == (if w.Some? then w else b) && b == d
    requires w == (if inLast then vote else None)
    requires c == (if inLast then vote else d)
    requires inLast ==> d == None
    ensures a == c
  {
  }

  /** Each user's total, display name and presence, over the weeks. */
  lemma EventsRest(files: seq<WeekFile>, parse: Text.Parser, u: string)
    ensures TotalOf(Events(files, parse), u) == FilesTotal(files, u, parse)
    ensures FirstDisplay(Events(files, parse), u) == FilesDisplay(files, u)
    ensures u in Users(Events(files, parse)) <==> u in FilesUsers(files)
  {
    EventsTotal(files, parse, u);
    EventsDisplay(files, parse, u);
    EventsUsers(files, parse, u);
  }

  lemma {:induction false} EventsTotal(files: seq<WeekFile>, parse: Text.Parser, u: string)
    ensures TotalOf(Events(files, parse), u) == FilesTotal(files, u, parse)
    decreases |files|
  {
    if |files| > 0 {
      var n := |files| - 1;
      var init, last := files[..n], files[n];
      var w := WeekEvents(last, Offset(init), parse);
      EventsTotal(init, parse, u);
      TotalOfAppend(Events(init, parse), w, u);
      if Usable(last) {
        RowsEventsMeaning(last.rows, Offset(init), MatchCount(last.header), parse, u);
      }
    }
  }

  lemma {:induction false} EventsDisplay(files: seq<WeekFile>, parse: Text.Parser, u: string)
    ensures FirstDisplay(Events(files, parse), u) == FilesDisplay(files, u)
    decreases |files|
  {
    if |files| > 0 {
      EventsDisplay(files[..|files| - 1], parse, u);
      EventsDisplayStep(files, parse, u);
    }
  }

  lemma EventsDisplayStep(files: seq<WeekFile>, parse: Text.Parser, u: string)
    requires |files| > 0
    requires FirstDisplay(Events(files[..|files| - 1], parse), u) == FilesDisplay(files[..|files| - 1], u)
    ensures FirstDisplay(Events(files, parse), u) == FilesDisplay(files, u)
  {
    var n := |files| - 1;
    var init, last := files[..n], files[n];
    var w := WeekEvents(last, Offset(init), parse);
    assert Events(files, parse) == Events(init, parse) + w;
    FirstDisplayAppend(Events(init, parse), w, u);
    WeekDisplay(last, Offset(init), parse, u);
  }

  /** A week offers each user's first display name among its rows. */
  lemma WeekDisplay(f: WeekFile, offset: nat, parse: Text.Parser, u: string)
    ensures FirstDisplay(WeekEvents(f, offset, parse), u) == if Usable(f) then RowsDisplay(f.rows, u) else ""
  {
    if Usable(f) {
      RowsEventsMeaning(f.rows, offset, MatchCount(f.header), parse, u);
    }
  }

  lemma {:induction false} EventsUsers(files: seq<WeekFile>, parse: Text.Parser, u: string)
    ensures u in Users(Events(files, parse)) <==> u in FilesUsers(files)
    decreases |files|
  {
    if |files| > 0 {
      var n := |files| - 1;
      var init, last := files[..n], files[n];
      var w := WeekEvents(last, Offset(init), parse);
      assert Events(files, parse) == Events(init, parse) + w;
      assert FilesUsers(files) == FilesUsers(init) + (if Usable(last) then RowUsers(last.rows) else []);
      EventsUsers(init, parse, u);
      UsersAppend(Events(init, parse), w);
      if Usable(last) {
        RowsEventsMeaning(last.rows, Offset(init), MatchCount(last.header), parse, u);
      } else {
        assert Users(w) == [];
      }
    }
  }

  /** The combined entries, in terms of the weeks' rows: a user is present
      iff some usable week has a row for them; the display name is their
      first non-empty one; the total is the sum of their weekly totals; and
      the cell for global match `g` is their last vote in the match `g`
      numbers. */
  lemma CombinedMeaning(files: seq<WeekFile>, parse: Text.Parser, u: string)
    ensures var c := Apply(Events(files, parse));
      && (u in c.users <==> u in FilesUsers(files))
      && EntryOf(c, u).displayName == FilesDisplay(files, u)
      && EntryOf(c, u).total == FilesTotal(files, u, parse)
      && forall g: nat :: Lookup(EntryOf(c, u).matches, g) == CellAt(files, u, g, parse)
  {
    var es := Events(files, parse);
    ApplyUser(es, u);
    EventsRest(files, parse, u);
    forall g: nat ensures Lookup(EntryOf(Apply(es), u).matches, g) == CellAt(files, u, g, parse) {
      EventsCell(files, parse, u, g);
    }
  }

  // ---------------------------------------------------------------------------
  // The width: the largest global match any user has a cell for.
  // ---------------------------------------------------------------------------

  /** The largest match number the events store, 0 when they store none. */
  function MaxCell(es: seq<Event>): (w: nat)
    ensures forall i :: 0 <= i < |es| && es[i].cell.Some? ==> es[i].cell.value.0 <= w
    ensures w > 0 ==> exists i :: 0 <= i < |es| && es[i].cell.Some? && es[i].cell.value.0 == w
    decreases |es|
  {
    if |es| == 0 then 0
    else
      var n := |es| - 1;
      var prior := MaxCell(es[..n]);
      assert forall i :: 0 <= i < n ==> es[..n][i] == es[i];
      if es[n].cell.Some? && es[n].cell.value.0 > prior then es[n].cell.value.0 else prior
  }

  /** Event `i` stores match `g` for `u`. */
  predicate Stores(es: seq<Event>, u: string, g: nat, i: int) {
    0 <= i < |es| && es[i].user == u && es[i].cell.Some? && es[i].cell.value.0 == g
  }

  /** A user has a cell for match `g` iff one of their events stores it. */
  lemma {:induction false} LastCellSome(es: seq<Event>, u: string, g: nat)
    ensures LastCell(es, u, g).Some? <==> exists i :: Stores(es, u, g, i)
    decreases |es|
  {
    if |es| > 0 {
      var n := |es| - 1;
      LastCellSome(es[..n], u, g);
      if Stores(es, u, g, n) {
        assert LastCell(es, u, g).Some?;
      } else {
        assert LastCell(es, u, g) == LastCell(es[..n], u, g);
        if exists i :: Stores(es[..n], u, g, i) {
          var i :| Stores(es[..n], u, g, i);
          assert Stores(es, u, g, i);
        }
        if exists i :: Stores(es, u, g, i) {
          var i :| Stores(es, u, g, i);
          assert Stores(es[..n], u, g, i);
        }
      }
    }
  }

  /** `max(max(d['Matches'].keys(), default=0) for d in users, default=0)`:
      the width bounds every user's match numbers and, unless 0, is one of them. */
  lemma WidthMeaning(es: seq<Event>)
    ensures var c := Apply(es); var w := MaxCell(es);
      && (forall u, g: nat :: Lookup(EntryOf(c, u).matches, g).Some? ==> g <= w)
      && (w > 0 ==> exists u :: u in c.users && Lookup(EntryOf(c, u).matches, w).Some?)
  {
    var c := Apply(es);
    var w := MaxCell(es);
    forall u, g: nat | Lookup(EntryOf(c, u).matches, g).Some? ensures g <= w {
      ApplyUserCell(es, u, g);
      LastCellSome(es, u, g);
    }
    if w > 0 {
      var i :| 0 <= i < |es| && es[i].cell.Some? && es[i].cell.value.0 == w;
      var u := es[i].user;
      assert Stores(es, u, w, i);
      LastCellSome(es, u, w);
      ApplyUserCell(es, u, w);
      ApplyUserPresent(es, u);
      assert Users(es)[i] == u;
    }
  }

  // ---------------------------------------------------------------------------
  // The output rows.
  // ---------------------------------------------------------------------------

  /** One output row: the user's cells for matches 1 to the width. */
  datatype DetailedRow = DetailedRow(username: string, displayName: string, cells: seq<MatchCell>, total: real)

  function RowUser(r: DetailedRow): string {
    r.username
  }

  function RowTotal(r: DetailedRow): real {
    r.total
  }

  function TotalAndName(r: DetailedRow): Sorting.ScoreName {
    Sorting.ScoreName(r.total, r.username)
  }

  /** `d['Matches'].get(i, {'Team_Short': '---', 'Points': 0.0})` for i in 1..width. */
  function CellsOf(matches: map<nat, MatchCell>, width: nat): (cells: seq<MatchCell>)
    ensures |cells| == width
  {
    seq(width, i requires 0 <= i < width => Lookup(matches, i + 1).GetOr(NoVote))
  }

  function RowOf(c: Combined, u: string, width: nat): DetailedRow {
    var e := EntryOf(c, u);
    DetailedRow(u, e.displayName, CellsOf(e.matches, width), e.total)
  }

  /** The weeks' combined rows, one per user in order of first appearance. */
  function Table(files: seq<WeekFile>, parse: Text.Parser): (t: seq<DetailedRow>)
    ensures |t| == |Apply(Events(files, parse)).order|
  {
    var es := Events(files, parse);
    var c := Apply(es);
    seq(|c.order|, i requires 0 <= i < |c.order| => RowOf(c, c.order[i], MaxCell(es)))
  }

  function Width(files: seq<WeekFile>, parse: Text.Parser): nat {
    MaxCell(Events(files, parse))
  }

  /** What a user's row holds, in terms of the weeks' rows. */
  function Expected(files: seq<WeekFile>, parse: Text.Parser, width: nat, u: string): DetailedRow {
    DetailedRow(u, FilesDisplay(files, u),
                seq(width, i requires 0 <= i < width => CellAt(files, u, i + 1, parse).GetOr(NoVote)),
                FilesTotal(files, u, parse))
  }

  /** The combined rows hold one row per user with a row in a usable week. */
  lemma TableUsers(files: seq<WeekFile>, parse: Text.Parser)
    ensures var t := Table(files, parse);
      && Sorting.NoDuplicates(Ranking.UsersOf(t, RowUser))
      && forall u :: u in Ranking.UsersOf(t, RowUser) <==> u in FilesUsers(files)
  {
    var es := Events(files, parse);
    var c := Apply(es);
    ApplyOrder(es);
    assert Ranking.UsersOf(Table(files, parse), RowUser) == c.order;
    forall u ensures u in c.order <==> u in FilesUsers(files) {
      ApplyUserPresent(es, u);
      EventsRest(files, parse, u);
    }
  }

  /** Each combined row is as `Expected` describes. */
  lemma TableRows(files: seq<WeekFile>, parse: Text.Parser)
    ensures var t := Table(files, parse);
      forall i :: 0 <= i < |t| ==> t[i] == Expected(files, parse, Width(files, parse), t[i].username)
  {
    var es := Events(files, parse);
    var c := Apply(es);
    var t := Table(files, parse);
    var w := MaxCell(es);
    forall i | 0 <= i < |t| ensures t[i] == Expected(files, parse, w, t[i].username) {
      var u := c.order[i];
      CombinedMeaning(files, parse, u);
      assert t[i].cells == Expected(files, parse, w, u).cells;
    }
  }

  lemma TableMeaning(files: seq<WeekFile>, parse: Text.Parser)
    ensures var t := Table(files, parse);
      && Sorting.NoDuplicates(Ranking.UsersOf(t, RowUser))
      && (forall u :: u in Ranking.UsersOf(t, RowUser) <==> u in FilesUsers(files))
      && forall i :: 0 <= i < |t| ==> t[i] == Expected(files, parse, Width(files, parse), t[i].username)
  {
    TableUsers(files, parse);
    TableRows(files, parse);
  }

  /** Sort by (-Total_Points, Username). */
  function ByTotalThenName(rows: seq<DetailedRow>): (r: seq<DetailedRow>)
    ensures multiset(r) == multiset(rows)
  {
    Sorting.SortBy(rows, TotalAndName, Sorting.ScoreDescNameAsc)
  }

  /** The sorted rows keep the meaning of the combined rows. */
  lemma SortedTableMeaning(files: seq<WeekFile>, parse: Text.Parser)
    ensures var out := ByTotalThenName(Table(files, parse));
      && Sorting.NoDuplicates(Ranking.UsersOf(out, RowUser))
      && (forall u :: u in Ranking.UsersOf(out, RowUser) <==> u in FilesUsers(files))
      && (forall i :: 0 <= i < |out| ==> out[i] == Expected(files, parse, Width(files, parse), out[i].username))
      && Sorting.SortedBy(out, TotalAndName, Sorting.ScoreDescNameAsc)
  {
    var t := Table(files, parse);
    TableMeaning(files, parse);
    var w := Width(files, parse);
    Ranking.ReorderedRows(t, ByTotalThenName(t), RowUser, u => Expected(files, parse, w, u));
    Sorting.ScoreDescNameAscIsStrictWeakOrder();
    Sorting.SortBySorted(t, TotalAndName, Sorting.ScoreDescNameAsc);
  }

  // ---------------------------------------------------------------------------
  // The older copies read strictly.
  // ---------------------------------------------------------------------------

  /** A voted match whose points the older copies can read: the points column
      exists and `float(row[points_key] or '0')` succeeds. */
  predicate PointsReadable(row: WeekRow, m: nat, parse: Text.Parser) {
    PointsKey(m) in row.fields && parse(PointsText(row, m)).Some?
  }

  /** The first of matches 1..`upTo` the older copies fail on, in order. */
  function MatchProblem(row: WeekRow, upTo: nat, parse: Text.Parser): (r: Option<Error>)
    ensures r.None? <==> forall m :: 1 <= m <= upTo && Voted(row, m) ==> PointsReadable(row, m, parse)
    decreases upTo
  {
    if upTo == 0 then None
    else
      var prior := MatchProblem(row, upTo - 1, parse);
      if prior.Some? then prior
      else if !Voted(row, upTo) then None
      else if PointsKey(upTo) !in row.fields then Some(MissingKey(PointsKey(upTo)))
      else if parse(PointsText(row, upTo)).None? then Some(BadValue(PointsText(row, upTo)))
      else None
  }

  /** A row the older copies read through: every voted match's points, then
      the total. */
  predicate RowReadable(row: WeekRow, count: nat, hasTotal: bool, parse: Text.Parser) {
    (forall m :: 1 <= m <= count && Voted(row, m) ==> PointsReadable(row, m, parse))
    && hasTotal && parse(TotalText(row)).Some?
  }

  /** What the older copies fail on in one row: a match, else the total. */
  function RowProblem(row: WeekRow, count: nat, hasTotal: bool, parse: Text.Parser): (r: Option<Error>)
    ensures r.None? <==> RowReadable(row, count, hasTotal, parse)
  {
    var p := MatchProblem(row, count, parse);
    if p.Some? then p
    else if !hasTotal then Some(MissingKey("Total_Points"))
    else if parse(TotalText(row)).None? then Some(BadValue(TotalText(row)))
    else None
  }

  /** The first row the older copies fail on. */
  function RowsProblem(rows: seq<WeekRow>, count: nat, hasTotal: bool, parse: Text.Parser): (r: Option<Error>)
    ensures r.None? <==> forall j :: 0 <= j < |rows| ==> RowReadable(rows[j], count, hasTotal, parse)
    decreases |rows|
  {
    if |rows| == 0 then None
    else
      var n := |rows| - 1;
      var prior := RowsProblem(rows[..n], count, hasTotal, parse);
      assert forall j :: 0 <= j < n ==> rows[..n][j] == rows[j];
      if prior.Some? then prior else RowProblem(rows[n], count, hasTotal, parse)
  }

  /** A week the older copies read through: it has a row (`next(reader)`
      raises on an empty file), a `Username` column (each row's first lookup)
      and every row reads. */
  predicate Readable(f: WeekFile, parse: Text.Parser) {
    |f.rows| > 0
    && "Username" in f.header
    && forall j :: 0 <= j < |f.rows| ==> RowReadable(f.rows[j], MatchCount(f.header), "Total_Points" in f.header, parse)
  }

  function WeekProblem(f: WeekFile, parse: Text.Parser): (r: Option<Error>)
    ensures r.None? <==> Readable(f, parse)
  {
    if |f.rows| == 0 then Some(NoInput)
    else if "Username" !in f.header then Some(MissingKey("Username"))
    else RowsProblem(f.rows, MatchCount(f.header), "Total_Points" in f.header, parse)
  }

  /** The first week the older copies fail on. */
  function FilesProblem(files: seq<WeekFile>, parse: Text.Parser): (r: Option<Error>)
    ensures r.None? <==> forall k :: 0 <= k < |files| ==> Readable(files[k], parse)
    decreases |files|
  {
    if |files| == 0 then None
    else
      var n := |files| - 1;
      var prior := FilesProblem(files[..n], parse);
      assert forall k :: 0 <= k < n ==> files[..n][k] == files[k];
      if prior.Some? then prior else WeekProblem(files[n], parse)
  }

  /** A readable week is usable, and every value it holds parses, so the
      lenient reading agrees with the strict one. */
  lemma ReadableIsExact(f: WeekFile, parse: Text.Parser)
    requires Readable(f, parse)
    ensures Usable(f)
    ensures forall j :: 0 <= j < |f.rows| ==> Lenient(parse, TotalText(f.rows[j])) == parse(TotalText(f.rows[j])).value
    ensures forall j, m :: 0 <= j < |f.rows| && 1 <= m <= MatchCount(f.header) && Voted(f.rows[j], m) ==>
      VoteCell(f.rows[j], m, parse).points == parse(PointsText(f.rows[j], m)).value
  {
    assert RowReadable(f.rows[0], MatchCount(f.header), "Total_Points" in f.header, parse);
  }

  /** With every week readable, every week's users are in the table: each
      week contributes a row. */
  lemma ReadableWeeksHaveUsers(files: seq<WeekFile>, parse: Text.Parser)
    requires forall k :: 0 <= k < |files| ==> Readable(files[k], parse)
    ensures |files| > 0 ==> |FilesUsers(files)| > 0
  {
    if |files| > 0 {
      var n := |files| - 1;
      ReadableIsExact(files[n], parse);
      assert |RowUsers(files[n].rows)| > 0;
    }
  }

  // ---------------------------------------------------------------------------
  // The leaderboards.
  // ---------------------------------------------------------------------------

  /** The selected weeks' files, in order. */
  function ReadAll(names: seq<string>, read: string -> WeekFile): (files: seq<WeekFile>)
    ensures |files| == |names|
    ensures forall k :: 0 <= k < |names| ==> files[k] == read(names[k])
  {
    seq(|names|, k requires 0 <= k < |names| => read(names[k]))
  }

  /** A ranked detailed leaderboard: its width and its rows. */
  datatype Ranked = Ranked(width: nat, rows: seq<Ranking.Ranked<DetailedRow>>)

  /** Sort by (-Total_Points, Username), then rank by Total_Points. */
  function RankTable(files: seq<WeekFile>, parse: Text.Parser): Ranked {
    Ranked(Width(files, parse), Ranking.RankRows(ByTotalThenName(Table(files, parse)), RowTotal))
  }

  /** The detailed winner leaderboard: the `week*.csv` files up to the target
      week, read leniently (weeks without rows, or without a Username or
      Total_Points column, are skipped); nobody found is an error. */
  function DetailedLeaderboard(listing: seq<string>, read: string -> WeekFile, target: string, parse: Text.Parser): (r: Result<Ranked>)
    ensures r.Success? ==> WeekSelection.SelectDetailedFiles(listing, target).Success?
    ensures r.Success? ==> |r.value.rows| > 0
  {
    var names :- WeekSelection.SelectDetailedFiles(listing, target);
    var files := ReadAll(names, read);
    if |Table(files, parse)| == 0 then Failure(NoInput) else Success(RankTable(files, parse))
  }

  /** The older combiners' core: every selected week must read through. */
  function CombineWeeks(names: seq<string>, read: string -> WeekFile, parse: Text.Parser): (r: Result<seq<WeekFile>>)
    ensures r.Success? ==> r.value == ReadAll(names, read)
    ensures r.Success? <==> FilesProblem(ReadAll(names, read), parse).None?
  {
    var files := ReadAll(names, read);
    match FilesProblem(files, parse)
    case Some(e) => Failure(e)
    case None => Success(files)
  }

  /** The ranked combiner of the older copies, with the week selection
      corrected to every `combined_week*.csv` file up to the target. */
  function CombineAllWeeks(listing: seq<string>, read: string -> WeekFile, target: string, parse: Text.Parser): (r: Result<Ranked>)
  {
    var names :- WeekSelection.SelectCombinedUpTo(listing, target);
    var files :- CombineWeeks(names, read, parse);
    Success(RankTable(files, parse))
  }

  /** The ranked combiner of the older copies as written: the selection stops
      at the first file, in string order, past the target week. */
  function CombineAllWeeksAsWritten(listing: seq<string>, read: string -> WeekFile, target: string, parse: Text.Parser): (r: Result<Ranked>)
  {
    var names :- WeekSelection.SelectUntilLaterFiles(listing, target);
    var files :- CombineWeeks(names, read, parse);
    Success(RankTable(files, parse))
  }

  /** The unranked combiner: the same rows, sorted, without rank columns. */
  datatype Unranked = Unranked(width: nat, rows: seq<DetailedRow>)

  /** The unranked combiner, with the week selection corrected as for
      `CombineAllWeeks`. */
  function CombineAllWeeksUnranked(listing: seq<string>, read: string -> WeekFile, target: string, parse: Text.Parser): (r: Result<Unranked>)
  {
    var names :- WeekSelection.SelectCombinedUpTo(listing, target);
    var files :- CombineWeeks(names, read, parse);
    Success(Unranked(Width(files, parse), ByTotalThenName(Table(files, parse))))
  }

  /** The unranked combiner as written: the selection stops at the first
      file, in string order, past the target week. */
  function CombineAllWeeksUnrankedAsWritten(listing: seq<string>, read: string -> WeekFile, target: string, parse: Text.Parser): (r: Result<Unranked>)
  {
    var names :- WeekSelection.SelectUntilLaterFiles(listing, target);
    var files :- CombineWeeks(names, read, parse);
    Success(Unranked(Width(files, parse), ByTotalThenName(Table(files, parse))))
  }

  /** The header of a ranked leaderboard of width `w`.
      It is laid out as a ranked weekly header without full-team columns. */
  function RankedHeader(naming: Ranking.RankNaming, w: nat): (h: seq<string>)
    ensures |h| == 2 * w + 5
    ensures h == Weekly.Header(Some(naming), w, false)
  {
    Ranking.RankColumns(naming) + ["Username", "Display Name"] + Weekly.MatchColumns(w) + ["Total_Points"]
  }

  /** The header of the unranked leaderboard of width `w`: an unranked weekly
      header without full-team columns. */
  function UnrankedHeader(w: nat): (h: seq<string>)
    ensures |h| == 2 * w + 3
    ensures h == Weekly.Header(None, w, false)
  {
    ["Username", "Display Name"] + Weekly.MatchColumns(w) + ["Total_Points"]
  }

  // ---------------------------------------------------------------------------
  // What the leaderboards hold.
  // ---------------------------------------------------------------------------

  /** The width is the largest global match any user has a cell for (0 when
      there is none), and at most the number of matches of the usable weeks. */
  lemma WidthSpec(files: seq<WeekFile>, parse: Text.Parser)
    ensures var w := Width(files, parse);
      && w <= Offset(files)
      && (forall u, g: nat :: CellAt(files, u, g, parse).Some? ==> g <= w)
      && (w > 0 ==> exists u :: u in FilesUsers(files) && CellAt(files, u, w, parse).Some?)
  {
    var es := Events(files, parse);
    var w := MaxCell(es);
    WidthMeaning(es);
    forall u, g: nat | CellAt(files, u, g, parse).Some? ensures g <= w {
      CombinedMeaning(files, parse, u);
    }
    if w > 0 {
      var u :| u in Apply(es).users && Lookup(EntryOf(Apply(es), u).matches, w).Some?;
      CombinedMeaning(files, parse, u);
    }
  }

  /** A ranked detailed leaderboard of the weeks: its width, one row per user
      with a row in a usable week and no other, each as `Expected` describes,
      ordered by (-Total_Points, Username) and ranked by the ranking scan. */
  predicate Describes(b: Ranked, files: seq<WeekFile>, parse: Text.Parser) {
    var out := Ranking.Unranked(b.rows);
    && b.width == Width(files, parse)
    && Sorting.NoDuplicates(Ranking.UsersOf(out, RowUser))
    && (forall u :: u in Ranking.UsersOf(out, RowUser) ==> u in FilesUsers(files))
    && (forall u :: u in FilesUsers(files) ==> u in Ranking.UsersOf(out, RowUser))
    && (forall i :: 0 <= i < |out| ==> out[i] == Expected(files, parse, b.width, out[i].username))
    && Sorting.SortedBy(out, TotalAndName, Sorting.ScoreDescNameAsc)
    && Ranking.RanksOf(b.rows) == Ranking.Ranks(Ranking.ScoresOf(out, RowTotal))
  }

  lemma RankTableSpec(files: seq<WeekFile>, parse: Text.Parser)
    ensures Describes(RankTable(files, parse), files, parse)
  {
    var b := RankTable(files, parse);
    SortedTableMeaning(files, parse);
    assert Ranking.Unranked(b.rows) == ByTotalThenName(Table(files, parse));
  }

  /** The table is empty iff no usable week has a row. */
  lemma TableEmpty(files: seq<WeekFile>, parse: Text.Parser)
    ensures |Table(files, parse)| == 0 <==> |FilesUsers(files)| == 0
  {
    TableUsers(files, parse);
    var users := Ranking.UsersOf(Table(files, parse), RowUser);
    if |FilesUsers(files)| > 0 {
      assert FilesUsers(files)[0] in users;
    }
    if |users| > 0 {
      assert users[0] in FilesUsers(files);
    }
  }

  /** The detailed winner leaderboard fails iff no week file is selected or
      none of the selected weeks gives a row; otherwise it describes them. */
  lemma DetailedLeaderboardSpec(listing: seq<string>, read: string -> WeekFile, target: string, parse: Text.Parser)
    ensures var sel := WeekSelection.SelectDetailedFiles(listing, target);
      var r := DetailedLeaderboard(listing, read, target, parse);
      && (r.Success? <==> sel.Success? && |FilesUsers(ReadAll(sel.value, read))| > 0)
      && (r.Success? ==> Describes(r.value, ReadAll(sel.value, read), parse))
  {
    var sel := WeekSelection.SelectDetailedFiles(listing, target);
    if sel.Success? {
      var files := ReadAll(sel.value, read);
      TableEmpty(files, parse);
      RankTableSpec(files, parse);
    }
  }

  /** The corrected ranked combiner fails iff no file is selected or a
      selected week does not read through; otherwise it describes the weeks
      and is not empty. */
  lemma CombineAllWeeksSpec(listing: seq<string>, read: string -> WeekFile, target: string, parse: Text.Parser)
    ensures var sel := WeekSelection.SelectCombinedUpTo(listing, target);
      var r := CombineAllWeeks(listing, read, target, parse);
      && (r.Success? <==> sel.Success? && FilesProblem(ReadAll(sel.value, read), parse).None?)
      && (r.Success? ==> Describes(r.value, ReadAll(sel.value, read), parse) && |r.value.rows| > 0)
  {
    var sel := WeekSelection.SelectCombinedUpTo(listing, target);
    if sel.Success? {
      var files := ReadAll(sel.value, read);
      if FilesProblem(files, parse).None? {
        ReadableWeeksHaveUsers(files, parse);
        TableEmpty(files, parse);
        RankTableSpec(files, parse);
      }
    }
  }

  /** The ranked combiner as written: the same, over the files before the
      first one past the target. */
  lemma CombineAllWeeksAsWrittenSpec(listing: seq<string>, read: string -> WeekFile, target: string, parse: Text.Parser)
    ensures var sel := WeekSelection.SelectUntilLaterFiles(listing, target);
      var r := CombineAllWeeksAsWritten(listing, read, target, parse);
      && (r.Success? <==> sel.Success? && FilesProblem(ReadAll(sel.value, read), parse).None?)
      && (r.Success? ==> Describes(r.value, ReadAll(sel.value, read), parse) && |r.value.rows| > 0)
  {
    var sel := WeekSelection.SelectUntilLaterFiles(listing, target);
    if sel.Success? {
      var files := ReadAll(sel.value, read);
      if FilesProblem(files, parse).None? {
        ReadableWeeksHaveUsers(files, parse);
        TableEmpty(files, parse);
        RankTableSpec(files, parse);
      }
    }
  }

  /** The unranked combiner: the ranked combiner's rows without their ranks. */
  lemma UnrankedIsRankedWithoutRanks(listing: seq<string>, read: string -> WeekFile, target: string, parse: Text.Parser)
    ensures var u := CombineAllWeeksUnranked(listing, read, target, parse);
      var r := CombineAllWeeks(listing, read, target, parse);
      && (u.Success? <==> r.Success?)
      && (u.Success? ==> u.value.width == r.value.width && u.value.rows == Ranking.Unranked(r.value.rows))
  {
    var sel := WeekSelection.SelectCombinedUpTo(listing, target);
    if sel.Success? {
      var files := ReadAll(sel.value, read);
      if FilesProblem(files, parse).None? {
        assert Ranking.Unranked(RankTable(files, parse).rows) == ByTotalThenName(Table(files, parse));
      }
    }
  }

  /** The unranked combiner as written: the as-written ranked combiner's rows
      without their ranks. */
  lemma UnrankedAsWrittenIsRankedWithoutRanks(listing: seq<string>, read: string -> WeekFile, target: string, parse: Text.Parser)
    ensures var u := CombineAllWeeksUnrankedAsWritten(listing, read, target, parse);
      var r := CombineAllWeeksAsWritten(listing, read, target, parse);
      && (u.Success? <==> r.Success?)
      && (u.Success? ==> u.value.width == r.value.width && u.value.rows == Ranking.Unranked(r.value.rows))
  {
    var sel := WeekSelection.SelectUntilLaterFiles(listing, target);
    if sel.Success? {
      var files := ReadAll(sel.value, read);
      if FilesProblem(files, parse).None? {
        assert Ranking.Unranked(RankTable(files, parse).rows) == ByTotalThenName(Table(files, parse));
      }
    }
  }
}

=== FILE: margin_poll.dfy ===
/** Scoring a victory-margin poll: the declared margin ("14 runs", "3 wickets",
    "Super Over") is parsed, the first answer whose range covers it wins, and
    every vote for that answer earns the match's points. Each answer also gets
    a short name such as "11-20R", "61+R", "1W" or "SO". */
module MarginPoll {
  import opened Wrappers
  import Text
  import Sorting
  import Votes

  // ---------------------------------------------------------------------------
  // The declared margin.
  // ---------------------------------------------------------------------------

  datatype Margin = ByRuns(n: nat) | ByWickets(n: nat) | SuperOver

  /** `re.match(r"(\d+)\s*(runs|wickets)", s)`: digits at the very start,
      optional whitespace, then the unit; anything may follow. */
  function MatchMargin(s: string): Option<Margin> {
    var d := Text.LeadingDigits(s);
    if |d| == 0 then None
    else
      var unit := Text.StripLeft(s[|d|..]);
      if Text.StartsWith(unit, "runs") then Some(ByRuns(Text.DigitsValue(d)))
      else if Text.StartsWith(unit, "wickets") then Some(ByWickets(Text.DigitsValue(d)))
      else None
  }

  /** `parse_margin`: `value` is the `margin` field, `None` when it is not a
      string. An empty string, or one that is neither "super over" nor a
      number of runs or wickets after lower-casing and stripping, is invalid. */
  function ParseMargin(value: Option<string>): Option<Margin> {
    match value
    case None => None
    case Some(raw) =>
      if raw == "" then None
      else
        var s := Text.Strip(Text.Lower(raw));
        if s == "super over" then Some(SuperOver) else MatchMargin(s)
  }

  /** The way a margin is written in a poll export. */
  function MarginText(m: Margin): string {
    match m
    case ByRuns(n) => Text.NatToString(n) + " runs"
    case ByWickets(n) => Text.NatToString(n) + " wickets"
    case SuperOver => "Super Over"
  }

  /** A tail that starts with a non-digit, ends in a lower-case letter and
      has no upper-case letter. */
  predicate PlainTail(tail: string) {
    && |tail| > 0 && !Text.IsDigit(tail[0]) && 'a' <= tail[|tail| - 1] <= 'z'
    && forall i :: 0 <= i < |tail| ==> !('A' <= tail[i] <= 'Z')
  }

  lemma UnitWords()
    ensures PlainTail(" runs") && Text.StripLeft(" runs") == "runs"
    ensures PlainTail(" wickets") && Text.StripLeft(" wickets") == "wickets"
  {
    Text.StripOneSpace(" runs");
    Text.StripOneSpace(" wickets");
  }

  /** Digits followed by a plain tail are left alone by lower-casing and
      stripping, and their leading digits are them. */
  lemma {:induction false} DigitsFirst(d: string, tail: string)
    requires |d| > 0 && Text.AllDigits(d)
    requires PlainTail(tail)
    ensures Text.Strip(Text.Lower(d + tail)) == d + tail
    ensures Text.LeadingDigits(d + tail) == d
    ensures (d + tail)[|d|..] == tail
    ensures d + tail != "super over"
  {
    var t := d + tail;
    assert forall i :: 0 <= i < |t| ==> !('A' <= t[i] <= 'Z') by {
      forall i | 0 <= i < |t| ensures !('A' <= t[i] <= 'Z') {
        if i < |d| {
          assert t[i] == d[i];
        } else {
          assert t[i] == tail[i - |d|];
        }
      }
    }
    Text.LowerIdentity(t);
    assert t[|t| - 1] == tail[|tail| - 1];
    Text.StripNoSpaceEnds(t);
    assert t[0] == d[0];
    assert t[0] != "super over"[0];
    Text.LeadingDigitsOf(d, tail);
  }

  lemma ParseSuperOver()
    ensures ParseMargin(Some("Super Over")) == Some(SuperOver)
  {
    assert Text.Lower("Super Over") == "super over";
    Text.StripNoSpaceEnds("super over");
  }

  lemma ParseRunsDigits(d: string)
    requires |d| > 0 && Text.AllDigits(d)
    ensures ParseMargin(Some(d + " runs")) == Some(ByRuns(Text.DigitsValue(d)))
  {
    var t := d + " runs";
    UnitWords();
    DigitsFirst(d, " runs");
    assert MatchMargin(t) == Some(ByRuns(Text.DigitsValue(d))) by {
      assert Text.StripLeft(t[|d|..]) == "runs";
      assert Text.StartsWith("runs", "runs");
    }
  }

  lemma ParseWicketsDigits(d: string)
    requires |d| > 0 && Text.AllDigits(d)
    ensures ParseMargin(Some(d + " wickets")) == Some(ByWickets(Text.DigitsValue(d)))
  {
    var t := d + " wickets";
    UnitWords();
    DigitsFirst(d, " wickets");
    assert MatchMargin(t) == Some(ByWickets(Text.DigitsValue(d))) by {
      assert Text.StripLeft(t[|d|..]) == "wickets";
      assert !Text.StartsWith("wickets", "runs") by {
        assert "wickets"[..4] != "runs" by { assert "wickets"[0] == 'w'; }
      }
      assert Text.StartsWith("wickets", "wickets");
    }
  }

  /** Every margin reads back from its written form. */
  lemma ParseMarginRoundTrip(m: Margin)
    ensures ParseMargin(Some(MarginText(m))) == Some(m)
  {
    match m
    case SuperOver => ParseSuperOver();
    case ByRuns(n) =>
      ParseRunsDigits(Text.NatToString(n));
      Text.NatToStringRoundTrip(n);
    case ByWickets(n) =>
      ParseWicketsDigits(Text.NatToString(n));
      Text.NatToStringRoundTrip(n);
  }

  // ---------------------------------------------------------------------------
  // Answer ranges: `(\d+)(?:-(\d+)|[+])?\s*runs?` and its wicket twin.
  // ---------------------------------------------------------------------------

  /** What one range pattern captures: the first number, the second number
      when the answer names a range, and whether the matched text ends in
      "+ runs" (or "+ wickets"). */
  datatype RangeMatch = RangeMatch(low: nat, high: Option<nat>, plusForm: bool)

  /** The two units an answer range can be in; `Word` is the pattern's
      mandatory part, the plural "s" being optional. */
  datatype Unit = Runs | Wickets {
    function Word(): string {
      match this
      case Runs => "run"
      case Wickets => "wicket"
    }

    function Letter(): string {
      match this
      case Runs => "R"
      case Wickets => "W"
    }
  }

  /** `\s*` followed by the unit's word. */
  predicate UnitFollows(t: string, u: Unit) {
    Text.StartsWith(Text.StripLeft(t), u.Word())
  }

  /** The pattern anchored at the start of `t`. The digit runs are greedy and
      giving back a digit never helps, since the next character would then be
      a digit; the alternatives are tried in order: a `-` range, a `+`, none. */
  function MatchRangeAt(t: string, u: Unit): Option<RangeMatch> {
    var d := Text.LeadingDigits(t);
    if |d| == 0 then None else MatchAfter(Text.DigitsValue(d), t[|d|..], u)
  }

  /** The rest of the pattern, after the leading number `low`. */
  function MatchAfter(low: nat, rest: string, u: Unit): Option<RangeMatch> {
    var d2 := if |rest| > 0 && rest[0] == '-' then Text.LeadingDigits(rest[1..]) else "";
    if |d2| > 0 && UnitFollows(rest[1 + |d2|..], u) then
      Some(RangeMatch(low, Some(Text.DigitsValue(d2)), false))
    else if |rest| > 0 && rest[0] == '+' && UnitFollows(rest[1..], u) then
      Some(RangeMatch(low, None, Text.StartsWith(rest[1..], " " + u.Word() + "s")))
    else if UnitFollows(rest, u) then Some(RangeMatch(low, None, false))
    else None
  }

  /** `re.search`: the match at the leftmost position where there is one. */
  function SearchRange(s: string, u: Unit): (r: Option<RangeMatch>)
    decreases |s|
  {
    if |s| == 0 then None
    else if MatchRangeAt(s, u).Some? then MatchRangeAt(s, u)
    else SearchRange(s[1..], u)
  }

  /** The search finds the match at the leftmost matching position, and
      nothing when no position matches. */
  lemma {:induction false} SearchRangeSpec(s: string, u: Unit)
    ensures SearchRange(s, u).None? <==> forall i :: 0 <= i < |s| ==> MatchRangeAt(s[i..], u).None?
    ensures SearchRange(s, u).Some? ==> exists i :: (0 <= i < |s| && SearchRange(s, u) == MatchRangeAt(s[i..], u)
      && forall j :: 0 <= j < i ==> MatchRangeAt(s[j..], u).None?)
    decreases |s|
  {
    if |s| > 0 {
      SearchRangeSpec(s[1..], u);
      SearchNoneStep(s, u);
      SearchSomeStep(s, u);
    }
  }

  /** The inductive step of the first half: no match here or later. */
  lemma SearchNoneStep(s: string, u: Unit)
    requires |s| > 0
    requires SearchRange(s[1..], u).None? <==> forall i :: 0 <= i < |s| - 1 ==> MatchRangeAt(s[1..][i..], u).None?
    ensures SearchRange(s, u).None? <==> forall i :: 0 <= i < |s| ==> MatchRangeAt(s[i..], u).None?
  {
    assert s[0..] == s;
    if SearchRange(s, u).None? {
      forall i | 1 <= i < |s| ensures MatchRangeAt(s[i..], u).None? {
        assert s[1..][i - 1..] == s[i..];
      }
    } else if MatchRangeAt(s, u).None? {
      var i :| 0 <= i < |s| - 1 && MatchRangeAt(s[1..][i..], u).Some?;
      assert s[1..][i..] == s[i + 1..];
    }
  }

  /** The inductive step of the second half: the leftmost match. */
  lemma SearchSomeStep(s: string, u: Unit)
    requires |s| > 0
    requires SearchRange(s[1..], u).Some? ==> exists i :: (0 <= i < |s| - 1 && SearchRange(s[1..], u) == MatchRangeAt(s[1..][i..], u)
      && forall j :: 0 <= j < i ==> MatchRangeAt(s[1..][j..], u).None?)
    ensures SearchRange(s, u).Some? ==> exists i :: (0 <= i < |s| && SearchRange(s, u) == MatchRangeAt(s[i..], u)
      && forall j :: 0 <= j < i ==> MatchRangeAt(s[j..], u).None?)
  {
    assert s[0..] == s;
    if SearchRange(s, u).Some? && MatchRangeAt(s, u).None? {
      var i :| 0 <= i < |s| - 1 && SearchRange(s[1..], u) == MatchRangeAt(s[1..][i..], u)
        && forall j :: 0 <= j < i ==> MatchRangeAt(s[1..][j..], u).None?;
      assert s[1..][i..] == s[i + 1..];
      assert forall j :: 0 <= j < i + 1 ==> MatchRangeAt(s[j..], u).None? by {
        forall j | 1 <= j < i + 1 ensures MatchRangeAt(s[j..], u).None? {
          assert s[1..][j - 1..] == s[j..];
        }
      }
    }
  }

  /** What `parse_answer_range` reads from an answer name, lower-cased first. */
  datatype AnswerRange = AnswerRange(runs: Option<RangeMatch>, wickets: Option<RangeMatch>, superOver: bool)

  function ParseAnswer(name: string): AnswerRange {
    var lower := Text.Lower(name);
    AnswerRange(SearchRange(lower, Runs), SearchRange(lower, Wickets), Text.Contains(lower, "super over"))
  }

  /** "a-bR", "a+R" or "aR" (with W for wickets). */
  function RangeShort(m: RangeMatch, u: Unit): string {
    Text.NatToString(m.low)
      + (if m.high.Some? then "-" + Text.NatToString(m.high.value) else if m.plusForm then "+" else "")
      + u.Letter()
  }

  /** The answer's short name for a poll with the given margin: "SO" for a
      super-over answer, the range in the margin's unit, or "Unknown". */
  function ShortName(name: string, margin: Margin): string {
    var a := ParseAnswer(name);
    if a.superOver then "SO"
    else if margin.ByRuns? && a.runs.Some? then RangeShort(a.runs.value, Runs)
    else if margin.ByWickets? && a.wickets.Some? then RangeShort(a.wickets.value, Wickets)
    else "Unknown"
  }

  /** A single number or an open "+" range covers every margin from the
      number up; a closed range covers its two ends and what lies between. */
  predicate InRange(m: RangeMatch, n: nat) {
    if m.high.None? then n >= m.low else m.low <= n <= m.high.value
  }

  /** Whether an answer covers the margin. */
  predicate Matches(name: string, margin: Margin) {
    var a := ParseAnswer(name);
    match margin
    case SuperOver => a.superOver
    case ByRuns(n) => a.runs.Some? && InRange(a.runs.value, n)
    case ByWickets(n) => a.wickets.Some? && InRange(a.wickets.value, n)
  }

  /** An answer written in the usual form: the range, a space, the unit. */
  function RangeText(m: RangeMatch, u: Unit): string {
    Text.NatToString(m.low)
      + (if m.high.Some? then "-" + Text.NatToString(m.high.value) else if m.plusForm then "+" else "")
      + UnitTail(u)
  }

  /** No upper-case letter and no "v". */
  predicate PlainChars(s: string) {
    forall i :: 0 <= i < |s| ==> !('A' <= s[i] <= 'Z') && s[i] != 'v'
  }

  lemma {:induction false} PlainConcat(a: string, b: string)
    requires PlainChars(a) && PlainChars(b)
    ensures PlainChars(a + b)
  {
    forall i | 0 <= i < |a + b| ensures !('A' <= (a + b)[i] <= 'Z') && (a + b)[i] != 'v' {
      if i < |a| {
        assert (a + b)[i] == a[i];
      } else {
        assert (a + b)[i] == b[i - |a|];
      }
    }
  }

  /** " runs" (or " wickets"): the usual tail of a written range. */
  function UnitTail(u: Unit): string {
    " " + u.Word() + "s"
  }

  /** A written range has no upper-case letter and no "v", so it is its own
      lower case and never mentions a super over. */
  lemma RangeTextPlain(m: RangeMatch, u: Unit)
    ensures Text.Lower(RangeText(m, u)) == RangeText(m, u)
    ensures !Text.Contains(RangeText(m, u), "super over")
  {
    var t := RangeText(m, u);
    var a := Text.NatToString(m.low);
    var mid := if m.high.Some? then "-" + Text.NatToString(m.high.value) else if m.plusForm then "+" else "";
    assert t == a + mid + UnitTail(u);
    assert PlainChars(mid) by {
      if m.high.Some? {
        PlainConcat("-", Text.NatToString(m.high.value));
      }
    }
    assert PlainChars(UnitTail(u)) by {
      match u
      case Runs =>
      case Wickets =>
    }
    PlainConcat(a, mid);
    PlainConcat(a + mid, UnitTail(u));
    Text.LowerIdentity(t);
    Text.MissingCharNotContains(t, "super over", 7);
  }

  lemma TailFollows(u: Unit)
    ensures UnitFollows(UnitTail(u), u)
    ensures |UnitTail(u)| > 0 && !Text.IsDigit(UnitTail(u)[0])
  {
    Text.StripOneSpace(UnitTail(u));
    assert UnitTail(u)[1..] == u.Word() + "s";
  }

  /** A leading number ends where the first non-digit starts. */
  lemma MatchRangeAtDigits(d: string, rest: string, u: Unit)
    requires |d| > 0 && Text.AllDigits(d)
    requires |rest| > 0 ==> !Text.IsDigit(rest[0])
    ensures MatchRangeAt(d + rest, u) == MatchAfter(Text.DigitsValue(d), rest, u)
  {
    Text.LeadingDigitsOf(d, rest);
    assert (d + rest)[|d|..] == rest;
  }

  lemma {:induction false} MatchClosedDigits(da: string, db: string, tail: string, u: Unit)
    requires |da| > 0 && Text.AllDigits(da) && |db| > 0 && Text.AllDigits(db)
    requires |tail| > 0 && !Text.IsDigit(tail[0]) && UnitFollows(tail, u)
    ensures MatchRangeAt(da + (['-'] + (db + tail)), u)
      == Some(RangeMatch(Text.DigitsValue(da), Some(Text.DigitsValue(db)), false))
  {
    MatchRangeAtDigits(da, ['-'] + (db + tail), u);
    MatchAfterClosed(Text.DigitsValue(da), db, tail, u);
  }

  lemma MatchAfterClosed(low: nat, db: string, tail: string, u: Unit)
    requires |db| > 0 && Text.AllDigits(db)
    requires |tail| > 0 && !Text.IsDigit(tail[0]) && UnitFollows(tail, u)
    ensures MatchAfter(low, ['-'] + (db + tail), u) == Some(RangeMatch(low, Some(Text.DigitsValue(db)), false))
  {
    var x := db + tail;
    var rest := ['-'] + x;
    assert rest[0] == '-' && rest[1..] == x;
    Text.LeadingDigitsOf(db, tail);
    assert x[|db|..] == tail;
    assert rest[1 + |db|..] == tail;
  }

  lemma {:induction false} MatchPlusDigits(da: string, tail: string, u: Unit)
    requires |da| > 0 && Text.AllDigits(da)
    requires UnitFollows(tail, u) && Text.StartsWith(tail, " " + u.Word() + "s")
    ensures MatchRangeAt(da + ("+" + tail), u) == Some(RangeMatch(Text.DigitsValue(da), None, true))
  {
    var rest, v := "+" + tail, Text.DigitsValue(da);
    MatchRangeAtDigits(da, rest, u);
    assert MatchAfter(v, rest, u) == Some(RangeMatch(v, None, true)) by {
      assert rest[0] == '+' && rest[1..] == tail;
    }
  }

  lemma {:induction false} MatchSingleDigits(da: string, tail: string, u: Unit)
    requires |da| > 0 && Text.AllDigits(da)
    requires |tail| > 0 && !Text.IsDigit(tail[0]) && tail[0] != '-' && tail[0] != '+' && UnitFollows(tail, u)
    ensures MatchRangeAt(da + tail, u) == Some(RangeMatch(Text.DigitsValue(da), None, false))
  {
    var v := Text.DigitsValue(da);
    MatchRangeAtDigits(da, tail, u);
  }

  lemma MatchClosed(a: nat, b: nat, u: Unit)
    ensures MatchRangeAt(Text.NatToString(a) + ("-" + Text.NatToString(b) + UnitTail(u)), u)
      == Some(RangeMatch(a, Some(b), false))
  {
    TailFollows(u);
    assert "-" + Text.NatToString(b) + UnitTail(u) == ['-'] + (Text.NatToString(b) + UnitTail(u));
    MatchClosedDigits(Text.NatToString(a), Text.NatToString(b), UnitTail(u), u);
    Text.NatToStringRoundTrip(a);
    Text.NatToStringRoundTrip(b);
  }

  lemma MatchPlus(a: nat, u: Unit)
    ensures MatchRangeAt(Text.NatToString(a) + ("+" + UnitTail(u)), u) == Some(RangeMatch(a, None, true))
  {
    TailFollows(u);
    MatchPlusDigits(Text.NatToString(a), UnitTail(u), u);
    Text.NatToStringRoundTrip(a);
  }

  lemma MatchSingle(a: nat, u: Unit)
    ensures MatchRangeAt(Text.NatToString(a) + UnitTail(u), u) == Some(RangeMatch(a, None, false))
  {
    TailFollows(u);
    MatchSingleDigits(Text.NatToString(a), UnitTail(u), u);
    Text.NatToStringRoundTrip(a);
  }

  /** The pattern reads a written range back. */
  lemma MatchRangeText(m: RangeMatch, u: Unit)
    requires m.high.Some? ==> !m.plusForm
    ensures SearchRange(RangeText(m, u), u) == Some(m)
  {
    var t := RangeText(m, u);
    var a := Text.NatToString(m.low);
    if m.high.Some? {
      assert t == a + ("-" + Text.NatToString(m.high.value) + UnitTail(u));
      MatchClosed(m.low, m.high.value, u);
    } else if m.plusForm {
      assert t == a + ("+" + UnitTail(u));
      MatchPlus(m.low, u);
    } else {
      assert t == a + UnitTail(u);
      MatchSingle(m.low, u);
    }
  }

  /** A written range gets its short name, and covers exactly the margins in
      its range, in its own unit. */
  lemma RangeTextShortName(m: RangeMatch, u: Unit, n: nat)
    requires m.high.Some? ==> !m.plusForm
    ensures var margin := if u == Runs then ByRuns(n) else ByWickets(n);
      && ShortName(RangeText(m, u), margin) == RangeShort(m, u)
      && (Matches(RangeText(m, u), margin) <==> InRange(m, n))
  {
    RangeTextPlain(m, u);
    MatchRangeText(m, u);
  }

  // ---------------------------------------------------------------------------
  // The winning answer and the rows.
  // ---------------------------------------------------------------------------

  /** Answer `k` is the first one that covers the margin. */
  predicate FirstMatch(answers: seq<Votes.Answer>, margin: Margin, k: nat) {
    && k < |answers|
    && Matches(answers[k].name, margin)
    && forall j :: 0 <= j < k ==> !Matches(answers[j].name, margin)
  }

  /** `find_winning_answer`: the position of the first answer covering the margin. */
  function FindWinning(answers: seq<Votes.Answer>, margin: Margin): (r: Option<nat>)
    ensures r.Some? ==> FirstMatch(answers, margin, r.value)
    ensures r.None? <==> forall k :: 0 <= k < |answers| ==> !Matches(answers[k].name, margin)
    decreases |answers|
  {
    if |answers| == 0 then None
    else if Matches(answers[0].name, margin) then Some(0)
    else
      var r := FindWinning(answers[1..], margin);
      assert forall k :: 1 <= k < |answers| ==> answers[1..][k - 1] == answers[k];
      match r
      case None => None
      case Some(k) => Some(k + 1)
  }

  /** `winning_answer['id'] if winning_answer else None`. */
  function WinningId(answers: seq<Votes.Answer>, margin: Margin): Option<string> {
    match FindWinning(answers, margin)
    case None => None
    case Some(k) => Some(answers[k].id)
  }

  /** The poll export; `margin` is `Some(None)` when present but not a string. */
  datatype Poll = Poll(margin: Option<Option<string>>, points: Option<real>, answers: Option<seq<Votes.Answer>>, votes: Option<seq<Votes.Vote>>)

  /** Username, Display Name, Margin Voted Short, Margin Voted, Points. */
  datatype Row = Row(username: string, displayName: string, short: string, full: string, points: real)

  function RowUsername(r: Row): string {
    r.username
  }

  function MatchPoints(p: Poll): real {
    p.points.GetOr(1.0)
  }

  /** `short_name_map.get(vote.get('answerId'), "Unknown")`. */
  function VotedShort(answers: seq<Votes.Answer>, margin: Margin, v: Votes.Vote): string {
    match v.answerId
    case None => "Unknown"
    case Some(id) =>
      match Votes.AnswerName(answers, id)
      case None => "Unknown"
      case Some(name) => ShortName(name, margin)
  }

  /** One vote. The vote's answer id is compared with the winning id as
      optional values, so a vote with no answer id equals a missing winner. */
  function VoteRow(v: Votes.Vote, answers: seq<Votes.Answer>, margin: Margin, win: Option<string>, points: real): Row {
    Row(Votes.UsernameOr(v), Votes.DisplayNameOr(v), VotedShort(answers, margin, v), Votes.AnswerOr(answers, v),
        if v.answerId == win then points else 0.0)
  }

  function VoteRows(vs: seq<Votes.Vote>, answers: seq<Votes.Answer>, margin: Margin, win: Option<string>, points: real): (r: seq<Row>)
    ensures |r| == |vs|
    ensures forall i :: 0 <= i < |vs| ==> r[i] == VoteRow(vs[i], answers, margin, win, points)
  {
    seq(|vs|, i requires 0 <= i < |vs| => VoteRow(vs[i], answers, margin, win, points))
  }

  function ByUsername(rows: seq<Row>): seq<Row> {
    Sorting.SortBy(rows, RowUsername, Sorting.NameAsc)
  }

  /** `process_poll_to_csv`: a non-object, a missing key or an unreadable
      margin is rejected; otherwise one row per vote, sorted by username. */
  function Score(input: Option<Poll>): Result<seq<Row>> {
    match input
    case None => Failure(NotAnObject)
    case Some(p) =>
      if p.margin.None? then Failure(MissingKey("margin"))
      else if p.answers.None? then Failure(MissingKey("answers"))
      else if p.votes.None? then Failure(MissingKey("votes"))
      else match ParseMargin(p.margin.value)
        case None => Failure(BadValue(p.margin.value.GetOr("")))
        case Some(m) =>
          var answers := p.answers.value;
          Success(ByUsername(VoteRows(p.votes.value, answers, m, WinningId(answers, m), MatchPoints(p))))
  }

  /** A vote earns the points when it names the first answer covering the
      margin, or, as written, when it names no answer and none covers it. */
  ghost predicate Earns(v: Votes.Vote, answers: seq<Votes.Answer>, margin: Margin) {
    || (exists k: nat :: FirstMatch(answers, margin, k) && v.answerId == Some(answers[k].id))
    || (v.answerId.None? && forall k :: 0 <= k < |answers| ==> !Matches(answers[k].name, margin))
  }

  /** The points of a vote's row, in terms of which answer covers the margin. */
  lemma VotePoints(v: Votes.Vote, answers: seq<Votes.Answer>, margin: Margin, points: real)
    ensures VoteRow(v, answers, margin, WinningId(answers, margin), points).points
      == if Earns(v, answers, margin) then points else 0.0
  {
    match FindWinning(answers, margin)
    case None =>
    case Some(k) =>
      if v.answerId == Some(answers[k].id) {
        assert FirstMatch(answers, margin, k);
      } else {
        forall j: nat | FirstMatch(answers, margin, j) ensures j == k {
        }
      }
  }

  /** Scoring succeeds iff the input is an object with all three keys and a
      readable margin; the rows are then one per vote, sorted by username,
      and a vote's row earns the points as `VotePoints` states. */
  lemma ScoreSpec(input: Option<Poll>)
    ensures Score(input).Success? <==>
      && input.Some? && input.value.margin.Some? && input.value.answers.Some? && input.value.votes.Some?
      && ParseMargin(input.value.margin.value).Some?
    ensures Score(input).Success? ==>
      var p := input.value;
      var m := ParseMargin(p.margin.value).value;
      var rows := Score(input).value;
      && |rows| == |p.votes.value|
      && multiset(rows) == multiset(VoteRows(p.votes.value, p.answers.value, m, WinningId(p.answers.value, m), MatchPoints(p)))
      && Sorting.SortedBy(rows, RowUsername, Sorting.NameAsc)
  {
    if Score(input).Success? {
      var p := input.value;
      var m := ParseMargin(p.margin.value).value;
      Sorting.NameAscIsStrictWeakOrder();
      Sorting.SortBySorted(VoteRows(p.votes.value, p.answers.value, m, WinningId(p.answers.value, m), MatchPoints(p)), RowUsername, Sorting.NameAsc);
    }
  }

  /** Rows of the same username keep their vote order. */
  lemma ScoreStable(vs: seq<Votes.Vote>, answers: seq<Votes.Answer>, margin: Margin, points: real, u: string)
    ensures var rows := VoteRows(vs, answers, margin, WinningId(answers, margin), points);
      Sorting.Peers(ByUsername(rows), RowUsername, Sorting.NameAsc, u) == Sorting.Peers(rows, RowUsername, Sorting.NameAsc, u)
  {
    Sorting.NameAscIsStrictWeakOrder();
    Sorting.SortByStable(VoteRows(vs, answers, margin, WinningId(answers, margin), points), RowUsername, Sorting.NameAsc, u);
  }
}

=== FILE: overall.dfy ===
/** The overall leaderboard: the week's Winner and Margin season files are
    merged into one board with `Winner_Week<n>` and `Margin_Week<n>` columns
    (only those some row carries, week by week, Winner before Margin), an
    optional `Playoffs` column and their total; rows are ranked with movement
    against the previous week's snapshot. */
module Overall {
  import opened Wrappers
  import Text
  import Sorting
  import Ranking
  import Board
  import Seqs

  datatype Poll = Winner | Margin

  /** A leaderboard column: one poll's week, or the playoffs. */
  datatype Column = WeekColumn(poll: Poll, week: int) | PlayoffsColumn

  /** The column's header text. */
  function ColumnName(c: Column): (r: string)
    ensures c.PlayoffsColumn? <==> r == "Playoffs"
  {
    match c
    case PlayoffsColumn => "Playoffs"
    case WeekColumn(p, w) =>
      (if p == Winner then "Winner_Week" else "Margin_Week") + Text.IntToString(w)
  }

  /** One row of a season file: the username, the display name if the
      column exists, and the remaining fields by header. */
  datatype OverallRow = OverallRow(username: string, displayName: Option<string>, fields: map<string, string>)

  /** A season file: whether its header holds `Username`, `Display Name` and
      `Total`, and its rows. */
  datatype OverallFile = OverallFile(hasRequired: bool, rows: seq<OverallRow>)

  /** The header of week `w` in a season file. */
  function WeekKey(w: int): string {
    "Week" + Text.IntToString(w)
  }

  // ---------------------------------------------------------------------------
  // Rows as writes.
  // ---------------------------------------------------------------------------

  /** The stripped username and display name a row writes. */
  function UserOf(row: OverallRow): string {
    Text.Strip(row.username)
  }

  function DisplayOf(row: OverallRow): string {
    Text.Strip(row.displayName.GetOr(UserOf(row)))
  }

  /** A row's points for `key`, 0.0 when they do not parse. */
  function FieldPoints(row: OverallRow, key: string, parse: Text.Parser): real
    requires key in row.fields
  {
    parse(row.fields[key]).GetOr(0.0)
  }

  /** The week cells of a row for weeks 1..`upTo`, in week order: one per
      week whose header the row carries. */
  function WeekWrites(poll: Poll, row: OverallRow, upTo: int, parse: Text.Parser): (ws: seq<Board.Write<Column>>)
    ensures forall i :: 0 <= i < |ws| ==> ws[i].user == UserOf(row) && ws[i].display == DisplayOf(row)
    decreases upTo
  {
    if upTo < 1 then []
    else
      var key := WeekKey(upTo);
      WeekWrites(poll, row, upTo - 1, parse)
      + (if key in row.fields
         then [Board.Write(UserOf(row), DisplayOf(row), Some((WeekColumn(poll, upTo), FieldPoints(row, key, parse))))]
         else [])
  }

  /** A row sets its user's display name, then its week cells, then its
      playoff points when the column is enabled and the row carries it. */
  function RowWrites(poll: Poll, row: OverallRow, week: int, playoffs: bool, parse: Text.Parser)
    : (ws: seq<Board.Write<Column>>)
    ensures |ws| > 0 && ws[0] == Board.Write(UserOf(row), DisplayOf(row), None)
    ensures forall i :: 0 <= i < |ws| ==> ws[i].user == UserOf(row)
  {
    var head := [Board.Write(UserOf(row), DisplayOf(row), None)];
    var weeks := WeekWrites(poll, row, week, parse);
    var tail := if playoffs && "Playoffs" in row.fields
      then [Board.Write(UserOf(row), DisplayOf(row), Some((PlayoffsColumn, FieldPoints(row, "Playoffs", parse))))]
      else [];
    var ws := head + weeks + tail;
    assert forall i :: 0 <= i < |ws| ==> ws[i].user == UserOf(row) by {
      forall i | 0 <= i < |ws| ensures ws[i].user == UserOf(row) {
        if 0 < i <= |weeks| {
          assert ws[i] == weeks[i - 1];
        } else if i > |weeks| {
          assert ws[i] == tail[i - 1 - |weeks|];
        }
      }
    }
    ws
  }

  /** The writes of a file's rows, in order. */
  function RowsWrites(poll: Poll, rows: seq<OverallRow>, week: int, playoffs: bool, parse: Text.Parser)
    : seq<Board.Write<Column>>
    decreases |rows|
  {
    if |rows| == 0 then []
    else RowsWrites(poll, rows[..|rows| - 1], week, playoffs, parse) + RowWrites(poll, rows[|rows| - 1], week, playoffs, parse)
  }

  /** A missing file, or one lacking a required header, writes nothing. */
  function FileWrites(poll: Poll, f: Option<OverallFile>, week: int, playoffs: bool, parse: Text.Parser)
    : seq<Board.Write<Column>>
  {
    match f
    case Some(file) => if file.hasRequired then RowsWrites(poll, file.rows, week, playoffs, parse) else []
    case None => []
  }

  /** The Winner file's writes, then the Margin file's. */
  function MergeWrites(winner: Option<OverallFile>, margin: Option<OverallFile>, week: int, playoffs: bool,
                       parse: Text.Parser): seq<Board.Write<Column>> {
    FileWrites(Winner, winner, week, playoffs, parse) + FileWrites(Margin, margin, week, playoffs, parse)
  }

  // ---------------------------------------------------------------------------
  // Columns.
  // ---------------------------------------------------------------------------

  /** The columns some write sets. */
  function Written(ws: seq<Board.Write<Column>>): set<Column> {
    set i | 0 <= i < |ws| && ws[i].cell.Some? :: ws[i].cell.value.0
  }

  /** Column order: by week, Winner before Margin within a week. */
  predicate Before(a: Column, b: Column)
    requires a.WeekColumn? && b.WeekColumn?
  {
    a.week < b.week || (a.week == b.week && a.poll == Winner && b.poll == Margin)
  }

  /** The week columns of weeks 1..`upTo` that are in `seen`, week by week,
      Winner before Margin. */
  function WeekColumns(upTo: int, seen: set<Column>): (cols: seq<Column>)
    ensures forall i :: 0 <= i < |cols| ==> cols[i].WeekColumn? && 1 <= cols[i].week <= upTo
    decreases upTo
  {
    if upTo < 1 then []
    else
      WeekColumns(upTo - 1, seen)
      + (if WeekColumn(Winner, upTo) in seen then [WeekColumn(Winner, upTo)] else [])
      + (if WeekColumn(Margin, upTo) in seen then [WeekColumn(Margin, upTo)] else [])
  }

  /** The week columns hold exactly the seen columns of weeks 1..`upTo`, in
      strictly increasing (week, poll) order. */
  lemma WeekColumnsSpec(upTo: int, seen: set<Column>)
    ensures var cols := WeekColumns(upTo, seen);
      && (forall c :: c in cols <==> c in seen && c.WeekColumn? && 1 <= c.week <= upTo)
      && (forall i, j :: 0 <= i < j < |cols| ==> Before(cols[i], cols[j]))
  {
    WeekColumnsContents(upTo, seen);
    WeekColumnsOrder(upTo, seen);
  }

  /** The week columns hold exactly the seen columns of weeks 1..`upTo`. */
  lemma {:induction false} WeekColumnsContents(upTo: int, seen: set<Column>)
    ensures forall c :: c in WeekColumns(upTo, seen) <==> c in seen && c.WeekColumn? && 1 <= c.week <= upTo
    decreases upTo
  {
    if upTo >= 1 {
      WeekColumnsContents(upTo - 1, seen);
      var prior := WeekColumns(upTo - 1, seen);
      var w := if WeekColumn(Winner, upTo) in seen then [WeekColumn(Winner, upTo)] else [];
      var m := if WeekColumn(Margin, upTo) in seen then [WeekColumn(Margin, upTo)] else [];
      var cols := WeekColumns(upTo, seen);
      assert cols == prior + w + m;
      forall c ensures c in cols <==> c in seen && c.WeekColumn? && 1 <= c.week <= upTo {
        assert c in cols <==> c in prior || c in w || c in m;
        assert c in prior <==> c in seen && c.WeekColumn? && 1 <= c.week <= upTo - 1;
        if c in seen && c.WeekColumn? && c.week == upTo {
          assert c == WeekColumn(c.poll, upTo);
          if c.poll == Winner {
            assert c in w;
          } else {
            assert c in m;
          }
        }
      }
    }
  }

  /** The week columns are in strictly increasing (week, poll) order. */
  lemma {:induction false} WeekColumnsOrder(upTo: int, seen: set<Column>)
    ensures forall i, j :: 0 <= i < j < |WeekColumns(upTo, seen)| ==>
      Before(WeekColumns(upTo, seen)[i], WeekColumns(upTo, seen)[j])
    decreases upTo
  {
    if upTo >= 1 {
      WeekColumnsOrder(upTo - 1, seen);
      var prior := WeekColumns(upTo - 1, seen);
      var w := if WeekColumn(Winner, upTo) in seen then [WeekColumn(Winner, upTo)] else [];
      var m := if WeekColumn(Margin, upTo) in seen then [WeekColumn(Margin, upTo)] else [];
      var cols := WeekColumns(upTo, seen);
      assert cols == prior + w + m;
      forall i, j | 0 <= i < j < |cols| ensures Before(cols[i], cols[j]) {
        if j >= |prior| && i < |prior| {
          assert cols[i] == prior[i];
          assert cols[i].week <= upTo - 1;
          assert cols[j] == (w + m)[j - |prior|];
          assert cols[j].week == upTo;
        } else if j < |prior| {
          assert cols[i] == prior[i] && cols[j] == prior[j];
        } else {
          assert cols[i] == WeekColumn(Winner, upTo) && cols[j] == WeekColumn(Margin, upTo);
        }
      }
    }
  }

  /** The output columns: the seen week columns, then `Playoffs` when enabled. */
  function Columns(week: int, seen: set<Column>, playoffs: bool): seq<Column> {
    WeekColumns(week, seen) + (if playoffs then [PlayoffsColumn] else [])
  }

  // ---------------------------------------------------------------------------
  // The leaderboard.
  // ---------------------------------------------------------------------------

  datatype Leaderboard = Leaderboard(columns: seq<Column>, ranked: Board.Tracked)

  /** Merge the week's Winner and Margin files. Neither file existing is an
      error, and so is an empty board (no row in a file with the required
      headers). */
  function OverallLeaderboard(winner: Option<OverallFile>, margin: Option<OverallFile>, week: int,
                              playoffs: bool, prev: Ranking.Snapshot, parse: Text.Parser)
    : (r: Result<Leaderboard>)
    ensures r.Failure? ==> r.error == NoInput
    ensures winner.None? && margin.None? ==> r.Failure?
  {
    if winner.None? && margin.None? then Failure(NoInput)
    else
      var ws := MergeWrites(winner, margin, week, playoffs, parse);
      var b := Board.Apply(ws);
      if |b.order| == 0 then Failure(NoInput)
      else
        var columns := Columns(week, Written(ws), playoffs);
        Success(Leaderboard(columns, Board.RankWithMovement(Board.Rows(b, columns), prev)))
  }

  // ---------------------------------------------------------------------------
  // What the leaderboard holds.
  // ---------------------------------------------------------------------------

  /** Whether a file is read and holds a row for `u`. */
  predicate HasUser(f: Option<OverallFile>, u: string) {
    f.Some? && f.value.hasRequired && u in Users(f.value.rows)
  }

  lemma WritersAppend(a: seq<Board.Write<Column>>, b: seq<Board.Write<Column>>)
    ensures Board.Writers(a + b) == Board.Writers(a) + Board.Writers(b)
  {
  }

  /** A row's writes are all its own user's. */
  lemma RowWritersAre(poll: Poll, row: OverallRow, week: int, playoffs: bool, parse: Text.Parser, u: string)
    ensures u in Board.Writers(RowWrites(poll, row, week, playoffs, parse)) <==> u == UserOf(row)
  {
    var names := Board.Writers(RowWrites(poll, row, week, playoffs, parse));
    assert names[0] == UserOf(row);
  }

  /** The rows' stripped usernames, in order. */
  function Users(rows: seq<OverallRow>): (r: seq<string>)
    ensures |r| == |rows|
    ensures forall j :: 0 <= j < |rows| ==> r[j] == UserOf(rows[j])
  {
    Seqs.Map(rows, UserOf)
  }

  /** The rows' writers are the rows' users. */
  lemma {:induction false} RowsWritersAre(poll: Poll, rows: seq<OverallRow>, week: int, playoffs: bool,
                                          parse: Text.Parser, u: string)
    ensures u in Board.Writers(RowsWrites(poll, rows, week, playoffs, parse)) <==> u in Users(rows)
    decreases |rows|
  {
    if |rows| > 0 {
      var n := |rows| - 1;
      var before := RowsWrites(poll, rows[..n], week, playoffs, parse);
      var last := RowWrites(poll, rows[n], week, playoffs, parse);
      assert RowsWrites(poll, rows, week, playoffs, parse) == before + last;
      RowsWritersAre(poll, rows[..n], week, playoffs, parse, u);
      WritersAppend(before, last);
      RowWritersAre(poll, rows[n], week, playoffs, parse, u);
      assert Users(rows) == Users(rows[..n]) + [UserOf(rows[n])];
    }
  }

  /** A user is on the board exactly when a read file holds a row for them. */
  lemma MergeWritersAre(winner: Option<OverallFile>, margin: Option<OverallFile>, week: int, playoffs: bool,
                        parse: Text.Parser)
    ensures forall u ::
      u in Board.Writers(MergeWrites(winner, margin, week, playoffs, parse)) <==> HasUser(winner, u) || HasUser(margin, u)
  {
    WritersAppend(FileWrites(Winner, winner, week, playoffs, parse), FileWrites(Margin, margin, week, playoffs, parse));
    forall u ensures
      u in Board.Writers(MergeWrites(winner, margin, week, playoffs, parse)) <==> HasUser(winner, u) || HasUser(margin, u)
    {
      if winner.Some? && winner.value.hasRequired {
        RowsWritersAre(Winner, winner.value.rows, week, playoffs, parse, u);
      }
      if margin.Some? && margin.value.hasRequired {
        RowsWritersAre(Margin, margin.value.rows, week, playoffs, parse, u);
      }
    }
  }

  /** The merge fails exactly when neither file exists or no read file has a
      row. */
  lemma OverallLeaderboardFails(winner: Option<OverallFile>, margin: Option<OverallFile>, week: int,
                                playoffs: bool, prev: Ranking.Snapshot, parse: Text.Parser)
    ensures OverallLeaderboard(winner, margin, week, playoffs, prev, parse).Failure?
        <==> (winner.None? && margin.None?) || (forall u :: !HasUser(winner, u) && !HasUser(margin, u))
  {
    var ws := MergeWrites(winner, margin, week, playoffs, parse);
    var b := Board.Apply(ws);
    MergeWritersAre(winner, margin, week, playoffs, parse);
    Board.ApplyOrder(ws);
    if |b.order| == 0 {
      assert forall u :: u !in Board.Writers(ws);
    } else {
      assert b.order[0] in Board.Writers(ws);
    }
  }

  /** The columns of a merge are the seen week columns of weeks 1..`week`,
      in (week, poll) order, followed by `Playoffs` exactly when enabled. */
  lemma OverallColumns(winner: Option<OverallFile>, margin: Option<OverallFile>, week: int,
                       playoffs: bool, prev: Ranking.Snapshot, parse: Text.Parser)
    requires OverallLeaderboard(winner, margin, week, playoffs, prev, parse).Success?
    ensures var cols := OverallLeaderboard(winner, margin, week, playoffs, prev, parse).value.columns;
      var ws := MergeWrites(winner, margin, week, playoffs, parse);
      && (forall c :: c in cols <==>
            (c.WeekColumn? && c in Written(ws) && 1 <= c.week <= week) || (c.PlayoffsColumn? && playoffs))
      && (forall i, j :: 0 <= i < j < |cols| && cols[j].WeekColumn? ==>
            cols[i].WeekColumn? && Before(cols[i], cols[j]))
  {
    var ws := MergeWrites(winner, margin, week, playoffs, parse);
    var weeks := WeekColumns(week, Written(ws));
    var cols := Columns(week, Written(ws), playoffs);
    WeekColumnsSpec(week, Written(ws));
    forall i, j | 0 <= i < j < |cols| && cols[j].WeekColumn?
      ensures cols[i].WeekColumn? && Before(cols[i], cols[j])
    {
      assert j < |weeks|;
      assert cols[i] == weeks[i] && cols[j] == weeks[j];
    }
  }

  /** A merge holds one row per user of a read file, each the reference row
      (last display name, last value per column, 0.0 where none, total their
      sum), ordered by (-Total, Username) and ranked; the snapshot holds each
      ranked user's ranks. */
  lemma OverallRows(winner: Option<OverallFile>, margin: Option<OverallFile>, week: int,
                    playoffs: bool, prev: Ranking.Snapshot, parse: Text.Parser)
    requires OverallLeaderboard(winner, margin, week, playoffs, prev, parse).Success?
    ensures var lb := OverallLeaderboard(winner, margin, week, playoffs, prev, parse).value;
      var ws := MergeWrites(winner, margin, week, playoffs, parse);
      var out := Ranking.Untracked(lb.ranked.rows);
      && Sorting.NoDuplicates(Ranking.UsersOf(out, Board.Username))
      && (forall u :: u in Ranking.UsersOf(out, Board.Username) <==> HasUser(winner, u) || HasUser(margin, u))
      && (forall i :: 0 <= i < |out| ==> out[i] == Board.ExpectedRow(ws, out[i].username, lb.columns))
      && Sorting.SortedBy(out, Board.TotalAndName, Sorting.ScoreDescNameAsc)
      && (forall i :: 0 <= i < |out| ==>
            lb.ranked.rows[i].rank == Ranking.Ranks(Ranking.ScoresOf(out, Board.Total))[i])
      && (forall i :: 0 <= i < |out| ==>
            lb.ranked.snapshot[out[i].username]
            == Ranking.PreviousRanks(Some(lb.ranked.rows[i].rank.dense), Some(lb.ranked.rows[i].rank.standard)))
  {
    var ws := MergeWrites(winner, margin, week, playoffs, parse);
    var columns := Columns(week, Written(ws), playoffs);
    var rows := Board.Rows(Board.Apply(ws), columns);
    var ranked := Board.RankWithMovement(rows, prev);
    assert OverallLeaderboard(winner, margin, week, playoffs, prev, parse).value == Leaderboard(columns, ranked);
    Board.RowsMeaning(ws, columns);
    Board.RankWithMovementSpec(rows, prev);
    MergedRows(winner, margin, week, playoffs, parse, Ranking.Untracked(ranked.rows));
  }

  /** Any reordering of the merged board's rows holds one row per user with a
      row in either file, each as the writes determine it. */
  lemma MergedRows(winner: Option<OverallFile>, margin: Option<OverallFile>, week: int,
                   playoffs: bool, parse: Text.Parser, out: seq<Board.Row>)
    requires var ws := MergeWrites(winner, margin, week, playoffs, parse);
      multiset(out) == multiset(Board.Rows(Board.Apply(ws), Columns(week, Written(ws), playoffs)))
    ensures var ws := MergeWrites(winner, margin, week, playoffs, parse);
      && Sorting.NoDuplicates(Ranking.UsersOf(out, Board.Username))
      && (forall u :: u in Ranking.UsersOf(out, Board.Username) <==> HasUser(winner, u) || HasUser(margin, u))
      && (forall i :: 0 <= i < |out| ==> out[i] == Board.ExpectedRow(ws, out[i].username, Columns(week, Written(ws), playoffs)))
  {
    var ws := MergeWrites(winner, margin, week, playoffs, parse);
    MergeWritersAre(winner, margin, week, playoffs, parse);
    Board.ReorderedRowsMeaning(ws, Columns(week, Written(ws), playoffs), out);
  }


  /** A read row carrying week `w`'s header (1 <= `w` <= the target week)
      makes that poll's week column appear. */
  lemma CarriedWeekIsWritten(poll: Poll, row: OverallRow, week: int, playoffs: bool, parse: Text.Parser, w: int)
    requires 1 <= w <= week && WeekKey(w) in row.fields
    ensures WeekColumn(poll, w) in Written(RowWrites(poll, row, week, playoffs, parse))
  {
    var i := WeekIndex(poll, row, week, parse, w);
    var ws := RowWrites(poll, row, week, playoffs, parse);
    assert ws[1 + i] == WeekWrites(poll, row, week, parse)[i];
  }

  /** The position of week `w`'s cell among a row's week cells. */
  lemma {:induction false} WeekIndex(poll: Poll, row: OverallRow, upTo: int, parse: Text.Parser, w: int)
    returns (i: nat)
    requires 1 <= w <= upTo && WeekKey(w) in row.fields
    ensures i < |WeekWrites(poll, row, upTo, parse)|
    ensures WeekWrites(poll, row, upTo, parse)[i].cell == Some((WeekColumn(poll, w), FieldPoints(row, WeekKey(w), parse)))
    decreases upTo
  {
    var prior := WeekWrites(poll, row, upTo - 1, parse);
    if w == upTo {
      i := |prior|;
    } else {
      i := WeekIndex(poll, row, upTo - 1, parse, w);
      assert WeekWrites(poll, row, upTo, parse)[i] == prior[i];
    }
  }
}

=== FILE: playoff_poll.dfy ===
/** Scoring the playoff prediction poll: each voter picks teams, the picks are
    grouped per voter id, and every pick among the four qualified teams earns
    the points per correct pick. The table is sorted by points, highest first,
    then by username, and ranked. */
module PlayoffPoll {
  import opened Wrappers
  import Text
  import Sorting
  import Ranking
  import Votes

  /** The poll export. `qualifiedTeams` is the current script's
      `qualifiedteams` key, `playoffTeams` the older script's `playoffteams`. */
  datatype Poll = Poll(
    points: Option<real>,
    answers: Option<seq<Votes.Answer>>,
    votes: Option<seq<Votes.Vote>>,
    qualifiedTeams: Option<seq<string>>,
    playoffTeams: Option<seq<string>>)

  /** One vote once read: the voter's id, username and display name, and the
      short name of the team picked. */
  datatype Pick = Pick(id: string, username: string, displayName: string, team: string)

  // ---------------------------------------------------------------------------
  // Reading the votes.
  // ---------------------------------------------------------------------------

  /** The current script: every absent field defaulted, the short name
      falling back to the full team name. */
  function PickOf(v: Votes.Vote, answers: seq<Votes.Answer>, table: map<string, string>): Pick {
    var full := Votes.AnswerOr(answers, v);
    Pick(Votes.UserIdOr(v), Votes.UsernameOr(v), Votes.DisplayNameOr(v), Votes.ShortName(table, full, full))
  }

  function PicksOf(vs: seq<Votes.Vote>, answers: seq<Votes.Answer>, table: map<string, string>): (ps: seq<Pick>)
    ensures |ps| == |vs|
    ensures forall i :: 0 <= i < |vs| ==> ps[i] == PickOf(vs[i], answers, table)
  {
    seq(|vs|, i requires 0 <= i < |vs| => PickOf(vs[i], answers, table))
  }

  /** The older script: a missing user, id, username or answerId raises
      KeyError; the display name defaults to the username; an unknown answer
      is "Unknown", and so is a team name missing from the table. */
  function DirectPick(v: Votes.Vote, answers: seq<Votes.Answer>, table: map<string, string>): Result<Pick> {
    if v.user.None? then Failure(MissingKey("user"))
    else if v.user.value.id.None? then Failure(MissingKey("id"))
    else if v.user.value.username.None? then Failure(MissingKey("username"))
    else if v.answerId.None? then Failure(MissingKey("answerId"))
    else
      var u := v.user.value;
      var full := Votes.AnswerName(answers, v.answerId.value).GetOr("Unknown");
      Success(Pick(u.id.value, u.username.value, u.globalName.GetOr(u.username.value), Votes.ShortName(table, full, "Unknown")))
  }

  /** The older script's picks; the first vote that fails stops it. */
  function DirectPicks(vs: seq<Votes.Vote>, answers: seq<Votes.Answer>, table: map<string, string>): (r: Result<seq<Pick>>)
    ensures r.Success? <==> forall i :: 0 <= i < |vs| ==> DirectPick(vs[i], answers, table).Success?
    ensures r.Success? ==> (|r.value| == |vs|
      && forall i :: 0 <= i < |vs| ==> Success(r.value[i]) == DirectPick(vs[i], answers, table))
    decreases |vs|
  {
    if |vs| == 0 then Success([])
    else
      var n := |vs| - 1;
      var prior :- DirectPicks(vs[..n], answers, table);
      assert forall i :: 0 <= i < n ==> vs[..n][i] == vs[i];
      var p :- DirectPick(vs[n], answers, table);
      Success(prior + [p])
  }

  /** A complete vote naming a known team is read the same way by both
      scripts, short names aside. */
  lemma DirectPickAgrees(v: Votes.Vote, answers: seq<Votes.Answer>, table: map<string, string>)
    ensures DirectPick(v, answers, table).Success? <==>
      v.user.Some? && v.user.value.id.Some? && v.user.value.username.Some? && v.answerId.Some?
    ensures DirectPick(v, answers, table).Success? ==>
      var p := DirectPick(v, answers, table).value;
      var q := PickOf(v, answers, table);
      && p.id == q.id && p.username == q.username && p.displayName == q.displayName
      && (Votes.AnswerOr(answers, v) in table ==> p.team == q.team)
      && (Votes.AnswerOr(answers, v) !in table ==> p.team == "Unknown")
  {
  }

  // ---------------------------------------------------------------------------
  // Grouping the picks per voter id.
  // ---------------------------------------------------------------------------

  /** One voter's entry: the username and display name of the first vote
      under the id, and every team picked, in vote order. */
  datatype Ballot = Ballot(username: string, displayName: string, teams: seq<string>)

  /** The `user_votes` dictionary: ids in insertion order, and their ballots. */
  datatype Groups = Groups(order: seq<string>, ballots: map<string, Ballot>)

  /** The grouping loop. */
  function Group(ps: seq<Pick>): (g: Groups)
    ensures forall id :: id in g.ballots <==> id in g.order
    decreases |ps|
  {
    if |ps| == 0 then Groups([], map[])
    else
      var g := Group(ps[..|ps| - 1]);
      var p := ps[|ps| - 1];
      if p.id in g.ballots then
        var b := g.ballots[p.id];
        Groups(g.order, g.ballots[p.id := b.(teams := b.teams + [p.team])])
      else
        Groups(g.order + [p.id], g.ballots[p.id := Ballot(p.username, p.displayName, [p.team])])
  }

  /** The voter ids, in vote order. */
  function IdsOf(ps: seq<Pick>): (ids: seq<string>)
    ensures |ids| == |ps|
    ensures forall i :: 0 <= i < |ps| ==> ids[i] == ps[i].id
  {
    seq(|ps|, i requires 0 <= i < |ps| => ps[i].id)
  }

  /** Reference: the first pick under an id. */
  function FirstPick(ps: seq<Pick>, id: string): (r: Option<Pick>)
    ensures r.None? <==> id !in IdsOf(ps)
    ensures r.Some? ==> r.value in ps && r.value.id == id
    decreases |ps|
  {
    if |ps| == 0 then None
    else
      var n := |ps| - 1;
      assert IdsOf(ps) == IdsOf(ps[..n]) + [ps[n].id];
      var f := FirstPick(ps[..n], id);
      if f.Some? then f else if ps[n].id == id then Some(ps[n]) else None
  }

  /** Reference: the teams picked under an id, in vote order. */
  function TeamsOf(ps: seq<Pick>, id: string): (teams: seq<string>)
    ensures id !in IdsOf(ps) ==> teams == []
    decreases |ps|
  {
    if |ps| == 0 then []
    else
      var n := |ps| - 1;
      assert IdsOf(ps) == IdsOf(ps[..n]) + [ps[n].id];
      TeamsOf(ps[..n], id) + (if ps[n].id == id then [ps[n].team] else [])
  }

  /** The grouping lists each id once, in order of first appearance. */
  lemma {:induction false} GroupOrder(ps: seq<Pick>)
    ensures Group(ps).order == Sorting.FirstSeen(IdsOf(ps))
    decreases |ps|
  {
    if |ps| > 0 {
      var n := |ps| - 1;
      GroupOrder(ps[..n]);
      assert IdsOf(ps) == IdsOf(ps[..n]) + [ps[n].id];
      Sorting.FirstSeenSnoc(IdsOf(ps[..n]), ps[n].id);
    }
  }

  /** Each id's ballot holds its first vote's names and all its teams. */
  lemma {:induction false} GroupBallots(ps: seq<Pick>, id: string)
    ensures id in Group(ps).ballots <==> id in IdsOf(ps)
    ensures id in Group(ps).ballots ==>
      Group(ps).ballots[id] == Ballot(FirstPick(ps, id).value.username, FirstPick(ps, id).value.displayName, TeamsOf(ps, id))
    decreases |ps|
  {
    if |ps| > 0 {
      var n := |ps| - 1;
      var prev, p := ps[..n], ps[n];
      GroupBallots(prev, id);
      assert IdsOf(ps) == IdsOf(prev) + [p.id];
      if id == p.id && id !in IdsOf(prev) {
        assert FirstPick(ps, id) == Some(p);
        assert TeamsOf(ps, id) == [p.team];
      } else if id == p.id {
        assert TeamsOf(ps, id) == TeamsOf(prev, id) + [p.team];
      } else {
        assert TeamsOf(ps, id) == TeamsOf(prev, id);
        assert FirstPick(ps, id) == FirstPick(prev, id);
      }
    }
  }

  // ---------------------------------------------------------------------------
  // Scoring one ballot.
  // ---------------------------------------------------------------------------

  function Itself(s: string): string {
    s
  }

  /** `sorted(...)` on strings. */
  function SortedNames(s: seq<string>): seq<string> {
    Sorting.SortBy(s, Itself, Sorting.NameAsc)
  }

  /** The values of `s` that occur in `q`, in order. */
  function Within(s: seq<string>, q: seq<string>): (r: seq<string>)
    ensures forall x :: x in r <==> x in s && x in q
    ensures Sorting.NoDuplicates(s) ==> Sorting.NoDuplicates(r)
    decreases |s|
  {
    if |s| == 0 then []
    else
      var n := |s| - 1;
      assert s == s[..n] + [s[n]];
      var r := Within(s[..n], q);
      if s[n] in q then r + [s[n]] else r
  }

  /** `sorted(set(teams) & set(qualified))`. */
  function CorrectPicks(teams: seq<string>, qualified: seq<string>): seq<string> {
    SortedNames(Within(Sorting.FirstSeen(teams), qualified))
  }

  /** One result row, before the rank columns. */
  datatype Line = Line(username: string, displayName: string, predicted: seq<string>, correct: seq<string>, points: real)

  /** `len(correct_picks) * points_per_correct`. */
  function Worth(picks: nat, perCorrect: real): real {
    picks as real * perCorrect
  }

  /** One more correct pick is worth the points per pick more. */
  lemma WorthStep(picks: nat, perCorrect: real)
    ensures Worth(picks + 1, perCorrect) == Worth(picks, perCorrect) + perCorrect
  {
  }

  /** With non-negative points per pick, the worth grows with the picks. */
  lemma {:induction false} WorthBetween(picks: nat, perCorrect: real)
    requires perCorrect >= 0.0
    ensures 0.0 <= Worth(picks, perCorrect)
    ensures picks <= 4 ==> Worth(picks, perCorrect) <= Worth(4, perCorrect)
    decreases picks
  {
    if picks > 0 {
      WorthBetween(picks - 1, perCorrect);
      WorthStep(picks - 1, perCorrect);
    }
    if picks < 4 {
      WorthUpTo(picks, perCorrect);
    }
  }

  lemma {:induction false} WorthUpTo(picks: nat, perCorrect: real)
    requires perCorrect >= 0.0 && picks <= 4
    ensures Worth(picks, perCorrect) <= Worth(4, perCorrect)
    decreases 4 - picks
  {
    if picks < 4 {
      WorthStep(picks, perCorrect);
      WorthUpTo(picks + 1, perCorrect);
    }
  }

  lemma WorthBound(picks: nat, perCorrect: real)
    requires picks <= 4 && perCorrect >= 0.0
    ensures 0.0 <= Worth(picks, perCorrect) <= 4.0 * perCorrect
  {
    WorthBetween(picks, perCorrect);
    assert Worth(4, perCorrect) == 4.0 * perCorrect;
  }

  function LineOf(b: Ballot, qualified: seq<string>, perCorrect: real): Line {
    var correct := CorrectPicks(b.teams, qualified);
    Line(b.username, b.displayName, SortedNames(b.teams), correct, Worth(|correct|, perCorrect))
  }

  /** The Predicted Teams cell. */
  function PredictedCell(l: Line): string {
    Text.Join(l.predicted, ", ")
  }

  /** The Correct Picks cell: "---" when nothing is correct. */
  function CorrectCell(l: Line): string {
    if |l.correct| == 0 then "---" else Text.Join(l.correct, ", ")
  }

  /** Removes the first occurrence of `x`. */
  function RemoveOne(s: seq<string>, x: string): (r: seq<string>)
    ensures x in s ==> |r| == |s| - 1
    ensures forall y :: y != x ==> (y in r <==> y in s)
    decreases |s|
  {
    if |s| == 0 then []
    else if s[0] == x then s[1..]
    else
      var r := RemoveOne(s[1..], x);
      assert forall y :: y in s <==> y == s[0] || y in s[1..];
      [s[0]] + r
  }

  /** Distinct values all taken from `q` are no more than `q` holds. */
  lemma {:induction false} DistinctWithin(a: seq<string>, q: seq<string>)
    requires Sorting.NoDuplicates(a)
    requires forall x :: x in a ==> x in q
    ensures |a| <= |q|
    decreases |a|
  {
    if |a| > 0 {
      var n := |a| - 1;
      assert a[n] in q;
      assert forall x :: x in a[..n] ==> x != a[n] && x in a;
      DistinctWithin(a[..n], RemoveOne(q, a[n]));
    }
  }

  /** The correct picks are exactly the distinct teams that qualified, in
      increasing order. */
  lemma CorrectPicksSpec(teams: seq<string>, qualified: seq<string>)
    ensures var c := CorrectPicks(teams, qualified);
      && (forall t :: t in c <==> t in teams && t in qualified)
      && Sorting.NoDuplicates(c)
      && Sorting.SortedBy(c, Itself, Sorting.NameAsc)
  {
    var w := Within(Sorting.FirstSeen(teams), qualified);
    var c := CorrectPicks(teams, qualified);
    Sorting.NameAscIsStrictWeakOrder();
    Sorting.SortBySorted(w, Itself, Sorting.NameAsc);
    Sorting.PermutationNoDuplicates(w, c);
    assert forall t :: t in c <==> t in multiset(w);
  }

  /** With four qualified teams there are at most four correct picks. */
  lemma CorrectPicksBound(teams: seq<string>, qualified: seq<string>)
    ensures |CorrectPicks(teams, qualified)| <= |qualified|
  {
    CorrectPicksSpec(teams, qualified);
    DistinctWithin(CorrectPicks(teams, qualified), qualified);
  }

  /** A ballot's row: the predicted teams are its teams sorted, and the
      correct picks exactly the distinct teams that qualified, sorted; with
      four qualified teams there are at most four of them. */
  lemma LineSpec(b: Ballot, qualified: seq<string>, perCorrect: real)
    ensures var l := LineOf(b, qualified, perCorrect);
      && multiset(l.predicted) == multiset(b.teams)
      && Sorting.SortedBy(l.predicted, Itself, Sorting.NameAsc)
      && (forall t :: t in l.correct <==> t in b.teams && t in qualified)
      && Sorting.NoDuplicates(l.correct)
      && Sorting.SortedBy(l.correct, Itself, Sorting.NameAsc)
      && (|qualified| == 4 ==> |l.correct| <= 4)
  {
    Sorting.NameAscIsStrictWeakOrder();
    Sorting.SortBySorted(b.teams, Itself, Sorting.NameAsc);
    CorrectPicksSpec(b.teams, qualified);
    CorrectPicksBound(b.teams, qualified);
  }

  /** With four qualified teams and non-negative points per pick, a row's
      points lie between none and four picks' worth. */
  lemma PointsBound(b: Ballot, qualified: seq<string>, perCorrect: real)
    requires |qualified| == 4 && perCorrect >= 0.0
    ensures 0.0 <= LineOf(b, qualified, perCorrect).points <= 4.0 * perCorrect
  {
    CorrectPicksBound(b.teams, qualified);
    WorthBound(|CorrectPicks(b.teams, qualified)|, perCorrect);
  }

  // ---------------------------------------------------------------------------
  // The table.
  // ---------------------------------------------------------------------------

  /** Key of `sort(key=lambda x: (-x["Points"], x["Username"]))`. */
  function PointsAndName(l: Line): Sorting.ScoreName {
    Sorting.ScoreName(l.points, l.username)
  }

  function PointsOf(l: Line): real {
    l.points
  }

  /** The rows in `user_votes` order. */
  function LinesOf(g: Groups, qualified: seq<string>, perCorrect: real): (ls: seq<Line>)
    requires forall id :: id in g.order ==> id in g.ballots
    ensures |ls| == |g.order|
  {
    seq(|g.order|, i requires 0 <= i < |g.order| => LineOf(g.ballots[g.order[i]], qualified, perCorrect))
  }

  /** Grouping, scoring, sorting and ranking. */
  function Tabulate(ps: seq<Pick>, qualified: seq<string>, perCorrect: real): seq<Ranking.Ranked<Line>> {
    var g := Group(ps);
    var sorted := Sorting.SortBy(LinesOf(g, qualified, perCorrect), PointsAndName, Sorting.ScoreDescNameAsc);
    Ranking.RankRows(sorted, PointsOf)
  }

  /** Reference: the row of one voter id, from the reference definitions. */
  function ExpectedLine(ps: seq<Pick>, id: string, qualified: seq<string>, perCorrect: real): Line
    requires id in IdsOf(ps)
  {
    var first := FirstPick(ps, id).value;
    LineOf(Ballot(first.username, first.displayName, TeamsOf(ps, id)), qualified, perCorrect)
  }

  /** Reference: one row per distinct voter id, in order of first vote. */
  function ExpectedLines(ps: seq<Pick>, qualified: seq<string>, perCorrect: real): (ls: seq<Line>) {
    var ids := Sorting.FirstSeen(IdsOf(ps));
    seq(|ids|, i requires 0 <= i < |ids| => ExpectedLine(ps, ids[i], qualified, perCorrect))
  }

  /** The grouped rows are the reference rows. */
  lemma LinesAreExpected(ps: seq<Pick>, qualified: seq<string>, perCorrect: real)
    ensures LinesOf(Group(ps), qualified, perCorrect) == ExpectedLines(ps, qualified, perCorrect)
  {
    var g := Group(ps);
    GroupOrder(ps);
    forall i | 0 <= i < |g.order|
      ensures LinesOf(g, qualified, perCorrect)[i] == ExpectedLines(ps, qualified, perCorrect)[i]
    {
      GroupBallots(ps, g.order[i]);
    }
  }

  /** The table holds one row per voter id, each the reference row, ordered
      by points descending then username, with the ranks of the ranking scan. */
  lemma TabulateSpec(ps: seq<Pick>, qualified: seq<string>, perCorrect: real)
    ensures var r := Tabulate(ps, qualified, perCorrect); var rows := Ranking.Unranked(r);
      && multiset(rows) == multiset(ExpectedLines(ps, qualified, perCorrect))
      && Sorting.SortedBy(rows, PointsAndName, Sorting.ScoreDescNameAsc)
      && Ranking.RanksOf(r) == Ranking.Ranks(Ranking.ScoresOf(rows, PointsOf))
  {
    var lines := LinesOf(Group(ps), qualified, perCorrect);
    var sorted := Sorting.SortBy(lines, PointsAndName, Sorting.ScoreDescNameAsc);
    var r := Tabulate(ps, qualified, perCorrect);
    assert Ranking.Unranked(r) == sorted;
    LinesAreExpected(ps, qualified, perCorrect);
    Sorting.ScoreDescNameAscIsStrictWeakOrder();
    Sorting.SortBySorted(lines, PointsAndName, Sorting.ScoreDescNameAsc);
  }

  // ---------------------------------------------------------------------------
  // The two scripts.
  // ---------------------------------------------------------------------------

  /** `float(data.get("points", 0))`. */
  function PerCorrect(p: Poll): real {
    p.points.GetOr(0.0)
  }

  /** The current script: a non-object or one without `votes` or `answers`
      is refused, and so is a `qualifiedteams` list that does not hold four
      entries (an absent one counting as empty). */
  function Score(input: Option<Poll>, table: map<string, string>): Result<seq<Ranking.Ranked<Line>>> {
    match input
    case None => Failure(NotAnObject)
    case Some(p) =>
      if p.votes.None? then Failure(MissingKey("votes"))
      else if p.answers.None? then Failure(MissingKey("answers"))
      else
        var qualified := p.qualifiedTeams.GetOr([]);
        if |qualified| != 4 then Failure(BadCount(|qualified|))
        else Success(Tabulate(PicksOf(p.votes.value, p.answers.value, table), qualified, PerCorrect(p)))
  }

  /** The current script succeeds iff the input is an object with votes,
      answers and four qualified teams; it then tabulates one pick per vote. */
  lemma ScoreSpec(input: Option<Poll>, table: map<string, string>)
    ensures Score(input, table).Success? <==>
      && input.Some? && input.value.votes.Some? && input.value.answers.Some?
      && |input.value.qualifiedTeams.GetOr([])| == 4
    ensures Score(input, table).Success? ==>
      var p := input.value;
      var ps := PicksOf(p.votes.value, p.answers.value, table);
      var rows := Ranking.Unranked(Score(input, table).value);
      && |ps| == |p.votes.value|
      && multiset(rows) == multiset(ExpectedLines(ps, p.qualifiedTeams.value, PerCorrect(p)))
      && Sorting.SortedBy(rows, PointsAndName, Sorting.ScoreDescNameAsc)
  {
    if Score(input, table).Success? {
      var p := input.value;
      TabulateSpec(PicksOf(p.votes.value, p.answers.value, table), p.qualifiedTeams.value, PerCorrect(p));
    }
  }

  /** The older script: a non-object fails, a missing `answers` key raises,
      absent votes count as none, a `playoffteams` list that does not hold
      four entries is refused, and then every vote must be complete. */
  function DirectScore(input: Option<Poll>, table: map<string, string>): Result<seq<Ranking.Ranked<Line>>> {
    match input
    case None => Failure(NotAnObject)
    case Some(p) =>
      if p.answers.None? then Failure(MissingKey("answers"))
      else
        var qualified := p.playoffTeams.GetOr([]);
        if |qualified| != 4 then Failure(BadCount(|qualified|))
        else
          var ps :- DirectPicks(p.votes.GetOr([]), p.answers.value, table);
          Success(Tabulate(ps, qualified, PerCorrect(p)))
  }

  /** The older script succeeds iff the input is an object with answers, four
      playoff teams and only complete votes. */
  lemma DirectScoreSpec(input: Option<Poll>, table: map<string, string>)
    ensures DirectScore(input, table).Success? <==>
      && input.Some? && input.value.answers.Some?
      && |input.value.playoffTeams.GetOr([])| == 4
      && forall i :: 0 <= i < |input.value.votes.GetOr([])| ==>
           DirectPick(input.value.votes.GetOr([])[i], input.value.answers.value, table).Success?
    ensures DirectScore(input, table).Success? ==>
      var p := input.value;
      var ps := DirectPicks(p.votes.GetOr([]), p.answers.value, table).value;
      var rows := Ranking.Unranked(DirectScore(input, table).value);
      && multiset(rows) == multiset(ExpectedLines(ps, p.playoffTeams.value, PerCorrect(p)))
      && Sorting.SortedBy(rows, PointsAndName, Sorting.ScoreDescNameAsc)
  {
    if DirectScore(input, table).Success? {
      var p := input.value;
      TabulateSpec(DirectPicks(p.votes.GetOr([]), p.answers.value, table).value, p.playoffTeams.value, PerCorrect(p));
    }
  }
}

=== FILE: ranking.dfy ===
/** `calculate_ranks`: the single scan, shared by every leaderboard, that gives
    a list already sorted by descending score a standard rank (ties share a
    rank and the next distinct score skips ahead: 1, 2, 2, 4) and a dense rank
    (no skips: 1, 2, 2, 3). The older copies call them "Competitive" and
    "Sequential"; the newer ones also report each user's movement against the
    previous period's rank snapshot. */
module Ranking {
  import opened Wrappers
  import Text
  import Sorting

  /** The two ranks given to one entry. */
  datatype RankPair = RankPair(standard: nat, dense: nat)

  // ---------------------------------------------------------------------------
  // The rank scan.
  // ---------------------------------------------------------------------------

  /** The ranks the scan assigns to each position of `scores`, by induction on
      the prefix: the first entry is (1, 1); an entry scoring strictly less than
      its predecessor gets standard rank `i + 1` and the next dense rank; any
      other entry shares its predecessor's ranks. */
  function Ranks(scores: seq<real>): (r: seq<RankPair>)
    ensures |r| == |scores|
    decreases |scores|
  {
    if |scores| == 0 then []
    else
      var i := |scores| - 1;
      var init := Ranks(scores[..i]);
      init + [if i == 0 then RankPair(1, 1)
              else if scores[i] < scores[i - 1] then RankPair(i + 1, init[i - 1].dense + 1)
              else init[i - 1]]
  }

  /** Ranking a prefix gives the prefix of the ranking: an entry's ranks depend
      only on the entries before it. */
  lemma {:induction false} RanksPrefix(scores: seq<real>, k: nat)
    requires k <= |scores|
    ensures Ranks(scores[..k]) == Ranks(scores)[..k]
    decreases |scores|
  {
    if k < |scores| {
      var i := |scores| - 1;
      assert scores[..i][..k] == scores[..k];
      RanksPrefix(scores[..i], k);
    } else {
      assert scores[..k] == scores;
    }
  }

  /** The recurrence of the scan, position by position. */
  lemma {:induction false} RanksStep(scores: seq<real>, i: nat)
    requires i < |scores|
    ensures i == 0 ==> Ranks(scores)[i] == RankPair(1, 1)
    ensures 0 < i && scores[i] < scores[i - 1] ==>
              Ranks(scores)[i] == RankPair(i + 1, Ranks(scores)[i - 1].dense + 1)
    ensures 0 < i && !(scores[i] < scores[i - 1]) ==> Ranks(scores)[i] == Ranks(scores)[i - 1]
  {
    RanksPrefix(scores, i + 1);
    RanksPrefix(scores, i);
    assert scores[..i + 1][..i] == scores[..i];
    assert Ranks(scores[..i + 1])[i] == Ranks(scores)[i];
    if i > 0 {
      assert Ranks(scores[..i])[i - 1] == Ranks(scores)[i - 1];
    }
  }

  /** Ranks start at 1, dense never exceeds standard, standard never exceeds
      the position, and both only grow along the list. */
  lemma {:induction false} RanksBounds(scores: seq<real>)
    ensures forall i :: 0 <= i < |scores| ==>
              1 <= Ranks(scores)[i].dense <= Ranks(scores)[i].standard <= i + 1
    ensures forall i, j :: 0 <= i <= j < |scores| ==>
              Ranks(scores)[i].standard <= Ranks(scores)[j].standard
              && Ranks(scores)[i].dense <= Ranks(scores)[j].dense
  {
    var r := Ranks(scores);
    forall j | 0 <= j < |scores|
      ensures 1 <= r[j].dense <= r[j].standard <= j + 1
      ensures j > 0 ==> r[j - 1].standard <= r[j].standard && r[j - 1].dense <= r[j].dense
    {
      RanksBoundsAt(scores, j);
    }
    forall i, j | 0 <= i <= j < |scores|
      ensures r[i].standard <= r[j].standard && r[i].dense <= r[j].dense
    {
      RanksMonotone(scores, i, j);
    }
  }

  lemma {:induction false} RanksBoundsAt(scores: seq<real>, j: nat)
    requires j < |scores|
    ensures 1 <= Ranks(scores)[j].dense <= Ranks(scores)[j].standard <= j + 1
    ensures j > 0 ==> (Ranks(scores)[j - 1].standard <= Ranks(scores)[j].standard
                       && Ranks(scores)[j - 1].dense <= Ranks(scores)[j].dense)
  {
    RanksStep(scores, j);
    if j > 0 {
      RanksBoundsAt(scores, j - 1);
    }
  }

  lemma {:induction false} RanksMonotone(scores: seq<real>, i: nat, j: nat)
    requires i <= j < |scores|
    ensures Ranks(scores)[i].standard <= Ranks(scores)[j].standard
    ensures Ranks(scores)[i].dense <= Ranks(scores)[j].dense
    decreases j - i
  {
    if i < j {
      RanksMonotone(scores, i, j - 1);
      RanksBoundsAt(scores, j);
    }
  }

  /** The scan as the script writes it: a loop carrying the current standard
      rank, the dense rank and the previous entry's points. */
  method CalculateRanks(scores: seq<real>) returns (r: seq<RankPair>)
    ensures r == Ranks(scores)
  {
    r := [];
    var standard, dense := 1, 1;
    var prevPoints: Option<real> := None;
    for i := 0 to |scores|
      invariant r == Ranks(scores[..i])
      invariant i == 0 <==> prevPoints == None
      invariant i == 0 ==> standard == 1 && dense == 1
      invariant i > 0 ==> (prevPoints == Some(scores[i - 1])
                           && r[i - 1] == RankPair(standard, dense))
    {
      var points := scores[i];
      if prevPoints.Some? && points < prevPoints.value {
        standard := i + 1;
        dense := dense + 1;
      }
      ghost var next := scores[..i + 1];
      assert next[..i] == scores[..i] && next[i] == scores[i];
      assert i > 0 ==> next[i - 1] == scores[i - 1];
      assert Ranks(next) == Ranks(next[..i]) + [RankPair(standard, dense)];
      r := r + [RankPair(standard, dense)];
      prevPoints := Some(points);
    }
    assert scores[..|scores|] == scores;
  }

  // ---------------------------------------------------------------------------
  // What the ranks mean on a list sorted by descending score.
  // ---------------------------------------------------------------------------

  /** Each entry scores no more than any entry before it. */
  predicate Descending(scores: seq<real>) {
    forall i, j :: 0 <= i < j < |scores| ==> scores[j] <= scores[i]
  }

  /** How many entries score strictly more than `v`. */
  function CountAbove(scores: seq<real>, v: real): (n: nat)
    ensures n <= |scores|
  {
    if |scores| == 0 then 0
    else CountAbove(scores[..|scores| - 1], v) + (if scores[|scores| - 1] > v then 1 else 0)
  }

  /** The distinct scores strictly above `v`. */
  function ValuesAbove(scores: seq<real>, v: real): set<real> {
    set j | 0 <= j < |scores| && scores[j] > v :: scores[j]
  }

  lemma {:induction false} CountAboveAppend(a: seq<real>, b: seq<real>, v: real)
    ensures CountAbove(a + b, v) == CountAbove(a, v) + CountAbove(b, v)
    decreases |b|
  {
    if |b| == 0 {
      assert a + b == a;
    } else {
      assert (a + b)[..|a + b| - 1] == a + b[..|b| - 1];
      CountAboveAppend(a, b[..|b| - 1], v);
    }
  }

  lemma {:induction false} CountAboveNone(scores: seq<real>, v: real)
    requires forall j :: 0 <= j < |scores| ==> scores[j] <= v
    ensures CountAbove(scores, v) == 0
  {
    if |scores| > 0 {
      CountAboveNone(scores[..|scores| - 1], v);
    }
  }

  lemma {:induction false} CountAboveAll(scores: seq<real>, v: real)
    requires forall j :: 0 <= j < |scores| ==> scores[j] > v
    ensures CountAbove(scores, v) == |scores|
  {
    if |scores| > 0 {
      CountAboveAll(scores[..|scores| - 1], v);
    }
  }

  /** On a descending list the standard rank is one more than the number of
      entries scoring strictly higher, and the dense rank is one more than the
      number of distinct higher scores: the two schemes the leaderboards
      promise, independently of the scan. */
  lemma RanksMeaning(scores: seq<real>, i: nat)
    requires Descending(scores)
    requires i < |scores|
    ensures Ranks(scores)[i].standard == 1 + CountAbove(scores, scores[i])
    ensures Ranks(scores)[i].dense == 1 + |ValuesAbove(scores, scores[i])|
  {
    StandardMeaning(scores, i);
    DenseMeaning(scores, i);
  }

  /** No score from position `i` on lies above `scores[i]`. */
  lemma StandardMeaning(scores: seq<real>, i: nat)
    requires Descending(scores)
    requires i < |scores|
    ensures Ranks(scores)[i].standard == 1 + CountAbove(scores, scores[i])
  {
    StandardMeaningPrefix(scores, i);
    assert scores == scores[..i] + scores[i..];
    CountAboveAppend(scores[..i], scores[i..], scores[i]);
    CountAboveNone(scores[i..], scores[i]);
  }

  lemma DenseMeaning(scores: seq<real>, i: nat)
    requires Descending(scores)
    requires i < |scores|
    ensures Ranks(scores)[i].dense == 1 + |ValuesAbove(scores, scores[i])|
  {
    DenseMeaningPrefix(scores, i);
    forall x | x in ValuesAbove(scores, scores[i]) ensures x in ValuesAbove(scores[..i], scores[i]) {
      var j :| 0 <= j < |scores| && scores[j] > scores[i] && scores[j] == x;
      assert j < i;
      assert scores[..i][j] == x;
    }
    assert ValuesAbove(scores, scores[i]) == ValuesAbove(scores[..i], scores[i]);
  }

  lemma {:induction false} StandardMeaningPrefix(scores: seq<real>, i: nat)
    requires Descending(scores)
    requires i < |scores|
    ensures Ranks(scores)[i].standard == 1 + CountAbove(scores[..i], scores[i])
  {
    RanksStep(scores, i);
    if i > 0 {
      StandardMeaningPrefix(scores, i - 1);
      if scores[i] < scores[i - 1] {
        CountAboveAll(scores[..i], scores[i]);
      } else {
        assert scores[..i] == scores[..i - 1] + [scores[i - 1]];
        CountAboveAppend(scores[..i - 1], [scores[i - 1]], scores[i]);
        assert [scores[i - 1]][..0] == [];
      }
    }
  }

  lemma {:induction false} DenseMeaningPrefix(scores: seq<real>, i: nat)
    requires Descending(scores)
    requires i < |scores|
    ensures Ranks(scores)[i].dense == 1 + |ValuesAbove(scores[..i], scores[i])|
  {
    RanksStep(scores, i);
    if i == 0 {
      assert ValuesAbove(scores[..0], scores[0]) == {};
    } else {
      DenseMeaningPrefix(scores, i - 1);
      ValuesAboveStep(scores, i);
    }
  }

  /** How the distinct higher scores change from position `i - 1` to `i`. */
  lemma ValuesAboveStep(scores: seq<real>, i: nat)
    requires Descending(scores)
    requires 0 < i < |scores|
    ensures var before := ValuesAbove(scores[..i - 1], scores[i - 1]);
      && scores[i - 1] !in before
      && ValuesAbove(scores[..i], scores[i])
         == if scores[i] < scores[i - 1] then before + {scores[i - 1]} else before
  {
    var before := ValuesAbove(scores[..i - 1], scores[i - 1]);
    var after := ValuesAbove(scores[..i], scores[i]);
    var expected := if scores[i] < scores[i - 1] then before + {scores[i - 1]} else before;
    forall x | x in after ensures x in expected {
      var j :| 0 <= j < i && scores[..i][j] > scores[i] && x == scores[..i][j];
      assert scores[j] == x;
      if j < i - 1 && scores[j] > scores[i - 1] {
        assert scores[..i - 1][j] == x;
      }
    }
    forall x | x in expected ensures x in after {
      if x == scores[i - 1] && scores[i] < scores[i - 1] {
        assert scores[..i][i - 1] == x;
      } else {
        var j :| 0 <= j < i - 1 && scores[..i - 1][j] > scores[i - 1] && x == scores[..i - 1][j];
        assert scores[..i][j] == x;
      }
    }
  }

  /** The example from the script's documentation: scores 3, 2, 2, 1 get
      standard ranks 1, 2, 2, 4 and dense ranks 1, 2, 2, 3. */
  lemma RanksExample()
    ensures Ranks([3.0, 2.0, 2.0, 1.0])
         == [RankPair(1, 1), RankPair(2, 2), RankPair(2, 2), RankPair(4, 3)]
  {
    var s := [3.0, 2.0, 2.0, 1.0];
    assert [3.0, 2.0][..1] == [3.0];
    assert Ranks([3.0, 2.0]) == [RankPair(1, 1), RankPair(2, 2)];
    assert [3.0, 2.0, 2.0][..2] == [3.0, 2.0];
    assert Ranks([3.0, 2.0, 2.0]) == [RankPair(1, 1), RankPair(2, 2), RankPair(2, 2)];
    assert s[..3] == [3.0, 2.0, 2.0];
  }

  // ---------------------------------------------------------------------------
  // Ranked rows.
  // ---------------------------------------------------------------------------

  /** The points column the scan reads, in row order. */
  function ScoresOf<T>(rows: seq<T>, score: T -> real): (s: seq<real>)
    ensures |s| == |rows|
    ensures forall i :: 0 <= i < |rows| ==> s[i] == score(rows[i])
  {
    seq(|rows|, i requires 0 <= i < |rows| => score(rows[i]))
  }

  /** What the two rank columns are called: the current scripts say Standard
      and Dense, the older copies Competitive and Sequential. */
  datatype RankNaming = StandardDense | CompetitiveSequential

  /** The rank columns at the head of a leaderboard, dense-like rank first. */
  function RankColumns(naming: RankNaming): seq<string> {
    match naming
    case StandardDense => ["Dense Rank", "Standard Rank"]
    case CompetitiveSequential => ["Sequential Rank", "Competitive Rank"]
  }

  /** A row with its two rank fields added. */
  datatype Ranked<T> = Ranked(row: T, rank: RankPair)

  /** Ranked rows without their rank fields, in order. */
  function Unranked<T>(r: seq<Ranked<T>>): (rows: seq<T>)
    ensures |rows| == |r|
    ensures forall i :: 0 <= i < |r| ==> rows[i] == r[i].row
  {
    seq(|r|, i requires 0 <= i < |r| => r[i].row)
  }

  /** `calculate_ranks` without movement: the rows, in the same order, each with
      the ranks of its position. */
  function RankRows<T>(rows: seq<T>, score: T -> real): (r: seq<Ranked<T>>)
    ensures |r| == |rows|
    ensures forall i :: 0 <= i < |rows| ==> r[i].row == rows[i]
    ensures |rows| > 0 ==> r[0].rank == RankPair(1, 1)
  {
    var ranks := Ranks(ScoresOf(rows, score));
    if |rows| > 0 then RanksStep(ScoresOf(rows, score), 0); seq(|rows|, i requires 0 <= i < |rows| => Ranked(rows[i], ranks[i]))
    else []
  }

  // ---------------------------------------------------------------------------
  // Movement against the previous snapshot.
  // ---------------------------------------------------------------------------

  /** One user's entry in the previous period's rank file; either key may be absent. */
  datatype PreviousRanks = PreviousRanks(dense: Option<int>, standard: Option<int>)

  /** The previous period's ranks by username. */
  type Snapshot = map<string, PreviousRanks>

  /** How a rank changed: up or down by some places, level, or new to the board. */
  datatype Movement = Up(places: nat) | Down(places: nat) | Level | New

  /** The change from `previous` to `current` (a smaller rank number is better). */
  function MovementOf(previous: int, current: int): (m: Movement)
    ensures m.Up? ==> m.places > 0
    ensures m.Down? ==> m.places > 0
    ensures m != New
  {
    var d := previous - current;
    if d > 0 then Up(d) else if d < 0 then Down(-d) else Level
  }

  /** The signed change a movement reports, as the previous rank minus the current one. */
  function Delta(m: Movement): Option<int> {
    match m
    case Up(k) => Some(k)
    case Down(k) => Some(-(k as int))
    case Level => Some(0)
    case New => None
  }

  /** A movement records exactly the difference between the two ranks. */
  lemma MovementOfDelta(previous: int, current: int)
    ensures Delta(MovementOf(previous, current)) == Some(previous - current)
  {
  }

  /** The text written to the CSV: `↑k`, `↓k`, `—` or `N`. */
  function Render(m: Movement): (s: string)
    ensures |s| > 0
  {
    match m
    case Up(k) => "↑" + Text.NatToString(k)
    case Down(k) => "↓" + Text.NatToString(k)
    case Level => "—"
    case New => "N"
  }

  /** Reads a rendered movement back. */
  function ParseMovement(s: string): Option<Movement> {
    if s == "N" then Some(New)
    else if s == "—" then Some(Level)
    else if |s| > 1 && s[0] == '↑' && Text.AllDigits(s[1..]) then Some(Up(Text.DigitsValue(s[1..])))
    else if |s| > 1 && s[0] == '↓' && Text.AllDigits(s[1..]) then Some(Down(Text.DigitsValue(s[1..])))
    else None
  }

  /** Rendering loses nothing: every movement can be read back from its text. */
  lemma RenderRoundTrip(m: Movement)
    ensures ParseMovement(Render(m)) == Some(m)
  {
    match m
    case Up(k) =>
      var s := Render(m);
      assert s[1..] == Text.NatToString(k);
      Text.NatToStringRoundTrip(k);
    case Down(k) =>
      var s := Render(m);
      assert s[1..] == Text.NatToString(k);
      Text.NatToStringRoundTrip(k);
    case Level =>
    case New =>
  }

  /** The dense and standard movement of `user` now ranked `rank`: `N` for both
      unless the snapshot is non-empty and holds the user; a missing rank key
      counts as 0. */
  function MovementsOf(prev: Snapshot, user: string, rank: RankPair): (m: (Movement, Movement))
    ensures m.0 == New <==> m.1 == New
    ensures m.0 == New <==> (prev == map[] || user !in prev)
    ensures m.0 != New ==>
      Delta(m.0) == Some(prev[user].dense.GetOr(0) - rank.dense)
      && Delta(m.1) == Some(prev[user].standard.GetOr(0) - rank.standard)
  {
    if prev != map[] && user in prev then
      (MovementOf(prev[user].dense.GetOr(0), rank.dense),
       MovementOf(prev[user].standard.GetOr(0), rank.standard))
    else (New, New)
  }

  /** A ranked row with its two movement fields. */
  datatype Tracked<T> = Tracked(row: T, rank: RankPair, denseMove: Movement, standardMove: Movement)

  /** Tracked rows without their rank and movement fields, in order. */
  function Untracked<T>(t: seq<Tracked<T>>): (rows: seq<T>)
    ensures |rows| == |t|
    ensures forall i :: 0 <= i < |t| ==> rows[i] == t[i].row
  {
    seq(|t|, i requires 0 <= i < |t| => t[i].row)
  }

  /** `calculate_ranks(rows, key, prev_ranks)` of the newer scripts. */
  function RankRowsWithMovement<T>(rows: seq<T>, score: T -> real, user: T -> string, prev: Snapshot)
    : (r: seq<Tracked<T>>)
    ensures |r| == |rows|
    ensures forall i :: 0 <= i < |rows| ==>
              r[i].row == rows[i] && r[i].rank == RankRows(rows, score)[i].rank
    ensures forall i :: 0 <= i < |rows| ==>
              (r[i].denseMove, r[i].standardMove) == MovementsOf(prev, user(rows[i]), r[i].rank)
  {
    var ranked := RankRows(rows, score);
    seq(|rows|, i requires 0 <= i < |rows| =>
      var m := MovementsOf(prev, user(rows[i]), ranked[i].rank);
      Tracked(rows[i], ranked[i].rank, m.0, m.1))
  }

  /** With no usable previous snapshot (none, unreadable, or empty) everyone is new. */
  lemma NoSnapshotAllNew<T>(rows: seq<T>, score: T -> real, user: T -> string)
    ensures forall t :: t in RankRowsWithMovement(rows, score, user, map[]) ==>
              t.denseMove == New && t.standardMove == New
  {
  }

  // ---------------------------------------------------------------------------
  // The snapshot written for the next period.
  // ---------------------------------------------------------------------------

  /** `{username: {"dense": ..., "standard": ...}}` over the ranked rows; a
      username that occurs twice keeps its last row's ranks. */
  function SnapshotOf(users: seq<string>, ranks: seq<RankPair>): (snap: Snapshot)
    requires |users| == |ranks|
    ensures snap.Keys == set i | 0 <= i < |users| :: users[i]
    decreases |users|
  {
    if |users| == 0 then map[]
    else
      var n := |users| - 1;
      var prefix := SnapshotOf(users[..n], ranks[..n]);
      assert forall i :: 0 <= i < n ==> users[..n][i] == users[i];
      prefix[users[n] := PreviousRanks(Some(ranks[n].dense), Some(ranks[n].standard))]
  }

  /** Every user's snapshot entry holds the ranks of their last row. */
  lemma {:induction false} SnapshotHoldsRanks(users: seq<string>, ranks: seq<RankPair>, i: nat)
    requires |users| == |ranks| && i < |users|
    requires forall j :: i < j < |users| ==> users[j] != users[i]
    ensures SnapshotOf(users, ranks)[users[i]]
         == PreviousRanks(Some(ranks[i].dense), Some(ranks[i].standard))
    decreases |users|
  {
    var n := |users| - 1;
    if i < n {
      SnapshotHoldsRanks(users[..n], ranks[..n], i);
    }
  }

  /** The users of ranked rows, in row order. */
  function UsersOf<T>(rows: seq<T>, user: T -> string): (u: seq<string>)
    ensures |u| == |rows|
    ensures forall i :: 0 <= i < |rows| ==> u[i] == user(rows[i])
  {
    seq(|rows|, i requires 0 <= i < |rows| => user(rows[i]))
  }

  /** The rank pairs of ranked rows, in row order. */
  function RanksOf<T>(ranked: seq<Ranked<T>>): (r: seq<RankPair>)
    ensures |r| == |ranked|
    ensures forall i :: 0 <= i < |ranked| ==> r[i] == ranked[i].rank
  {
    seq(|ranked|, i requires 0 <= i < |ranked| => ranked[i].rank)
  }

  /** A reordering of rows that hold one row per user, each row determined by
      its user, still holds one such row per user, for the same users. */
  lemma ReorderedRows<T>(a: seq<T>, b: seq<T>, user: T -> string, expected: string -> T)
    requires multiset(b) == multiset(a)
    requires Sorting.NoDuplicates(UsersOf(a, user))
    requires forall i :: 0 <= i < |a| ==> a[i] == expected(user(a[i]))
    ensures Sorting.NoDuplicates(UsersOf(b, user))
    ensures forall u :: u in UsersOf(b, user) <==> u in UsersOf(a, user)
    ensures forall i :: 0 <= i < |b| ==> b[i] == expected(user(b[i]))
  {
    ReorderedDetermined(a, b, user, expected);
    ReorderedDistinct(a, b, user);
    ReorderedUsers(a, b, user);
  }

  lemma ReorderedDetermined<T>(a: seq<T>, b: seq<T>, user: T -> string, expected: string -> T)
    requires multiset(b) == multiset(a)
    requires forall i :: 0 <= i < |a| ==> a[i] == expected(user(a[i]))
    ensures forall i :: 0 <= i < |b| ==> b[i] == expected(user(b[i]))
  {
    forall i | 0 <= i < |b| ensures b[i] == expected(user(b[i])) {
      assert b[i] in multiset(b);
      assert b[i] in a;
    }
  }

  /** Reordering rows whose users are distinct keeps the users distinct. */
  lemma ReorderedDistinct<T>(a: seq<T>, b: seq<T>, user: T -> string)
    requires multiset(b) == multiset(a)
    requires Sorting.NoDuplicates(UsersOf(a, user))
    ensures Sorting.NoDuplicates(UsersOf(b, user))
  {
    assert Sorting.NoDuplicates(a) by {
      forall i, j | 0 <= i < j < |a| ensures a[i] != a[j] {
        assert UsersOf(a, user)[i] != UsersOf(a, user)[j];
      }
    }
    Sorting.PermutationNoDuplicates(a, b);
    forall i, j | 0 <= i < j < |b| ensures UsersOf(b, user)[i] != UsersOf(b, user)[j] {
      assert b[i] in multiset(a) && b[j] in multiset(a);
      var p :| 0 <= p < |a| && a[p] == b[i];
      var q :| 0 <= q < |a| && a[q] == b[j];
      assert p != q;
      if p < q {
        assert UsersOf(a, user)[p] != UsersOf(a, user)[q];
      } else {
        assert UsersOf(a, user)[q] != UsersOf(a, user)[p];
      }
    }
  }

  lemma ReorderedUsers<T>(a: seq<T>, b: seq<T>, user: T -> string)
    requires multiset(b) == multiset(a)
    ensures forall u :: u in UsersOf(b, user) <==> u in UsersOf(a, user)
  {
    forall u ensures u in UsersOf(b, user) ==> u in UsersOf(a, user) {
      if u in UsersOf(b, user) {
        var i :| 0 <= i < |b| && UsersOf(b, user)[i] == u;
        assert b[i] in multiset(a);
        var j :| 0 <= j < |a| && a[j] == b[i];
        assert UsersOf(a, user)[j] == u;
      }
    }
    forall u ensures u in UsersOf(a, user) ==> u in UsersOf(b, user) {
      if u in UsersOf(a, user) {
        var j :| 0 <= j < |a| && UsersOf(a, user)[j] == u;
        assert a[j] in multiset(b);
        var i :| 0 <= i < |b| && b[i] == a[j];
        assert UsersOf(b, user)[i] == u;
      }
    }
  }

  /** Ranking the same non-empty table again against its own snapshot shows no
      movement for anyone. */
  lemma OwnSnapshotIsLevel<T>(rows: seq<T>, score: T -> real, user: T -> string)
    requires Sorting.NoDuplicates(UsersOf(rows, user)) && |rows| > 0
    ensures var snap := SnapshotOf(UsersOf(rows, user), RanksOf(RankRows(rows, score)));
            forall t :: t in RankRowsWithMovement(rows, score, user, snap) ==>
              t.denseMove == Level && t.standardMove == Level
  {
    var users := UsersOf(rows, user);
    var ranks := RanksOf(RankRows(rows, score));
    var snap := SnapshotOf(users, ranks);
    var r := RankRowsWithMovement(rows, score, user, snap);
    assert users[0] in snap;
    forall i | 0 <= i < |rows| ensures r[i].denseMove == Level && r[i].standardMove == Level {
      SnapshotHoldsRanks(users, ranks, i);
    }
  }
}

=== FILE: season.dfy ===
/** The season leaderboards: each selected weekly (or combined weekly) file
    fills one `Week<n>` column with each user's total for that week, an
    optional playoff file fills a `Playoffs` column, and every user gets the
    sum of the listed columns. The current script ranks with movement against
    the previous week's snapshot; an older copy ranks without movement; the
    oldest sorts by total only. */
module Season {
  import opened Wrappers
  import Text
  import Sorting
  import Ranking
  import WeekSelection
  import Board

  // ---------------------------------------------------------------------------
  // Input.
  // ---------------------------------------------------------------------------

  /** One row of a weekly (or playoff) result file: a field is None when its
      column is absent. */
  datatype SeasonRow = SeasonRow(username: string, displayName: Option<string>, points: Option<string>)

  /** A weekly or playoff result file: whether its header holds the points
      column (`Total_Points` for a week, `Points` for the playoffs), and its rows. */
  datatype SeasonFile = SeasonFile(hasPoints: bool, rows: seq<SeasonRow>)

  /** How a copy treats its input. The current script skips a file whose
      header lacks the points column and lets a missing display name fall back
      to the username; the older copies read every file and default the
      display name to "". */
  datatype Copy = Current | Older

  /** Whether the playoff column is enabled, and the playoff file when it exists. */
  datatype Playoffs = Excluded | Included(file: Option<SeasonFile>)

  const PlayoffColumn := "Playoffs"

  // ---------------------------------------------------------------------------
  // Rows as writes.
  // ---------------------------------------------------------------------------

  /** A row sets its user's display name and the file's column: the username
      and display name are stripped, and a points value that does not parse
      counts 0.0. */
  function RowWrite(row: SeasonRow, column: string, copy: Copy, parse: Text.Parser): (w: Board.Write<string>)
    ensures w.user == Text.Strip(row.username)
    ensures w.cell == Some((column, parse(row.points.GetOr("0")).GetOr(0.0)))
  {
    var user := Text.Strip(row.username);
    var display := match row.displayName
      case Some(d) => d
      case None => if copy == Current then user else "";
    Board.Write(user, Text.Strip(display), Some((column, parse(row.points.GetOr("0")).GetOr(0.0))))
  }

  /** Whether the copy reads the file's rows at all. */
  predicate Reads(f: SeasonFile, copy: Copy) {
    copy == Older || f.hasPoints
  }

  /** The writes of one file, in row order; none when the copy skips it. */
  function FileWrites(f: SeasonFile, column: string, copy: Copy, parse: Text.Parser): (ws: seq<Board.Write<string>>)
    ensures |ws| == if Reads(f, copy) then |f.rows| else 0
    ensures forall i :: 0 <= i < |ws| ==> ws[i] == RowWrite(f.rows[i], column, copy, parse)
  {
    if Reads(f, copy) then
      seq(|f.rows|, i requires 0 <= i < |f.rows| => RowWrite(f.rows[i], column, copy, parse))
    else []
  }

  /** The writes of the selected files, in file order. */
  function WeekWrites(files: seq<string>, read: string -> SeasonFile, columnOf: string -> string,
                      copy: Copy, parse: Text.Parser): seq<Board.Write<string>>
    decreases |files|
  {
    if |files| == 0 then []
    else
      var n := |files| - 1;
      WeekWrites(files[..n], read, columnOf, copy, parse) + FileWrites(read(files[n]), columnOf(files[n]), copy, parse)
  }

  /** The playoff file's writes, when the column is enabled and the file exists. */
  function PlayoffWrites(playoffs: Playoffs, copy: Copy, parse: Text.Parser): seq<Board.Write<string>> {
    match playoffs
    case Included(Some(f)) => FileWrites(f, PlayoffColumn, copy, parse)
    case _ => []
  }

  /** One column per selected file, in file order, whether or not the file
      could be read; then `Playoffs` when enabled. */
  function Columns(files: seq<string>, columnOf: string -> string, playoffs: Playoffs): (cols: seq<string>)
    ensures |cols| == |files| + (if playoffs.Included? then 1 else 0)
    ensures forall i :: 0 <= i < |files| ==> cols[i] == columnOf(files[i])
    ensures playoffs.Included? ==> cols[|files|] == PlayoffColumn
  {
    seq(|files|, i requires 0 <= i < |files| => columnOf(files[i]))
    + (if playoffs.Included? then [PlayoffColumn] else [])
  }

  /** All writes of a season: the weeks, then the playoffs. */
  function SeasonWrites(files: seq<string>, read: string -> SeasonFile, columnOf: string -> string,
                        playoffs: Playoffs, copy: Copy, parse: Text.Parser): seq<Board.Write<string>> {
    WeekWrites(files, read, columnOf, copy, parse) + PlayoffWrites(playoffs, copy, parse)
  }

  /** Whether the copy reads `f` and `f` holds a row whose stripped
      username is `u`. */
  predicate HasRow(f: SeasonFile, copy: Copy, u: string) {
    Reads(f, copy) && exists j :: 0 <= j < |f.rows| && Text.Strip(f.rows[j].username) == u
  }

  /** A file's writers are the users it holds rows for. */
  lemma FileWritersAre(f: SeasonFile, column: string, copy: Copy, parse: Text.Parser, u: string)
    ensures u in Board.Writers(FileWrites(f, column, copy, parse)) <==> HasRow(f, copy, u)
  {
    var ws := FileWrites(f, column, copy, parse);
    var names := Board.Writers(ws);
    if u in names {
      var j :| 0 <= j < |names| && names[j] == u;
      assert ws[j].user == u;
      assert ws[j] == RowWrite(f.rows[j], column, copy, parse);
    }
  }

  /** Whether some read file among `files` holds a row for `u`. */
  predicate SomeFileHasRow(files: seq<string>, read: string -> SeasonFile, copy: Copy, u: string) {
    exists k :: 0 <= k < |files| && HasRow(read(files[k]), copy, u)
  }

  lemma SomeFileHasRowSnoc(files: seq<string>, read: string -> SeasonFile, copy: Copy, u: string)
    requires |files| > 0
    ensures SomeFileHasRow(files, read, copy, u)
        <==> SomeFileHasRow(files[..|files| - 1], read, copy, u) || HasRow(read(files[|files| - 1]), copy, u)
  {
    var n := |files| - 1;
    var init := files[..n];
    var lastHas := HasRow(read(files[n]), copy, u);
    if SomeFileHasRow(init, read, copy, u) {
      var k :| 0 <= k < n && HasRow(read(init[k]), copy, u);
      assert init[k] == files[k];
      assert SomeFileHasRow(files, read, copy, u);
    } else if lastHas {
      assert SomeFileHasRow(files, read, copy, u);
    } else {
      forall k | 0 <= k < |files|
        ensures !HasRow(read(files[k]), copy, u)
      {
        if k < n {
          assert init[k] == files[k];
        }
      }
    }
  }

  /** A user is on the board exactly when a read file of a selected week
      holds a row for them. */
  lemma {:induction false} WeekWritersAre(files: seq<string>, read: string -> SeasonFile, columnOf: string -> string,
                                          copy: Copy, parse: Text.Parser, u: string)
    ensures u in Board.Writers(WeekWrites(files, read, columnOf, copy, parse))
        <==> SomeFileHasRow(files, read, copy, u)
    decreases |files|
  {
    if |files| > 0 {
      var n := |files| - 1;
      var init := files[..n];
      var before := WeekWrites(init, read, columnOf, copy, parse);
      var last := FileWrites(read(files[n]), columnOf(files[n]), copy, parse);
      assert WeekWrites(files, read, columnOf, copy, parse) == before + last;
      WeekWritersAre(init, read, columnOf, copy, parse, u);
      WritersAppend(before, last);
      FileWritersAre(read(files[n]), columnOf(files[n]), copy, parse, u);
      SomeFileHasRowSnoc(files, read, copy, u);
    }
  }

  /** Whether a read week file or the playoff file holds a row for `u`. */
  predicate OnBoard(files: seq<string>, read: string -> SeasonFile, playoffs: Playoffs, copy: Copy, u: string) {
    SomeFileHasRow(files, read, copy, u)
    || (playoffs.Included? && playoffs.file.Some? && HasRow(playoffs.file.value, copy, u))
  }

  /** A user is on the season board exactly when a read week file or the
      playoff file holds a row for them: a playoff-only user is listed too. */
  lemma SeasonWritersAre(files: seq<string>, read: string -> SeasonFile, columnOf: string -> string,
                         playoffs: Playoffs, copy: Copy, parse: Text.Parser)
    ensures forall u ::
      u in Board.Writers(SeasonWrites(files, read, columnOf, playoffs, copy, parse)) <==> OnBoard(files, read, playoffs, copy, u)
  {
    WritersAppend(WeekWrites(files, read, columnOf, copy, parse), PlayoffWrites(playoffs, copy, parse));
    forall u ensures u in Board.Writers(SeasonWrites(files, read, columnOf, playoffs, copy, parse))
        <==> OnBoard(files, read, playoffs, copy, u)
    {
      WeekWritersAre(files, read, columnOf, copy, parse, u);
      if playoffs.Included? && playoffs.file.Some? {
        FileWritersAre(playoffs.file.value, PlayoffColumn, copy, parse, u);
      }
    }
  }

  lemma WritersAppend(a: seq<Board.Write<string>>, b: seq<Board.Write<string>>)
    ensures Board.Writers(a + b) == Board.Writers(a) + Board.Writers(b)
  {
  }

  // ---------------------------------------------------------------------------
  // The three copies.
  // ---------------------------------------------------------------------------

  /** A season leaderboard: its value columns and its ranked rows. */
  datatype Leaderboard = Leaderboard(columns: seq<string>, ranked: Board.Tracked)

  /** The current overall winner leaderboard: `week<n>.csv` files up to the
      target week, a file without `Total_Points` still giving a column,
      playoffs optional; ranked with movement against `prev`. No selected file
      is an error. */
  function OverallWinner(listing: seq<string>, read: string -> SeasonFile, target: string,
                         playoffs: Playoffs, prev: Ranking.Snapshot, parse: Text.Parser)
    : (r: Result<Leaderboard>)
    ensures r.Success? <==> WeekSelection.SelectWeeklyFiles(listing, target).Success?
  {
    var files :- WeekSelection.SelectWeeklyFiles(listing, target);
    var columns := Columns(files, WeekSelection.WeeklyColumn, playoffs);
    var ws := SeasonWrites(files, read, WeekSelection.WeeklyColumn, playoffs, Current, parse);
    Success(Leaderboard(columns, Board.RankWithMovement(Board.Rows(Board.Apply(ws), columns), prev)))
  }

  /** The older ranked season leaderboard: `combined_week<n>.csv` files up to
      the target week, playoffs optional, ranked without movement; an empty
      selection gives an empty leaderboard. */
  function OlderSeason(listing: seq<string>, read: string -> SeasonFile, target: string,
                       playoffs: Playoffs, parse: Text.Parser)
    : (r: Result<seq<Ranking.Ranked<Board.Row>>>)
    ensures r.Success? <==> WeekSelection.SelectCombinedFiles(listing, target).Success?
  {
    var files :- WeekSelection.SelectCombinedFiles(listing, target);
    var columns := Columns(files, WeekSelection.CombinedColumn, playoffs);
    var ws := SeasonWrites(files, read, WeekSelection.CombinedColumn, playoffs, Older, parse);
    Success(Board.RankByTotal(Board.Rows(Board.Apply(ws), columns)))
  }

  /** The oldest season table: as the older one without playoffs, stably
      sorted by total only. */
  function OldestSeason(listing: seq<string>, read: string -> SeasonFile, target: string, parse: Text.Parser)
    : (r: Result<seq<Board.Row>>)
    ensures r.Success? <==> WeekSelection.SelectCombinedFiles(listing, target).Success?
  {
    var files :- WeekSelection.SelectCombinedFiles(listing, target);
    var columns := Columns(files, WeekSelection.CombinedColumn, Excluded);
    var ws := SeasonWrites(files, read, WeekSelection.CombinedColumn, Excluded, Older, parse);
    Success(Board.ByTotalStable(Board.Rows(Board.Apply(ws), columns)))
  }

  // ---------------------------------------------------------------------------
  // What the leaderboards hold.
  // ---------------------------------------------------------------------------

  /** The current overall winner leaderboard has one column per selected week
      file (each of a week at most the target) and `Playoffs` when enabled; one
      row per user with a row in a read week file or the playoff file; each
      row's values are that user's last points for the column (0.0 if none),
      its total their sum; rows are ordered by (-Total, Username) and ranked;
      the snapshot holds every ranked user with their ranks. */
  lemma OverallWinnerSpec(listing: seq<string>, read: string -> SeasonFile, target: string,
                          playoffs: Playoffs, prev: Ranking.Snapshot, parse: Text.Parser)
    requires OverallWinner(listing, read, target, playoffs, prev, parse).Success?
    ensures var files := WeekSelection.SelectWeeklyFiles(listing, target).value;
      var ws := SeasonWrites(files, read, WeekSelection.WeeklyColumn, playoffs, Current, parse);
      var lb := OverallWinner(listing, read, target, playoffs, prev, parse).value;
      var out := Ranking.Untracked(lb.ranked.rows);
      && lb.columns == Columns(files, WeekSelection.WeeklyColumn, playoffs)
      && Sorting.NoDuplicates(Ranking.UsersOf(out, Board.Username))
      && (forall u :: u in Ranking.UsersOf(out, Board.Username) <==> OnBoard(files, read, playoffs, Current, u))
      && (forall i :: 0 <= i < |out| ==> out[i] == Board.ExpectedRow(ws, out[i].username, lb.columns))
      && Sorting.SortedBy(out, Board.TotalAndName, Sorting.ScoreDescNameAsc)
      && (forall i :: 0 <= i < |out| ==>
            lb.ranked.rows[i].rank == Ranking.Ranks(Ranking.ScoresOf(out, Board.Total))[i])
      && (forall u :: u in lb.ranked.snapshot <==> u in Ranking.UsersOf(out, Board.Username))
  {
    var files := WeekSelection.SelectWeeklyFiles(listing, target).value;
    var columns := Columns(files, WeekSelection.WeeklyColumn, playoffs);
    var ws := SeasonWrites(files, read, WeekSelection.WeeklyColumn, playoffs, Current, parse);
    var rows := Board.Rows(Board.Apply(ws), columns);
    var out := Ranking.Untracked(Board.RankWithMovement(rows, prev).rows);
    Board.RowsMeaning(ws, columns);
    Board.RankWithMovementSpec(rows, prev);
    Board.ReorderedRowsMeaning(ws, columns, out);
    Ranking.ReorderedUsers(rows, out, Board.Username);
    SeasonWritersAre(files, read, WeekSelection.WeeklyColumn, playoffs, Current, parse);
  }

  /** The older ranked leaderboard: one row per user with a row in a selected
      file or the playoff file, each the reference row, ordered by
      (-Total, Username) and ranked. */
  lemma OlderSeasonSpec(listing: seq<string>, read: string -> SeasonFile, target: string,
                        playoffs: Playoffs, parse: Text.Parser)
    requires OlderSeason(listing, read, target, playoffs, parse).Success?
    ensures var files := WeekSelection.SelectCombinedFiles(listing, target).value;
      var ws := SeasonWrites(files, read, WeekSelection.CombinedColumn, playoffs, Older, parse);
      var columns := Columns(files, WeekSelection.CombinedColumn, playoffs);
      var r := OlderSeason(listing, read, target, playoffs, parse).value;
      var out := Ranking.Unranked(r);
      && Sorting.NoDuplicates(Ranking.UsersOf(out, Board.Username))
      && (forall u :: u in Ranking.UsersOf(out, Board.Username) <==> OnBoard(files, read, playoffs, Older, u))
      && (forall i :: 0 <= i < |out| ==> out[i] == Board.ExpectedRow(ws, out[i].username, columns))
      && Sorting.SortedBy(out, Board.TotalAndName, Sorting.ScoreDescNameAsc)
      && Ranking.RanksOf(r) == Ranking.Ranks(Ranking.ScoresOf(out, Board.Total))
  {
    var files := WeekSelection.SelectCombinedFiles(listing, target).value;
    var columns := Columns(files, WeekSelection.CombinedColumn, playoffs);
    var ws := SeasonWrites(files, read, WeekSelection.CombinedColumn, playoffs, Older, parse);
    var rows := Board.Rows(Board.Apply(ws), columns);
    Board.RankByTotalSpec(rows);
    Board.ReorderedRowsMeaning(ws, columns, Ranking.Unranked(Board.RankByTotal(rows)));
    SeasonWritersAre(files, read, WeekSelection.CombinedColumn, playoffs, Older, parse);
  }

  /** The oldest table: every user gets every week column (0.0 where missing)
      and their sum; equal totals keep first-seen order. */
  lemma OldestSeasonSpec(listing: seq<string>, read: string -> SeasonFile, target: string,
                         parse: Text.Parser, total: real)
    requires OldestSeason(listing, read, target, parse).Success?
    ensures var files := WeekSelection.SelectCombinedFiles(listing, target).value;
      var ws := SeasonWrites(files, read, WeekSelection.CombinedColumn, Excluded, Older, parse);
      var columns := Columns(files, WeekSelection.CombinedColumn, Excluded);
      var out := OldestSeason(listing, read, target, parse).value;
      && (forall u :: u in Ranking.UsersOf(out, Board.Username) <==> OnBoard(files, read, Excluded, Older, u))
      && (forall i :: 0 <= i < |out| ==> out[i] == Board.ExpectedRow(ws, out[i].username, columns))
      && Sorting.SortedBy(out, Board.Total, Sorting.ScoreDesc)
      && Sorting.Peers(out, Board.Total, Sorting.ScoreDesc, total)
         == Sorting.Peers(Board.Rows(Board.Apply(ws), columns), Board.Total, Sorting.ScoreDesc, total)
  {
    var files := WeekSelection.SelectCombinedFiles(listing, target).value;
    var columns := Columns(files, WeekSelection.CombinedColumn, Excluded);
    var ws := SeasonWrites(files, read, WeekSelection.CombinedColumn, Excluded, Older, parse);
    var rows := Board.Rows(Board.Apply(ws), columns);
    Board.ByTotalStableSpec(rows, total);
    Board.ReorderedRowsMeaning(ws, columns, Board.ByTotalStable(rows));
    SeasonWritersAre(files, read, WeekSelection.CombinedColumn, Excluded, Older, parse);
  }

  /** Every write of a file sets the file's column, and only when the copy reads it. */
  lemma FileWritesColumn(f: SeasonFile, column: string, copy: Copy, parse: Text.Parser)
    ensures var ws := FileWrites(f, column, copy, parse);
      && (|ws| > 0 ==> Reads(f, copy))
      && forall i :: 0 <= i < |ws| ==> ws[i].cell.Some? && ws[i].cell.value.0 == column
  {
  }

  /** Whether no write sets column `c`. */
  predicate Avoids(ws: seq<Board.Write<string>>, c: string) {
    forall i :: 0 <= i < |ws| ==> ws[i].cell.Some? ==> ws[i].cell.value.0 != c
  }

  /** A column no read file of the selection fills gets no week write. */
  lemma {:induction false} WeekWritesAvoid(files: seq<string>, read: string -> SeasonFile, columnOf: string -> string,
                                           copy: Copy, parse: Text.Parser, c: string)
    requires forall k :: 0 <= k < |files| && Reads(read(files[k]), copy) ==> columnOf(files[k]) != c
    ensures Avoids(WeekWrites(files, read, columnOf, copy, parse), c)
    decreases |files|
  {
    if |files| > 0 {
      var n := |files| - 1;
      var before := WeekWrites(files[..n], read, columnOf, copy, parse);
      var last := FileWrites(read(files[n]), columnOf(files[n]), copy, parse);
      assert WeekWrites(files, read, columnOf, copy, parse) == before + last;
      forall k | 0 <= k < n && Reads(read(files[..n][k]), copy) ensures columnOf(files[..n][k]) != c {
        assert files[..n][k] == files[k];
      }
      WeekWritesAvoid(files[..n], read, columnOf, copy, parse, c);
      var ws := before + last;
      forall i | 0 <= i < |ws| && ws[i].cell.Some? ensures ws[i].cell.value.0 != c {
        if i < |before| {
          assert ws[i] == before[i];
        } else {
          FileWritesColumn(read(files[n]), columnOf(files[n]), copy, parse);
          assert ws[i] == last[i - |before|];
          assert Reads(read(files[n]), copy);
          assert columnOf(files[n]) != c;
          assert last[i - |before|].cell.value.0 == columnOf(files[n]);
        }
      }
    }
  }

  /** ... and neither does the playoff column when `c` is not `Playoffs`. */
  lemma SeasonWritesAvoid(files: seq<string>, read: string -> SeasonFile, columnOf: string -> string,
                          playoffs: Playoffs, copy: Copy, parse: Text.Parser, c: string)
    requires c != PlayoffColumn
    requires forall k :: 0 <= k < |files| && Reads(read(files[k]), copy) ==> columnOf(files[k]) != c
    ensures Avoids(SeasonWrites(files, read, columnOf, playoffs, copy, parse), c)
  {
    var weeks := WeekWrites(files, read, columnOf, copy, parse);
    var po := PlayoffWrites(playoffs, copy, parse);
    var ws := weeks + po;
    WeekWritesAvoid(files, read, columnOf, copy, parse, c);
    forall i | 0 <= i < |ws| && ws[i].cell.Some? ensures ws[i].cell.value.0 != c {
      if i >= |weeks| {
        assert ws[i] == po[i - |weeks|];
        FileWritesColumn(playoffs.file.value, PlayoffColumn, copy, parse);
      } else {
        assert ws[i] == weeks[i];
      }
    }
  }

  lemma {:induction false} NoWriteNoValue(ws: seq<Board.Write<string>>, u: string, c: string)
    requires Avoids(ws, c)
    ensures Board.LastValue(ws, u, c) == None
    decreases |ws|
  {
    if |ws| > 0 {
      NoWriteNoValue(ws[..|ws| - 1], u, c);
    }
  }

  /** Whether column `k` is 0.0 in every row. */
  predicate ColumnIsZero(rows: seq<Board.Row>, k: nat) {
    forall i :: 0 <= i < |rows| ==> k < |rows[i].values| && rows[i].values[k] == 0.0
  }

  /** A listed column no write sets is 0.0 in every ranked row. */
  lemma UnwrittenColumnIsZero(ws: seq<Board.Write<string>>, columns: seq<string>, prev: Ranking.Snapshot, k: nat)
    requires k < |columns| && Avoids(ws, columns[k])
    ensures ColumnIsZero(Ranking.Untracked(Board.RankWithMovement(Board.Rows(Board.Apply(ws), columns), prev).rows), k)
  {
    var out := Ranking.Untracked(Board.RankWithMovement(Board.Rows(Board.Apply(ws), columns), prev).rows);
    Board.RankWithMovementRows(ws, columns, prev);
    forall i | 0 <= i < |out| ensures k < |out[i].values| && out[i].values[k] == 0.0 {
      NoWriteNoValue(ws, out[i].username, columns[k]);
      assert out[i] == Board.ExpectedRow(ws, out[i].username, columns);
    }
  }

  /** A selected week file whose header lacks `Total_Points` still gives its
      `Week<n>` column; when no other selected file has the same column it is
      0.0 in every row. */
  lemma SkippedWeekIsZero(listing: seq<string>, read: string -> SeasonFile, target: string,
                          playoffs: Playoffs, prev: Ranking.Snapshot, parse: Text.Parser, k: nat)
    requires OverallWinner(listing, read, target, playoffs, prev, parse).Success?
    requires var files := WeekSelection.SelectWeeklyFiles(listing, target).value;
      && k < |files| && !read(files[k]).hasPoints
      && WeekSelection.WeeklyColumn(files[k]) != PlayoffColumn
      && forall j :: 0 <= j < |files| && j != k ==> WeekSelection.WeeklyColumn(files[j]) != WeekSelection.WeeklyColumn(files[k])
    ensures OverallWinner(listing, read, target, playoffs, prev, parse).value.columns[k]
         == WeekSelection.WeeklyColumn(WeekSelection.SelectWeeklyFiles(listing, target).value[k])
    ensures ColumnIsZero(Ranking.Untracked(OverallWinner(listing, read, target, playoffs, prev, parse).value.ranked.rows), k)
  {
    var files := WeekSelection.SelectWeeklyFiles(listing, target).value;
    var c := WeekSelection.WeeklyColumn(files[k]);
    var columns := Columns(files, WeekSelection.WeeklyColumn, playoffs);
    var ws := SeasonWrites(files, read, WeekSelection.WeeklyColumn, playoffs, Current, parse);
    SeasonWritesAvoid(files, read, WeekSelection.WeeklyColumn, playoffs, Current, parse, c);
    UnwrittenColumnIsZero(ws, columns, prev, k);
  }
}

=== FILE: seqs.dfy ===
/** Small facts about sequences, stated once so that proofs elsewhere can
    use them without re-deriving sequence equalities in a large context. */
module Seqs {
  lemma SnocSplit<T>(s: seq<T>)
    requires |s| > 0
    ensures s == s[..|s| - 1] + [s[|s| - 1]]
  {
  }

  lemma AppendAssoc<T>(a: seq<T>, b: seq<T>, c: seq<T>)
    ensures a + (b + c) == (a + b) + c
  {
  }

  /** Dropping the last element of `a + b`, for a non-empty `b`. */
  lemma AppendInit<T>(a: seq<T>, b: seq<T>)
    requires |b| > 0
    ensures (a + b)[..|a + b| - 1] == a + b[..|b| - 1]
  {
  }

  /** The two halves of `a + b`. */
  lemma AppendHalves<T>(a: seq<T>, b: seq<T>)
    ensures (a + b)[..|a|] == a && (a + b)[|a|..] == b
  {
  }

  lemma TakeOfDrop<T>(s: seq<T>, k: nat, m: nat)
    requires k + m <= |s|
    ensures s[k..][..m] == s[k..k + m]
  {
  }

  lemma AppendEmpty<T>(a: seq<T>)
    ensures a + [] == a && [] + a == a
  {
  }

  /** `[f(x) for x in s]`. */
  function Map<T, U>(s: seq<T>, f: T -> U): (r: seq<U>)
    ensures |r| == |s|
    ensures forall i :: 0 <= i < |s| ==> r[i] == f(s[i])
    decreases |s|
  {
    if |s| == 0 then [] else Map(s[..|s| - 1], f) + [f(s[|s| - 1])]
  }
}

=== FILE: sorting.dfy ===
/** Python's `list.sort(key=...)`: a stable sort by a key, modelled as an
    insertion sort whose comparison is a strict weak order on the keys.
    Every ordering the scripts use is defined here once, together with the
    proof that it is a strict weak order. */
module Sorting {
  import Text
  import Seqs

  /** `lt` is irreflexive, transitive, and incomparability is transitive
      (stated as: `a < c` forces `a < b` or `b < c`). */
  ghost predicate StrictWeakOrder<K(!new)>(lt: (K, K) -> bool) {
    && (forall a :: !lt(a, a))
    && (forall a, b, c :: lt(a, b) && lt(b, c) ==> lt(a, c))
    && (forall a, b, c :: lt(a, c) ==> lt(a, b) || lt(b, c))
  }

  /** No element's key strictly precedes the key of an element before it. */
  predicate SortedBy<T, K>(s: seq<T>, key: T -> K, lt: (K, K) -> bool) {
    forall i, j :: 0 <= i < j < |s| ==> !lt(key(s[j]), key(s[i]))
  }

  /** Neither key precedes the other: the sort treats them as ties. */
  predicate Tied<K>(lt: (K, K) -> bool, a: K, b: K) {
    !lt(a, b) && !lt(b, a)
  }

  /** The elements of `s` tied with key `k`, in their order in `s`. */
  function Peers<T, K>(s: seq<T>, key: T -> K, lt: (K, K) -> bool, k: K): (r: seq<T>)
    ensures |r| <= |s|
  {
    if |s| == 0 then []
    else (if Tied(lt, key(s[0]), k) then [s[0]] else []) + Peers(s[1..], key, lt, k)
  }

  /** Places `x` after every element whose key it does not precede. */
  function Insert<T, K>(x: T, s: seq<T>, key: T -> K, lt: (K, K) -> bool): (r: seq<T>)
    ensures multiset(r) == multiset(s) + multiset{x}
    ensures |r| == |s| + 1
  {
    if |s| == 0 then [x]
    else if lt(key(x), key(s[0])) then [x] + s
    else
      assert s == [s[0]] + s[1..];
      [s[0]] + Insert(x, s[1..], key, lt)
  }

  /** `sorted(s, key=key)`: a stable sort, the elements inserted in input order. */
  function SortBy<T, K>(s: seq<T>, key: T -> K, lt: (K, K) -> bool): (r: seq<T>)
    ensures multiset(r) == multiset(s)
    ensures |r| == |s|
  {
    if |s| == 0 then []
    else
      assert s == s[..|s| - 1] + [s[|s| - 1]];
      Insert(s[|s| - 1], SortBy(s[..|s| - 1], key, lt), key, lt)
  }

  /** `s[:n]`. */
  function Take<T>(s: seq<T>, n: nat): (r: seq<T>)
    ensures |r| == if n < |s| then n else |s|
    ensures r == s[..|r|]
  {
    if n < |s| then s[..n] else s
  }

  lemma {:induction false} InsertSorted<T, K(!new)>(x: T, s: seq<T>, key: T -> K, lt: (K, K) -> bool)
    requires StrictWeakOrder(lt)
    requires SortedBy(s, key, lt)
    ensures SortedBy(Insert(x, s, key, lt), key, lt)
  {
    if |s| > 0 && !lt(key(x), key(s[0])) {
      var tail := Insert(x, s[1..], key, lt);
      InsertSorted(x, s[1..], key, lt);
      var r := [s[0]] + tail;
      forall j | 0 < j < |r|
        ensures !lt(key(r[j]), key(s[0]))
      {
        assert r[j] in multiset(tail);
        assert r[j] == x || r[j] in multiset(s[1..]);
        if r[j] != x {
          var m :| 0 <= m < |s[1..]| && s[1..][m] == r[j];
          assert s[m + 1] == r[j];
        }
      }
    }
  }

  /** The sort's output is ordered by the key. */
  lemma {:induction false} SortBySorted<T, K(!new)>(s: seq<T>, key: T -> K, lt: (K, K) -> bool)
    requires StrictWeakOrder(lt)
    ensures SortedBy(SortBy(s, key, lt), key, lt)
  {
    if |s| > 0 {
      SortBySorted(s[..|s| - 1], key, lt);
      InsertSorted(s[|s| - 1], SortBy(s[..|s| - 1], key, lt), key, lt);
    }
  }

  lemma {:induction false} PeersAppend<T, K>(a: seq<T>, b: seq<T>, key: T -> K, lt: (K, K) -> bool, k: K)
    ensures Peers(a + b, key, lt, k) == Peers(a, key, lt, k) + Peers(b, key, lt, k)
  {
    if |a| > 0 {
      assert (a + b)[0] == a[0];
      assert (a + b)[1..] == a[1..] + b;
      PeersAppend(a[1..], b, key, lt, k);
    } else {
      assert a + b == b;
    }
  }

  /** In a sorted list that starts after `x`, nothing is tied with `x`'s peers. */
  lemma {:induction false} NoPeersAfter<T, K(!new)>(x: T, s: seq<T>, key: T -> K, lt: (K, K) -> bool, k: K)
    requires StrictWeakOrder(lt)
    requires SortedBy(s, key, lt)
    requires |s| > 0 ==> lt(key(x), key(s[0]))
    requires Tied(lt, key(x), k)
    ensures Peers(s, key, lt, k) == []
  {
    if |s| > 0 {
      if |s| > 1 {
        assert !lt(key(s[1]), key(s[0]));
        assert lt(key(x), key(s[1]));
      }
      NoPeersAfter(x, s[1..], key, lt, k);
    }
  }

  lemma SortedTail<T, K>(s: seq<T>, key: T -> K, lt: (K, K) -> bool)
    requires |s| > 0 && SortedBy(s, key, lt)
    ensures SortedBy(s[1..], key, lt)
  {
    forall i, j | 0 <= i < j < |s[1..]| ensures !lt(key(s[1..][j]), key(s[1..][i])) {
      assert s[1..][j] == s[j + 1] && s[1..][i] == s[i + 1];
    }
  }

  /** `x` placed in front of a sorted list whose keys it precedes adds
      itself to its peers, at the end (there are no others after it). */
  lemma InsertPeersFront<T, K(!new)>(x: T, s: seq<T>, key: T -> K, lt: (K, K) -> bool, k: K)
    requires StrictWeakOrder(lt)
    requires SortedBy(s, key, lt)
    requires |s| > 0 ==> lt(key(x), key(s[0]))
    ensures Peers([x] + s, key, lt, k) == Peers(s, key, lt, k) + (if Tied(lt, key(x), k) then [x] else [])
  {
    var r, p := [x] + s, Peers(s, key, lt, k);
    assert Peers(r, key, lt, k) == (if Tied(lt, key(x), k) then [x] else []) + p by {
      assert r[0] == x && r[1..] == s;
    }
    if Tied(lt, key(x), k) {
      NoPeersAfter(x, s, key, lt, k);
      assert [x] + p == p + [x];
    } else {
      assert [] + p == p + [];
    }
  }

  lemma {:induction false} InsertPeers<T, K(!new)>(x: T, s: seq<T>, key: T -> K, lt: (K, K) -> bool, k: K)
    requires StrictWeakOrder(lt)
    requires SortedBy(s, key, lt)
    ensures Peers(Insert(x, s, key, lt), key, lt, k)
         == Peers(s, key, lt, k) + (if Tied(lt, key(x), k) then [x] else [])
  {
    var r := Insert(x, s, key, lt);
    var mine: seq<T> := if Tied(lt, key(x), k) then [x] else [];
    if |s| == 0 || lt(key(x), key(s[0])) {
      assert r == [x] + s;
      InsertPeersFront(x, s, key, lt, k);
    } else {
      var tail := Insert(x, s[1..], key, lt);
      var head: seq<T> := if Tied(lt, key(s[0]), k) then [s[0]] else [];
      assert r == [s[0]] + tail;
      assert Peers(r, key, lt, k) == head + Peers(tail, key, lt, k) by {
        assert r[0] == s[0] && r[1..] == tail;
      }
      SortedTail(s, key, lt);
      InsertPeers(x, s[1..], key, lt, k);
      assert Peers(s, key, lt, k) == head + Peers(s[1..], key, lt, k);
      Seqs.AppendAssoc(head, Peers(s[1..], key, lt, k), mine);
    }
  }

  /** Stability: the elements tied with any key keep their input order. */
  lemma {:induction false} SortByStable<T, K(!new)>(s: seq<T>, key: T -> K, lt: (K, K) -> bool, k: K)
    requires StrictWeakOrder(lt)
    ensures Peers(SortBy(s, key, lt), key, lt, k) == Peers(s, key, lt, k)
  {
    if |s| > 0 {
      var init, last := s[..|s| - 1], s[|s| - 1];
      var sorted := SortBy(init, key, lt);
      assert SortBy(s, key, lt) == Insert(last, sorted, key, lt);
      SortByStable(init, key, lt, k);
      SortBySorted(init, key, lt);
      InsertPeers(last, sorted, key, lt, k);
      Seqs.SnocSplit(s);
      PeersAppend(init, [last], key, lt, k);
      assert Peers([last], key, lt, k) == (if Tied(lt, key(last), k) then [last] else []) by {
        assert [last][1..] == [];
      }
    }
  }

  /** No value occurs twice. */
  predicate NoDuplicates<T(==)>(s: seq<T>) {
    forall i, j :: 0 <= i < j < |s| ==> s[i] != s[j]
  }

  /** A sequence has no duplicates exactly when no value occurs in it twice. */
  lemma {:induction false} NoDuplicatesCount<T>(s: seq<T>)
    ensures NoDuplicates(s) <==> forall x :: multiset(s)[x] <= 1
  {
    if |s| > 0 {
      var n := |s| - 1;
      var init, last := s[..n], s[n];
      NoDuplicatesCount(init);
      assert s == init + [last];
      assert multiset(s) == multiset(init) + multiset{last};
      if NoDuplicates(s) {
        assert NoDuplicates(init) by {
          forall i, j | 0 <= i < j < |init| ensures init[i] != init[j] {
            assert init[i] == s[i] && init[j] == s[j];
          }
        }
        assert last !in init;
      }
      if forall x :: multiset(s)[x] <= 1 {
        assert forall x :: multiset(init)[x] <= multiset(s)[x];
        assert multiset(init)[last] == 0;
        forall i, j | 0 <= i < j < |s| ensures s[i] != s[j] {
          if j == n {
            assert s[i] == init[i];
            assert init[i] in multiset(init);
          } else {
            assert s[i] == init[i] && s[j] == init[j];
          }
        }
      }
    }
  }

  /** Reordering keeps a sequence free of duplicates. */
  lemma PermutationNoDuplicates<T>(a: seq<T>, b: seq<T>)
    requires multiset(a) == multiset(b)
    requires NoDuplicates(a)
    ensures NoDuplicates(b)
  {
    NoDuplicatesCount(a);
    NoDuplicatesCount(b);
  }

  /** The distinct values in order of first occurrence. */
  function FirstSeen<T(==,!new)>(names: seq<T>): (r: seq<T>)
    ensures forall x :: x in r <==> x in names
    ensures NoDuplicates(r)
    decreases |names|
  {
    if |names| == 0 then []
    else
      var prefix := FirstSeen(names[..|names| - 1]);
      assert forall x :: x in names <==> x in names[..|names| - 1] || x == names[|names| - 1] by {
        assert names == names[..|names| - 1] + [names[|names| - 1]];
      }
      if names[|names| - 1] in prefix then prefix else prefix + [names[|names| - 1]]
  }

  lemma {:induction false} FirstSeenDistinct<T(!new)>(names: seq<T>)
    requires NoDuplicates(names)
    ensures FirstSeen(names) == names
    decreases |names|
  {
    if |names| > 0 {
      var n := |names| - 1;
      FirstSeenDistinct(names[..n]);
      assert names[n] !in names[..n];
      assert names == names[..n] + [names[n]];
    }
  }

  lemma FirstSeenSnoc<T(!new)>(names: seq<T>, x: T)
    ensures FirstSeen(names + [x])
         == if x in FirstSeen(names) then FirstSeen(names) else FirstSeen(names) + [x]
  {
    assert (names + [x])[..|names|] == names;
  }

  lemma {:induction false} FirstSeenAppend<T(!new)>(a: seq<T>, b: seq<T>)
    ensures FirstSeen(FirstSeen(a) + b) == FirstSeen(a + b)
    decreases |b|
  {
    if |b| == 0 {
      assert a + b == a;
      assert FirstSeen(a) + b == FirstSeen(a);
      FirstSeenDistinct(FirstSeen(a));
    } else {
      var n := |b| - 1;
      FirstSeenAppend(a, b[..n]);
      assert FirstSeen(a) + b == (FirstSeen(a) + b[..n]) + [b[n]];
      assert a + b == (a + b[..n]) + [b[n]];
      FirstSeenSnoc(FirstSeen(a) + b[..n], b[n]);
      FirstSeenSnoc(a + b[..n], b[n]);
    }
  }

  // ---------------------------------------------------------------------------
  // The orderings the scripts sort by.
  // ---------------------------------------------------------------------------

  /** Key of `sort(key=lambda x: (-x[score], x[name]))`. */
  datatype ScoreName = ScoreName(score: real, name: string)

  /** Higher score first; equal scores by name ascending. */
  predicate ScoreDescNameAsc(a: ScoreName, b: ScoreName) {
    a.score > b.score || (a.score == b.score && Text.StrLt(a.name, b.name))
  }

  /** `sort(key=score, reverse=True)`: higher score first, ties stay put. */
  predicate ScoreDesc(a: real, b: real) {
    a > b
  }

  /** `sort(key=name)` on strings. */
  predicate NameAsc(a: string, b: string) {
    Text.StrLt(a, b)
  }

  lemma NameAscIsStrictWeakOrder()
    ensures StrictWeakOrder(NameAsc)
  {
    forall a ensures !NameAsc(a, a) {
      Text.StrLtIrreflexive(a);
    }
    forall a, b, c | NameAsc(a, b) && NameAsc(b, c) ensures NameAsc(a, c) {
      Text.StrLtTransitive(a, b, c);
    }
    forall a, b, c | NameAsc(a, c) ensures NameAsc(a, b) || NameAsc(b, c) {
      Text.StrLtTotal(a, b);
      if Text.StrLt(b, a) {
        Text.StrLtTransitive(b, a, c);
      }
    }
  }

  lemma ScoreDescIsStrictWeakOrder()
    ensures StrictWeakOrder(ScoreDesc)
  {
  }

  lemma ScoreDescNameAscIsStrictWeakOrder()
    ensures StrictWeakOrder(ScoreDescNameAsc)
  {
    forall a: ScoreName ensures !ScoreDescNameAsc(a, a) {
      Text.StrLtIrreflexive(a.name);
    }
    forall a: ScoreName, b: ScoreName, c: ScoreName | ScoreDescNameAsc(a, b) && ScoreDescNameAsc(b, c)
      ensures ScoreDescNameAsc(a, c)
    {
      if a.score == b.score == c.score {
        Text.StrLtTransitive(a.name, b.name, c.name);
      }
    }
    forall a: ScoreName, b: ScoreName, c: ScoreName | ScoreDescNameAsc(a, c)
      ensures ScoreDescNameAsc(a, b) || ScoreDescNameAsc(b, c)
    {
      if a.score == b.score == c.score {
        Text.StrLtTotal(a.name, b.name);
        if Text.StrLt(b.name, a.name) {
          Text.StrLtTransitive(b.name, a.name, c.name);
        }
      }
    }
  }

  /** `sort(key=n)` on natural numbers. */
  predicate NumAsc(a: nat, b: nat) {
    a < b
  }

  /** `sort(key=count, reverse=True)` on natural numbers: ties stay put. */
  predicate CountDesc(a: nat, b: nat) {
    a > b
  }

  /** Key of `sort(key=lambda x: (-length, start))`. */
  datatype LengthStart = LengthStart(length: nat, start: nat)

  /** Longer first; equal lengths by start ascending. */
  predicate LengthDescStartAsc(a: LengthStart, b: LengthStart) {
    a.length > b.length || (a.length == b.length && a.start < b.start)
  }

  lemma NumAscIsStrictWeakOrder()
    ensures StrictWeakOrder(NumAsc)
  {
  }

  lemma CountDescIsStrictWeakOrder()
    ensures StrictWeakOrder(CountDesc)
  {
  }

  lemma LengthDescStartAscIsStrictWeakOrder()
    ensures StrictWeakOrder(LengthDescStartAsc)
  {
  }
}

=== FILE: streaks.dfy ===
/** The streak awards: every counted winner poll, in play order, adds one
    entry to the history of each user seen so far (their points, or an
    absence); a scan over each history finds its earliest longest run of
    wins (points above 0) or of losses (points exactly 0). */
module Streaks {
  import opened Wrappers
  import Text
  import Seqs
  import Sorting

  // ---------------------------------------------------------------------------
  // Input: the per-match winner poll files.
  // ---------------------------------------------------------------------------

  /** One row of a match file: the Points and Team Voted Short cells as text. */
  datatype MatchRow = MatchRow(username: string, displayName: string, points: string, team: string)

  /** A file of a week's `poll_winner` directory and, for a `.csv` file, its rows. */
  datatype MatchFile = MatchFile(name: string, rows: seq<MatchRow>)

  /** A directory under the processed data: its name and, when it has a
      `poll_winner` sub-directory, that directory's files in listing order. */
  datatype WeekDir = WeekDir(name: string, pollWinner: Option<seq<MatchFile>>)

  /** `re.match(r'(\d+)-', name).group(1)`: the leading digits when a `-`
      follows them, else no match. */
  function MatchDigits(name: string): (r: Option<string>)
    ensures r.Some? ==> |r.value| > 0 && Text.AllDigits(r.value) && Text.StartsWith(name, r.value + "-")
  {
    var d := Text.LeadingDigits(name);
    if |d| > 0 && |d| < |name| && name[|d|] == '-' then
      assert name[..|d| + 1] == d + "-";
      Some(d)
    else None
  }

  /** A match file in play order: its name, its match number and its rows. */
  datatype Listed = Listed(name: string, number: nat, rows: seq<MatchRow>)

  function DirName(d: WeekDir): string {
    d.name
  }

  function ListedNumber(f: Listed): nat {
    f.number
  }

  /** Every file of a directory with its number; a name without one makes
      the sort key raise. */
  function Numbered(files: seq<MatchFile>): (r: Result<seq<Listed>>)
    ensures r.Success? <==> forall i :: 0 <= i < |files| ==> MatchDigits(files[i].name).Some?
    ensures r.Success? ==> |r.value| == |files|
    ensures r.Success? ==> forall i :: 0 <= i < |files| ==>
      r.value[i] == Listed(files[i].name, Text.DigitsValue(MatchDigits(files[i].name).value), files[i].rows)
    decreases |files|
  {
    if |files| == 0 then Success([])
    else
      var n := |files| - 1;
      var prior :- Numbered(files[..n]);
      assert forall i :: 0 <= i < n ==> files[..n][i] == files[i];
      match MatchDigits(files[n].name)
      case None => Failure(BadValue(files[n].name))
      case Some(d) => Success(prior + [Listed(files[n].name, Text.DigitsValue(d), files[n].rows)])
  }

  /** The `.csv` files among them, in order. */
  function CsvOnly(files: seq<Listed>): (r: seq<Listed>)
    ensures forall f :: f in r <==> f in files && Text.EndsWith(f.name, ".csv")
    decreases |files|
  {
    if |files| == 0 then []
    else
      var n := |files| - 1;
      CsvOnly(files[..n]) + (if Text.EndsWith(files[n].name, ".csv") then [files[n]] else [])
  }

  /** A directory the scans read: named `week…` with a `poll_winner` directory. */
  predicate IsWeekDir(d: WeekDir) {
    Text.StartsWith(d.name, "week") && d.pollWinner.Some?
  }

  /** The match files of the week directories, taken in name order, each
      directory's files sorted by match number (a stable sort) and kept when
      they end in `.csv`. */
  function CollectSorted(dirs: seq<WeekDir>): (r: Result<seq<Listed>>)
    decreases |dirs|
  {
    if |dirs| == 0 then Success([])
    else
      var prior :- CollectSorted(dirs[..|dirs| - 1]);
      var d := dirs[|dirs| - 1];
      if !IsWeekDir(d) then Success(prior)
      else
        var numbered :- Numbered(d.pollWinner.value);
        Success(prior + CsvOnly(Sorting.SortBy(numbered, ListedNumber, Sorting.NumAsc)))
  }

  /** The play order of the winner polls. */
  function Collect(dirs: seq<WeekDir>): Result<seq<Listed>> {
    CollectSorted(Sorting.SortBy(dirs, DirName, Sorting.NameAsc))
  }

  /** Collection succeeds iff every file of every week directory has a match
      number, and every file kept is a `.csv` file of a week directory; the
      converse is `CollectSortedKeepsCsv`. */
  lemma {:induction false} CollectSortedSpec(dirs: seq<WeekDir>)
    ensures CollectSorted(dirs).Success? <==>
      forall k, i :: 0 <= k < |dirs| && IsWeekDir(dirs[k]) && 0 <= i < |dirs[k].pollWinner.value| ==>
        MatchDigits(dirs[k].pollWinner.value[i].name).Some?
    ensures CollectSorted(dirs).Success? ==> forall f :: f in CollectSorted(dirs).value ==>
      Text.EndsWith(f.name, ".csv") && exists k :: 0 <= k < |dirs| && IsWeekDir(dirs[k]) && f.name in Names(dirs[k].pollWinner.value)
    decreases |dirs|
  {
    if |dirs| > 0 {
      var n := |dirs| - 1;
      CollectSortedSpec(dirs[..n]);
      assert forall k :: 0 <= k < n ==> dirs[..n][k] == dirs[k];
      var d := dirs[n];
      if IsWeekDir(d) {
        var files := d.pollWinner.value;
        var numbered := Numbered(files);
        if CollectSorted(dirs[..n]).Success? && numbered.Success? {
          var sorted := Sorting.SortBy(numbered.value, ListedNumber, Sorting.NumAsc);
          forall f | f in CsvOnly(sorted)
            ensures f.name in Names(files)
          {
            assert f in multiset(sorted);
            var i :| 0 <= i < |numbered.value| && numbered.value[i] == f;
            assert Names(files)[i] == files[i].name;
          }
        }
      }
    }
  }

  /** A `.csv` file of a directory, numbered: in the sorted, filtered files of
      that directory. */
  lemma DirKeepsCsv(files: seq<MatchFile>, i: nat)
    requires Numbered(files).Success? && i < |files| && Text.EndsWith(files[i].name, ".csv")
    ensures Listed(files[i].name, Text.DigitsValue(MatchDigits(files[i].name).value), files[i].rows)
      in CsvOnly(Sorting.SortBy(Numbered(files).value, ListedNumber, Sorting.NumAsc))
  {
    var numbered := Numbered(files).value;
    assert numbered[i] in multiset(numbered);
    assert numbered[i] in Sorting.SortBy(numbered, ListedNumber, Sorting.NumAsc);
  }

  /** Every `.csv` file of every week directory is kept: when collection
      succeeds, each one is in the result with its match number. */
  lemma {:induction false} CollectSortedKeepsCsv(dirs: seq<WeekDir>)
    ensures CollectSorted(dirs).Success? ==>
      forall k, i ::
        (0 <= k < |dirs| && IsWeekDir(dirs[k]) && 0 <= i < |dirs[k].pollWinner.value|
         && Text.EndsWith(dirs[k].pollWinner.value[i].name, ".csv")) ==>
        MatchDigits(dirs[k].pollWinner.value[i].name).Some?
        && Listed(dirs[k].pollWinner.value[i].name, Text.DigitsValue(MatchDigits(dirs[k].pollWinner.value[i].name).value),
                  dirs[k].pollWinner.value[i].rows) in CollectSorted(dirs).value
    decreases |dirs|
  {
    if |dirs| > 0 && CollectSorted(dirs).Success? {
      var n := |dirs| - 1;
      CollectSortedKeepsCsv(dirs[..n]);
      assert forall k :: 0 <= k < n ==> dirs[..n][k] == dirs[k];
      var d := dirs[n];
      var prior := CollectSorted(dirs[..n]).value;
      forall k, i | 0 <= k < |dirs| && IsWeekDir(dirs[k]) && 0 <= i < |dirs[k].pollWinner.value|
        && Text.EndsWith(dirs[k].pollWinner.value[i].name, ".csv")
        ensures MatchDigits(dirs[k].pollWinner.value[i].name).Some?
        ensures Listed(dirs[k].pollWinner.value[i].name, Text.DigitsValue(MatchDigits(dirs[k].pollWinner.value[i].name).value),
                       dirs[k].pollWinner.value[i].rows) in CollectSorted(dirs).value
      {
        if k < n {
          assert dirs[..n][k] == dirs[k];
        } else {
          DirKeepsCsv(d.pollWinner.value, i);
        }
      }
    }
  }

  /** The names of the files, in order. */
  function Names(files: seq<MatchFile>): (r: seq<string>)
    ensures |r| == |files|
    ensures forall i :: 0 <= i < |files| ==> r[i] == files[i].name
  {
    seq(|files|, i requires 0 <= i < |files| => files[i].name)
  }

  /** Within a directory the kept files follow their match numbers, and
      files with the same number keep their listing order. */
  lemma DirectoryOrder(numbered: seq<Listed>)
    ensures var kept := Sorting.SortBy(numbered, ListedNumber, Sorting.NumAsc);
      && Sorting.SortedBy(kept, ListedNumber, Sorting.NumAsc)
      && forall k: nat :: Sorting.Peers(kept, ListedNumber, Sorting.NumAsc, k) == Sorting.Peers(numbered, ListedNumber, Sorting.NumAsc, k)
  {
    Sorting.NumAscIsStrictWeakOrder();
    Sorting.SortBySorted(numbered, ListedNumber, Sorting.NumAsc);
    forall k: nat ensures Sorting.Peers(Sorting.SortBy(numbered, ListedNumber, Sorting.NumAsc), ListedNumber, Sorting.NumAsc, k)
                       == Sorting.Peers(numbered, ListedNumber, Sorting.NumAsc, k) {
      Sorting.SortByStable(numbered, ListedNumber, Sorting.NumAsc, k);
    }
  }

  // ---------------------------------------------------------------------------
  // Points: every file is read with float() on its Points cells.
  // ---------------------------------------------------------------------------

  /** One row of a counted file with its points read. */
  datatype Vote = Vote(username: string, displayName: string, points: real)

  /** A match file with its points read. */
  datatype Poll = Poll(name: string, number: nat, votes: seq<Vote>)

  /** Every row with its points read; the first unreadable value is the error. */
  function ReadVotes(rows: seq<MatchRow>, parse: Text.Parser): (r: Result<seq<Vote>>)
    ensures r.Success? <==> forall i :: 0 <= i < |rows| ==> parse(rows[i].points).Some?
    ensures r.Success? ==> |r.value| == |rows|
    ensures r.Success? ==> forall i :: 0 <= i < |rows| ==>
      r.value[i] == Vote(rows[i].username, rows[i].displayName, parse(rows[i].points).value)
    decreases |rows|
  {
    if |rows| == 0 then Success([])
    else
      var n := |rows| - 1;
      var prior :- ReadVotes(rows[..n], parse);
      assert forall i :: 0 <= i < n ==> rows[..n][i] == rows[i];
      match parse(rows[n].points)
      case None => Failure(BadValue(rows[n].points))
      case Some(x) => Success(prior + [Vote(rows[n].username, rows[n].displayName, x)])
  }

  /** Every listed file read; a value float() rejects stops the whole scan. */
  function ReadPolls(files: seq<Listed>, parse: Text.Parser): (r: Result<seq<Poll>>)
    ensures r.Success? <==> forall i, k :: 0 <= i < |files| && 0 <= k < |files[i].rows| ==> parse(files[i].rows[k].points).Some?
    ensures r.Success? ==> |r.value| == |files|
    ensures r.Success? ==> forall i :: 0 <= i < |files| ==>
      && r.value[i].name == files[i].name
      && r.value[i].number == files[i].number
      && ReadVotes(files[i].rows, parse) == Success(r.value[i].votes)
    decreases |files|
  {
    if |files| == 0 then Success([])
    else
      var n := |files| - 1;
      var prior :- ReadPolls(files[..n], parse);
      assert forall i :: 0 <= i < n ==> files[..n][i] == files[i];
      var votes :- ReadVotes(files[n].rows, parse);
      Success(prior + [Poll(files[n].name, files[n].number, votes)])
  }

  /** A washed-out match: at least one row and every row scored 0. */
  predicate WashedOut(p: Poll) {
    |p.votes| > 0 && forall i :: 0 <= i < |p.votes| ==> p.votes[i].points == 0.0
  }

  // ---------------------------------------------------------------------------
  // Histories: one entry per counted poll for every user seen so far.
  // ---------------------------------------------------------------------------

  /** A user's entry for one poll: the file, its number, and the points, or
      None when the user did not vote in it. */
  datatype Entry = Entry(file: string, number: nat, points: Option<real>)

  /** The users in order of first vote, each one's entries, and the display
      name each one's latest row gave. */
  datatype History = History(order: seq<string>, entries: map<string, seq<Entry>>, display: map<string, string>)

  /** The usernames of the rows, in order. */
  function Voters(vs: seq<Vote>): (r: seq<string>)
    ensures |r| == |vs|
    ensures forall i :: 0 <= i < |vs| ==> r[i] == vs[i].username
  {
    seq(|vs|, i requires 0 <= i < |vs| => vs[i].username)
  }

  /** Appends every row's points to its user's entries, in row order; a user
      with two rows gets two entries. */
  function AddVotes(h: History, name: string, number: nat, vs: seq<Vote>): History
    decreases |vs|
  {
    if |vs| == 0 then h
    else
      var g := AddVotes(h, name, number, vs[..|vs| - 1]);
      var v := vs[|vs| - 1];
      var prior := if v.username in g.entries then g.entries[v.username] else [];
      History(if v.username in g.entries then g.order else g.order + [v.username],
              g.entries[v.username := prior + [Entry(name, number, Some(v.points))]],
              g.display[v.username := v.displayName])
  }

  /** Appends an absence to every known user who is not among `present`. */
  function MarkAbsent(h: History, present: seq<string>, name: string, number: nat): History {
    h.(entries := map u | u in h.entries ::
         if u in present then h.entries[u] else h.entries[u] + [Entry(name, number, None)])
  }

  /** One poll: skipped when washed out, else its rows, then the absences. */
  function AddPoll(h: History, p: Poll): History {
    if WashedOut(p) then h
    else MarkAbsent(AddVotes(h, p.name, p.number, p.votes), Voters(p.votes), p.name, p.number)
  }

  function Build(polls: seq<Poll>): History
    decreases |polls|
  {
    if |polls| == 0 then History([], map[], map[])
    else AddPoll(Build(polls[..|polls| - 1]), polls[|polls| - 1])
  }

  // Reference definitions, one user at a time.

  /** The usernames of the counted polls' rows, poll by poll. */
  function AllVoters(polls: seq<Poll>): seq<string>
    decreases |polls|
  {
    if |polls| == 0 then []
    else
      var p := polls[|polls| - 1];
      AllVoters(polls[..|polls| - 1]) + (if WashedOut(p) then [] else Voters(p.votes))
  }

  /** The entries `u`'s own rows give in one poll. */
  function OwnEntries(vs: seq<Vote>, u: string, name: string, number: nat): (r: seq<Entry>)
    ensures |r| > 0 <==> u in Voters(vs)
    decreases |vs|
  {
    if |vs| == 0 then []
    else
      var n := |vs| - 1;
      assert Voters(vs) == Voters(vs[..n]) + [vs[n].username];
      OwnEntries(vs[..n], u, name, number)
        + (if vs[n].username == u then [Entry(name, number, Some(vs[n].points))] else [])
  }

  /** What `u`'s entries should be: from the first counted poll `u` voted in,
      each counted poll gives `u`'s own rows, or one absence. */
  function UserHistory(polls: seq<Poll>, u: string): seq<Entry>
    decreases |polls|
  {
    if |polls| == 0 then []
    else
      var n := |polls| - 1;
      var p := polls[n];
      UserHistory(polls[..n], u)
        + (if WashedOut(p) then []
           else if u in Voters(p.votes) then OwnEntries(p.votes, u, p.name, p.number)
           else if u in AllVoters(polls[..n]) then [Entry(p.name, p.number, None)]
           else [])
  }

  /** The display name on `u`'s last row among `vs`. */
  function VotesDisplay(vs: seq<Vote>, u: string): (r: Option<string>)
    ensures r.Some? <==> u in Voters(vs)
    decreases |vs|
  {
    if |vs| == 0 then None
    else
      var n := |vs| - 1;
      assert Voters(vs) == Voters(vs[..n]) + [vs[n].username];
      if vs[n].username == u then Some(vs[n].displayName) else VotesDisplay(vs[..n], u)
  }

  /** The display name on `u`'s last row in a counted poll. */
  function LastDisplay(polls: seq<Poll>, u: string): Option<string>
    decreases |polls|
  {
    if |polls| == 0 then None
    else
      var p := polls[|polls| - 1];
      if !WashedOut(p) && VotesDisplay(p.votes, u).Some? then VotesDisplay(p.votes, u)
      else LastDisplay(polls[..|polls| - 1], u)
  }

  /** The last row's user joins the order unless already known. */
  lemma AddVotesLast(h: History, name: string, number: nat, vs: seq<Vote>)
    requires |vs| > 0
    ensures var g := AddVotes(h, name, number, vs[..|vs| - 1]);
      var v := vs[|vs| - 1].username;
      AddVotes(h, name, number, vs).order == if v in g.entries then g.order else g.order + [v]
  {
  }

  /** Adding rows keeps first-vote order. */
  lemma {:induction false} AddVotesOrder(h: History, name: string, number: nat, vs: seq<Vote>, prior: seq<string>)
    requires h.order == Sorting.FirstSeen(prior)
    requires forall u :: u in h.entries <==> u in prior
    ensures AddVotes(h, name, number, vs).order == Sorting.FirstSeen(prior + Voters(vs))
    decreases |vs|
  {
    if |vs| > 0 {
      var n := |vs| - 1;
      var g := AddVotes(h, name, number, vs[..n]);
      var v := vs[n].username;
      var before := prior + Voters(vs[..n]);
      assert g.order == Sorting.FirstSeen(before) by {
        AddVotesOrder(h, name, number, vs[..n], prior);
      }
      assert v in g.entries <==> v in before by {
        AddVotesEntries(h, name, number, vs[..n], v);
      }
      assert prior + Voters(vs) == before + [v] by {
        assert Voters(vs) == Voters(vs[..n]) + [v];
      }
      assert AddVotes(h, name, number, vs).order == if v in g.entries then g.order else g.order + [v] by {
        AddVotesLast(h, name, number, vs);
      }
      Sorting.FirstSeenSnoc(before, v);
    } else {
      assert prior + Voters(vs) == prior;
    }
  }

  /** Marking absences changes no user's presence and no order. */
  lemma MarkAbsentKeys(h: History, present: seq<string>, name: string, number: nat)
    ensures MarkAbsent(h, present, name, number).order == h.order
    ensures MarkAbsent(h, present, name, number).display == h.display
    ensures forall u :: u in MarkAbsent(h, present, name, number).entries <==> u in h.entries
  {
  }

  /** Adding rows appends each user's own entries. */
  lemma {:induction false} AddVotesEntries(h: History, name: string, number: nat, vs: seq<Vote>, u: string)
    ensures u in AddVotes(h, name, number, vs).entries <==> u in h.entries || u in Voters(vs)
    ensures u in AddVotes(h, name, number, vs).entries ==>
      AddVotes(h, name, number, vs).entries[u]
        == (if u in h.entries then h.entries[u] else []) + OwnEntries(vs, u, name, number)
    decreases |vs|
  {
    if |vs| > 0 {
      var n := |vs| - 1;
      AddVotesEntries(h, name, number, vs[..n], u);
      assert Voters(vs) == Voters(vs[..n]) + [vs[n].username];
    }
  }

  lemma {:induction false} AddVotesDisplay(h: History, name: string, number: nat, vs: seq<Vote>, u: string)
    ensures u in AddVotes(h, name, number, vs).display <==> u in h.display || u in Voters(vs)
    ensures u in AddVotes(h, name, number, vs).display ==>
      AddVotes(h, name, number, vs).display[u]
        == if u in Voters(vs) then VotesDisplay(vs, u).value else h.display[u]
    decreases |vs|
  {
    if |vs| > 0 {
      var n := |vs| - 1;
      AddVotesDisplay(h, name, number, vs[..n], u);
      assert Voters(vs) == Voters(vs[..n]) + [vs[n].username];
    }
  }

  /** The users of the history are the voters of the counted polls, in order
      of first vote. */
  lemma {:induction false} BuildOrder(polls: seq<Poll>)
    ensures Build(polls).order == Sorting.FirstSeen(AllVoters(polls))
    ensures forall u :: u in Build(polls).entries <==> u in AllVoters(polls)
    decreases |polls|
  {
    if |polls| > 0 {
      var n := |polls| - 1;
      var p := polls[n];
      var h := Build(polls[..n]);
      assert Build(polls) == AddPoll(h, p);
      BuildOrder(polls[..n]);
      if WashedOut(p) {
        assert AllVoters(polls) == AllVoters(polls[..n]);
      } else {
        var g := AddVotes(h, p.name, p.number, p.votes);
        assert AllVoters(polls) == AllVoters(polls[..n]) + Voters(p.votes);
        assert Build(polls) == MarkAbsent(g, Voters(p.votes), p.name, p.number);
        AddVotesOrder(h, p.name, p.number, p.votes, AllVoters(polls[..n]));
        MarkAbsentKeys(g, Voters(p.votes), p.name, p.number);
        forall u ensures u in g.entries <==> u in AllVoters(polls) {
          AddVotesEntries(h, p.name, p.number, p.votes, u);
        }
      }
    }
  }

  /** A user with no counted row yet has no entries. */
  lemma {:induction false} UserHistoryUnseen(polls: seq<Poll>, u: string)
    requires u !in AllVoters(polls)
    ensures UserHistory(polls, u) == []
    decreases |polls|
  {
    if |polls| > 0 {
      var n := |polls| - 1;
      var p := polls[n];
      assert AllVoters(polls) == AllVoters(polls[..n]) + (if WashedOut(p) then [] else Voters(p.votes));
      UserHistoryUnseen(polls[..n], u);
    }
  }

  /** Each user's entries are exactly the reference history. */
  lemma {:induction false} BuildEntries(polls: seq<Poll>, u: string)
    ensures u in Build(polls).entries ==> Build(polls).entries[u] == UserHistory(polls, u)
    decreases |polls|
  {
    if |polls| > 0 {
      BuildEntries(polls[..|polls| - 1], u);
      BuildEntriesStep(polls, u);
    }
  }

  /** The inductive step of `BuildEntries`: one more poll. */
  lemma BuildEntriesStep(polls: seq<Poll>, u: string)
    requires |polls| > 0
    requires var init := polls[..|polls| - 1];
      u in Build(init).entries ==> Build(init).entries[u] == UserHistory(init, u)
    ensures u in Build(polls).entries ==> Build(polls).entries[u] == UserHistory(polls, u)
  {
    var n := |polls| - 1;
    var init, p := polls[..n], polls[n];
    var h := Build(init);
    var prior := UserHistory(init, u);
    if WashedOut(p) {
      assert Build(polls) == h;
      assert UserHistory(polls, u) == prior + [];
      Seqs.AppendEmpty(prior);
    } else {
      var g := AddVotes(h, p.name, p.number, p.votes);
      assert Build(polls) == MarkAbsent(g, Voters(p.votes), p.name, p.number);
      assert u in h.entries <==> u in AllVoters(init) by {
        BuildOrder(init);
      }
      AddVotesEntries(h, p.name, p.number, p.votes, u);
      MarkAbsentKeys(g, Voters(p.votes), p.name, p.number);
      if u in g.entries {
        MarkAbsentEntry(g, Voters(p.votes), p.name, p.number, u);
      }
      if u in Voters(p.votes) {
        assert UserHistory(polls, u) == prior + OwnEntries(p.votes, u, p.name, p.number);
        if u !in h.entries {
          UserHistoryUnseen(init, u);
          Seqs.AppendEmpty(OwnEntries(p.votes, u, p.name, p.number));
        }
      } else if u in h.entries {
        assert UserHistory(polls, u) == prior + [Entry(p.name, p.number, None)];
        assert OwnEntries(p.votes, u, p.name, p.number) == [];
        Seqs.AppendEmpty(h.entries[u]);
      }
    }
  }

  lemma MarkAbsentEntry(h: History, present: seq<string>, name: string, number: nat, u: string)
    requires u in h.entries
    ensures MarkAbsent(h, present, name, number).entries[u]
         == if u in present then h.entries[u] else h.entries[u] + [Entry(name, number, None)]
  {
  }

  /** Each user's display name is the one on their last counted row. */
  lemma {:induction false} BuildDisplay(polls: seq<Poll>, u: string)
    ensures u in Build(polls).display <==> u in AllVoters(polls)
    ensures u in Build(polls).display ==> LastDisplay(polls, u) == Some(Build(polls).display[u])
    decreases |polls|
  {
    if |polls| > 0 {
      var n := |polls| - 1;
      var p := polls[n];
      BuildDisplay(polls[..n], u);
      if !WashedOut(p) {
        var g := AddVotes(Build(polls[..n]), p.name, p.number, p.votes);
        AddVotesDisplay(Build(polls[..n]), p.name, p.number, p.votes, u);
        MarkAbsentKeys(g, Voters(p.votes), p.name, p.number);
      }
    }
  }

  // ---------------------------------------------------------------------------
  // The scan: the earliest longest run of qualifying entries.
  // ---------------------------------------------------------------------------

  /** Winning streaks count points above 0; losing streaks count points of
      exactly 0. An absence qualifies for neither. */
  datatype Mode = Winning | Losing

  predicate Qualifies(e: Entry, mode: Mode) {
    match e.points
    case None => false
    case Some(x) => if mode == Winning then x > 0.0 else x == 0.0
  }

  /** Entries `i` to `j` (inclusive) all qualify. */
  predicate Run(votes: seq<Entry>, mode: Mode, i: int, j: int) {
    0 <= i <= j < |votes| && forall k :: i <= k <= j ==> Qualifies(votes[k], mode)
  }

  /** The scan's state after some entries: the current run's length and
      start, and the best run's length, start and end. */
  datatype Scan = Scan(current: nat, best: nat, start: nat, bestStart: nat, bestEnd: nat)

  /** One pass over the entries; a run replaces the best only when strictly
      longer, so the earliest of equally long runs is kept. */
  function ScanVotes(votes: seq<Entry>, mode: Mode): (r: Scan)
    ensures r.current <= |votes|
    ensures r.current > 0 ==> r.start + r.current == |votes|
    ensures r.best > 0 ==> r.bestStart <= r.bestEnd < |votes|
    decreases |votes|
  {
    if |votes| == 0 then Scan(0, 0, 0, 0, 0)
    else
      var n := |votes| - 1;
      var s := ScanVotes(votes[..n], mode);
      if !Qualifies(votes[n], mode) then s.(current := 0)
      else
        var start := if s.current == 0 then n else s.start;
        var current := s.current + 1;
        if current > s.best then Scan(current, current, start, start, n)
        else s.(current := current, start := start)
  }

  /** What the scan keeps true: its current run is the longest run ending at
      the last entry, and its best run is the earliest of the longest runs. */
  ghost predicate ScanInv(votes: seq<Entry>, mode: Mode, s: Scan) {
    var n := |votes|;
    && s.current <= n && s.current <= s.best
    && (s.current > 0 ==> s.start + s.current == n && Run(votes, mode, s.start, n - 1))
    && (s.current < n ==> !Qualifies(votes[n - 1 - s.current], mode))
    && (s.best > 0 ==> s.bestStart + s.best == s.bestEnd + 1 && s.bestEnd < n && Run(votes, mode, s.bestStart, s.bestEnd))
    && (forall i, j :: Run(votes, mode, i, j) ==> j - i + 1 <= s.best)
    && (forall i, j :: Run(votes, mode, i, j) && j - i + 1 == s.best ==> s.bestStart <= i)
  }

  /** A run inside the first `n` entries is a run of the whole sequence. */
  lemma RunPrefix(votes: seq<Entry>, mode: Mode, n: nat)
    requires n <= |votes|
    ensures forall i, j :: j < n ==> (Run(votes[..n], mode, i, j) <==> Run(votes, mode, i, j))
  {
    assert forall k :: 0 <= k < n ==> votes[..n][k] == votes[k];
  }

  lemma {:induction false} ScanInvariant(votes: seq<Entry>, mode: Mode)
    ensures ScanInv(votes, mode, ScanVotes(votes, mode))
    decreases |votes|
  {
    if |votes| > 0 {
      var n := |votes| - 1;
      var init := votes[..n];
      ScanInvariant(init, mode);
      var s := ScanVotes(init, mode);
      if !Qualifies(votes[n], mode) {
        ScanReset(votes, mode, s);
      } else {
        ScanExtend(votes, mode, s);
      }
    }
  }

  /** A non-qualifying last entry ends the current run and keeps the best. */
  lemma ScanReset(votes: seq<Entry>, mode: Mode, s: Scan)
    requires |votes| > 0 && !Qualifies(votes[|votes| - 1], mode)
    requires ScanInv(votes[..|votes| - 1], mode, s)
    ensures ScanInv(votes, mode, s.(current := 0))
  {
    var n := |votes| - 1;
    RunPrefix(votes, mode, n);
    forall i, j | Run(votes, mode, i, j)
      ensures j - i + 1 <= s.best && (j - i + 1 == s.best ==> s.bestStart <= i)
    {
      assert Qualifies(votes[j], mode);
      assert Run(votes[..n], mode, i, j);
    }
  }

  /** A qualifying last entry extends the current run, which becomes the best
      when strictly longer. */
  lemma ScanExtend(votes: seq<Entry>, mode: Mode, s: Scan)
    requires |votes| > 0 && Qualifies(votes[|votes| - 1], mode)
    requires ScanInv(votes[..|votes| - 1], mode, s)
    ensures var n := |votes| - 1;
      var start := if s.current == 0 then n else s.start;
      var current := s.current + 1;
      ScanInv(votes, mode, if current > s.best then Scan(current, current, start, start, n)
                           else s.(current := current, start := start))
  {
    var n := |votes| - 1;
    var start := if s.current == 0 then n else s.start;
    var current := s.current + 1;
    RunPrefix(votes, mode, n);
    assert forall k :: 0 <= k < n ==> votes[..n][k] == votes[k];
    assert Run(votes, mode, start, n) by {
      if s.current > 0 {
        assert Run(votes[..n], mode, s.start, n - 1);
      }
    }
    assert start + current == n + 1;
    // No run ending at the last entry starts before the current one.
    forall i | Run(votes, mode, i, n)
      ensures start <= i
    {
    }
    forall i, j | Run(votes, mode, i, j) && j < n
      ensures j - i + 1 <= s.best && (j - i + 1 == s.best ==> s.bestStart <= i)
    {
      assert Run(votes[..n], mode, i, j);
    }
  }

  /** The scan finds a streak iff some entry qualifies; its streak is a run,
      no run is longer, and no equally long run starts earlier. */
  lemma ScanSpec(votes: seq<Entry>, mode: Mode)
    ensures var s := ScanVotes(votes, mode);
      && (s.best == 0 <==> forall k :: 0 <= k < |votes| ==> !Qualifies(votes[k], mode))
      && (s.best > 0 ==> Run(votes, mode, s.bestStart, s.bestEnd) && s.bestEnd - s.bestStart + 1 == s.best)
      && (forall i, j :: Run(votes, mode, i, j) ==> j - i + 1 <= s.best)
      && (forall i, j :: Run(votes, mode, i, j) && j - i + 1 == s.best ==> s.bestStart <= i)
  {
    ScanInvariant(votes, mode);
    var s := ScanVotes(votes, mode);
    forall k | 0 <= k < |votes| && Qualifies(votes[k], mode)
      ensures s.best > 0
    {
      assert Run(votes, mode, k, k);
    }
  }

  // ---------------------------------------------------------------------------
  // Streaks per user, and the top of the list.
  // ---------------------------------------------------------------------------

  /** A user's best streak: its length, the files it starts and ends in, and
      the start file's match number (the tie-breaker). */
  datatype Streak = Streak(username: string, displayName: string, length: nat, startFile: string, endFile: string, startNum: nat)

  /** The streak the scan reports for one user, if any entry qualifies. */
  function StreakOf(u: string, display: string, votes: seq<Entry>, mode: Mode): (r: Option<Streak>)
    ensures r.Some? ==> r.value.username == u && r.value.displayName == display && r.value.length > 0
  {
    var s := ScanVotes(votes, mode);
    if s.best > 0 then
      Some(Streak(u, display, s.best, votes[s.bestStart].file, votes[s.bestEnd].file, votes[s.bestStart].number))
    else None
  }

  /** A washed-out match anywhere in the play order leaves the whole history
      unchanged: no user gains an entry or a display name from it. */
  lemma {:induction false} WashedOutIgnored(ps: seq<Poll>, w: Poll, qs: seq<Poll>)
    requires WashedOut(w)
    ensures Build(ps + [w] + qs) == Build(ps + qs)
    decreases |qs|
  {
    if |qs| == 0 {
      assert ps + [w] + qs == ps + [w];
      assert (ps + [w])[..|ps|] == ps;
      assert ps + qs == ps;
    } else {
      var n := |qs| - 1;
      WashedOutIgnored(ps, w, qs[..n]);
      assert (ps + [w] + qs)[..|ps| + 1 + n] == ps + [w] + qs[..n];
      assert (ps + qs)[..|ps| + n] == ps + qs[..n];
    }
  }

  /** A washed-out match between two wins does not break the streak: the
      match is skipped, so the user's history is the two wins and their
      winning streak has length 2. */
  lemma WashedOutKeepsStreak(u: string, d: string, x: real, y: real, a: Poll, w: Poll, b: Poll)
    requires a.votes == [Vote(u, d, x)] && b.votes == [Vote(u, d, y)] && x > 0.0 && y > 0.0
    requires WashedOut(w)
    ensures u in Build([a, w, b]).entries
    ensures Build([a, w, b]).entries[u] == [Entry(a.name, a.number, Some(x)), Entry(b.name, b.number, Some(y))]
    ensures StreakOf(u, d, Build([a, w, b]).entries[u], Winning) == Some(Streak(u, d, 2, a.name, b.name, a.number))
  {
    assert [a, w, b][..2] == [a, w] && [a, w][..1] == [a] && [a][..0] == [];
    var e := History([], map[], map[]);
    assert Build([a]) == AddPoll(e, a);
    assert Build([a, w]) == AddPoll(Build([a]), w) == Build([a]);
    assert Build([a, w, b]) == AddPoll(Build([a]), b);
    SingleVotePoll(e, a, u, d, x);
    SingleVotePoll(Build([a]), b, u, d, y);
    TwoWins(u, d, Entry(a.name, a.number, Some(x)), Entry(b.name, b.number, Some(y)));
  }

  /** A poll with one winning row appends that row's entry to its user. */
  lemma SingleVotePoll(h: History, p: Poll, u: string, d: string, x: real)
    requires p.votes == [Vote(u, d, x)] && x > 0.0
    ensures u in AddPoll(h, p).entries
    ensures AddPoll(h, p).entries[u] == (if u in h.entries then h.entries[u] else []) + [Entry(p.name, p.number, Some(x))]
  {
    assert p.votes[0].points == x && !WashedOut(p);
    assert p.votes[..0] == [];
    assert AddVotes(h, p.name, p.number, p.votes[..0]) == h;
    assert Voters(p.votes) == [u];
  }

  /** Two winning entries make a winning streak of length 2 from the first. */
  lemma TwoWins(u: string, d: string, e1: Entry, e2: Entry)
    requires Qualifies(e1, Winning) && Qualifies(e2, Winning)
    ensures StreakOf(u, d, [e1, e2], Winning) == Some(Streak(u, d, 2, e1.file, e2.file, e1.number))
  {
    var es := [e1, e2];
    assert es[..1] == [e1] && [e1][..0] == [];
    assert ScanVotes([e1], Winning) == Scan(1, 1, 0, 0, 0);
    assert ScanVotes(es, Winning) == Scan(2, 2, 0, 0, 1);
  }

  /** Entries `i` to `i + length - 1` are the earliest of the longest runs. */
  ghost predicate EarliestLongest(votes: seq<Entry>, mode: Mode, i: int, length: nat) {
    && Run(votes, mode, i, i + length - 1)
    && (forall i', j' :: Run(votes, mode, i', j') ==> j' - i' + 1 <= length)
    && (forall i', j' :: Run(votes, mode, i', j') && j' - i' + 1 == length ==> i <= i')
  }

  /** A user has a streak iff some entry of theirs qualifies. */
  lemma StreakOfPresent(u: string, display: string, votes: seq<Entry>, mode: Mode)
    ensures StreakOf(u, display, votes, mode).Some? <==> exists k :: 0 <= k < |votes| && Qualifies(votes[k], mode)
  {
    ScanSpec(votes, mode);
  }

  /** The reported streak is the earliest of the longest runs, with the files
      and start number of its first and last entries. */
  lemma StreakOfSpec(u: string, display: string, votes: seq<Entry>, mode: Mode, st: Streak)
    requires StreakOf(u, display, votes, mode) == Some(st)
    ensures exists i :: && EarliestLongest(votes, mode, i, st.length)
                        && st.startFile == votes[i].file
                        && st.endFile == votes[i + st.length - 1].file
                        && st.startNum == votes[i].number
  {
    ScanSpec(votes, mode);
    var s := ScanVotes(votes, mode);
    assert EarliestLongest(votes, mode, s.bestStart, st.length);
  }

  /** The display name the history holds for `u` (every user in it has one). */
  function DisplayOf(h: History, u: string): string {
    if u in h.display then h.display[u] else ""
  }

  /** The streaks of `users`, in their order, skipping the excluded users and
      those without a qualifying entry. */
  function StreaksOf(h: History, users: seq<string>, mode: Mode, excluded: set<string>): seq<Streak>
    decreases |users|
  {
    if |users| == 0 then []
    else
      var u := users[|users| - 1];
      StreaksOf(h, users[..|users| - 1], mode, excluded)
        + (if u in excluded || u !in h.entries then []
           else match StreakOf(u, DisplayOf(h, u), h.entries[u], mode)
                case Some(st) => [st]
                case None => [])
  }

  /** A user's streak is the one the scan reports for them. */
  predicate Reported(h: History, mode: Mode, st: Streak) {
    st.username in h.entries && StreakOf(st.username, DisplayOf(h, st.username), h.entries[st.username], mode) == Some(st)
  }

  /** The list holds exactly the reported streaks of the users who are not
      excluded. */
  lemma StreaksOfSpec(h: History, users: seq<string>, mode: Mode, excluded: set<string>)
    ensures forall st :: st in StreaksOf(h, users, mode, excluded) ==>
      st.username in users && st.username !in excluded && Reported(h, mode, st)
    ensures forall i :: (0 <= i < |users| && users[i] !in excluded && users[i] in h.entries
      && StreakOf(users[i], DisplayOf(h, users[i]), h.entries[users[i]], mode).Some?) ==>
      StreakOf(users[i], DisplayOf(h, users[i]), h.entries[users[i]], mode).value in StreaksOf(h, users, mode, excluded)
  {
    StreaksOfSound(h, users, mode, excluded);
    StreaksOfComplete(h, users, mode, excluded);
  }

  lemma {:induction false} StreaksOfSound(h: History, users: seq<string>, mode: Mode, excluded: set<string>)
    ensures forall st :: st in StreaksOf(h, users, mode, excluded) ==>
      st.username in users && st.username !in excluded && Reported(h, mode, st)
    decreases |users|
  {
    if |users| > 0 {
      var n := |users| - 1;
      StreaksOfSound(h, users[..n], mode, excluded);
      assert forall i :: 0 <= i < n ==> users[..n][i] == users[i];
    }
  }

  lemma {:induction false} StreaksOfComplete(h: History, users: seq<string>, mode: Mode, excluded: set<string>)
    ensures forall i :: (0 <= i < |users| && users[i] !in excluded && users[i] in h.entries
      && StreakOf(users[i], DisplayOf(h, users[i]), h.entries[users[i]], mode).Some?) ==>
      StreakOf(users[i], DisplayOf(h, users[i]), h.entries[users[i]], mode).value in StreaksOf(h, users, mode, excluded)
    decreases |users|
  {
    if |users| > 0 {
      var n := |users| - 1;
      StreaksOfComplete(h, users[..n], mode, excluded);
      assert forall i :: 0 <= i < n ==> users[..n][i] == users[i];
    }
  }

  function StreakKey(st: Streak): Sorting.LengthStart {
    Sorting.LengthStart(st.length, st.startNum)
  }

  /** `sort(key=(-length, start_num))[:n]`: longest first, earlier start
      first among equal lengths, a stable sort. */
  function Top(list: seq<Streak>, n: nat): (r: seq<Streak>)
    ensures |r| == if n < |list| then n else |list|
  {
    Sorting.Take(Sorting.SortBy(list, StreakKey, Sorting.LengthDescStartAsc), n)
  }

  /** The top is the sorted list's prefix: sorted, and no dropped streak
      ranks before a kept one; streaks with equal keys keep their order. */
  lemma TopSpec(list: seq<Streak>, n: nat)
    ensures var sorted := Sorting.SortBy(list, StreakKey, Sorting.LengthDescStartAsc);
      && multiset(sorted) == multiset(list)
      && Top(list, n) == sorted[..|Top(list, n)|]
      && Sorting.SortedBy(sorted, StreakKey, Sorting.LengthDescStartAsc)
      && forall k :: Sorting.Peers(sorted, StreakKey, Sorting.LengthDescStartAsc, k)
                  == Sorting.Peers(list, StreakKey, Sorting.LengthDescStartAsc, k)
  {
    Sorting.LengthDescStartAscIsStrictWeakOrder();
    Sorting.SortBySorted(list, StreakKey, Sorting.LengthDescStartAsc);
    forall k ensures Sorting.Peers(Sorting.SortBy(list, StreakKey, Sorting.LengthDescStartAsc), StreakKey, Sorting.LengthDescStartAsc, k)
                  == Sorting.Peers(list, StreakKey, Sorting.LengthDescStartAsc, k) {
      Sorting.SortByStable(list, StreakKey, Sorting.LengthDescStartAsc, k);
    }
  }

  /** The first of the top one, if any. */
  function Best(list: seq<Streak>): (r: Option<Streak>)
    ensures r.Some? <==> |list| > 0
  {
    var top := Top(list, 1);
    if |top| > 0 then Some(top[0]) else None
  }

  /** The overall streak is a listed one that no other is longer than, and no
      equally long one starts at an earlier match number. */
  lemma BestSpec(list: seq<Streak>)
    ensures Best(list).Some? ==>
      && Best(list).value in list
      && forall t :: t in list ==>
           && t.length <= Best(list).value.length
           && (t.length == Best(list).value.length ==> Best(list).value.startNum <= t.startNum)
  {
    if |list| > 0 {
      var sorted := Sorting.SortBy(list, StreakKey, Sorting.LengthDescStartAsc);
      Sorting.LengthDescStartAscIsStrictWeakOrder();
      Sorting.SortBySorted(list, StreakKey, Sorting.LengthDescStartAsc);
      assert Best(list).value == sorted[0];
      assert sorted[0] in multiset(list);
      forall t | t in list
        ensures t.length <= sorted[0].length && (t.length == sorted[0].length ==> sorted[0].startNum <= t.startNum)
      {
        assert t in multiset(sorted);
        var j :| 0 <= j < |sorted| && sorted[j] == t;
        if j > 0 {
          assert !Sorting.LengthDescStartAsc(StreakKey(sorted[j]), StreakKey(sorted[0]));
        }
      }
    }
  }

  // ---------------------------------------------------------------------------
  // The four awards.
  // ---------------------------------------------------------------------------

  /** The histories of the counted polls. */
  function Histories(dirs: seq<WeekDir>, parse: Text.Parser): Result<History> {
    var files :- Collect(dirs);
    var polls :- ReadPolls(files, parse);
    Success(Build(polls))
  }

  /** `get_winning_streak`: the top `n` winning streaks of users not excluded. */
  function WinningStreak(dirs: seq<WeekDir>, parse: Text.Parser, excluded: set<string>, n: nat): Result<seq<Streak>> {
    var h :- Histories(dirs, parse);
    Success(Top(StreaksOf(h, h.order, Winning, excluded), n))
  }

  /** `get_losing_streak`: the top `n` losing streaks; nobody is excluded. */
  function LosingStreak(dirs: seq<WeekDir>, parse: Text.Parser, n: nat): Result<seq<Streak>> {
    var h :- Histories(dirs, parse);
    Success(Top(StreaksOf(h, h.order, Losing, {}), n))
  }

  /** `get_overall_winning_streak`: the first of the top one, over everyone. */
  function OverallWinningStreak(dirs: seq<WeekDir>, parse: Text.Parser): Result<Option<Streak>> {
    var h :- Histories(dirs, parse);
    Success(Best(StreaksOf(h, h.order, Winning, {})))
  }

  /** `get_overall_losing_streak`. */
  function OverallLosingStreak(dirs: seq<WeekDir>, parse: Text.Parser): Result<Option<Streak>> {
    var h :- Histories(dirs, parse);
    Success(Best(StreaksOf(h, h.order, Losing, {})))
  }

  /** Each listed streak belongs to a user of the counted polls who is not
      excluded, and is the one the scan finds in that user's reference
      history; every such user with a qualifying entry is listed. */
  lemma StreakListSpec(polls: seq<Poll>, mode: Mode, excluded: set<string>)
    ensures var h := Build(polls);
      forall st :: st in StreaksOf(h, h.order, mode, excluded) ==>
        && st.username in AllVoters(polls) && st.username !in excluded
        && StreakOf(st.username, DisplayOf(h, st.username), UserHistory(polls, st.username), mode) == Some(st)
    ensures var h := Build(polls);
      forall u :: (u in AllVoters(polls) && u !in excluded
        && StreakOf(u, DisplayOf(h, u), UserHistory(polls, u), mode).Some?) ==>
        StreakOf(u, DisplayOf(h, u), UserHistory(polls, u), mode).value in StreaksOf(h, h.order, mode, excluded)
  {
    var h := Build(polls);
    BuildOrder(polls);
    StreaksOfSpec(h, h.order, mode, excluded);
    forall u | u in h.entries
      ensures h.entries[u] == UserHistory(polls, u)
    {
      BuildEntries(polls, u);
    }
    forall u | u in AllVoters(polls) && u !in excluded
        && StreakOf(u, DisplayOf(h, u), UserHistory(polls, u), mode).Some?
      ensures StreakOf(u, DisplayOf(h, u), UserHistory(polls, u), mode).value in StreaksOf(h, h.order, mode, excluded)
    {
      assert u in h.order;
      var i :| 0 <= i < |h.order| && h.order[i] == u;
    }
  }
}

=== FILE: text.dfy ===
/** The few operations on Python `str` values that the scripts rely on:
    ordering, `int()`, `str()` of an integer, `lower`, `strip`, `capitalize`,
    `replace`, `startswith`, the `in` substring test, `split('.')[0]` and `join`.
    Only the ASCII part of each operation is modelled. */
module Text {
  import opened Wrappers
  import Seqs

  // ---------------------------------------------------------------------------
  // Ordering: Python compares str values lexicographically by code point.
  // ---------------------------------------------------------------------------

  /** `a < b` on Python strings. */
  predicate StrLt(a: string, b: string)
  {
    if |a| == 0 then |b| > 0
    else if |b| == 0 then false
    else a[0] < b[0] || (a[0] == b[0] && StrLt(a[1..], b[1..]))
  }

  lemma {:induction false} StrLtIrreflexive(a: string)
    ensures !StrLt(a, a)
  {
    if |a| > 0 {
      StrLtIrreflexive(a[1..]);
    }
  }

  lemma {:induction false} StrLtTransitive(a: string, b: string, c: string)
    requires StrLt(a, b) && StrLt(b, c)
    ensures StrLt(a, c)
  {
    if |a| > 0 && a[0] == b[0] && b[0] == c[0] {
      StrLtTransitive(a[1..], b[1..], c[1..]);
    }
  }

  lemma StrLtAsymmetric(a: string, b: string)
    requires StrLt(a, b)
    ensures !StrLt(b, a)
  {
    if StrLt(b, a) {
      StrLtTransitive(a, b, a);
      StrLtIrreflexive(a);
    }
  }

  /** Two different strings are always ordered one way or the other. */
  lemma {:induction false} StrLtTotal(a: string, b: string)
    ensures a == b || StrLt(a, b) || StrLt(b, a)
  {
    if |a| > 0 && |b| > 0 && a[0] == b[0] {
      StrLtTotal(a[1..], b[1..]);
      if a[1..] == b[1..] {
        assert a == [a[0]] + a[1..] && b == [b[0]] + b[1..];
      }
    }
  }

  // ---------------------------------------------------------------------------
  // Decimal digits: str(n) for a natural number and its inverse.
  // ---------------------------------------------------------------------------

  predicate IsDigit(c: char) {
    '0' <= c <= '9'
  }

  predicate AllDigits(s: string) {
    forall i :: 0 <= i < |s| ==> IsDigit(s[i])
  }

  function DigitChar(d: nat): (c: char)
    requires d < 10
    ensures IsDigit(c) && c as int - '0' as int == d
  {
    "0123456789"[d]
  }

  /** The number a run of decimal digits denotes (leading zeros allowed, as `int("007")`). */
  function DigitsValue(s: string): nat
    requires AllDigits(s)
  {
    if |s| == 0 then 0
    else DigitsValue(s[..|s| - 1]) * 10 + (s[|s| - 1] as int - '0' as int)
  }

  /** The longest run of decimal digits at the start of `s`. */
  function LeadingDigits(s: string): (d: string)
    ensures |d| <= |s| && d == s[..|d|] && AllDigits(d)
    ensures |d| < |s| ==> !IsDigit(s[|d|])
  {
    if |s| == 0 || !IsDigit(s[0]) then ""
    else [s[0]] + LeadingDigits(s[1..])
  }

  /** The leading digits of a run of digits followed by a non-digit are that run. */
  lemma {:induction false} LeadingDigitsOf(d: string, rest: string)
    requires AllDigits(d)
    requires |rest| > 0 ==> !IsDigit(rest[0])
    ensures LeadingDigits(d + rest) == d
    decreases |d|
  {
    if |d| > 0 {
      assert (d + rest)[1..] == d[1..] + rest;
      LeadingDigitsOf(d[1..], rest);
      assert d == [d[0]] + d[1..];
    }
  }

  /** `str(n)` for a natural number: shortest decimal form. */
  function NatToString(n: nat): (s: string)
    ensures |s| > 0 && AllDigits(s)
    ensures |s| > 1 ==> s[0] != '0'
  {
    if n < 10 then [DigitChar(n)] else NatToString(n / 10) + [DigitChar(n % 10)]
  }

  /** Reading back the digits of `str(n)` yields `n`. */
  lemma {:induction false} NatToStringRoundTrip(n: nat)
    ensures DigitsValue(NatToString(n)) == n
  {
    if n >= 10 {
      var s := NatToString(n);
      assert s[..|s| - 1] == NatToString(n / 10);
      NatToStringRoundTrip(n / 10);
    }
  }

  /** `str(i)` for any integer. */
  function IntToString(i: int): (s: string)
    ensures |s| > 0
  {
    if i < 0 then "-" + NatToString(-i) else NatToString(i)
  }

  // ---------------------------------------------------------------------------
  // Whitespace and case.
  // ---------------------------------------------------------------------------

  /** The ASCII characters for which Python's `str.isspace()` holds. */
  predicate IsSpace(c: char) {
    c == ' ' || '\t' <= c <= '\r' || '\U{1C}' <= c <= '\U{1F}'
  }

  function StripLeft(s: string): (r: string)
    ensures |r| <= |s| && r == s[|s| - |r|..]
    ensures |r| > 0 ==> !IsSpace(r[0])
    ensures forall i :: 0 <= i < |s| - |r| ==> IsSpace(s[i])
  {
    if |s| > 0 && IsSpace(s[0]) then StripLeft(s[1..]) else s
  }

  /** One leading space followed by a non-space is all `lstrip()` removes. */
  lemma StripOneSpace(s: string)
    requires |s| > 1 && IsSpace(s[0]) && !IsSpace(s[1])
    ensures StripLeft(s) == s[1..]
  {
  }

  function StripRight(s: string): (r: string)
    ensures |r| <= |s| && r == s[..|r|]
    ensures |r| > 0 ==> !IsSpace(r[|r| - 1])
    ensures forall i :: |r| <= i < |s| ==> IsSpace(s[i])
  {
    if |s| > 0 && IsSpace(s[|s| - 1]) then StripRight(s[..|s| - 1]) else s
  }

  /** `s.strip()`: `s` without its leading and trailing whitespace. */
  function Strip(s: string): (r: string)
    ensures |r| > 0 ==> !IsSpace(r[0]) && !IsSpace(r[|r| - 1])
    ensures |r| <= |s|
    ensures var k := |s| - |StripLeft(s)|;
      && k + |r| <= |s| && r == s[k..k + |r|]
      && (forall i :: 0 <= i < k ==> IsSpace(s[i]))
      && (forall i :: k + |r| <= i < |s| ==> IsSpace(s[i]))
  {
    var l := StripLeft(s);
    var r := StripRight(l);
    StripCompose(s, l, r);
    r
  }

  /** A prefix `r` of a suffix `l` of `s` is a slice of `s`; spaces that end
      `l` after `r` end `s` too, and `r` starts where `l` does. */
  lemma StripCompose(s: string, l: string, r: string)
    requires |l| <= |s| && l == s[|s| - |l|..]
    requires |l| > 0 ==> !IsSpace(l[0])
    requires |r| <= |l| && r == l[..|r|]
    requires forall i :: |r| <= i < |l| ==> IsSpace(l[i])
    ensures |r| > 0 ==> !IsSpace(r[0])
    ensures var k := |s| - |l|; k + |r| <= |s| && r == s[k..k + |r|]
    ensures var k := |s| - |l|; forall i :: k + |r| <= i < |s| ==> IsSpace(s[i])
  {
    var k := |s| - |l|;
    if |r| > 0 {
      assert r[0] == l[0];
    }
    Seqs.TakeOfDrop(s, k, |r|);
    forall i | k + |r| <= i < |s| ensures IsSpace(s[i]) {
      assert s[i] == l[i - k];
    }
  }

  function LowerChar(c: char): (d: char)
    ensures 'A' <= c <= 'Z' ==> d as int == c as int + 32
    ensures !('A' <= c <= 'Z') ==> d == c
  {
    if 'A' <= c <= 'Z' then (c as int + 32) as char else c
  }

  function UpperChar(c: char): (d: char)
    ensures 'a' <= c <= 'z' ==> d as int == c as int - 32
    ensures !('a' <= c <= 'z') ==> d == c
  {
    if 'a' <= c <= 'z' then (c as int - 32) as char else c
  }

  /** `s.lower()`. */
  function Lower(s: string): (r: string)
    ensures |r| == |s|
    ensures forall i :: 0 <= i < |s| ==> r[i] == LowerChar(s[i])
  {
    seq(|s|, i requires 0 <= i < |s| => LowerChar(s[i]))
  }

  /** `s.capitalize()`: first character upper case, the rest lower case. */
  function Capitalize(s: string): (r: string)
    ensures |r| == |s|
    ensures |s| > 0 ==> r[0] == UpperChar(s[0]) && r[1..] == Lower(s[1..])
  {
    if |s| == 0 then "" else [UpperChar(s[0])] + Lower(s[1..])
  }

  // ---------------------------------------------------------------------------
  // Substrings.
  // ---------------------------------------------------------------------------

  /** `s.startswith(p)`. */
  predicate StartsWith(s: string, p: string) {
    |p| <= |s| && s[..|p|] == p
  }

  /** `p in s` for strings. */
  predicate Contains(s: string, p: string)
    decreases |s|
  {
    StartsWith(s, p) || (|s| > 0 && Contains(s[1..], p))
  }

  /** `s.replace(pat, rep)`: non-overlapping occurrences, left to right. */
  function Replace(s: string, pat: string, rep: string): (r: string)
    requires |pat| > 0
    ensures !Contains(s, pat) ==> r == s
    decreases |s|
  {
    if |s| == 0 then s
    else if StartsWith(s, pat) then rep + Replace(s[|pat|..], pat, rep)
    else [s[0]] + Replace(s[1..], pat, rep)
  }

  /** `s.endswith(p)`. */
  predicate EndsWith(s: string, p: string) {
    |p| <= |s| && s[|s| - |p|..] == p
  }

  /** `s.split(c)` for a one-character separator: the pieces between the
      occurrences of `c`; there is always at least one piece. */
  function Split(s: string, c: char): (parts: seq<string>)
    ensures |parts| >= 1
    ensures forall i :: 0 <= i < |parts| ==> c !in parts[i]
  {
    if |s| == 0 then [""]
    else if s[0] == c then [""] + Split(s[1..], c)
    else
      var rest := Split(s[1..], c);
      [[s[0]] + rest[0]] + rest[1..]
  }

  /** `s.split('.')[0]`: everything before the first dot. */
  function BaseName(s: string): (r: string)
    ensures '.' !in r
  {
    Split(s, '.')[0]
  }

  /** `sep.join(parts)`. */
  function Join(parts: seq<string>, sep: string): (r: string)
    ensures |parts| == 0 ==> r == ""
    ensures |parts| == 1 ==> r == parts[0]
  {
    if |parts| == 0 then ""
    else if |parts| == 1 then parts[0]
    else parts[0] + sep + Join(parts[1..], sep)
  }

  /** Splitting and re-joining with the same separator gives the string back. */
  lemma {:induction false} SplitJoin(s: string, c: char)
    ensures Join(Split(s, c), [c]) == s
  {
    if |s| > 0 {
      var rest := Split(s[1..], c);
      SplitJoin(s[1..], c);
      if s[0] == c {
        assert Join([""] + rest, [c]) == "" + [c] + Join(rest, [c]) by {
          assert ([""] + rest)[1..] == rest;
        }
        assert s == [c] + s[1..];
      } else {
        var parts := [[s[0]] + rest[0]] + rest[1..];
        if |rest| == 1 {
          assert s == [s[0]] + s[1..];
        } else {
          assert parts[1..] == rest[1..];
          assert Join(rest, [c]) == rest[0] + [c] + Join(rest[1..], [c]);
          assert s == [s[0]] + s[1..];
        }
      }
    }
  }

  /** Splitting at the first separator: the piece before it, then the pieces of the rest. */
  lemma {:induction false} SplitAtFirst(a: string, b: string, c: char)
    requires c !in a
    ensures Split(a + [c] + b, c) == [a] + Split(b, c)
  {
    if |a| == 0 {
      assert a + [c] + b == [c] + b;
      assert ([c] + b)[1..] == b;
    } else {
      assert (a + [c] + b)[0] == a[0];
      assert (a + [c] + b)[1..] == a[1..] + [c] + b;
      SplitAtFirst(a[1..], b, c);
      assert a == [a[0]] + a[1..];
    }
  }

  /** A string without the separator splits into itself. */
  lemma {:induction false} SplitNone(s: string, c: char)
    requires c !in s
    ensures Split(s, c) == [s]
  {
    if |s| > 0 {
      SplitNone(s[1..], c);
      assert s == [s[0]] + s[1..];
    }
  }

  /** A pattern longer than the string never occurs in it. */
  lemma {:induction false} ShortNotContains(s: string, p: string)
    requires |s| < |p|
    ensures !Contains(s, p)
  {
    if |s| > 0 {
      ShortNotContains(s[1..], p);
    }
  }

  /** A string lacking one of the characters of `p` does not contain `p`. */
  lemma {:induction false} MissingCharNotContains(s: string, p: string, k: nat)
    requires k < |p| && p[k] !in s
    ensures !Contains(s, p)
    decreases |s|
  {
    if |s| > 0 {
      assert forall i :: 0 <= i < |s| - 1 ==> s[1..][i] == s[i + 1];
      MissingCharNotContains(s[1..], p, k);
    }
  }

  /** A string whose characters all differ from the first character of `p`
      passes through `replace` unchanged in front of whatever follows it. */
  lemma {:induction false} ReplaceNoHead(a: string, b: string, pat: string, rep: string)
    requires |pat| > 0
    requires forall i :: 0 <= i < |a| ==> a[i] != pat[0]
    ensures Replace(a + b, pat, rep) == a + Replace(b, pat, rep)
  {
    if |a| > 0 {
      var t, r := a + b, Replace(b, pat, rep);
      assert t[0] == a[0];
      assert !StartsWith(t, pat);
      assert t[1..] == a[1..] + b;
      assert forall i :: 0 <= i < |a| - 1 ==> a[1..][i] == a[i + 1];
      ReplaceNoHead(a[1..], b, pat, rep);
      assert Replace(t, pat, rep) == [a[0]] + (a[1..] + r);
      assert [a[0]] + (a[1..] + r) == a + r by {
        assert a == [a[0]] + a[1..];
      }
    } else {
      assert a + b == b;
    }
  }

  /** An occurrence at the front of the string is replaced. */
  lemma ReplaceHead(b: string, pat: string, rep: string)
    requires |pat| > 0
    ensures Replace(pat + b, pat, rep) == rep + Replace(b, pat, rep)
  {
    assert (pat + b)[..|pat|] == pat;
    assert (pat + b)[|pat|..] == b;
  }

  /** Strings that share a prefix compare as their remainders do. */
  lemma {:induction false} StrLtCommonPrefix(p: string, a: string, b: string)
    ensures StrLt(p + a, p + b) == StrLt(a, b)
  {
    if |p| > 0 {
      assert (p + a)[0] == p[0] && (p + b)[0] == p[0];
      assert (p + a)[1..] == p[1..] + a && (p + b)[1..] == p[1..] + b;
      StrLtCommonPrefix(p[1..], a, b);
    } else {
      assert p + a == a && p + b == b;
    }
  }

  /** `lower()` leaves a string without upper-case letters alone. */
  lemma LowerIdentity(s: string)
    requires forall i :: 0 <= i < |s| ==> !('A' <= s[i] <= 'Z')
    ensures Lower(s) == s
  {
  }

  /** `int()` reads back the decimal form of a natural number. */
  lemma ParseNatToString(n: nat)
    ensures ParseInt(NatToString(n)) == Some(n)
  {
    ParseIntRoundTrip(n);
  }

  // ---------------------------------------------------------------------------
  // int(): optional sign, then decimal digits, with surrounding whitespace.
  // ---------------------------------------------------------------------------

  /** `int(s)` for a str argument; None where Python raises ValueError. */
  function ParseInt(s: string): (r: Option<int>)
  {
    var t := Strip(s);
    if |t| > 1 && (t[0] == '-' || t[0] == '+') && AllDigits(t[1..]) then
      var v: int := DigitsValue(t[1..]);
      Some(if t[0] == '-' then -v else v)
    else if |t| > 0 && AllDigits(t) then
      Some(DigitsValue(t))
    else
      None
  }

  /** A string that starts and ends with a non-space character is left alone by strip(). */
  lemma StripNoSpaceEnds(s: string)
    requires |s| > 0 && !IsSpace(s[0]) && !IsSpace(s[|s| - 1])
    ensures Strip(s) == s
  {
    assert StripLeft(s) == s;
    assert StripRight(s) == s;
  }

  /** `int(str(i)) == i`. */
  lemma ParseIntRoundTrip(i: int)
    ensures ParseInt(IntToString(i)) == Some(i)
  {
    var s := IntToString(i);
    var d := NatToString(if i < 0 then -i else i);
    assert !IsSpace(s[0]) && !IsSpace(s[|s| - 1]);
    StripNoSpaceEnds(s);
    NatToStringRoundTrip(if i < 0 then -i else i);
    if i < 0 {
      assert s[1..] == d;
    } else {
      assert s == d && IsDigit(s[0]);
    }
  }

  /** `int()` rejects anything with a fractional part: `int("2.5")` raises. */
  lemma ParseIntRejectsDecimal()
    ensures ParseInt("2.5") == None
    ensures ParseInt(" 7 ") == Some(7)
  {
    StripNoSpaceEnds("2.5");
    assert "2.5"[1] == '.';
    assert StripLeft(" 7 ") == "7 ";
    assert StripRight("7 ") == "7";
    assert DigitsValue("7") == 7;
  }

  /** How a script turns a points field into a number: `float()` or `int()`;
      None where Python raises ValueError. */
  type Parser = string -> Option<real>

  /** `int()` on a points field, as a real. */
  function IntPoints(s: string): Option<real> {
    match ParseInt(s)
    case Some(n) => Some(n as real)
    case None => None
  }

  /** `int()` turns " 7 " into 7 and rejects "2.5". */
  lemma IntPointsRejectsFractions()
    ensures IntPoints("2.5") == None
    ensures IntPoints(" 7 ") == Some(7.0)
  {
    ParseIntRejectsDecimal();
  }
}

=== FILE: votes.dfy ===
/** The shapes of a poll export shared by the per-match scoring scripts: the
    answers, the votes and their users, with the lookups and defaults the
    scripts apply to them. An absent JSON key is `None`. */
module Votes {
  import opened Wrappers

  /** A voter: `id`, `username` and `globalName`, each possibly absent. */
  datatype User = User(id: Option<string>, username: Option<string>, globalName: Option<string>)

  /** One vote: its `user` object and `answerId`, each possibly absent. */
  datatype Vote = Vote(user: Option<User>, answerId: Option<string>)

  /** One poll answer: its `id` and `name`. */
  datatype Answer = Answer(id: string, name: string)

  /** `{a['id']: a['name'] for a in answers}[id]`: a later answer with the same
      id overwrites an earlier one, so the last one counts. */
  function AnswerName(answers: seq<Answer>, id: string): (r: Option<string>)
    ensures r.None? <==> forall i :: 0 <= i < |answers| ==> answers[i].id != id
    ensures r.Some? ==> exists i :: (0 <= i < |answers| && answers[i] == Answer(id, r.value)
      && forall j :: i < j < |answers| ==> answers[j].id != id)
    decreases |answers|
  {
    if |answers| == 0 then None
    else
      var n := |answers| - 1;
      if answers[n].id == id then Some(answers[n].name)
      else
        var r := AnswerName(answers[..n], id);
        assert forall i :: 0 <= i < n ==> answers[..n][i] == answers[i];
        r
  }

  /** `vote.get("user", {}).get("id", "Unknown")`. */
  function UserIdOr(v: Vote): string {
    match v.user
    case None => "Unknown"
    case Some(u) => u.id.GetOr("Unknown")
  }

  /** `vote.get('user', {}).get('username', 'Unknown')`. */
  function UsernameOr(v: Vote): string {
    match v.user
    case None => "Unknown"
    case Some(u) => u.username.GetOr("Unknown")
  }

  /** `user.get('globalName', username)`. */
  function DisplayNameOr(v: Vote): string {
    match v.user
    case None => UsernameOr(v)
    case Some(u) => u.globalName.GetOr(UsernameOr(v))
  }

  /** `answer_map.get(vote.get('answerId'), "Unknown")`. */
  function AnswerOr(answers: seq<Answer>, v: Vote): string {
    match v.answerId
    case None => "Unknown"
    case Some(id) => AnswerName(answers, id).GetOr("Unknown")
  }

  /** `table.get(full, fallback)`: the short name of a team. */
  function ShortName(table: map<string, string>, full: string, fallback: string): string {
    if full in table then table[full] else fallback
  }
}

=== FILE: week_selection.dfy ===
/** Which weekly files a season leaderboard reads: the directory listing is
    filtered by name, sorted as strings, and cut at the target week. Two cuts
    occur in the scripts: a filter that keeps every file of a week at most the
    target, and a scan that stops at the first file past the target. */
module WeekSelection {
  import opened Wrappers
  import Text
  import Sorting

  // ---------------------------------------------------------------------------
  // Week numbers.
  // ---------------------------------------------------------------------------

  /** `get_numeric_week(name)`: lower-case, drop every "week", trim, `int()`. */
  function NumericWeek(name: string): Result<int> {
    match Text.ParseInt(Text.Strip(Text.Replace(Text.Lower(name), "week", "")))
    case Some(n) => Success(n)
    case None => Failure(BadValue(name))
  }

  /** The week number of `week<n>` or `Week<n>` is `n`. */
  lemma {:induction false} NumericWeekRoundTrip(n: nat)
    ensures NumericWeek("week" + Text.NatToString(n)) == Success(n)
    ensures NumericWeek("Week" + Text.NatToString(n)) == Success(n)
  {
    var d := Text.NatToString(n);
    LowerWeek(d);
    assert Text.Replace("week" + d, "week", "") == d by {
      RemoveHead("week", d);
      DigitsThenNoPattern(d, "", "week");
      assert d + "" == d;
    }
    assert Text.Strip(d) == d by {
      assert !Text.IsSpace(d[0]) && !Text.IsSpace(d[|d| - 1]);
      Text.StripNoSpaceEnds(d);
    }
    Text.ParseNatToString(n);
  }

  /** Lower-casing `week<digits>` or `Week<digits>` gives `week<digits>`. */
  lemma LowerWeek(d: string)
    requires Text.AllDigits(d)
    ensures Text.Lower("week" + d) == "week" + d
    ensures Text.Lower("Week" + d) == "week" + d
  {
    var w, u := "week" + d, "Week" + d;
    forall i | 0 <= i < |w| ensures Text.Lower(w)[i] == w[i] && Text.Lower(u)[i] == w[i] {
      if i >= 4 {
        assert w[i] == d[i - 4] && u[i] == d[i - 4];
      }
    }
  }

  /** The week of a `combined_week<n>.csv` file as the cross-week combiners read
      it: `int(name.replace("combined_week", "").replace(".csv", ""))`. */
  function CombinedWeek(name: string): Result<int> {
    match Text.ParseInt(Text.Replace(Text.Replace(name, "combined_week", ""), ".csv", ""))
    case Some(n) => Success(n)
    case None => Failure(BadValue(name))
  }

  /** `combined_week<n>.csv` is read back as week `n`. */
  lemma {:induction false} CombinedWeekRoundTrip(n: nat)
    ensures CombinedWeek("combined_week" + Text.NatToString(n) + ".csv") == Success(n)
  {
    var d := Text.NatToString(n);
    var rest := d + ".csv";
    assert "combined_week" + d + ".csv" == "combined_week" + rest;
    assert Text.Replace("combined_week" + rest, "combined_week", "") == rest by {
      RemoveHead("combined_week", rest);
      DigitsThenNoPattern(d, ".csv", "combined_week");
      Text.ShortNotContains(".csv", "combined_week");
    }
    assert Text.Replace(rest, ".csv", "") == d by {
      DigitsThenNoPattern(d, ".csv", ".csv");
      RemoveHead(".csv", "");
      assert d + "" == d;
    }
    Text.ParseNatToString(n);
  }

  /** Removing a pattern at the front of a string. */
  lemma RemoveHead(pat: string, b: string)
    requires |pat| > 0
    ensures Text.Replace(pat + b, pat, "") == Text.Replace(b, pat, "")
  {
    Text.ReplaceHead(b, pat, "");
    assert "" + Text.Replace(b, pat, "") == Text.Replace(b, pat, "");
  }

  /** Digits are never the start of a pattern that begins with a letter or a dot. */
  lemma DigitsThenNoPattern(d: string, b: string, pat: string)
    requires Text.AllDigits(d) && |pat| > 0 && !Text.IsDigit(pat[0])
    ensures Text.Replace(d + b, pat, "") == d + Text.Replace(b, pat, "")
  {
    Text.ReplaceNoHead(d, b, pat, "");
  }

  /** The week of a `week<n>.csv` file: `get_numeric_week(f.split('.')[0])`. */
  function WeeklyFileWeek(name: string): Result<int> {
    NumericWeek(Text.BaseName(name))
  }

  /** The week of a `combined_week<n>.csv` file as the season scripts read it:
      `get_numeric_week(f.split('_')[1].split('.')[0])`; a name without `_`
      has no second piece and raises. */
  function CombinedFileWeek(name: string): Result<int> {
    var parts := Text.Split(name, '_');
    if |parts| < 2 then Failure(BadValue(name)) else NumericWeek(Text.BaseName(parts[1]))
  }

  /** The column a `week<n>.csv` file fills: `f.split('.')[0].capitalize()`. */
  function WeeklyColumn(name: string): string {
    Text.Capitalize(Text.BaseName(name))
  }

  /** The column a `combined_week<n>.csv` file fills: the last `_` piece of
      the base name, capitalised. */
  function CombinedColumn(name: string): string {
    var parts := Text.Split(Text.BaseName(name), '_');
    Text.Capitalize(parts[|parts| - 1])
  }

  /** File `week<n>.csv` has week `n` and fills column `Week<n>`. */
  lemma {:induction false} WeeklyFileNaming(n: nat)
    ensures WeeklyFileWeek("week" + Text.NatToString(n) + ".csv") == Success(n)
    ensures WeeklyColumn("week" + Text.NatToString(n) + ".csv") == "Week" + Text.NatToString(n)
  {
    var d := Text.NatToString(n);
    WeekBaseName(d);
    NumericWeekRoundTrip(n);
    CapitalizeWeek(d);
  }

  lemma WeekBaseName(d: string)
    requires Text.AllDigits(d)
    ensures Text.BaseName("week" + d + ".csv") == "week" + d
  {
    assert "week" + d + ".csv" == ("week" + d) + "." + "csv";
    BaseNameBeforeDot("week" + d, "csv");
  }

  /** File `combined_week<n>.csv` has week `n` and fills column `Week<n>`. */
  lemma {:induction false} CombinedFileNaming(n: nat)
    ensures CombinedFileWeek("combined_week" + Text.NatToString(n) + ".csv") == Success(n)
    ensures CombinedColumn("combined_week" + Text.NatToString(n) + ".csv") == "Week" + Text.NatToString(n)
  {
    var d := Text.NatToString(n);
    CombinedSplit(d);
    WeekBaseName(d);
    NumericWeekRoundTrip(n);
    CombinedBaseSplit(d);
    CapitalizeWeek(d);
  }

  lemma CombinedSplit(d: string)
    requires Text.AllDigits(d)
    ensures Text.Split("combined_week" + d + ".csv", '_') == ["combined", "week" + d + ".csv"]
  {
    var week := "week" + d;
    assert "combined_week" + d + ".csv" == "combined" + ['_'] + (week + ".csv");
    Text.SplitAtFirst("combined", week + ".csv", '_');
    Text.SplitNone(week + ".csv", '_');
  }

  lemma CombinedBaseSplit(d: string)
    requires Text.AllDigits(d)
    ensures Text.Split(Text.BaseName("combined_week" + d + ".csv"), '_') == ["combined", "week" + d]
  {
    var week := "week" + d;
    assert "combined_week" + d + ".csv" == ("combined_week" + d) + "." + "csv";
    BaseNameBeforeDot("combined_week" + d, "csv");
    assert "combined_week" + d == "combined" + ['_'] + week;
    Text.SplitAtFirst("combined", week, '_');
    Text.SplitNone(week, '_');
  }

  /** `(a + "." + b).split('.')[0] == a` when `a` has no dot. */
  lemma BaseNameBeforeDot(a: string, b: string)
    requires '.' !in a
    ensures Text.BaseName(a + "." + b) == a
  {
    assert a + "." + b == a + ['.'] + b;
    Text.SplitAtFirst(a, b, '.');
  }

  /** `("week" + digits).capitalize() == "Week" + digits`. */
  lemma CapitalizeWeek(d: string)
    requires Text.AllDigits(d)
    ensures Text.Capitalize("week" + d) == "Week" + d
  {
    var s, tail := "week" + d, "eek" + d;
    assert s[0] == 'w' && Text.UpperChar('w') == 'W';
    assert s[1..] == tail;
    forall i | 0 <= i < |tail| ensures !('A' <= tail[i] <= 'Z') {
      if i >= 3 {
        assert tail[i] == d[i - 3];
      }
    }
    Text.LowerIdentity(tail);
    assert Text.Capitalize(s) == ['W'] + tail;
    assert ['W'] + tail == "Week" + d;
  }

  // ---------------------------------------------------------------------------
  // Listing.
  // ---------------------------------------------------------------------------

  /** Strings sort by themselves. */
  function NameKey(s: string): string {
    s
  }

  /** The listing entries that start with `prefix` and end with `suffix`, in listing order. */
  function Matching(names: seq<string>, prefix: string, suffix: string): (r: seq<string>)
    ensures forall f :: f in r <==> f in names && Text.StartsWith(f, prefix) && Text.EndsWith(f, suffix)
  {
    if |names| == 0 then []
    else
      (if Text.StartsWith(names[0], prefix) && Text.EndsWith(names[0], suffix) then [names[0]] else [])
      + Matching(names[1..], prefix, suffix)
  }

  /** `sorted(f for f in listing if f.startswith(prefix) and f.endswith(suffix))`. */
  function SortedMatching(names: seq<string>, prefix: string, suffix: string): (r: seq<string>)
    ensures forall f :: f in r <==> f in names && Text.StartsWith(f, prefix) && Text.EndsWith(f, suffix)
  {
    var m := Matching(names, prefix, suffix);
    var r := Sorting.SortBy(m, NameKey, Sorting.NameAsc);
    assert forall f :: f in r <==> f in multiset(m);
    r
  }

  /** The sorted listing is in string order. */
  lemma SortedMatchingOrdered(names: seq<string>, prefix: string, suffix: string)
    ensures Sorting.SortedBy(SortedMatching(names, prefix, suffix), NameKey, Sorting.NameAsc)
  {
    Sorting.NameAscIsStrictWeakOrder();
    Sorting.SortBySorted(Matching(names, prefix, suffix), NameKey, Sorting.NameAsc);
  }

  // ---------------------------------------------------------------------------
  // The two cuts.
  // ---------------------------------------------------------------------------

  /** `[f for f in files if week(f) <= cutoff]`: keeps, in order, every file of
      a week at most `cutoff`; the first name whose week does not parse raises. */
  function SelectUpTo(files: seq<string>, weekOf: string -> Result<int>, cutoff: int)
    : (r: Result<seq<string>>)
    ensures r.Success? <==> forall i :: 0 <= i < |files| ==> weekOf(files[i]).Success?
    ensures r.Success? ==> forall f ::
              f in r.value <==> f in files && weekOf(f).Success? && weekOf(f).value <= cutoff
  {
    if |files| == 0 then Success([])
    else
      match weekOf(files[0])
      case Failure(e) => Failure(e)
      case Success(w) =>
        match SelectUpTo(files[1..], weekOf, cutoff)
        case Failure(e) => Failure(e)
        case Success(rest) =>
          assert forall i :: 0 < i < |files| ==> files[i] == files[1..][i - 1];
          Success(if w <= cutoff then [files[0]] + rest else rest)
  }

  /** A filter keeps the order of its input: files in string order stay so. */
  lemma {:induction false} SelectUpToOrdered(files: seq<string>, weekOf: string -> Result<int>, cutoff: int)
    requires Sorting.SortedBy(files, NameKey, Sorting.NameAsc)
    requires SelectUpTo(files, weekOf, cutoff).Success?
    ensures Sorting.SortedBy(SelectUpTo(files, weekOf, cutoff).value, NameKey, Sorting.NameAsc)
  {
    if |files| > 0 {
      Sorting.SortedTail(files, NameKey, Sorting.NameAsc);
      SelectUpToOrdered(files[1..], weekOf, cutoff);
      var rest := SelectUpTo(files[1..], weekOf, cutoff).value;
      forall f | f in rest ensures !Sorting.NameAsc(f, files[0]) {
        var i :| 0 <= i < |files[1..]| && files[1..][i] == f;
        assert files[i + 1] == f;
      }
    }
  }

  /** The scan of the cross-week combiners: take files while their week is at
      most `cutoff` and stop at the first one past it. */
  function SelectUntilLater(files: seq<string>, weekOf: string -> Result<int>, cutoff: int)
    : (r: Result<seq<string>>)
    ensures r.Success? ==> |r.value| <= |files| && r.value == files[..|r.value|]
    ensures r.Success? ==> forall i :: 0 <= i < |r.value| ==>
              weekOf(files[i]).Success? && weekOf(files[i]).value <= cutoff
    ensures r.Success? && |r.value| < |files| ==>
              weekOf(files[|r.value|]).Success? && weekOf(files[|r.value|]).value > cutoff
  {
    if |files| == 0 then Success([])
    else
      match weekOf(files[0])
      case Failure(e) => Failure(e)
      case Success(w) =>
        if w > cutoff then Success([])
        else
          match SelectUntilLater(files[1..], weekOf, cutoff)
          case Failure(e) => Failure(e)
          case Success(rest) =>
            assert [files[0]] + files[1..][..|rest|] == files[..|rest| + 1];
            Success([files[0]] + rest)
  }

  /** When the weeks never decrease along the files, stopping at the first
      later week keeps exactly what the filter keeps. */
  lemma {:induction false} UntilLaterMatchesUpToWhenMonotone(files: seq<string>, weekOf: string -> Result<int>, cutoff: int)
    requires forall i :: 0 <= i < |files| ==> weekOf(files[i]).Success?
    requires forall i, j :: 0 <= i < j < |files| ==> weekOf(files[i]).value <= weekOf(files[j]).value
    ensures SelectUntilLater(files, weekOf, cutoff) == SelectUpTo(files, weekOf, cutoff)
  {
    if |files| > 0 {
      UntilLaterMatchesUpToWhenMonotone(files[1..], weekOf, cutoff);
      if weekOf(files[0]).value > cutoff {
        NoneUpTo(files[1..], weekOf, cutoff);
      }
    }
  }

  lemma {:induction false} NoneUpTo(files: seq<string>, weekOf: string -> Result<int>, cutoff: int)
    requires forall i :: 0 <= i < |files| ==> weekOf(files[i]).Success? && weekOf(files[i]).value > cutoff
    ensures SelectUpTo(files, weekOf, cutoff) == Success([])
  {
    if |files| > 0 {
      NoneUpTo(files[1..], weekOf, cutoff);
    }
  }

  /** The name of the combined file of week `n`. */
  function CombinedName(n: nat): string {
    "combined_week" + Text.NatToString(n) + ".csv"
  }

  /** Once there are ten or more weeks, string order puts week `10a` between
      weeks `a` and `c` (single digits, `a < c`): for example
      `combined_week1.csv`, `combined_week10.csv`, `combined_week2.csv`. With a
      target `t` from `c` up to `10a - 1` (week 3, say), the scan that stops
      at the first later week keeps week `a` alone, while the filter keeps
      weeks `a` and `c`. */
  lemma StopAtFirstLaterDropsWeeks(a: nat, c: nat, t: int)
    requires 1 <= a < c <= 9 && c <= t < 10 * a
    ensures var files := [CombinedName(a), CombinedName(10 * a), CombinedName(c)];
      && Sorting.SortedBy(files, NameKey, Sorting.NameAsc)
      && SelectUntilLater(files, CombinedWeek, t) == Success([CombinedName(a)])
      && SelectUpTo(files, CombinedWeek, t) == Success([CombinedName(a), CombinedName(c)])
  {
    var x, y, z := CombinedName(a), CombinedName(10 * a), CombinedName(c);
    assert CombinedWeek(x) == Success(a) by { CombinedWeekRoundTrip(a); }
    assert CombinedWeek(y) == Success(10 * a) by { CombinedWeekRoundTrip(10 * a); }
    assert CombinedWeek(z) == Success(c) by { CombinedWeekRoundTrip(c); }
    NamesOrdered(a, c);
    SortedThree(x, y, z);
    CutsDiffer(x, y, z, CombinedWeek, a, 10 * a, c, t);
  }

  /** String order puts week `10a` between single-digit weeks `a < c`. */
  lemma NamesOrdered(a: nat, c: nat)
    requires 1 <= a < c <= 9
    ensures Text.StrLt(CombinedName(a), CombinedName(10 * a))
    ensures Text.StrLt(CombinedName(10 * a), CombinedName(c))
  {
    NameShapes(a, c);
    var da, dc := Text.DigitChar(a), Text.DigitChar(c);
    Text.StrLtCommonPrefix("combined_week" + [da], ".csv", "0.csv");
    Text.StrLtCommonPrefix("combined_week", [da] + "0.csv", [dc] + ".csv");
  }

  /** Three names in strictly increasing string order are sorted. */
  lemma SortedThree(x: string, y: string, z: string)
    requires Text.StrLt(x, y) && Text.StrLt(y, z)
    ensures Sorting.SortedBy([x, y, z], NameKey, Sorting.NameAsc)
  {
    Text.StrLtTransitive(x, y, z);
    Text.StrLtAsymmetric(x, y);
    Text.StrLtAsymmetric(y, z);
    Text.StrLtAsymmetric(x, z);
  }

  /** The names of weeks `a`, `10a` and `c`, cut where string comparison decides. */
  lemma NameShapes(a: nat, c: nat)
    requires 1 <= a <= 9 && c <= 9
    ensures CombinedName(a) == ("combined_week" + [Text.DigitChar(a)]) + ".csv"
    ensures CombinedName(10 * a) == ("combined_week" + [Text.DigitChar(a)]) + "0.csv"
    ensures CombinedName(10 * a) == "combined_week" + ([Text.DigitChar(a)] + "0.csv")
    ensures CombinedName(c) == "combined_week" + ([Text.DigitChar(c)] + ".csv")
  {
    TensName(a);
    var da := Text.DigitChar(a);
    assert [da, '0'] + ".csv" == [da] + "0.csv";
  }

  /** The decimal form of `10a` for a single digit `a`. */
  lemma TensName(a: nat)
    requires 1 <= a <= 9
    ensures Text.NatToString(10 * a) == [Text.DigitChar(a), '0']
  {
    var n := 10 * a;
    assert n / 10 == a && n % 10 == 0;
  }

  /** Weeks `wx <= t`, `wy > t`, `wz <= t` in that order: the scan keeps the
      first file only, the filter keeps the first and the last. */
  lemma CutsDiffer(x: string, y: string, z: string, weekOf: string -> Result<int>, wx: int, wy: int, wz: int, t: int)
    requires weekOf(x) == Success(wx) && weekOf(y) == Success(wy) && weekOf(z) == Success(wz)
    requires wx <= t < wy && wz <= t
    ensures SelectUntilLater([x, y, z], weekOf, t) == Success([x])
    ensures SelectUpTo([x, y, z], weekOf, t) == Success([x, z])
  {
    assert [x, y, z][1..] == [y, z] && [x, y, z][0] == x;
    assert [y, z][1..] == [z] && [y, z][0] == y;
    var none: seq<string> := [];
    assert [z][1..] == none && [z][0] == z && [z] + none == [z] && [x] + none == [x];
    assert SelectUntilLater([y, z], weekOf, t) == Success(none);
    assert SelectUpTo(none, weekOf, t) == Success(none);
    assert SelectUpTo([z], weekOf, t) == Success([z]);
    assert SelectUpTo([y, z], weekOf, t) == Success([z]);
    assert [x] + [z] == [x, z];
  }

  // ---------------------------------------------------------------------------
  // The selections each script makes.
  // ---------------------------------------------------------------------------

  /** A listed file with the prefix and suffix: one the script looks at. */
  predicate Candidate(listing: seq<string>, prefix: string, suffix: string, f: string) {
    f in listing && Text.StartsWith(f, prefix) && Text.EndsWith(f, suffix)
  }

  /** Filtering the sorted candidates by week raises exactly when some
      candidate's week does not parse, and otherwise keeps exactly the
      candidates of a week at most the cut-off. */
  lemma SelectCandidates(listing: seq<string>, prefix: string, suffix: string, weekOf: string -> Result<int>, cutoff: int)
    ensures var r := SelectUpTo(SortedMatching(listing, prefix, suffix), weekOf, cutoff);
      && (r.Success? <==> forall f :: Candidate(listing, prefix, suffix, f) ==> weekOf(f).Success?)
      && (r.Success? ==> forall f :: f in r.value <==>
            Candidate(listing, prefix, suffix, f) && weekOf(f).Success? && weekOf(f).value <= cutoff)
  {
    var files := SortedMatching(listing, prefix, suffix);
    assert forall f :: f in files <==> Candidate(listing, prefix, suffix, f);
    if !forall f :: Candidate(listing, prefix, suffix, f) ==> weekOf(f).Success? {
      var f :| Candidate(listing, prefix, suffix, f) && weekOf(f).Failure?;
      assert f in files;
      var i :| 0 <= i < |files| && files[i] == f;
      assert !weekOf(files[i]).Success?;
    }
  }

  /** The overall winner leaderboard: `week*.csv` files up to the target week,
      in string order; none selected is an error. */
  function SelectWeeklyFiles(listing: seq<string>, target: string): (r: Result<seq<string>>)
    ensures r.Success? <==>
      && NumericWeek(target).Success?
      && (forall f :: Candidate(listing, "week", ".csv", f) ==> WeeklyFileWeek(f).Success?)
      && (exists f :: Candidate(listing, "week", ".csv", f) && WeeklyFileWeek(f).Success?
                      && WeeklyFileWeek(f).value <= NumericWeek(target).value)
    ensures r.Success? ==> |r.value| > 0
    ensures r.Success? ==> forall f :: f in r.value <==>
              Candidate(listing, "week", ".csv", f)
              && WeeklyFileWeek(f).Success? && NumericWeek(target).Success?
              && WeeklyFileWeek(f).value <= NumericWeek(target).value
  {
    var cutoff :- NumericWeek(target);
    SelectCandidates(listing, "week", ".csv", WeeklyFileWeek, cutoff);
    var selected :- SelectUpTo(SortedMatching(listing, "week", ".csv"), WeeklyFileWeek, cutoff);
    if |selected| == 0 then Failure(NoInput) else assert selected[0] in selected; Success(selected)
  }

  /** The older season leaderboards: `combined_week*.csv` files up to the
      target week, in string order; an empty selection is allowed. */
  function SelectCombinedFiles(listing: seq<string>, target: string): (r: Result<seq<string>>)
    ensures r.Success? <==>
      && NumericWeek(target).Success?
      && (forall f :: Candidate(listing, "combined_week", ".csv", f) ==> CombinedFileWeek(f).Success?)
    ensures r.Success? ==> forall f :: f in r.value <==>
              Candidate(listing, "combined_week", ".csv", f)
              && CombinedFileWeek(f).Success? && NumericWeek(target).Success?
              && CombinedFileWeek(f).value <= NumericWeek(target).value
  {
    var cutoff :- NumericWeek(target);
    SelectCandidates(listing, "combined_week", ".csv", CombinedFileWeek, cutoff);
    SelectUpTo(SortedMatching(listing, "combined_week", ".csv"), CombinedFileWeek, cutoff)
  }

  /** The week the cross-week combiners stop at: `int(WEEK.replace("week", ""))`. */
  function CombinerTarget(target: string): Result<int> {
    match Text.ParseInt(Text.Replace(target, "week", ""))
    case Some(n) => Success(n)
    case None => Failure(BadValue(target))
  }

  /** The week of a `week<n>.csv` file as the detailed leaderboard reads it:
      `int(name.replace("week", "").replace(".csv", ""))`. */
  function DetailedFileWeek(name: string): Result<int> {
    match Text.ParseInt(Text.Replace(Text.Replace(name, "week", ""), ".csv", ""))
    case Some(n) => Success(n)
    case None => Failure(BadValue(name))
  }

  /** The detailed leaderboard: every `week*.csv` file of a week at most the
      target, in string order; none selected is an error. */
  function SelectDetailedFiles(listing: seq<string>, target: string): (r: Result<seq<string>>)
    ensures r.Success? <==>
      && CombinerTarget(target).Success?
      && (forall f :: Candidate(listing, "week", ".csv", f) ==> DetailedFileWeek(f).Success?)
      && (exists f :: Candidate(listing, "week", ".csv", f) && DetailedFileWeek(f).Success?
                      && DetailedFileWeek(f).value <= CombinerTarget(target).value)
    ensures r.Success? ==> |r.value| > 0
    ensures r.Success? ==> forall f :: f in r.value <==>
              f in listing && Text.StartsWith(f, "week") && Text.EndsWith(f, ".csv")
              && DetailedFileWeek(f).Success? && CombinerTarget(target).Success?
              && DetailedFileWeek(f).value <= CombinerTarget(target).value
  {
    var cutoff :- CombinerTarget(target);
    SelectCandidates(listing, "week", ".csv", DetailedFileWeek, cutoff);
    var selected :- SelectUpTo(SortedMatching(listing, "week", ".csv"), DetailedFileWeek, cutoff);
    if |selected| == 0 then Failure(NoInput) else assert selected[0] in selected; Success(selected)
  }

  /** The cross-week combiners as written: sorted `combined_week*.csv` files,
      cut at the first one past the target; none selected is an error. */
  function SelectUntilLaterFiles(listing: seq<string>, target: string): (r: Result<seq<string>>)
    ensures r.Success? ==> |r.value| > 0
    ensures r.Success? ==> var files := SortedMatching(listing, "combined_week", ".csv");
              |r.value| <= |files| && r.value == files[..|r.value|]
  {
    var cutoff :- CombinerTarget(target);
    var selected :- SelectUntilLater(SortedMatching(listing, "combined_week", ".csv"), CombinedWeek, cutoff);
    if |selected| == 0 then Failure(NoInput) else Success(selected)
  }

  /** The cross-week combiners corrected: every `combined_week*.csv` file of a
      week at most the target, in string order; none selected is an error. */
  function SelectCombinedUpTo(listing: seq<string>, target: string): (r: Result<seq<string>>)
    ensures r.Success? <==>
      && CombinerTarget(target).Success?
      && (forall f :: Candidate(listing, "combined_week", ".csv", f) ==> CombinedWeek(f).Success?)
      && (exists f :: Candidate(listing, "combined_week", ".csv", f) && CombinedWeek(f).Success?
                      && CombinedWeek(f).value <= CombinerTarget(target).value)
    ensures r.Success? ==> |r.value| > 0
    ensures r.Success? ==> forall f :: f in r.value <==>
              f in listing && Text.StartsWith(f, "combined_week") && Text.EndsWith(f, ".csv")
              && CombinedWeek(f).Success? && CombinerTarget(target).Success?
              && CombinedWeek(f).value <= CombinerTarget(target).value
  {
    var cutoff :- CombinerTarget(target);
    SelectCandidates(listing, "combined_week", ".csv", CombinedWeek, cutoff);
    var selected :- SelectUpTo(SortedMatching(listing, "combined_week", ".csv"), CombinedWeek, cutoff);
    if |selected| == 0 then Failure(NoInput) else assert selected[0] in selected; Success(selected)
  }
}

=== FILE: weekly.dfy ===
/** The weekly combiner: each per-match results file of a week (one row per
    vote) is folded, in sorted file order, into one row per user holding a
    `Match_<n>` team/points cell pair for every match since the user was first
    seen and a running total. Four copies exist; they differ in whether a file
    lacking the required headers is skipped, in how points are parsed, and in
    how the result is ordered. */
module Weekly {
  import opened Wrappers
  import Text
  import Sorting
  import Ranking

  // ---------------------------------------------------------------------------
  // Input.
  // ---------------------------------------------------------------------------

  /** One row of a match results file; a field is None when its column is absent. */
  datatype VoteRow = VoteRow(
    username: string,
    displayName: string,
    teamShort: Option<string>,
    teamFull: Option<string>,
    points: Option<string>)

  /** One match results file: whether its header holds `Username`,
      `Display Name`, `Team Voted Short` and `Points`, and its rows. */
  datatype MatchFile = MatchFile(hasRequiredHeaders: bool, rows: seq<VoteRow>)

  /** A row's points: a missing column reads as "0", and a value the parser
      rejects counts 0. */
  function PointsOf(row: VoteRow, parse: Text.Parser): real {
    parse(row.points.GetOr("0")).GetOr(0.0)
  }

  // ---------------------------------------------------------------------------
  // Accumulated state.
  // ---------------------------------------------------------------------------

  /** A user's cell for one match: short team, full team, points. */
  datatype Cell = Cell(short: string, full: string, points: real)

  /** The cell of a user seen earlier who did not vote in a match. */
  const AbsentCell := Cell("---", "---", 0.0)

  /** The cell a vote row fills; a missing team column reads as `---`. */
  function CellOf(row: VoteRow, parse: Text.Parser): Cell {
    Cell(row.teamShort.GetOr("---"), row.teamFull.GetOr("---"), PointsOf(row, parse))
  }

  /** One user's accumulated data: last display name, cells by match number, total. */
  datatype UserAcc = UserAcc(displayName: string, cells: map<nat, Cell>, total: real)

  /** The users in first-seen order (a dict's insertion order) and their data. */
  datatype Table = Table(order: seq<string>, users: map<string, UserAcc>)

  const EmptyTable := Table([], map[])

  /** What a user starts from when first seen: no cells and a zero total. */
  function AccOf(t: Table, u: string): UserAcc {
    if u in t.users then t.users[u] else UserAcc("", map[], 0.0)
  }

  // ---------------------------------------------------------------------------
  // The fold.
  // ---------------------------------------------------------------------------

  /** One vote row of match `m`: it sets the user's display name and cell `m`
      and adds its points to the total. */
  function AddRow(t: Table, m: nat, row: VoteRow, parse: Text.Parser): Table {
    var u := row.username;
    var acc := AccOf(t, u);
    Table(if u in t.users then t.order else t.order + [row.username],
          t.users[u := UserAcc(row.displayName, acc.cells[m := CellOf(row, parse)],
                               acc.total + PointsOf(row, parse))])
  }

  /** All rows of match `m`, in file order. */
  function AddRows(t: Table, m: nat, rows: seq<VoteRow>, parse: Text.Parser): Table
    decreases |rows|
  {
    if |rows| == 0 then t
    else AddRow(AddRows(t, m, rows[..|rows| - 1], parse), m, rows[|rows| - 1], parse)
  }

  /** Every user seen so far who has no cell `m` gets the absent cell. */
  function Fill(t: Table, m: nat): Table {
    Table(t.order, map u | u in t.users ::
      if m in t.users[u].cells then t.users[u]
      else t.users[u].(cells := t.users[u].cells[m := AbsentCell]))
  }

  /** Match `m`: its rows, then the absent cells. */
  function Process(t: Table, m: nat, rows: seq<VoteRow>, parse: Text.Parser): Table {
    Fill(AddRows(t, m, rows, parse), m)
  }

  /** The matches numbered 1, 2, ... in order; `ms[k - 1]` holds the rows of match `k`. */
  function Fold(ms: seq<seq<VoteRow>>, parse: Text.Parser): Table
    decreases |ms|
  {
    if |ms| == 0 then EmptyTable
    else Process(Fold(ms[..|ms| - 1], parse), |ms|, ms[|ms| - 1], parse)
  }

  // ---------------------------------------------------------------------------
  // Reference definitions, one user at a time.
  // ---------------------------------------------------------------------------

  /** The usernames of some rows. */
  function Names(rows: seq<VoteRow>): set<string> {
    set i | 0 <= i < |rows| :: rows[i].username
  }

  /** The last row of `u` among `rows`. */
  function LastRowOf(rows: seq<VoteRow>, u: string): (r: VoteRow)
    requires u in Names(rows)
    ensures r in rows && r.username == u
    decreases |rows|
  {
    var n := |rows| - 1;
    if rows[n].username == u then rows[n]
    else
      assert u in Names(rows[..n]) by {
        var i :| 0 <= i < |rows| && rows[i].username == u;
        assert rows[..n][i] == rows[i];
      }
      LastRowOf(rows[..n], u)
  }

  /** The points of all of `u`'s rows among `rows`. */
  function UserPoints(rows: seq<VoteRow>, u: string, parse: Text.Parser): real
    decreases |rows|
  {
    if |rows| == 0 then 0.0
    else
      UserPoints(rows[..|rows| - 1], u, parse)
      + (if rows[|rows| - 1].username == u then PointsOf(rows[|rows| - 1], parse) else 0.0)
  }

  /** `u` voted in one of the first `k` matches. */
  predicate SeenBy(ms: seq<seq<VoteRow>>, u: string, k: nat)
    requires k <= |ms|
  {
    k > 0 && (u in Names(ms[k - 1]) || SeenBy(ms, u, k - 1))
  }

  /** What cell `k` of `u` should hold: the cell of their last row in match
      `k`, or the absent cell if they did not vote in it. */
  function ExpectedCell(ms: seq<seq<VoteRow>>, u: string, k: nat, parse: Text.Parser): Cell
    requires 1 <= k <= |ms|
  {
    if u in Names(ms[k - 1]) then CellOf(LastRowOf(ms[k - 1], u), parse) else AbsentCell
  }

  /** The points of all of `u`'s rows in all matches. */
  function UserTotal(ms: seq<seq<VoteRow>>, u: string, parse: Text.Parser): real
    decreases |ms|
  {
    if |ms| == 0 then 0.0
    else UserTotal(ms[..|ms| - 1], u, parse) + UserPoints(ms[|ms| - 1], u, parse)
  }

  /** The display name on `u`'s last row in the last match they voted in. */
  function DisplayOf(ms: seq<seq<VoteRow>>, u: string): string
    decreases |ms|
  {
    if |ms| == 0 then ""
    else if u in Names(ms[|ms| - 1]) then LastRowOf(ms[|ms| - 1], u).displayName
    else DisplayOf(ms[..|ms| - 1], u)
  }

  /** The usernames of some rows, in row order. */
  function RowNames(rows: seq<VoteRow>): (r: seq<string>)
    ensures |r| == |rows|
    ensures forall i :: 0 <= i < |rows| ==> r[i] == rows[i].username
    decreases |rows|
  {
    if |rows| == 0 then [] else RowNames(rows[..|rows| - 1]) + [rows[|rows| - 1].username]
  }

  /** The usernames of every row of every match, in reading order. */
  function AllNames(ms: seq<seq<VoteRow>>): seq<string>
    decreases |ms|
  {
    if |ms| == 0 then [] else AllNames(ms[..|ms| - 1]) + RowNames(ms[|ms| - 1])
  }

  // ---------------------------------------------------------------------------
  // One match.
  // ---------------------------------------------------------------------------

  /** The table's order lists exactly its users, once each. */
  ghost predicate WellFormed(t: Table) {
    && Sorting.NoDuplicates(t.order)
    && (forall u :: u in t.users <==> u in t.order)
  }

  lemma NamesSnoc(rows: seq<VoteRow>)
    requires |rows| > 0
    ensures Names(rows) == Names(rows[..|rows| - 1]) + {rows[|rows| - 1].username}
  {
    var n := |rows| - 1;
    forall x | x in Names(rows) ensures x in Names(rows[..n]) + {rows[n].username} {
      var i :| 0 <= i < |rows| && rows[i].username == x;
      if i < n {
        assert rows[..n][i] == rows[i];
      }
    }
    forall x | x in Names(rows[..n]) ensures x in Names(rows) {
      var i :| 0 <= i < n && rows[..n][i].username == x;
      assert rows[i] == rows[..n][i];
    }
  }

  /** The rows of a match keep the table well formed: each new voter joins
      the order once, in first-seen order. */
  lemma {:induction false} AddRowsOrder(t: Table, m: nat, rows: seq<VoteRow>, parse: Text.Parser)
    requires WellFormed(t)
    ensures WellFormed(AddRows(t, m, rows, parse))
    ensures AddRows(t, m, rows, parse).order == Sorting.FirstSeen(t.order + RowNames(rows))
    decreases |rows|
  {
    if |rows| == 0 {
      assert t.order + RowNames(rows) == t.order;
      Sorting.FirstSeenDistinct(t.order);
    } else {
      var n := |rows| - 1;
      var p := AddRows(t, m, rows[..n], parse);
      var r := AddRow(p, m, rows[n], parse);
      assert AddRows(t, m, rows, parse) == r;
      AddRowsOrder(t, m, rows[..n], parse);
      NamesSnoc(rows);
      AddRowOrder(p, m, rows[n], parse);
      var before, x := RowNames(rows[..n]), rows[n].username;
      var prior := t.order + before;
      assert p.order == Sorting.FirstSeen(prior);
      assert RowNames(rows) == before + [x];
      assert t.order + RowNames(rows) == prior + [x];
      Sorting.FirstSeenSnoc(prior, x);
      assert r.order == Sorting.FirstSeen(prior + [x]);
    }
  }

  /** The users after a match's rows are those before and its voters. */
  lemma {:induction false} AddRowsKeys(t: Table, m: nat, rows: seq<VoteRow>, parse: Text.Parser)
    ensures AddRows(t, m, rows, parse).users.Keys == t.users.Keys + Names(rows)
    decreases |rows|
  {
    if |rows| == 0 {
      assert Names(rows) == {};
    } else {
      var n := |rows| - 1;
      AddRowsKeys(t, m, rows[..n], parse);
      NamesSnoc(rows);
    }
  }

  lemma AddRowOrder(t: Table, m: nat, row: VoteRow, parse: Text.Parser)
    requires WellFormed(t)
    ensures WellFormed(AddRow(t, m, row, parse))
    ensures AddRow(t, m, row, parse).order
         == if row.username in t.order then t.order else t.order + [row.username]
    ensures AddRow(t, m, row, parse).users.Keys == t.users.Keys + {row.username}
  {
  }

  /** A user who does not vote in a match is untouched by its rows. */
  lemma {:induction false} AddRowsOther(t: Table, m: nat, rows: seq<VoteRow>, parse: Text.Parser, u: string)
    requires u !in Names(rows)
    ensures AccOf(AddRows(t, m, rows, parse), u) == AccOf(t, u)
    ensures u in AddRows(t, m, rows, parse).users <==> u in t.users
    decreases |rows|
  {
    if |rows| > 0 {
      NamesSnoc(rows);
      AddRowsOther(t, m, rows[..|rows| - 1], parse, u);
    }
  }

  /** A voter of the match ends with the display name and cell of their last
      row, and the points of all their rows added to the total. */
  lemma {:induction false} AddRowsVoter(t: Table, m: nat, rows: seq<VoteRow>, parse: Text.Parser, u: string)
    requires u in Names(rows)
    ensures u in AddRows(t, m, rows, parse).users
    ensures AccOf(AddRows(t, m, rows, parse), u)
         == UserAcc(LastRowOf(rows, u).displayName,
                    AccOf(t, u).cells[m := CellOf(LastRowOf(rows, u), parse)],
                    AccOf(t, u).total + UserPoints(rows, u, parse))
    decreases |rows|
  {
    var n := |rows| - 1;
    var init, row := rows[..n], rows[n];
    var p := AddRows(t, m, init, parse);
    NamesSnoc(rows);
    if u != row.username {
      AddRowsVoter(t, m, init, parse, u);
    } else if u in Names(init) {
      AddRowsVoter(t, m, init, parse, u);
      assert AccOf(p, u).cells[m := CellOf(row, parse)]
          == AccOf(t, u).cells[m := CellOf(row, parse)];
    } else {
      AddRowsOther(t, m, init, parse, u);
      UserPointsAbsent(init, u, parse);
    }
  }

  lemma {:induction false} UserPointsAbsent(rows: seq<VoteRow>, u: string, parse: Text.Parser)
    requires u !in Names(rows)
    ensures UserPoints(rows, u, parse) == 0.0
    decreases |rows|
  {
    if |rows| > 0 {
      var n := |rows| - 1;
      assert rows[n].username in Names(rows);
      assert Names(rows[..n]) <= Names(rows) by {
        forall x | x in Names(rows[..n]) ensures x in Names(rows) {
          var i :| 0 <= i < n && rows[..n][i].username == x;
          assert rows[i] == rows[..n][i];
        }
      }
      UserPointsAbsent(rows[..n], u, parse);
    }
  }

  /** Filling match `m` gives every user lacking cell `m` the absent cell and
      changes nothing else. */
  lemma FillSpec(t: Table, m: nat, u: string)
    ensures Fill(t, m).order == t.order
    ensures Fill(t, m).users.Keys == t.users.Keys
    ensures AccOf(Fill(t, m), u)
         == if u in t.users && m !in AccOf(t, u).cells
            then AccOf(t, u).(cells := AccOf(t, u).cells[m := AbsentCell])
            else AccOf(t, u)
  {
  }

  /** One match, as seen by one user. */
  lemma ProcessUser(t: Table, m: nat, rows: seq<VoteRow>, parse: Text.Parser, u: string)
    ensures u in Process(t, m, rows, parse).users <==> u in t.users || u in Names(rows)
    ensures AccOf(Process(t, m, rows, parse), u)
         == if u in Names(rows) then
              UserAcc(LastRowOf(rows, u).displayName,
                      AccOf(t, u).cells[m := CellOf(LastRowOf(rows, u), parse)],
                      AccOf(t, u).total + UserPoints(rows, u, parse))
            else if u in t.users && m !in AccOf(t, u).cells then
              AccOf(t, u).(cells := AccOf(t, u).cells[m := AbsentCell])
            else AccOf(t, u)
  {
    var a := AddRows(t, m, rows, parse);
    AddRowsKeys(t, m, rows, parse);
    FillSpec(a, m, u);
    if u in Names(rows) {
      AddRowsVoter(t, m, rows, parse, u);
    } else {
      AddRowsOther(t, m, rows, parse, u);
    }
  }

  lemma {:induction false} SeenByPrefix(ms: seq<seq<VoteRow>>, u: string, k: nat, n: nat)
    requires k <= n <= |ms|
    ensures SeenBy(ms[..n], u, k) == SeenBy(ms, u, k)
    decreases k
  {
    if k > 0 {
      assert ms[..n][k - 1] == ms[k - 1];
      SeenByPrefix(ms, u, k - 1, n);
    }
  }

  /** Once a user has voted, they stay seen. */
  lemma {:induction false} SeenByMonotone(ms: seq<seq<VoteRow>>, u: string, j: nat, k: nat)
    requires j <= k <= |ms|
    requires SeenBy(ms, u, j)
    ensures SeenBy(ms, u, k)
    decreases k
  {
    if j < k {
      SeenByMonotone(ms, u, j, k - 1);
    }
  }

  /** The fold's users are exactly those who voted in some match. */
  lemma {:induction false} FoldKeys(ms: seq<seq<VoteRow>>, parse: Text.Parser, u: string)
    ensures u in Fold(ms, parse).users <==> SeenBy(ms, u, |ms|)
    decreases |ms|
  {
    if |ms| > 0 {
      var n := |ms| - 1;
      FoldKeys(ms[..n], parse, u);
      SeenByPrefix(ms, u, n, n);
      ProcessUser(Fold(ms[..n], parse), |ms|, ms[n], parse, u);
    }
  }

  /** A user's total is the points of all their rows in every match. */
  lemma {:induction false} FoldTotal(ms: seq<seq<VoteRow>>, parse: Text.Parser, u: string)
    ensures AccOf(Fold(ms, parse), u).total == UserTotal(ms, u, parse)
    decreases |ms|
  {
    if |ms| > 0 {
      var n := |ms| - 1;
      FoldTotal(ms[..n], parse, u);
      ProcessUser(Fold(ms[..n], parse), |ms|, ms[n], parse, u);
      if u !in Names(ms[n]) {
        UserPointsAbsent(ms[n], u, parse);
      }
    }
  }

  /** A user's display name is the one on their latest row. */
  lemma {:induction false} FoldDisplay(ms: seq<seq<VoteRow>>, parse: Text.Parser, u: string)
    ensures AccOf(Fold(ms, parse), u).displayName == DisplayOf(ms, u)
    decreases |ms|
  {
    if |ms| > 0 {
      var n := |ms| - 1;
      FoldDisplay(ms[..n], parse, u);
      ProcessUser(Fold(ms[..n], parse), |ms|, ms[n], parse, u);
    }
  }

  /** A user has a cell for exactly the matches from their first vote on, and
      each holds their last row of that match or the absent cell. */
  lemma {:induction false} FoldCells(ms: seq<seq<VoteRow>>, parse: Text.Parser, u: string)
    ensures forall k: nat :: k in AccOf(Fold(ms, parse), u).cells <==> 1 <= k <= |ms| && SeenBy(ms, u, k)
    ensures forall k: nat :: k in AccOf(Fold(ms, parse), u).cells ==>
              1 <= k <= |ms| && AccOf(Fold(ms, parse), u).cells[k] == ExpectedCell(ms, u, k, parse)
    decreases |ms|
  {
    if |ms| > 0 {
      var n := |ms| - 1;
      var prev := Fold(ms[..n], parse);
      var cells := AccOf(prev, u).cells;
      var now := AccOf(Fold(ms, parse), u).cells;
      FoldCells(ms[..n], parse, u);
      FoldKeys(ms[..n], parse, u);
      ProcessUser(prev, |ms|, ms[n], parse, u);
      forall k: nat | k <= n
        ensures SeenBy(ms[..n], u, k) == SeenBy(ms, u, k)
        ensures 1 <= k ==> ExpectedCell(ms[..n], u, k, parse) == ExpectedCell(ms, u, k, parse)
      {
        SeenByPrefix(ms, u, k, n);
        if 1 <= k {
          assert ms[..n][k - 1] == ms[k - 1];
        }
      }
      assert |ms| !in cells;
      assert now.Keys == cells.Keys + (if SeenBy(ms, u, |ms|) then {|ms|} else {});
      forall k: nat | k in now
        ensures now[k] == ExpectedCell(ms, u, k, parse)
      {
        if k < |ms| {
          assert now[k] == cells[k];
        }
      }
    }
  }

  /** Every user is listed once, in the order of their first vote. */
  lemma {:induction false} FoldOrder(ms: seq<seq<VoteRow>>, parse: Text.Parser)
    ensures WellFormed(Fold(ms, parse))
    ensures Fold(ms, parse).order == Sorting.FirstSeen(AllNames(ms))
    decreases |ms|
  {
    if |ms| > 0 {
      var n := |ms| - 1;
      var prev := Fold(ms[..n], parse);
      var a := AddRows(prev, |ms|, ms[n], parse);
      var t := Fold(ms, parse);
      assert t == Fill(a, |ms|);
      FoldOrder(ms[..n], parse);
      AddRowsOrder(prev, |ms|, ms[n], parse);
      FillSpec(a, |ms|, "");
      assert t.order == a.order && t.users.Keys == a.users.Keys;
      assert WellFormed(t);
      assert AllNames(ms) == AllNames(ms[..n]) + RowNames(ms[n]);
      Sorting.FirstSeenAppend(AllNames(ms[..n]), RowNames(ms[n]));
    }
  }

  // ---------------------------------------------------------------------------
  // Output rows.
  // ---------------------------------------------------------------------------

  /** One output row: a user, their display name, their cells for matches
      1..n (None where the row has no such column value) and their total. */
  datatype Entry = Entry(username: string, displayName: string, cells: seq<Option<Cell>>, total: real)

  /** The row the table holds for `u` when `n` matches were folded. */
  function EntryOf(t: Table, u: string, n: nat): (e: Entry)
    ensures e.username == u && |e.cells| == n
  {
    var acc := AccOf(t, u);
    Entry(u, acc.displayName,
          seq(n, k requires 0 <= k < n => if k + 1 in acc.cells then Some(acc.cells[k + 1]) else None),
          acc.total)
  }

  /** The table's rows in first-seen order. */
  function Entries(t: Table, n: nat): (r: seq<Entry>)
    ensures |r| == |t.order|
    ensures forall i :: 0 <= i < |r| ==> r[i] == EntryOf(t, t.order[i], n)
  {
    seq(|t.order|, i requires 0 <= i < |t.order| => EntryOf(t, t.order[i], n))
  }

  /** The row `u` should have after matches `ms`, from the reference definitions. */
  function ExpectedEntry(ms: seq<seq<VoteRow>>, u: string, parse: Text.Parser): (e: Entry)
    ensures |e.cells| == |ms|
  {
    Entry(u, DisplayOf(ms, u),
          seq(|ms|, k requires 0 <= k < |ms| =>
            if SeenBy(ms, u, k + 1) then Some(ExpectedCell(ms, u, k + 1, parse)) else None),
          UserTotal(ms, u, parse))
  }

  /** Each folded row is the one the reference definitions give its user. */
  lemma EntriesMeaning(ms: seq<seq<VoteRow>>, parse: Text.Parser)
    ensures var es := Entries(Fold(ms, parse), |ms|);
      && Sorting.NoDuplicates(Ranking.UsersOf(es, Username))
      && (forall u :: u in Ranking.UsersOf(es, Username) <==> SeenBy(ms, u, |ms|))
      && (forall i :: 0 <= i < |es| ==> es[i] == ExpectedEntry(ms, es[i].username, parse))
  {
    var t := Fold(ms, parse);
    var es := Entries(t, |ms|);
    FoldOrder(ms, parse);
    assert Ranking.UsersOf(es, Username) == t.order;
    forall u ensures u in t.order <==> SeenBy(ms, u, |ms|) {
      FoldKeys(ms, parse, u);
    }
    forall i | 0 <= i < |es| ensures es[i] == ExpectedEntry(ms, es[i].username, parse) {
      var u := t.order[i];
      FoldCells(ms, parse, u);
      FoldTotal(ms, parse, u);
      FoldDisplay(ms, parse, u);
      assert es[i].cells == ExpectedEntry(ms, u, parse).cells;
    }
  }

  // ---------------------------------------------------------------------------
  // The listing.
  // ---------------------------------------------------------------------------

  /** A file in the week's input directory. */
  datatype NamedFile = NamedFile(name: string, content: MatchFile)

  function FileName(f: NamedFile): string {
    f.name
  }

  /** The `.csv` files, in listing order. */
  function CsvFiles(listing: seq<NamedFile>): (r: seq<NamedFile>)
    ensures forall f :: f in r <==> f in listing && Text.EndsWith(f.name, ".csv")
  {
    if |listing| == 0 then []
    else (if Text.EndsWith(listing[0].name, ".csv") then [listing[0]] else []) + CsvFiles(listing[1..])
  }

  /** `sorted(f for f in listing if f.endswith('.csv'))`: the match order. */
  function MatchOrder(listing: seq<NamedFile>): (r: seq<NamedFile>)
    ensures multiset(r) == multiset(CsvFiles(listing))
  {
    Sorting.SortBy(CsvFiles(listing), FileName, Sorting.NameAsc)
  }

  /** The match order is the order of file names. */
  lemma MatchOrderSorted(listing: seq<NamedFile>)
    ensures Sorting.SortedBy(MatchOrder(listing), FileName, Sorting.NameAsc)
  {
    Sorting.NameAscIsStrictWeakOrder();
    Sorting.SortBySorted(CsvFiles(listing), FileName, Sorting.NameAsc);
  }

  /** The rows of the files that get a match number, in order: with
      `checkHeaders`, a file lacking the required headers is skipped and takes
      no number. */
  function Matches(files: seq<NamedFile>, checkHeaders: bool): (ms: seq<seq<VoteRow>>)
    ensures |ms| <= |files|
    ensures !checkHeaders ==> |ms| == |files|
    decreases |files|
  {
    if |files| == 0 then []
    else
      var init := Matches(files[..|files| - 1], checkHeaders);
      var last := files[|files| - 1].content;
      if checkHeaders && !last.hasRequiredHeaders then init else init + [last.rows]
  }

  /** A file lacking the required headers leaves the header-checking fold
      exactly as if it were not there. */
  lemma {:induction false} SkippedFileTakesNoNumber(a: seq<NamedFile>, f: NamedFile, b: seq<NamedFile>)
    requires !f.content.hasRequiredHeaders
    ensures Matches(a + [f] + b, true) == Matches(a + b, true)
    decreases |b|
  {
    if |b| == 0 {
      assert a + [f] + b == a + [f];
      assert (a + [f])[..|a|] == a;
      assert a + b == a;
    } else {
      var n := |b| - 1;
      SkippedFileTakesNoNumber(a, f, b[..n]);
      assert (a + [f] + b)[..|a + [f] + b| - 1] == a + [f] + b[..n];
      assert (a + b)[..|a + b| - 1] == a + b[..n];
    }
  }

  /** Without the header check every file takes the next match number. */
  lemma {:induction false} EveryFileNumbered(files: seq<NamedFile>, k: nat)
    requires k < |files|
    ensures Matches(files, false)[k] == files[k].content.rows
    decreases |files|
  {
    if k < |files| - 1 {
      EveryFileNumbered(files[..|files| - 1], k);
    }
  }

  // ---------------------------------------------------------------------------
  // The four combiners.
  // ---------------------------------------------------------------------------

  function TotalOf(e: Entry): real {
    e.total
  }

  function TotalAndName(e: Entry): Sorting.ScoreName {
    Sorting.ScoreName(e.total, e.username)
  }

  function Username(e: Entry): string {
    e.username
  }

  /** Sort by (-Total_Points, Username), then add the two ranks. */
  function RankedLeaderboard(ms: seq<seq<VoteRow>>, parse: Text.Parser): (r: seq<Ranking.Ranked<Entry>>)
    ensures |r| == |Fold(ms, parse).order|
  {
    var sorted := Sorting.SortBy(Entries(Fold(ms, parse), |ms|), TotalAndName, Sorting.ScoreDescNameAsc);
    Ranking.RankRows(sorted, TotalOf)
  }

  /** The current weekly leaderboard: header-checked files, ranked; no `.csv`
      file or no file with the required headers is an error. */
  function WeeklyLeaderboard(listing: seq<NamedFile>, parse: Text.Parser): (r: Result<seq<Ranking.Ranked<Entry>>>)
    ensures r.Failure? <==> |Matches(MatchOrder(listing), true)| == 0
  {
    var files := MatchOrder(listing);
    if |files| == 0 then Failure(NoInput)
    else
      var ms := Matches(files, true);
      if |ms| == 0 then Failure(NoInput) else Success(RankedLeaderboard(ms, parse))
  }

  /** The older ranked combiner: every `.csv` file is a match; an empty
      directory gives an empty leaderboard. */
  function BackupWeeklyLeaderboard(listing: seq<NamedFile>, parse: Text.Parser): (r: seq<Ranking.Ranked<Entry>>)
    ensures |r| == |Fold(Matches(MatchOrder(listing), false), parse).order|
  {
    RankedLeaderboard(Matches(MatchOrder(listing), false), parse)
  }

  /** The unranked combiner: rows stably sorted by total, highest first, ties
      in first-seen order. */
  function PlainWeeklyTable(listing: seq<NamedFile>, parse: Text.Parser): (r: seq<Entry>)
    ensures multiset(r) == multiset(Entries(Fold(Matches(MatchOrder(listing), false), parse),
                                            |Matches(MatchOrder(listing), false)|))
  {
    var ms := Matches(MatchOrder(listing), false);
    Sorting.SortBy(Entries(Fold(ms, parse), |ms|), TotalOf, Sorting.ScoreDesc)
  }

  /** The integer-points combiner: points through `int()`, rows by username. */
  function IntegerTable(listing: seq<NamedFile>): (r: seq<Entry>)
    ensures multiset(r) == multiset(Entries(Fold(Matches(MatchOrder(listing), false), Text.IntPoints),
                                            |Matches(MatchOrder(listing), false)|))
  {
    var ms := Matches(MatchOrder(listing), false);
    Sorting.SortBy(Entries(Fold(ms, Text.IntPoints), |ms|), Username, Sorting.NameAsc)
  }

  // ---------------------------------------------------------------------------
  // What the combiners' rows mean.
  // ---------------------------------------------------------------------------

  /** Any reordering of the folded rows still holds one row per user who voted,
      each the one the reference definitions give. */
  lemma ReorderedEntries(ms: seq<seq<VoteRow>>, parse: Text.Parser, b: seq<Entry>)
    requires multiset(b) == multiset(Entries(Fold(ms, parse), |ms|))
    ensures Sorting.NoDuplicates(Ranking.UsersOf(b, Username))
    ensures forall u :: u in Ranking.UsersOf(b, Username) <==> SeenBy(ms, u, |ms|)
    ensures forall i :: 0 <= i < |b| ==> b[i] == ExpectedEntry(ms, b[i].username, parse)
  {
    var es := Entries(Fold(ms, parse), |ms|);
    var expected := u => ExpectedEntry(ms, u, parse);
    EntriesMeaning(ms, parse);
    assert forall i :: 0 <= i < |es| ==> es[i] == expected(Username(es[i]));
    Ranking.ReorderedRows(es, b, Username, expected);
    forall i | 0 <= i < |b| ensures b[i] == ExpectedEntry(ms, b[i].username, parse) {
      assert b[i] == expected(Username(b[i]));
    }
  }

  /** The ranked weekly leaderboard: one row per user who voted, each holding
      the reference cells, display name and total, ordered by total descending
      then username, with the ranks of the ranking scan over the totals. */
  lemma RankedLeaderboardSpec(ms: seq<seq<VoteRow>>, parse: Text.Parser)
    ensures var r := RankedLeaderboard(ms, parse); var rows := Ranking.Unranked(r);
      && Sorting.SortedBy(rows, TotalAndName, Sorting.ScoreDescNameAsc)
      && Ranking.RanksOf(r) == Ranking.Ranks(Ranking.ScoresOf(rows, TotalOf))
      && Sorting.NoDuplicates(Ranking.UsersOf(rows, Username))
      && (forall u :: u in Ranking.UsersOf(rows, Username) <==> SeenBy(ms, u, |ms|))
      && (forall i :: 0 <= i < |rows| ==> rows[i] == ExpectedEntry(ms, rows[i].username, parse))
  {
    var es := Entries(Fold(ms, parse), |ms|);
    var sorted := Sorting.SortBy(es, TotalAndName, Sorting.ScoreDescNameAsc);
    var r := RankedLeaderboard(ms, parse);
    assert Ranking.Unranked(r) == sorted;
    Sorting.ScoreDescNameAscIsStrictWeakOrder();
    Sorting.SortBySorted(es, TotalAndName, Sorting.ScoreDescNameAsc);
    ReorderedEntries(ms, parse, sorted);
  }

  /** The unranked combiner keeps users with equal totals in first-seen order. */
  lemma PlainWeeklyTableStable(listing: seq<NamedFile>, parse: Text.Parser, total: real)
    ensures var ms := Matches(MatchOrder(listing), false);
      Sorting.Peers(PlainWeeklyTable(listing, parse), TotalOf, Sorting.ScoreDesc, total)
      == Sorting.Peers(Entries(Fold(ms, parse), |ms|), TotalOf, Sorting.ScoreDesc, total)
  {
    var ms := Matches(MatchOrder(listing), false);
    Sorting.ScoreDescIsStrictWeakOrder();
    Sorting.SortByStable(Entries(Fold(ms, parse), |ms|), TotalOf, Sorting.ScoreDesc, total);
  }

  /** The unranked combiner: one row per user who voted, each the reference
      row, totals descending. */
  lemma PlainWeeklyTableSpec(listing: seq<NamedFile>, parse: Text.Parser)
    ensures var ms := Matches(MatchOrder(listing), false); var r := PlainWeeklyTable(listing, parse);
      && Sorting.SortedBy(r, TotalOf, Sorting.ScoreDesc)
      && Sorting.NoDuplicates(Ranking.UsersOf(r, Username))
      && (forall u :: u in Ranking.UsersOf(r, Username) <==> SeenBy(ms, u, |ms|))
      && (forall i :: 0 <= i < |r| ==> r[i] == ExpectedEntry(ms, r[i].username, parse))
  {
    var ms := Matches(MatchOrder(listing), false);
    Sorting.ScoreDescIsStrictWeakOrder();
    Sorting.SortBySorted(Entries(Fold(ms, parse), |ms|), TotalOf, Sorting.ScoreDesc);
    ReorderedEntries(ms, parse, PlainWeeklyTable(listing, parse));
  }

  /** The integer-points combiner lists its users in strictly increasing
      username order, each with the reference row under `int()` parsing. */
  lemma IntegerTableSpec(listing: seq<NamedFile>)
    ensures var ms := Matches(MatchOrder(listing), false); var r := IntegerTable(listing);
      && (forall i, j :: 0 <= i < j < |r| ==> Text.StrLt(r[i].username, r[j].username))
      && (forall u :: u in Ranking.UsersOf(r, Username) <==> SeenBy(ms, u, |ms|))
      && (forall i :: 0 <= i < |r| ==> r[i] == ExpectedEntry(ms, r[i].username, Text.IntPoints))
  {
    var ms := Matches(MatchOrder(listing), false);
    var r := IntegerTable(listing);
    Sorting.NameAscIsStrictWeakOrder();
    Sorting.SortBySorted(Entries(Fold(ms, Text.IntPoints), |ms|), Username, Sorting.NameAsc);
    ReorderedEntries(ms, Text.IntPoints, r);
    forall i, j | 0 <= i < j < |r| ensures Text.StrLt(r[i].username, r[j].username) {
      assert Ranking.UsersOf(r, Username)[i] != Ranking.UsersOf(r, Username)[j];
      Text.StrLtTotal(r[i].username, r[j].username);
    }
  }

  // ---------------------------------------------------------------------------
  // Totals against cells.
  // ---------------------------------------------------------------------------

  /** The points shown in a row's match cells; a blank cell counts 0. */
  function CellPoints(cells: seq<Option<Cell>>): real
    decreases |cells|
  {
    if |cells| == 0 then 0.0
    else
      var last := match cells[|cells| - 1] case Some(c) => c.points case None => 0.0;
      CellPoints(cells[..|cells| - 1]) + last
  }

  /** `u` has at most one row in each match. */
  predicate OneVotePerMatch(ms: seq<seq<VoteRow>>, u: string) {
    forall k, i, j :: 0 <= k < |ms| && 0 <= i < j < |ms[k]| && ms[k][i].username == u
      ==> ms[k][j].username != u
  }

  lemma {:induction false} UserPointsSingle(rows: seq<VoteRow>, u: string, parse: Text.Parser)
    requires u in Names(rows)
    requires forall i, j :: 0 <= i < j < |rows| && rows[i].username == u ==> rows[j].username != u
    ensures UserPoints(rows, u, parse) == PointsOf(LastRowOf(rows, u), parse)
    decreases |rows|
  {
    var n := |rows| - 1;
    NamesSnoc(rows);
    if rows[n].username == u {
      assert u !in Names(rows[..n]);
      UserPointsAbsent(rows[..n], u, parse);
    } else {
      UserPointsSingle(rows[..n], u, parse);
    }
  }

  /** When nobody votes twice in a match, a user's Total_Points is the sum of
      their Match_k_Points cells. (A second row of the same user in a match
      overwrites the cell but is still added to the total.) */
  lemma {:induction false} TotalIsCellSum(ms: seq<seq<VoteRow>>, u: string, parse: Text.Parser)
    requires OneVotePerMatch(ms, u)
    ensures ExpectedEntry(ms, u, parse).total == CellPoints(ExpectedEntry(ms, u, parse).cells)
    decreases |ms|
  {
    if |ms| > 0 {
      var n := |ms| - 1;
      var e, p := ExpectedEntry(ms, u, parse), ExpectedEntry(ms[..n], u, parse);
      assert OneVotePerMatch(ms[..n], u) by {
        forall k, i, j | 0 <= k < n && 0 <= i < j < |ms[..n][k]| && ms[..n][k][i].username == u
          ensures ms[..n][k][j].username != u
        {
          assert ms[..n][k] == ms[k];
        }
      }
      TotalIsCellSum(ms[..n], u, parse);
      forall k | 0 <= k < n ensures e.cells[k] == p.cells[k] {
        SeenByPrefix(ms, u, k + 1, n);
        assert ms[..n][k] == ms[k];
      }
      assert e.cells[..n] == p.cells;
      if u in Names(ms[n]) {
        UserPointsSingle(ms[n], u, parse);
      } else {
        UserPointsAbsent(ms[n], u, parse);
      }
    }
  }

  // ---------------------------------------------------------------------------
  // Column headers.
  // ---------------------------------------------------------------------------

  /** `f'Match_{k}_{field}'`. */
  function MatchColumn(k: nat, field: string): string {
    "Match_" + Text.NatToString(k) + "_" + field
  }

  /** `sum([[f'Match_{i}_Team_Short', f'Match_{i}_Points'] for i in range(1, n + 1)], [])`. */
  function MatchColumns(n: nat): (cols: seq<string>)
    ensures |cols| == 2 * n
    ensures forall k :: 1 <= k <= n ==>
      cols[2 * k - 2] == MatchColumn(k, "Team_Short") && cols[2 * k - 1] == MatchColumn(k, "Points")
  {
    if n == 0 then [] else MatchColumns(n - 1) + [MatchColumn(n, "Team_Short"), MatchColumn(n, "Points")]
  }

  /** `[f'Match_{i}_Team' for i in range(1, n + 1)]`. */
  function TeamColumns(n: nat): (cols: seq<string>)
    ensures |cols| == n
    ensures forall k :: 1 <= k <= n ==> cols[k - 1] == MatchColumn(k, "Team")
  {
    if n == 0 then [] else TeamColumns(n - 1) + [MatchColumn(n, "Team")]
  }

  /** The header of a weekly file over `n` matches: the rank columns when
      ranked, the user columns, the cell pairs, the full-team columns when
      kept, and the total last. */
  function Header(ranks: Option<Ranking.RankNaming>, n: nat, fullTeams: bool): (h: seq<string>)
    ensures |h| == (if ranks.Some? then 2 else 0) + 2 + 2 * n + (if fullTeams then n else 0) + 1
    ensures h[|h| - 1] == "Total_Points"
  {
    Lead(ranks) + MatchColumns(n) + (if fullTeams then TeamColumns(n) else []) + ["Total_Points"]
  }

  /** The rank columns when ranked, then the user columns. */
  function Lead(ranks: Option<Ranking.RankNaming>): (lead: seq<string>)
    ensures |lead| == if ranks.Some? then 4 else 2
    ensures lead[|lead| - 2] == "Username" && lead[|lead| - 1] == "Display Name"
  {
    (match ranks case Some(naming) => Ranking.RankColumns(naming) case None => []) + ["Username", "Display Name"]
  }

  /** Where the header's columns start after the rank and user columns. */
  function Base(ranks: Option<Ranking.RankNaming>): nat {
    if ranks.Some? then 4 else 2
  }

  /** Where each column of the header sits: the user columns after the rank
      columns, match `k`'s pair at `Base + 2k - 2`, and its full-team column
      after all the pairs. */
  lemma HeaderLayout(ranks: Option<Ranking.RankNaming>, n: nat, fullTeams: bool)
    ensures Header(ranks, n, fullTeams)[Base(ranks) - 2] == "Username"
    ensures Header(ranks, n, fullTeams)[Base(ranks) - 1] == "Display Name"
    ensures forall k :: 1 <= k <= n ==>
      Header(ranks, n, fullTeams)[Base(ranks) + 2 * k - 2] == MatchColumn(k, "Team_Short")
      && Header(ranks, n, fullTeams)[Base(ranks) + 2 * k - 1] == MatchColumn(k, "Points")
    ensures fullTeams ==> forall k :: 1 <= k <= n ==>
      Header(ranks, n, fullTeams)[Base(ranks) + 2 * n + k - 1] == MatchColumn(k, "Team")
  {
    HeaderUsers(ranks, n, fullTeams);
    HeaderCells(ranks, n, fullTeams);
    if fullTeams {
      HeaderTeams(ranks, n);
    }
  }

  lemma HeaderUsers(ranks: Option<Ranking.RankNaming>, n: nat, fullTeams: bool)
    ensures Header(ranks, n, fullTeams)[Base(ranks) - 2] == "Username"
    ensures Header(ranks, n, fullTeams)[Base(ranks) - 1] == "Display Name"
  {
    var lead := Lead(ranks);
    var rest := MatchColumns(n) + (if fullTeams then TeamColumns(n) else []) + ["Total_Points"];
    assert Header(ranks, n, fullTeams) == lead + rest;
    assert (lead + rest)[|lead| - 2] == lead[|lead| - 2];
    assert (lead + rest)[|lead| - 1] == lead[|lead| - 1];
  }

  lemma HeaderCells(ranks: Option<Ranking.RankNaming>, n: nat, fullTeams: bool)
    ensures forall k :: 1 <= k <= n ==>
      Header(ranks, n, fullTeams)[Base(ranks) + 2 * k - 2] == MatchColumn(k, "Team_Short")
      && Header(ranks, n, fullTeams)[Base(ranks) + 2 * k - 1] == MatchColumn(k, "Points")
  {
    var h := Header(ranks, n, fullTeams);
    var lead := Lead(ranks);
    var cells := MatchColumns(n);
    var rest := (if fullTeams then TeamColumns(n) else []) + ["Total_Points"];
    assert h == lead + (cells + rest);
    assert |lead| == Base(ranks);
    forall k | 1 <= k <= n
      ensures h[Base(ranks) + 2 * k - 2] == MatchColumn(k, "Team_Short")
      ensures h[Base(ranks) + 2 * k - 1] == MatchColumn(k, "Points")
    {
      assert (cells + rest)[2 * k - 2] == cells[2 * k - 2];
      assert (cells + rest)[2 * k - 1] == cells[2 * k - 1];
    }
  }

  lemma HeaderTeams(ranks: Option<Ranking.RankNaming>, n: nat)
    ensures forall k :: 1 <= k <= n ==>
      Header(ranks, n, true)[Base(ranks) + 2 * n + k - 1] == MatchColumn(k, "Team")
  {
    var h := Header(ranks, n, true);
    var front := Lead(ranks) + MatchColumns(n);
    var teams := TeamColumns(n);
    assert h == front + (teams + ["Total_Points"]);
    assert |front| == Base(ranks) + 2 * n;
    forall k | 1 <= k <= n ensures h[Base(ranks) + 2 * n + k - 1] == MatchColumn(k, "Team") {
      assert (teams + ["Total_Points"])[k - 1] == teams[k - 1];
    }
  }

}

=== FILE: winner_poll.dfy ===
/** Scoring a match-winner poll: every vote becomes one row naming the team
    voted for, worth the match's points exactly when that team's short name
    is the declared winner; the rows are sorted by username. */
module WinnerPoll {
  import opened Wrappers
  import Sorting
  import Votes

  /** The poll export: `winner`, `points`, `answers` and `votes`, each
      possibly absent. */
  datatype Poll = Poll(winner: Option<string>, points: Option<real>, answers: Option<seq<Votes.Answer>>, votes: Option<seq<Votes.Vote>>)

  /** One output row: Username, Display Name, Team Voted Short, Team Voted, Points. */
  datatype Row = Row(username: string, displayName: string, short: string, full: string, points: real)

  function RowUsername(r: Row): string {
    r.username
  }

  /** `float(poll.get("points", 1))`. */
  function MatchPoints(p: Poll): real {
    p.points.GetOr(1.0)
  }

  /** The points a vote for `short` earns. */
  function PointsFor(short: string, winner: string, points: real): real {
    if short == winner then points else 0.0
  }

  /** One vote, with every absent field defaulted: the team's short name comes
      from the table, falling back to its full name. */
  function VoteRow(v: Votes.Vote, answers: seq<Votes.Answer>, table: map<string, string>, winner: string, points: real): Row {
    var full := Votes.AnswerOr(answers, v);
    var short := Votes.ShortName(table, full, full);
    Row(Votes.UsernameOr(v), Votes.DisplayNameOr(v), short, full, PointsFor(short, winner, points))
  }

  /** The rows in vote order, before sorting. */
  function VoteRows(vs: seq<Votes.Vote>, answers: seq<Votes.Answer>, table: map<string, string>, winner: string, points: real): (r: seq<Row>)
    ensures |r| == |vs|
    ensures forall i :: 0 <= i < |vs| ==> r[i] == VoteRow(vs[i], answers, table, winner, points)
  {
    seq(|vs|, i requires 0 <= i < |vs| => VoteRow(vs[i], answers, table, winner, points))
  }

  /** `rows.sort(key=username)`: a stable sort. */
  function ByUsername(rows: seq<Row>): seq<Row> {
    Sorting.SortBy(rows, RowUsername, Sorting.NameAsc)
  }

  /** `process_poll_to_csv` of the newer script: a non-object or a missing
      `winner`, `answers` or `votes` key is rejected. */
  function Score(input: Option<Poll>, table: map<string, string>): Result<seq<Row>> {
    match input
    case None => Failure(NotAnObject)
    case Some(p) =>
      if p.winner.None? then Failure(MissingKey("winner"))
      else if p.answers.None? then Failure(MissingKey("answers"))
      else if p.votes.None? then Failure(MissingKey("votes"))
      else Success(ByUsername(VoteRows(p.votes.value, p.answers.value, table, p.winner.value, MatchPoints(p))))
  }

  /** Scoring succeeds iff the input is an object with all three keys; the
      rows are then one per vote, sorted by username, each worth the match
      points iff its short name is the winner, and each short name is the
      table's entry for its team, or the team's full name. */
  lemma ScoreSpec(input: Option<Poll>, table: map<string, string>)
    ensures Score(input, table).Success? <==>
      input.Some? && input.value.winner.Some? && input.value.answers.Some? && input.value.votes.Some?
    ensures Score(input, table).Success? ==>
      var p := input.value;
      var rows := Score(input, table).value;
      && |rows| == |p.votes.value|
      && multiset(rows) == multiset(VoteRows(p.votes.value, p.answers.value, table, p.winner.value, MatchPoints(p)))
      && Sorting.SortedBy(rows, RowUsername, Sorting.NameAsc)
      && forall r :: r in rows ==>
           && r.points == (if r.short == p.winner.value then MatchPoints(p) else 0.0)
           && r.short == (if r.full in table then table[r.full] else r.full)
  {
    if Score(input, table).Success? {
      var p := input.value;
      var vrows := VoteRows(p.votes.value, p.answers.value, table, p.winner.value, MatchPoints(p));
      Sorting.NameAscIsStrictWeakOrder();
      Sorting.SortBySorted(vrows, RowUsername, Sorting.NameAsc);
      forall r | r in ByUsername(vrows)
        ensures r.points == (if r.short == p.winner.value then MatchPoints(p) else 0.0)
        ensures r.short == (if r.full in table then table[r.full] else r.full)
      {
        assert r in multiset(vrows);
      }
    }
  }

  /** Rows of the same username keep their vote order. */
  lemma ScoreStable(vs: seq<Votes.Vote>, answers: seq<Votes.Answer>, table: map<string, string>, winner: string, points: real, u: string)
    ensures var rows := VoteRows(vs, answers, table, winner, points);
      Sorting.Peers(ByUsername(rows), RowUsername, Sorting.NameAsc, u) == Sorting.Peers(rows, RowUsername, Sorting.NameAsc, u)
  {
    Sorting.NameAscIsStrictWeakOrder();
    Sorting.SortByStable(VoteRows(vs, answers, table, winner, points), RowUsername, Sorting.NameAsc, u);
  }

  // ---------------------------------------------------------------------------
  // The older script: no defaults, every lookup raises KeyError.
  // ---------------------------------------------------------------------------

  /** One vote without defaults: a missing user, username, globalName or
      answerId, or an answer id not among the answers, is an error. */
  function DirectVoteRow(v: Votes.Vote, answers: seq<Votes.Answer>, table: map<string, string>, winner: string, points: real): Result<Row> {
    if v.user.None? then Failure(MissingKey("user"))
    else if v.user.value.username.None? then Failure(MissingKey("username"))
    else if v.user.value.globalName.None? then Failure(MissingKey("globalName"))
    else if v.answerId.None? then Failure(MissingKey("answerId"))
    else match Votes.AnswerName(answers, v.answerId.value)
      case None => Failure(MissingKey(v.answerId.value))
      case Some(full) =>
        var short := Votes.ShortName(table, full, full);
        Success(Row(v.user.value.username.value, v.user.value.globalName.value, short, full, PointsFor(short, winner, points)))
  }

  /** The rows in vote order; the first vote that fails stops the script. */
  function DirectRows(vs: seq<Votes.Vote>, answers: seq<Votes.Answer>, table: map<string, string>, winner: string, points: real): (r: Result<seq<Row>>)
    ensures r.Success? <==> forall i :: 0 <= i < |vs| ==> DirectVoteRow(vs[i], answers, table, winner, points).Success?
    ensures r.Success? ==> (|r.value| == |vs|
      && forall i :: 0 <= i < |vs| ==> Success(r.value[i]) == DirectVoteRow(vs[i], answers, table, winner, points))
    decreases |vs|
  {
    if |vs| == 0 then Success([])
    else
      var n := |vs| - 1;
      var prior :- DirectRows(vs[..n], answers, table, winner, points);
      assert forall i :: 0 <= i < n ==> vs[..n][i] == vs[i];
      var row :- DirectVoteRow(vs[n], answers, table, winner, points);
      Success(prior + [row])
  }

  /** `process_poll_to_csv` of the older script: `winner` defaults to "",
      a missing `answers` or `votes` key raises KeyError. */
  function DirectScore(input: Option<Poll>, table: map<string, string>): Result<seq<Row>> {
    match input
    case None => Failure(NotAnObject)
    case Some(p) =>
      if p.answers.None? then Failure(MissingKey("answers"))
      else if p.votes.None? then Failure(MissingKey("votes"))
      else
        var rows :- DirectRows(p.votes.value, p.answers.value, table, p.winner.GetOr(""), MatchPoints(p));
        Success(ByUsername(rows))
  }

  /** A vote that names its user fully and a known answer is scored the same
      way by both scripts. */
  lemma DirectAgrees(v: Votes.Vote, answers: seq<Votes.Answer>, table: map<string, string>, winner: string, points: real)
    ensures DirectVoteRow(v, answers, table, winner, points).Success? <==>
      && v.user.Some? && v.user.value.username.Some? && v.user.value.globalName.Some?
      && v.answerId.Some? && exists i :: 0 <= i < |answers| && answers[i].id == v.answerId.value
    ensures DirectVoteRow(v, answers, table, winner, points).Success? ==>
      DirectVoteRow(v, answers, table, winner, points).value == VoteRow(v, answers, table, winner, points)
  {
  }

  /** The older script succeeds iff the input has `answers` and `votes` and
      every vote is complete; it then scores exactly like the newer one with
      the winner defaulted to "". */
  lemma DirectScoreSpec(input: Option<Poll>, table: map<string, string>)
    ensures DirectScore(input, table).Success? <==>
      && input.Some? && input.value.answers.Some? && input.value.votes.Some?
      && forall i :: 0 <= i < |input.value.votes.value| ==>
           DirectVoteRow(input.value.votes.value[i], input.value.answers.value, table,
                         input.value.winner.GetOr(""), MatchPoints(input.value)).Success?
    ensures DirectScore(input, table).Success? ==>
      DirectScore(input, table) == Score(Some(input.value.(winner := Some(input.value.winner.GetOr("")))), table)
  {
    if DirectScore(input, table).Success? {
      var p := input.value;
      var w := p.winner.GetOr("");
      var rows := DirectRows(p.votes.value, p.answers.value, table, w, MatchPoints(p)).value;
      forall i | 0 <= i < |rows|
        ensures rows[i] == VoteRow(p.votes.value[i], p.answers.value, table, w, MatchPoints(p))
      {
        DirectAgrees(p.votes.value[i], p.answers.value, table, w, MatchPoints(p));
      }
      assert rows == VoteRows(p.votes.value, p.answers.value, table, w, MatchPoints(p));
    }
  }
}

=== FILE: wrappers.dfy ===
/** Failure-compatible result types shared by every stage of the pipeline. */
module Wrappers {

  /** A value that may be missing: a CSV field that is absent or does not parse,
      a JSON key that is not present, a Python `None`. */
  datatype Option<+T> = None | Some(value: T) {

    /** The carried value, or `default` when there is none (Python's `dict.get(k, default)`). */
    function GetOr(default: T): T {
      match this
      case Some(v) => v
      case None => default
    }
  }

  /** Why a stage produced no output. */
  datatype Error =
    | NotAnObject            // the JSON document is not a dictionary
    | MissingKey(key: string) // a required JSON key or CSV column is absent
    | BadValue(text: string)  // a value the source passes to int() or float() is rejected
    | BadCount(count: nat)    // the list of qualified teams does not hold four entries
    | NoInput                 // nothing usable was found

  /** The outcome of a stage that can abort: Python raises, prints and returns, or exits. */
  datatype Result<+R> = Success(value: R) | Failure(error: Error) {

    predicate IsFailure() {
      Failure?
    }

    function PropagateFailure<U>(): Result<U>
      requires Failure?
    {
      Failure(error)
    }

    function Extract(): R
      requires Success?
    {
      value
    }
  }
}
